=== FILE: README.md ===
# OpenFlow 1.3 codec core of the Floodlight fork, modelled in Dafny

This project models the part of the OpenFlow library (`org.openflow.protocol`)
in the Floodlight controller fork that turns OpenFlow 1.3 structures into
bytes and back. Nothing in the model has side effects. A `ByteBuffer` is a
`seq<byte>` plus a cursor, and every `readFrom` is a function from
`(data, pos)` to a `Result<Read<T>>`, where `Read` pairs the value read with
the cursor after it. The exceptions the Java code throws are the `Failure`
cases of the `Result`: `BufferUnderflow`, `IndexOutOfBounds`, `NullPointer`,
`NegativeArraySize` and each of the library's own `RuntimeException`s is a
constructor of `Bytes.Exception`. Java's
signed shorts, bytes and ints are modelled by explicit truncation (`ToI8`,
`ToI16`, `ToI32`), and division by `JavaDiv`, which truncates toward zero.

The modules follow the source classes:

| module | models |
|---|---|
| `Wrappers`, `Bytes` | `Option`/`Result`; big-endian `get*`/`put*`, Java casts, the pad arithmetic |
| `OxmFieldType` | the catalog of OXM field types: codes and payload widths (section A.2.3.7 of the OpenFlow Switch Specification 1.3) |
| `OxmField` | `OFOXMField` and `OFMatchField`: header packing, boxed values, masks, read/write |
| `Match` | `OFMatch` as a field list: `setField`, `getMatchFieldValue`, `writeTo`, length bookkeeping |
| `MatchReader` | `OFMatch.readFrom`: the OXM decode loop and its round trip |
| `LegacyMatch` | the STANDARD (OpenFlow 1.1 layout) branch of `OFMatch.readFrom` |
| `PacketMatch` | `OFMatch.loadFromPacket`: the match fields taken from an Ethernet frame |
| `MessageType` | `OFType` and its 32-slot code table |
| `MultipartDataType` | `OFMultipartDataType` and its request/reply tables |
| `QueuePropertyType` | `OFQueuePropertyType` and its code map |
| `MultipartMessage` | `OFMultipartMessageBase`, `OFMultipartRequest`, `OFMultipartReply` |
| `Factory` | `BasicFactory`'s parse loops for messages, TLV elements and multipart records |
| `Statistics` | `OFVendorStatistics` and `OFGroupStatisticsReply` |
| `TableFeatures` | `OFTableFeaturesPropertyActions` and `OFTableFeaturesPropertyInstructions` |
| `ActionSetField` | `OFActionSetField` |
| `WriteMetadata` | `OFInstructionWriteMetaData` |
| `PhysicalPort` | `OFPhysicalPort` |

`OFTableFeaturesPropertyInstructions` and `OFTableFeaturesPropertyActions`
are the same code over different element types. `TableFeatures` models them
once, with the element's `writeTo` and the element parser passed in as
parameters. The table below cites the actions file.

Some quirks are modelled as the code behaves, and lemmas show their effect:

- A signed short never equals `0x8100`, and a signed byte never equals 132.
  So the STANDARD decoder's VLAN-ethertype and SCTP comparisons are dead
  code (`LegacyMatch.VlanComparisonDead`, `LegacyMatch.SctpComparisonDead`).
- The OXM header packs its length after a cast to `byte`, which sign-extends
  a length of 128 or more (`OxmField.UnpackPackHeader`).
- The masked `OFMatchField` constructor keeps a mask only when the mask is
  all zero (`OxmField.MaskKeptOnlyWhenAllZero`).
- A constructed set-field action writes `length - 4` bytes, then steps over
  8 more with `get()` where a pad would go (`ActionSetField.ConstructedFraming`).
- `parseActions` and the other loops let one element more than `limit`
  through (`Factory.LimitReadsOneMore`, `Factory.ParseElementsLimit`,
  with `Factory.LimitAllowsOneMore` as a two-element instance).
- `loadFromPacket` keeps only the low byte of the ARP opcode, and it stores
  the outer ethertype `0x8100` for a tagged frame (`PacketMatch.ArpFields`,
  `PacketMatch.LinkFields`).

## Model

| member | source | states |
|---|---|---|
| Bytes.JavaPad8Bounds | src/main/java/org/openflow/protocol/OFMatch.java:171 | For a length of -7 or more, the pad `8*((length+7)/8) - length` in Java int arithmetic reaches the next multiple of 8 and is between 0 and 7 |
| Bytes.JavaPad8Negative | src/main/java/org/openflow/protocol/OFMatch.java:171 | For a negative (wrapped) short length from -7 to -1 the pad is minus the length; from -8 down it is 7 + ((-length-7) mod 8), between 7 and 14, and 8 or more unless -length-7 is a multiple of 8, so the pad is no longer below 8 |
| OxmFieldType.ValueOf | src/main/java/org/openflow/protocol/OFOXMField.java:106-117 | A 7-bit code has a type exactly when it is one of the 40 assigned codes, and that type's code is the code looked up; other codes give null |
| OxmFieldType.ValueOfCode | src/main/java/org/openflow/protocol/OFOXMField.java:106-117 | Looking up a type's own code gives the type back, so no two types share a code |
| OxmField.UnpackHeader | src/main/java/org/openflow/protocol/OFOXMField.java:106-115 | The class, code and length read from a header word fit in 16, 7 and 8 bits |
| OxmField.UnpackPackHeader | src/main/java/org/openflow/protocol/OFOXMField.java:57-62 | Unpacking the word getOXMFieldHeader builds gives back class, code, hasMask and length when the length is below 128; from 128 up, the sign-extended byte turns class, code and hasMask into all ones |
| OxmField.HeaderWord | src/main/java/org/openflow/protocol/OFOXMField.java:57-62 | A field's header word unpacks to the basic class, its type's code, its hasMask bit and its type's payload length |
| OxmField.ReadObject | src/main/java/org/openflow/protocol/OFOXMField.java:88-104 | readObject succeeds exactly when n bytes remain. It advances by n and yields an object of the class for width n (Byte, Short, Integer, Long, else an n-byte array). Otherwise it throws BufferUnderflow |
| OxmField.WriteObject | src/main/java/org/openflow/protocol/OFOXMField.java:119-138 | writeObject succeeds exactly when the value is non-null, of width n's class, and (for an array) at least n long; it then writes n bytes. A null value throws NullPointer |
| OxmField.BoxWriteObject | src/main/java/org/openflow/protocol/OFOXMField.java:88-138 | Boxing the bytes writeObject wrote for a well-formed value gives the value back |
| OxmField.ReadObjectAt | src/main/java/org/openflow/protocol/OFOXMField.java:88-138 | readObject over the bytes writeObject wrote for a well-formed value returns that value, n bytes on |
| OxmField.IsAllZeroEncoding | src/main/java/org/openflow/protocol/OFOXMField.java:64-85 | isAllZero holds exactly when the value's wire encoding is all zero bytes |
| OxmField.NewField | src/main/java/org/openflow/protocol/OFOXMField.java:23-28 | The constructor keeps type and value, sets length 4 + payload and no mask |
| OxmField.NewMaskedField | src/main/java/org/openflow/protocol/OFMatchField.java:21-29 | The length always counts a mask (4 + 2·payload). hasMask is set, and the mask kept, exactly when the mask is non-null and all zero |
| OxmField.MaskKeptOnlyWhenAllZero | src/main/java/org/openflow/protocol/OFMatchField.java:21-29 | An all-zero mask is stored; any other mask is dropped, which leaves an unmasked field that still has the masked length |
| OxmField.Decode | src/main/java/org/openflow/protocol/OFOXMField.java:106-117 | A successful read consumes more than the 4-byte header, stays within the buffer and records the header's length byte |
| OxmField.DecodeReads | src/main/java/org/openflow/protocol/OFOXMField.java:106-117 | readFrom takes the type from the header code, the hasMask bit and the length byte from the header, and a value of the catalog width for that code. It fails exactly when the header or value runs past the end or the code is unassigned |
| OxmField.DecodeMatchField | src/main/java/org/openflow/protocol/OFMatchField.java:39-43 | A successful match-field read moves the cursor forward and records the header's length byte |
| OxmField.DecodeMatchFieldReads | src/main/java/org/openflow/protocol/OFMatchField.java:39-43 | A match field is the OXM field, plus a mask of the same width read after it exactly when hasMask is set |
| OxmField.Encode | src/main/java/org/openflow/protocol/OFOXMField.java:140-143 | writeTo succeeds exactly when the value can be written at the catalog width. It writes 4 + payload bytes that start with the header word, and never a mask |
| OxmField.EncodeMatchField | src/main/java/org/openflow/protocol/OFMatchField.java:45-49 | The match field's bytes are the OXM encoding, followed by the mask exactly when hasMask is set; a set hasMask with a null mask throws |
| OxmField.DecodeAt | src/main/java/org/openflow/protocol/OFOXMField.java:106-143 | Round trip: a well-formed field's encoding reads back as its type, value and hasMask bit, with the payload length recorded as its length |
| OxmField.EncodableEncodes | src/main/java/org/openflow/protocol/OFMatchField.java:45-49 | Every match field a decoder can rebuild can be written |
| OxmField.DecodeMatchFieldAt | src/main/java/org/openflow/protocol/OFMatchField.java:39-49 | Round trip for match fields, mask included: type, value, hasMask and mask come back, and the length becomes the header's payload length |
| Match.MatchTypeOf | src/main/java/org/openflow/protocol/OFMatch.java:165 | `values()[k]` succeeds exactly for ordinals 0 and 1, and it inverts the ordinal; any other k throws IndexOutOfBounds |
| Match.NewMatch | src/main/java/org/openflow/protocol/OFMatch.java:67-71 | A new match is OXM, with length 8, match length 4 and a null field list |
| Match.FindType | src/main/java/org/openflow/protocol/OFMatch.java:101-114 | The position found is the first field of that type; none is found exactly when no field has the type |
| Match.SetField | src/main/java/org/openflow/protocol/OFMatch.java:101-114 | If the type is present, only that field's value and mask change and both lengths stay. Otherwise the field is appended, the match length grows by its length (as a short), and the total becomes a multiple of 8 covering the match length + 4 |
| Match.GetMatchFieldValue | src/main/java/org/openflow/protocol/OFMatch.java:147-153 | A null list throws NullPointer. Otherwise the result is null exactly when no field has the type, and else the value of the first field that does |
| Match.GetAfterSet | src/main/java/org/openflow/protocol/OFMatch.java:101-153 | After setField, looking up its type gives the value just set |
| Match.GetAfterSetOther | src/main/java/org/openflow/protocol/OFMatch.java:101-153 | setField leaves the lookup of every other type unchanged |
| Match.SetFieldDistinct | src/main/java/org/openflow/protocol/OFMatch.java:101-114 | setField keeps field types pairwise distinct |
| Match.SetAllDistinct | src/main/java/org/openflow/protocol/OFMatch.java:101-114 | A match built only by setField holds at most one field of each type |
| Match.SetFieldTwice | src/main/java/org/openflow/protocol/OFMatch.java:101-114 | Setting a type twice adds no second field, and the lookup gives the second value |
| Match.NewMatchAccounted | src/main/java/org/openflow/protocol/OFMatch.java:67-71 | A new match satisfies the length bookkeeping: match length = 4 + field lengths, and the total = that + 4, rounded up to 8 |
| Match.SetFieldAccounted | src/main/java/org/openflow/protocol/OFMatch.java:101-114 | setField preserves that bookkeeping while the match length stays clear of the short's wrap-around |
| Match.EncodeAll | src/main/java/org/openflow/protocol/OFMatch.java:299-309 | Writing the field list succeeds exactly when every field can be written |
| Match.WritePad | src/main/java/org/openflow/protocol/OFMatch.java:299-309 | The pad writeTo emits brings a non-negative match length to the next multiple of 8 |
| Match.WriteTo | src/main/java/org/openflow/protocol/OFMatch.java:299-309 | A null list throws. Otherwise the bytes are the ordinal and the signed match length as shorts, then every field's encoding, then only zero bytes |
| Match.SetAllLookup | src/main/java/org/openflow/protocol/OFMatch.java:101-153 | After a run of setField calls, a lookup finds the value of the last call with that type, or the old answer if no call had it |
| Match.BuiltLookup | src/main/java/org/openflow/protocol/OFMatch.java:101-153 | A match built from a new one by one or more setField calls answers every lookup with the last value set for that type, or null |
| Match.ValueSetAppend | src/main/java/org/openflow/protocol/OFMatch.java:101-114 | Fields set later win: over a + b, b's value for a type when b sets it, else a's |
| Match.SetAllHolds | src/main/java/org/openflow/protocol/OFMatch.java:101-114 | After setField calls with distinct types, each type answers with the value its own call set |
| MatchReader.DecodeFields | src/main/java/org/openflow/protocol/OFMatch.java:177-182 | The OXM loop never moves the cursor back. It reads at least one field, and moves forward, exactly when the count starts at 4 or more |
| MatchReader.DecodeFieldsStep | src/main/java/org/openflow/protocol/OFMatch.java:177-182 | A successful loop turn reads one match field at the cursor and continues from where it ended |
| MatchReader.DecodeFieldsStops | src/main/java/org/openflow/protocol/OFMatch.java:177-182 | The loop stops only once its count has fewer than 4 left |
| MatchReader.DecodeFieldsBounds | src/main/java/org/openflow/protocol/OFMatch.java:177-182 | Each field read costs at least 4 of the count, and the cursor never moves back |
| MatchReader.ReadHeader | src/main/java/org/openflow/protocol/OFMatch.java:165-167 | The header read succeeds exactly when 4 bytes remain and the type short is 0 or 1. The type's ordinal and the length's unsigned value are the two shorts |
| MatchReader.ReadOxmBody | src/main/java/org/openflow/protocol/OFMatch.java:170-182 | The number of fields read is bounded by the bytes left and by the count |
| MatchReader.ReadStandardBody | src/main/java/org/openflow/protocol/OFMatch.java:183-294 | The STANDARD branch succeeds exactly when the decoder's reads succeed. It keeps the match type and always leaves a field list |
| MatchReader.StandardBodyHolds | src/main/java/org/openflow/protocol/OFMatch.java:183-294 | After a STANDARD read, every field the decoder set answers a lookup with the value it was set to |
| MatchReader.StandardBodyKeeps | src/main/java/org/openflow/protocol/OFMatch.java:183-294 | A type the STANDARD decoder does not set keeps the answer the match gave before the read |
| MatchReader.ReadFrom | src/main/java/org/openflow/protocol/OFMatch.java:155-297 | readFrom keeps the type it read, and for OXM also the length. It ends at the declared end, plus the pad to 8 for OXM |
| MatchReader.OxmCountClamped | src/main/java/org/openflow/protocol/OFMatch.java:174-175 | Clamping the count to the bytes remaining bounds the number of OXM fields read |
| MatchReader.DecodeEncodeAll | src/main/java/org/openflow/protocol/OFMatch.java:177-182 | Decoding the concatenated encodings of plain fields, with the count set to their total length, gives back those fields |
| MatchReader.ReadWriteOxmMatch | src/main/java/org/openflow/protocol/OFMatch.java:155-309 | Round trip: an OXM match of plain fields whose match length counts them is read back with the same fields, the written match length, and a cursor at the end of the written bytes |
| MatchReader.WrittenHeader | src/main/java/org/openflow/protocol/OFMatch.java:299-309 | The header writeTo emits reads back as the match type and match length |
| MatchReader.WrittenOxmBody | src/main/java/org/openflow/protocol/OFMatch.java:170-182 | The written fields decode back, and the written size is the match length plus its pad |
| MatchReader.EncodeAllLength | src/main/java/org/openflow/protocol/OFMatch.java:299-309 | Plain fields are written in exactly as many bytes as their lengths add up to |
| MatchReader.MaskedFieldEncodes | src/main/java/org/openflow/protocol/OFMatchField.java:21-49 | A field built by the masked constructor with an all-zero mask keeps the mask, and it encodes in as many bytes as its length says |
| MatchReader.MaskedFieldReads | src/main/java/org/openflow/protocol/OFOXMField.java:106-117 | Reading such a field consumes all its written bytes, value and mask, but records the length of the value alone |
| MatchReader.MaskedFieldOverruns | src/main/java/org/openflow/protocol/OFMatch.java:177-182 | So the OXM loop, counting 4 + value length for it, has value-length bytes left and reads a second field out of the bytes after it |
| LegacyMatch.VlanComparisonDead | src/main/java/org/openflow/protocol/OFMatch.java:213-218 | The decoder continues past the ethertype exactly for 0x800 and 0x806; the 0x8100 comparison can never hold for a signed short |
| LegacyMatch.SctpComparisonDead | src/main/java/org/openflow/protocol/OFMatch.java:229-244 | The decoder continues past the protocol exactly for 6 and 17; the 132 comparison can never hold for a signed byte |
| LegacyMatch.OptionalShort | src/main/java/org/openflow/protocol/OFMatch.java:200-203 | A wildcard-controlled short needs 2 bytes, and it sets the field exactly when the wildcard bit is clear |
| LegacyMatch.OptionalByte | src/main/java/org/openflow/protocol/OFMatch.java:205-208 | A wildcard-controlled byte needs 1 byte, and it sets the field exactly when the wildcard bit is clear |
| LegacyMatch.EthAddresses | src/main/java/org/openflow/protocol/OFMatch.java:192-198 | The two Ethernet addresses and masks take 24 bytes and set ETH_SRC then ETH_DST through the masked constructor |
| LegacyMatch.EthTypeAt | src/main/java/org/openflow/protocol/OFMatch.java:212-216 | A matched ethertype consumes 4 bytes: the first short is tested and the second stored. A wildcarded one skips 2 and tests 0 |
| LegacyMatch.DataLink | src/main/java/org/openflow/protocol/OFMatch.java:192-216 | The data-link stage needs 30 bytes, or 32 when the ethertype is matched, and hands on the tested ethertype |
| LegacyMatch.Address | src/main/java/org/openflow/protocol/OFMatch.java:234-242 | An address and mask take 8 bytes, and they set the field only for a non-zero address |
| LegacyMatch.Network | src/main/java/org/openflow/protocol/OFMatch.java:223-242 | The network stage takes 18 bytes and hands on the protocol byte when it is matched, else 0 |
| LegacyMatch.Port | src/main/java/org/openflow/protocol/OFMatch.java:249-277 | A transport port reads a short, switches on it as a protocol number, and for 6, 17 or 132 reads another short into the matching field |
| LegacyMatch.MplsLabelAt | src/main/java/org/openflow/protocol/OFMatch.java:279-282 | A matched MPLS label reads 4 bytes into the field; a wildcarded one skips only 1 |
| LegacyMatch.Ports | src/main/java/org/openflow/protocol/OFMatch.java:249-277 | Both ports consume 4, 6 or 8 bytes |
| LegacyMatch.MplsAndMetadata | src/main/java/org/openflow/protocol/OFMatch.java:279-293 | MPLS, pads and metadata take 24 or 21 bytes, and metadata is always the last field set |
| LegacyMatch.Transport | src/main/java/org/openflow/protocol/OFMatch.java:249-293 | The transport stage is the ports followed by the MPLS/metadata stage |
| LegacyMatch.Calls | src/main/java/org/openflow/protocol/OFMatch.java:184-294 | The STANDARD decoder always sets IN_PORT first, from the first word of the body, and then fields in the order of the match layout, no type twice |
| LegacyMatch.Ranks | src/main/java/org/openflow/protocol/OFMatch.java:184-293 | The fields the decoder can set are ranked by where their bytes lie in the legacy match layout |
| LegacyMatch.DataLinkOrdered | src/main/java/org/openflow/protocol/OFMatch.java:192-216 | The data-link stage sets fields of ranks 1 to 5 in increasing order |
| LegacyMatch.NetworkOrdered | src/main/java/org/openflow/protocol/OFMatch.java:223-242 | The network stage sets fields of ranks 6 to 9 in increasing order |
| LegacyMatch.MplsAndMetadataOrdered | src/main/java/org/openflow/protocol/OFMatch.java:279-293 | The MPLS and metadata stage sets fields of ranks 12 to 14 in increasing order |
| LegacyMatch.TransportOrdered | src/main/java/org/openflow/protocol/OFMatch.java:249-293 | The transport stage sets fields of ranks 10 to 14 in increasing order |
| LegacyMatch.CallsStages | src/main/java/org/openflow/protocol/OFMatch.java:184-294 | A successful decode is IN_PORT, then the data-link, network and transport fields, each within its own rank range |
| LegacyMatch.CallsOrdered | src/main/java/org/openflow/protocol/OFMatch.java:184-294 | A successful decode sets fields in increasing rank, so no two setField calls share a type |
| LegacyMatch.DataLinkMatched | src/main/java/org/openflow/protocol/OFMatch.java:192-216 | With VLAN id, priority and ethertype matched, the data-link stage sets both addresses with their masks, the VID, the PCP and the second ethertype short, and hands on the first |
| LegacyMatch.NetworkMatched | src/main/java/org/openflow/protocol/OFMatch.java:223-242 | With DSCP and protocol matched and both addresses non-zero, the network stage sets DSCP, protocol and both masked addresses |
| LegacyMatch.TcpPort | src/main/java/org/openflow/protocol/OFMatch.java:249-262 | A port whose switch value is 6 sets TCP_SRC or TCP_DST from the next short |
| LegacyMatch.MplsWildcarded | src/main/java/org/openflow/protocol/OFMatch.java:279-293 | With both MPLS bits wildcarded, the stage takes 21 bytes and sets only the masked metadata |
| LegacyMatch.TransportTcpMatched | src/main/java/org/openflow/protocol/OFMatch.java:249-293 | With both ports matched and both switch values 6, and MPLS wildcarded, the transport stage sets TCP_SRC, TCP_DST and the masked metadata |
| LegacyMatch.OnlyMplsWildcarded | src/main/java/org/openflow/protocol/OFMatch.java:184-190 | Wildcarding only the two MPLS bits is not "all wildcarded", and it leaves every other field matched |
| LegacyMatch.CallsThrough | src/main/java/org/openflow/protocol/OFMatch.java:184-294 | When all three stages succeed and the decoder goes past the ethertype and the protocol, the calls are IN_PORT followed by the stages' fields |
| LegacyMatch.Ipv4TcpCalls | src/main/java/org/openflow/protocol/OFMatch.java:184-294 | End to end: an 87-byte IPv4/TCP body with only MPLS wildcarded sets IN_PORT, five data-link, four network and three transport fields, with the values at their offsets |
| LegacyMatch.NoWildcardsStopsEarly | src/main/java/org/openflow/protocol/OFMatch.java:184-190 | With no wildcard bit set, only IN_PORT is set |
| LegacyMatch.WildcardedEthTypeStops | src/main/java/org/openflow/protocol/OFMatch.java:212-221 | A wildcarded ethertype stops decoding after the data-link fields |
| PacketMatch.ReadLink | src/main/java/org/openflow/protocol/OFMatch.java:385-414 | The link layer reads exactly when the frame holds 14 bytes, or 18 when tagged; otherwise BufferUnderflow. It sets IN_PORT, ETH_DST, ETH_SRC and ETH_TYPE, and, when tagged, the 12-bit VID and 3-bit PCP. It continues with the inner ethertype |
| PacketMatch.ReadIpv4 | src/main/java/org/openflow/protocol/OFMatch.java:417-436 | The IPv4 header reads exactly when 20 bytes and the IHL-given transport offset lie within the frame; otherwise BufferUnderflow or IllegalPosition. It sets DSCP, protocol, source and destination |
| PacketMatch.ReadArp | src/main/java/org/openflow/protocol/OFMatch.java:438-452 | The ARP read succeeds exactly when the bytes it needs lie in the frame; otherwise IndexOutOfBounds. It sets ARP_OP to the opcode's low byte, and SPA/TPA only for protocol type 0x800 with address length 4 |
| PacketMatch.ReadTransport | src/main/java/org/openflow/protocol/OFMatch.java:457-484 | The transport read succeeds exactly when the words read for the protocol fit; otherwise BufferUnderflow. ICMP gives type and code; TCP/UDP/SCTP give two ports; anything else gives nothing |
| PacketMatch.LoadCalls | src/main/java/org/openflow/protocol/OFMatch.java:385-486 | At least four fields are set. The only escaping exceptions are the buffer ones |
| PacketMatch.LoadFromPacket | src/main/java/org/openflow/protocol/OFMatch.java:385-486 | loadFromPacket returns exactly when all its reads succeed. Otherwise a buffer exception escapes |
| PacketMatch.LoadSucceeds | src/main/java/org/openflow/protocol/OFMatch.java:385-486 | loadFromPacket returns exactly when every byte it reads lies within the frame |
| PacketMatch.LookupCalls | src/main/java/org/openflow/protocol/OFMatch.java:385-486 | A lookup on the loaded match gives the last value loadFromPacket set for that type |
| PacketMatch.Lookup | src/main/java/org/openflow/protocol/OFMatch.java:365-368 | OFMatch.load on a frame that loads gives a match on which every lookup returns without throwing |
| PacketMatch.LinkFields | src/main/java/org/openflow/protocol/OFMatch.java:395-414 | A loaded match has IN_PORT = the port, ETH_DST = bytes 0-5, ETH_SRC = bytes 6-11 and ETH_TYPE = the outer ethertype. VID and PCP come from the tag when there is one, and are absent otherwise |
| PacketMatch.Ipv4Fields | src/main/java/org/openflow/protocol/OFMatch.java:417-436 | For an IPv4 frame: DSCP = TOS byte / 4, protocol = byte 9, and the source and destination are the words at 12 and 16 of the header |
| PacketMatch.TransportFields | src/main/java/org/openflow/protocol/OFMatch.java:457-484 | For an IPv4 frame, every transport field is what the header at payload + 4·IHL gives for the frame's protocol (independent definition TransportValue) |
| PacketMatch.Ipv4NothingElse | src/main/java/org/openflow/protocol/OFMatch.java:416-486 | An IPv4 frame sets no field past the link layer other than the network and transport ones |
| PacketMatch.ArpFields | src/main/java/org/openflow/protocol/OFMatch.java:437-452 | For an ARP frame: ARP_OP = the opcode's low byte. SPA and TPA are the words at 14 and 24 exactly when the protocol type is 0x800 with address length 4. No other field past the link layer is set |
| PacketMatch.OtherFields | src/main/java/org/openflow/protocol/OFMatch.java:453-454 | A frame of any other ethertype sets no field past the link layer |
| PacketMatch.LoadedWritable | src/main/java/org/openflow/protocol/OFMatch.java:385-486 | Every value a loaded match holds has the class and width its field type's writer expects |
| MessageType.TypeValue | src/main/java/org/openflow/protocol/OFType.java:18-169 | Every declared code is 0-25 or 29; 26-28 are commented out |
| MessageType.TypeOfTypeValue | src/main/java/org/openflow/protocol/OFType.java:18-169 | Decoding a type's code with the independent inverse gives the type |
| MessageType.TypeValueOfCode | src/main/java/org/openflow/protocol/OFType.java:18-169 | Every code that decodes to a type is that type's code |
| MessageType.TypeValueInjective | src/main/java/org/openflow/protocol/OFType.java:18-169 | No two declared types share a code |
| MessageType.AddMapping | src/main/java/org/openflow/protocol/OFType.java:210-215 | addMapping stores the type at an index in 0..31, changes no other slot, and ignores any other index |
| MessageType.RemoveMapping | src/main/java/org/openflow/protocol/OFType.java:222-225 | removeMapping clears the slot at an index in 0..31, changes no other slot, and ignores any other index |
| MessageType.ValueOf | src/main/java/org/openflow/protocol/OFType.java:234-240 | valueOf throws "Unknown message type" exactly for codes outside 0..31; otherwise it returns the slot |
| MessageType.ValueOfAddMapping | src/main/java/org/openflow/protocol/OFType.java:210-240 | After addMapping, a lookup sees the new type at its code and the old table elsewhere |
| MessageType.ValueOfRemoveMapping | src/main/java/org/openflow/protocol/OFType.java:222-240 | After removeMapping, a lookup finds null at the code and the old table elsewhere |
| MessageType.RegisterKeeps | src/main/java/org/openflow/protocol/OFType.java:191-201 | Registering types that do not have code c leaves slot c unchanged |
| MessageType.RegisterFinds | src/main/java/org/openflow/protocol/OFType.java:191-201 | After the constructors run, every registered type sits at its own code |
| MessageType.ValueOfTypeValue | src/main/java/org/openflow/protocol/OFType.java:191-247 | `valueOf(t.getTypeValue()) == t` for every declared type |
| MessageType.ValueOfUndeclared | src/main/java/org/openflow/protocol/OFType.java:148-169 | The in-range codes without a type (26-28, 30, 31) resolve to null |
| MessageType.RegistryIsDeclared | src/main/java/org/openflow/protocol/OFType.java:191-240 | The initialised table answers every code as the declarations say |
| MessageType.ValueOfOutOfRange | src/main/java/org/openflow/protocol/OFType.java:234-240 | Every code outside 0..31 throws, whatever was registered |
| MessageType.ValueOfDeclaredTypeValue | src/main/java/org/openflow/protocol/OFType.java:245-247 | Every type's code, as a signed byte, is non-negative and looks up to the type |
| MultipartDataType.TypeValue | src/main/java/org/openflow/protocol/multipart/OFMultipartDataType.java:234 | The short code of every declared kind is 0-5, or -1 for VENDOR's 0xffff |
| MultipartDataType.ToClass | src/main/java/org/openflow/protocol/multipart/OFMultipartDataType.java:334-342 | toClass fails exactly for a message type that is neither MULTIPART_REQUEST nor MULTIPART_REPLY |
| MultipartDataType.DirectionsDiffer | src/main/java/org/openflow/protocol/multipart/OFMultipartDataType.java:9-86 | The request and reply classes differ exactly for FLOW, AGGREGATE, PORT and QUEUE |
| MultipartDataType.Slot | src/main/java/org/openflow/protocol/multipart/OFMultipartDataType.java:264-278 | A non-negative code is its own slot; a negative one is folded to 16 + code |
| MultipartDataType.AddMapping | src/main/java/org/openflow/protocol/multipart/OFMultipartDataType.java:264-278 | addMapping fails with "invalid type" for a non-multipart message type and with IndexOutOfBounds for a slot outside the array. Otherwise it sets that slot of that direction's table only |
| MultipartDataType.RemoveMapping | src/main/java/org/openflow/protocol/multipart/OFMultipartDataType.java:287-297 | removeMapping has the same failures, and otherwise clears that slot of that direction's table only |
| MultipartDataType.ValueOf | src/main/java/org/openflow/protocol/multipart/OFMultipartDataType.java:308-318 | valueOf has the same failures, and otherwise returns the slot's entry in that direction's table |
| MultipartDataType.ValueOfAddMapping | src/main/java/org/openflow/protocol/multipart/OFMultipartDataType.java:264-318 | After addMapping, valueOf finds the new kind under every code folding to that slot in that direction, and the old entries elsewhere |
| MultipartDataType.ValueOfRemoveMapping | src/main/java/org/openflow/protocol/multipart/OFMultipartDataType.java:287-318 | After removeMapping, valueOf finds null there and the old entries elsewhere |
| MultipartDataType.VendorAliasesFifteen | src/main/java/org/openflow/protocol/multipart/OFMultipartDataType.java:264-278 | VENDOR's code -1 and the code 15 select the same slot |
| MultipartDataType.KindSlotInRange | src/main/java/org/openflow/protocol/multipart/OFMultipartDataType.java:264-278 | Every kind's own code selects a slot inside the array |
| MultipartDataType.Enrol | src/main/java/org/openflow/protocol/multipart/OFMultipartDataType.java:230-254 | A kind's constructor stores it in its slot of both tables |
| MultipartDataType.RegisterKeeps | src/main/java/org/openflow/protocol/multipart/OFMultipartDataType.java:230-254 | Registering kinds that do not fold to slot c leaves slot c of both tables unchanged |
| MultipartDataType.SlotInjective | src/main/java/org/openflow/protocol/multipart/OFMultipartDataType.java:9-206 | Distinct declared kinds fold to distinct slots |
| MultipartDataType.RegisterFinds | src/main/java/org/openflow/protocol/multipart/OFMultipartDataType.java:230-254 | After registration, both tables hold every kind in its own slot |
| MultipartDataType.ValueOfTypeValue | src/main/java/org/openflow/protocol/multipart/OFMultipartDataType.java:308-326 | Every kind's own code looks up to that kind, for requests and replies alike |
| MultipartDataType.ValueOfUndeclared | src/main/java/org/openflow/protocol/multipart/OFMultipartDataType.java:87-194 | The codes 6-14, whose kinds are commented out, resolve to null in both directions |
| MultipartDataType.RegistryIsDeclared | src/main/java/org/openflow/protocol/multipart/OFMultipartDataType.java:308-318 | The initialised tables answer every lookup as the declarations say (independent definition ValueOfDeclared) |
| MultipartDataType.ValueOfDeclaredTypeValue | src/main/java/org/openflow/protocol/multipart/OFMultipartDataType.java:324-326 | Every kind's own code, read off the declarations, looks up to that kind in either direction |
| QueuePropertyType.AddMapping | src/main/java/org/openflow/protocol/queue/OFQueuePropertyType.java:80-84 | addMapping adds the code to the keys, maps it to the type, and keeps every other entry |
| QueuePropertyType.ValueOf | src/main/java/org/openflow/protocol/queue/OFQueuePropertyType.java:94-96 | valueOf is non-null exactly for a registered code, and then returns its type |
| QueuePropertyType.ValueOfAddMapping | src/main/java/org/openflow/protocol/queue/OFQueuePropertyType.java:80-96 | After addMapping, a lookup finds the new type at its code and the old map elsewhere |
| QueuePropertyType.Construct | src/main/java/org/openflow/protocol/queue/OFQueuePropertyType.java:60-72 | The constructor cuts its int code to a short, and the new type is found under that short with no other code changed |
| QueuePropertyType.DeclaredCodes | src/main/java/org/openflow/protocol/queue/OFQueuePropertyType.java:16-31 | MIN_RATE has code 1 and MAX_RATE has code 2 |
| QueuePropertyType.ValueOfRegistry | src/main/java/org/openflow/protocol/queue/OFQueuePropertyType.java:16-72 | After both declarations, codes 1 and 2 give MIN_RATE and MAX_RATE, and every other code gives null |
| MultipartMessage.NewRequest | src/main/java/org/openflow/protocol/OFMultipartRequest.java:27-31 | A new request is a MULTIPART_REQUEST of length 16 with no body and no factory |
| MultipartMessage.NewReply | src/main/java/org/openflow/protocol/OFMultipartReply.java:27-31 | A new reply is a MULTIPART_REPLY of length 16 with no body and no factory |
| MultipartMessage.FirstMultipartData | src/main/java/org/openflow/protocol/OFMultipartMessageBase.java:65-73 | getFirstMultipartData throws exactly for a null or empty list, and otherwise returns the head |
| MultipartMessage.RequestData | src/main/java/org/openflow/protocol/OFMultipartRequest.java:33-40 | The request getter is null exactly for a null or empty list, and otherwise returns the head |
| MultipartMessage.SetRequestData | src/main/java/org/openflow/protocol/OFMultipartRequest.java:45-48 | After the request setter, the request getter gives the record, the reply getter gives the one-record list, and the header, body type, flags and factory are as before |
| MultipartMessage.ReplyData | src/main/java/org/openflow/protocol/OFMultipartReply.java:36-43 | The reply getter is null exactly for a null or empty list, and otherwise returns the whole non-empty list |
| MultipartMessage.SetThenGet | src/main/java/org/openflow/protocol/OFMultipartRequest.java:33-48 | A record set with the request setter is also the first record getFirstMultipartData gives back |
| MultipartMessage.GettersAgree | src/main/java/org/openflow/protocol/OFMultipartMessageBase.java:65-73 | The three getters fail on the same messages, and otherwise agree on the head record |
| MultipartMessage.ComputeLength | src/main/java/org/openflow/protocol/OFMultipartMessageBase.java:167-175 | computeLength sets the length to 16 + the records' lengths, modulo 2^16, and changes nothing else |
| MultipartMessage.ReadHeader | src/main/java/org/openflow/protocol/OFMultipartMessageBase.java:89 | The message header takes 8 bytes; the only failures are underflow and an unknown type |
| MultipartMessage.ReadHead | src/main/java/org/openflow/protocol/OFMultipartMessageBase.java:88-93 | The 16-byte head reads only for a multipart message type. Once the body-type short is there, a null message type fails with a null dereference and any other non-multipart type with an invalid type; other failures are underflow, an unknown type and a bad body-type slot |
| MultipartMessage.ReadMessage | src/main/java/org/openflow/protocol/OFMultipartMessageBase.java:88-98 | With no factory set, readFrom throws after the head. When it succeeds, it keeps the head read and ends at pos + length |
| MultipartMessage.WriteMessage | src/main/java/org/openflow/protocol/OFMultipartMessageBase.java:101-111 | writeTo throws NullPointer exactly when the type or the body type is null. Otherwise it writes 16 bytes plus the records |
| MultipartMessage.WriteHeader | src/main/java/org/openflow/protocol/OFMultipartMessageBase.java:101-102 | The message header writeTo starts with is 8 bytes |
| MultipartMessage.WriteHead | src/main/java/org/openflow/protocol/OFMultipartMessageBase.java:101-105 | The head writeTo writes is the 16-byte minimum length of a multipart message |
| MultipartMessage.ReadWriteHeader | src/main/java/org/openflow/protocol/OFMultipartMessageBase.java:88-102 | The 8-byte header that is written reads back as the same version, type, length and xid |
| MultipartMessage.ReadWriteHead | src/main/java/org/openflow/protocol/OFMultipartMessageBase.java:88-105 | The head writeTo writes reads back as the same header, body type and flags |
| MultipartMessage.ComputedLengthIsWritten | src/main/java/org/openflow/protocol/OFMultipartMessageBase.java:167-175 | After computeLength, when the records report their own size and the total fits a short, writeTo writes exactly the length field's number of bytes |
| MultipartMessage.ReadWriteBody | src/main/java/org/openflow/protocol/OFMultipartMessageBase.java:88-111 | The body of a consistent message reads back as the records written |
| MultipartMessage.ReadWriteMessage | src/main/java/org/openflow/protocol/OFMultipartMessageBase.java:88-111 | Round trip: a consistent message written by writeTo is read back whole, consuming exactly the written bytes |
| Factory.PeekHeader | src/main/java/org/openflow/protocol/factory/BasicFactory.java:57-59 | Peeking gives the declared length at p. For messages it throws "Unknown message type" exactly when the type byte is outside the table |
| Factory.ClassFor | src/main/java/org/openflow/protocol/factory/BasicFactory.java:38-40 | A message is read by a class of its own exactly when its code is declared, and an undeclared code fails with NullPointer. An element is read by the class its type registers (own or base), and a type with no class fails with NullPointer |
| Factory.DeclaredMessagesOwnClass | src/main/java/org/openflow/protocol/OFType.java:18-170 | Every declared message type, including QUEUE_GET_CONFIG_*, ROLE_* and METER_MOD, instantiates a subclass, so it is read by a class of its own |
| Factory.MessagesOwnClass | src/main/java/org/openflow/protocol/factory/BasicFactory.java:43-93 | Every message parseMessages returns has a declared type and was read by a class of its own: the base-class branch is never taken for messages |
| Factory.NextIsDeclaredEnd | src/main/java/org/openflow/protocol/factory/BasicFactory.java:82-87 | An element read by its own class moves the cursor at least the base header on, and exactly its declared length on iff that length covers the base header; one read by the message base class moves it by its declared length |
| Factory.Parse | src/main/java/org/openflow/protocol/factory/BasicFactory.java:106-136 | The loop reads at most limit + 1 elements, or none when limit is negative. The elements are chained and lie within the buffer, and each fits the remaining bytes and the end |
| Factory.ParseMessages | src/main/java/org/openflow/protocol/factory/BasicFactory.java:43-93 | parseMessages returns at most limit + 1 messages, none for a negative limit, and ends within the buffer. It never spins, with or without a limit |
| Factory.MessagesNeverSpin | src/main/java/org/openflow/protocol/factory/BasicFactory.java:53-90 | Every message moves the cursor at least 8 bytes on, so with one turn per byte left the message loop stops before its turns run out |
| Factory.ParseElements | src/main/java/org/openflow/protocol/factory/BasicFactory.java:101-136 | parseActions and its copies return at most limit + 1 elements and end within the buffer. The only failures are NullPointer, IllegalPosition and, with no limit, a loop that spins |
| Factory.ParseShape | src/main/java/org/openflow/protocol/factory/BasicFactory.java:48-136 | The elements a loop returns lie back to back from the cursor, each ending within the loop's end and the buffer |
| Factory.ParseElementsShape | src/main/java/org/openflow/protocol/factory/BasicFactory.java:106-136 | The elements parseActions returns lie back to back and each lies within length bytes of the cursor |
| Factory.ParseNoFuel | src/main/java/org/openflow/protocol/factory/BasicFactory.java:53-88 | With no fuel left, a turn that reads an element is reported as a loop that spins |
| Factory.ParseTakeSpins | src/main/java/org/openflow/protocol/factory/BasicFactory.java:53-88 | A turn that reads an element spins exactly when the rest of the loop does |
| Factory.ParseOfTurns | src/main/java/org/openflow/protocol/factory/BasicFactory.java:106-136 | With no limit and enough fuel, the loop returns exactly the elements its turns read and ends where they stop |
| Factory.ParseWritten | src/main/java/org/openflow/protocol/factory/BasicFactory.java:106-136 | Elements written back to back, each with its declared length, are read back in place by the loop |
| Factory.ParseElementsWritten | src/main/java/org/openflow/protocol/factory/BasicFactory.java:101-136 | Round trip: parseActions with no limit over the bytes of written elements gives them back, ending at the end of the length |
| Factory.HelloParses | src/main/java/org/openflow/protocol/factory/BasicFactory.java:43-93 | An 8-byte HELLO parses as one message ending at byte 8 |
| Factory.RoleRequestParses | src/main/java/org/openflow/protocol/OFType.java:138-142 | A header-only ROLE_REQUEST parses as one message of type 24, read by its own class and ending at byte 8 |
| Factory.HeaderOnlyParses | src/main/java/org/openflow/protocol/factory/BasicFactory.java:53-90 | Any 8-byte buffer holding a declared message type that declares 8 bytes or fewer parses as that one message, read by its own class, and the loop stops at byte 8 |
| Factory.ZeroLengthHelloParses | src/main/java/org/openflow/protocol/factory/BasicFactory.java:53-90 | A HELLO declaring a length of 0 is read (its header takes 8 bytes) and the loop stops at byte 8 instead of looping |
| Factory.LimitReadsOneMore | src/main/java/org/openflow/protocol/factory/BasicFactory.java:112 | With a limit, a loop whose turns would read more elements returns exactly the first limit + 1 of them |
| Factory.ParseElementsLimit | src/main/java/org/openflow/protocol/factory/BasicFactory.java:106-136 | Over more than limit written elements, parseActions with that limit returns the first limit + 1, one more than asked for |
| Factory.LimitAllowsOneMore | src/main/java/org/openflow/protocol/factory/BasicFactory.java:112 | With limit 1, two elements are returned |
| Factory.ChainedTiles | src/main/java/org/openflow/protocol/factory/BasicFactory.java:106-136 | Elements read by classes of their own lie back to back from pos to the loop's end, each taking its declared length or the base header when it declares less |
| Factory.ParseMessagesTiles | src/main/java/org/openflow/protocol/factory/BasicFactory.java:48-93 | The parsed messages lie back to back from pos, each taking its declared length, or 8 bytes when it declares less |
| Factory.GenericElementAdvance | src/main/java/org/openflow/protocol/factory/BasicFactory.java:125-129 | A base-class element moves the cursor by its declared length exactly when the base class reads MINIMUM_LENGTH bytes |
| Factory.ReadRecord | src/main/java/org/openflow/protocol/factory/BasicFactory.java:228-241 | A record read consumes its reported length within the buffer. A vendor record needs a body length of at least 8; failures are underflow, or NegativeArraySize for a vendor record |
| Factory.ParseMultipartData | src/main/java/org/openflow/protocol/factory/BasicFactory.java:218-258 | parseMultipartData returns at most limit + 1 records within the body length, ending at the body's end when it is not cut short by the limit. A vendor body gives at most one record, sized to the whole body. Failures are underflow, negative array size and illegal position only |
| Factory.ParseMultipart | src/main/java/org/openflow/protocol/factory/BasicFactory.java:218-258 | The loop reads at most limit + 1 records, whose lengths stay within the body length, and at most one vendor record |
| Factory.VendorBodyIsOneRecord | src/main/java/org/openflow/protocol/factory/BasicFactory.java:218-258 | A vendor body of 8 bytes or more is read as one record spanning the whole body |
| Factory.FixedRecordCount | src/main/java/org/openflow/protocol/factory/BasicFactory.java:218-258 | With no limit, fixed-size records come one per whole record in the length; a partial rest is skipped |
| Factory.ReadWriteVendorBody | src/main/java/org/openflow/protocol/factory/BasicFactory.java:218-258 | A self-sized vendor record reads back from its bytes as the whole body |
| Factory.ReadWriteFixedRecords | src/main/java/org/openflow/protocol/factory/BasicFactory.java:218-258 | Fixed-size records written back to back, filling the length, read back as the same records |
| Factory.WrittenLengthIsRecordsLength | src/main/java/org/openflow/protocol/OFMultipartMessageBase.java:167-175 | Self-sized records write exactly as many bytes as their lengths add up to |
| ParseLoop.SpinsIff | src/main/java/org/openflow/protocol/factory/BasicFactory.java:53-88 | With no limit, the loop runs out of fuel exactly when fuel + 1 turns in a row read an element |
| ParseLoop.TurnsForEver | src/main/java/org/openflow/protocol/factory/BasicFactory.java:53-88 | Once a loop whose cursor stays within a bound turns more times than the bound, it turns as many times as asked |
| ParseLoop.SpinsForEver | src/main/java/org/openflow/protocol/factory/BasicFactory.java:53-88 | Running out of fuel at a fuel of the buffer length or more means every fuel runs out: the cursor comes back to a position it held, so the loop never returns |
| ParseLoop.FuelSettles | src/main/java/org/openflow/protocol/factory/BasicFactory.java:53-88 | Any outcome other than running out of fuel is the same for every larger fuel |
| Statistics.WriteVendor | src/main/java/org/openflow/protocol/statistics/OFVendorStatistics.java:30-35 | A vendor record writes 8 bytes plus its body |
| Statistics.ReadVendor | src/main/java/org/openflow/protocol/statistics/OFVendorStatistics.java:21-27 | A read keeps the length and always leaves a body, and the bytes consumed are exactly its written form. The body read is as long as a body already present, or else the length minus 8. With no body and a length below 8, it throws NegativeArraySize; otherwise it succeeds whenever the buffer holds those bytes |
| Statistics.ReadWriteVendor | src/main/java/org/openflow/protocol/statistics/OFVendorStatistics.java:21-35 | A vendor record read back into a record whose length covers it gives the same record |
| Statistics.SameVendor | src/main/java/org/openflow/protocol/statistics/OFVendorStatistics.java:47-65 | equals holds for records that differ only in body and length |
| Statistics.SameVendorWritten | src/main/java/org/openflow/protocol/statistics/OFVendorStatistics.java:30-65 | equals holds exactly when the two records write the same first 8 bytes |
| Statistics.ReadCounter | src/main/java/org/openflow/protocol/statistics/OFGroupStatisticsReply.java:157-161 | A bucket counter reads exactly when 16 bytes remain, and its bytes are its written form |
| Statistics.ReadWriteCounter | src/main/java/org/openflow/protocol/statistics/OFGroupStatisticsReply.java:157-176 | A written counter reads back unchanged |
| Statistics.ReadCounters | src/main/java/org/openflow/protocol/statistics/OFGroupStatisticsReply.java:157-161 | n counters read exactly when 16·n bytes remain, and the bytes are their written form |
| Statistics.ReadWriteCounters | src/main/java/org/openflow/protocol/statistics/OFGroupStatisticsReply.java:157-176 | Written counters read back unchanged |
| Statistics.UpdateLength | src/main/java/org/openflow/protocol/statistics/OFGroupStatisticsReply.java:222-230 | updateLength sets the length to 40 + 16 per counter, modulo 2^16, and changes nothing else |
| Statistics.SetBucketStatistics | src/main/java/org/openflow/protocol/statistics/OFGroupStatisticsReply.java:112-116 | The setter replaces the list and recomputes the length from it |
| Statistics.BucketCount | src/main/java/org/openflow/protocol/statistics/OFGroupStatisticsReply.java:157 | The counter loop runs ceil((length - 40) / 16) times, and not at all when length ≤ 40 |
| Statistics.WriteFixed | src/main/java/org/openflow/protocol/statistics/OFGroupStatisticsReply.java:165-172 | The fixed part writeTo writes is 32 bytes; with the durations of the OpenFlow 1.3 layout, 40 |
| Statistics.WriteGroupStats | src/main/java/org/openflow/protocol/statistics/OFGroupStatisticsReply.java:165-178 | writeTo writes the fixed part, then 16 bytes per counter |
| Statistics.ReadFixed | src/main/java/org/openflow/protocol/statistics/OFGroupStatisticsReply.java:149-156 | The fixed part reads exactly when it fits, and it keeps the counter list |
| Statistics.ReadGroupStats | src/main/java/org/openflow/protocol/statistics/OFGroupStatisticsReply.java:149-162 | readFrom appends BucketCount(length) counters to the old list and ends after them. A null list throws NullPointer |
| Statistics.UpdatedCountsItsCounters | src/main/java/org/openflow/protocol/statistics/OFGroupStatisticsReply.java:222-230 | After updateLength, when it does not wrap, the read loop runs once per counter |
| Statistics.ReadWriteGroupStats | src/main/java/org/openflow/protocol/statistics/OFGroupStatisticsReply.java:149-178 | Round trip into a new reply: the same fields and counters come back (durations only where they are on the wire), and the reply equals the original under equals |
| Statistics.SameGroupStats | src/main/java/org/openflow/protocol/statistics/OFGroupStatisticsReply.java:196-220 | equals holds for replies that differ only in the durations, and equal replies write the same bytes |
| Statistics.WrittenShortOfLength | src/main/java/org/openflow/protocol/statistics/OFGroupStatisticsReply.java:165-178 | As written, a reply whose length counts its counters writes 8 bytes fewer than getLength reports |
| Statistics.NewGroupStatsShort | src/main/java/org/openflow/protocol/statistics/OFGroupStatisticsReply.java:24-28 | A new reply reports length 40 but writes 32 bytes |
| Statistics.WrittenMatchesLength | src/main/java/org/openflow/protocol/statistics/OFGroupStatisticsReply.java:14 | With the durations on the wire, the written size equals the reported length |
| TableFeatures.SetItems | src/main/java/org/openflow/protocol/multipart/tableFeatures/OFTableFeaturesPropertyActions.java:37-47 | The setter stores the list. A non-null list sets the length to 4 + element lengths, modulo 2^16; a null list leaves the length alone |
| TableFeatures.Pad | src/main/java/org/openflow/protocol/multipart/tableFeatures/OFTableFeaturesPropertyActions.java:68-70 | For a non-negative length, the pad reaches the next multiple of 8 and is below 8 |
| TableFeatures.WriteProperty | src/main/java/org/openflow/protocol/multipart/tableFeatures/OFTableFeaturesPropertyActions.java:61-71 | writeTo writes the type and length shorts, then the elements, then the pad in zero bytes |
| TableFeatures.ReadProperty | src/main/java/org/openflow/protocol/multipart/tableFeatures/OFTableFeaturesPropertyActions.java:50-58 | readFrom throws with no factory set, and on a short header. On success it keeps the header and a non-null element list, and stays in the buffer |
| TableFeatures.WrittenIsPadded | src/main/java/org/openflow/protocol/multipart/tableFeatures/OFTableFeaturesPropertyActions.java:37-71 | After the setter, a property writes its length rounded up to a multiple of 8 |
| TableFeatures.ReadSkipsPad | src/main/java/org/openflow/protocol/multipart/tableFeatures/OFTableFeaturesPropertyActions.java:50-58 | readFrom skips the pad past where the element loop stopped |
| TableFeatures.SetItemsSized | src/main/java/org/openflow/protocol/multipart/tableFeatures/OFTableFeaturesPropertyActions.java:37-47 | The setter leaves the length equal to 4 + element lengths when that fits a non-negative short |
| TableFeatures.ReadConsumesWritten | src/main/java/org/openflow/protocol/multipart/tableFeatures/OFTableFeaturesPropertyActions.java:50-71 | A sized property, written and then read with a factory set, ends exactly at the end of what was written |
| TableFeatures.HeaderOfWritten | src/main/java/org/openflow/protocol/multipart/tableFeatures/OFTableFeaturesPropertyActions.java:61-71 | The written header reads back as the type and the unsigned length |
| ActionSetField.NewAction | src/main/java/org/openflow/protocol/action/OFActionSetField.java:19-22 | The default action is SET_FIELD, with length 8 and no field |
| ActionSetField.NewActionWith | src/main/java/org/openflow/protocol/action/OFActionSetField.java:39-53 | The field constructor throws exactly for IN_PORT, IN_PHY_PORT, METADATA and IPV6_EXTHDR. Otherwise it keeps the field object, whichever its class, with length 8 + the field's length modulo 2^16 |
| ActionSetField.NewActionOf | src/main/java/org/openflow/protocol/action/OFActionSetField.java:24-37 | The type/value constructor throws for the same four types. Otherwise it builds the field, with length 12 + payload |
| ActionSetField.SetField | src/main/java/org/openflow/protocol/action/OFActionSetField.java:65-68 | setField replaces the field, and the type and length do not change |
| ActionSetField.WriteField | src/main/java/org/openflow/protocol/action/OFActionSetField.java:78-85 | The field's writeTo is the one of its class: a plain OXM field writes 4 + payload bytes, and a match field with hasMask writes 4 + 2·payload, starting with the OXM encoding |
| ActionSetField.ReadField | src/main/java/org/openflow/protocol/OFMatchField.java:39-43 | readFrom into the held object takes everything but the mask from the wire; an OFMatchField reads a mask when hasMask is set and otherwise keeps its own |
| ActionSetField.ReadAction | src/main/java/org/openflow/protocol/action/OFActionSetField.java:71-76 | A short header throws underflow, and a null field throws NullPointer. On success the action keeps the header read and the field read into the held object by its own class: a match field reads the mask when hasMask is set and keeps its old mask otherwise |
| ActionSetField.WriteAction | src/main/java/org/openflow/protocol/action/OFActionSetField.java:79-85 | writeTo throws for a null field. It writes the header and the field's encoding by its own class (8 + payload bytes, or 8 + 2·payload for a masked match field), then steps over length - field length bytes when that is positive |
| ActionSetField.ReadAfterWrite | src/main/java/org/openflow/protocol/action/OFActionSetField.java:71-85 | The written bytes read back into an action whose field has the writer's class (or any class when no mask was written) as the same type, length and field, with the payload length as the field's length. The mask is the one written, or when none was written the held match field's own mask |
| ActionSetField.HeaderOfWritten | src/main/java/org/openflow/protocol/action/OFActionSetField.java:79-85 | The written header reads back as the action's type and length |
| ActionSetField.FieldOfWritten | src/main/java/org/openflow/protocol/action/OFActionSetField.java:71-85 | The field bytes after the header read into the held object as the field, with the mask written or else the object's own |
| ActionSetField.PresetMaskKept | src/main/java/org/openflow/protocol/action/OFActionSetField.java:71-76 | Reading a constructed action's bytes into a held match field keeps that field's old mask, since no mask bit was written |
| ActionSetField.ConstructedFraming | src/main/java/org/openflow/protocol/action/OFActionSetField.java:24-85 | A constructed action reports 12 + payload, writes 4 fewer bytes, and the reader advances past the written bytes by a different amount than the writer |
| ActionSetField.ConstructedWrites | src/main/java/org/openflow/protocol/action/OFActionSetField.java:24-85 | A constructed action with a well-formed value can be written |
| WriteMetadata.NewInstruction | src/main/java/org/openflow/protocol/instruction/OFInstructionWriteMetaData.java:16-26 | Both constructors give WRITE_METADATA with length 24 and the given longs |
| WriteMetadata.SetMetadata | src/main/java/org/openflow/protocol/instruction/OFInstructionWriteMetaData.java:40-43 | setMetadata changes the metadata and nothing else |
| WriteMetadata.SetMask | src/main/java/org/openflow/protocol/instruction/OFInstructionWriteMetaData.java:57-60 | setMetadataMask changes the mask and nothing else |
| WriteMetadata.Equal | src/main/java/org/openflow/protocol/instruction/OFInstructionWriteMetaData.java:88-106 | equals holds exactly for equal instructions |
| WriteMetadata.Encode | src/main/java/org/openflow/protocol/instruction/OFInstructionWriteMetaData.java:71-76 | writeTo writes 24 bytes with a zero pad at bytes 4-7 |
| WriteMetadata.Decode | src/main/java/org/openflow/protocol/instruction/OFInstructionWriteMetaData.java:63-68 | readFrom succeeds exactly when 24 bytes remain and advances by 24. Running out inside the pad throws IllegalPosition, and anywhere else BufferUnderflow |
| WriteMetadata.DecodeEncode | src/main/java/org/openflow/protocol/instruction/OFInstructionWriteMetaData.java:63-76 | An instruction's encoding reads back as the instruction |
| WriteMetadata.EncodeDecode | src/main/java/org/openflow/protocol/instruction/OFInstructionWriteMetaData.java:63-76 | Re-encoding what was read gives the 24 bytes back, except that the pad comes back as zeros |
| WriteMetadata.DecodeValues | src/main/java/org/openflow/protocol/instruction/OFInstructionWriteMetaData.java:63-68 | The values read are the shorts at offsets 0 and 2 and the longs at 8 and 16 |
| WriteMetadata.SetMetadataEncodes | src/main/java/org/openflow/protocol/instruction/OFInstructionWriteMetaData.java:40-43 | setMetadata changes bytes 8-15 of the encoding and no others |
| WriteMetadata.SetMaskEncodes | src/main/java/org/openflow/protocol/instruction/OFInstructionWriteMetaData.java:57-60 | setMetadataMask changes the last 8 bytes of the encoding and no others |
| PhysicalPort.SetHardwareAddress | src/main/java/org/openflow/protocol/OFPhysicalPort.java:124-130 | setHardwareAddress rejects anything but 6 bytes. Otherwise it stores the address and changes nothing else |
| PhysicalPort.EncodeName | src/main/java/org/openflow/protocol/OFPhysicalPort.java:307-320 | The name slot is 16 bytes. A name under 16 bytes is followed by zeros; a longer name is cut to 15 bytes and a zero |
| PhysicalPort.FirstZero | src/main/java/org/openflow/protocol/OFPhysicalPort.java:280-286 | The scan stops at the first zero byte, or at the end when there is none |
| PhysicalPort.DecodeName | src/main/java/org/openflow/protocol/OFPhysicalPort.java:278-288 | The decoded name is no longer than the slot |
| PhysicalPort.NameRoundTrip | src/main/java/org/openflow/protocol/OFPhysicalPort.java:278-320 | A plain ASCII name under 16 characters comes back whole; a longer one comes back as its first 15 characters |
| PhysicalPort.NameStopsAtNul | src/main/java/org/openflow/protocol/OFPhysicalPort.java:278-320 | A name with a NUL at k comes back as its first k characters |
| PhysicalPort.ReadWords | src/main/java/org/openflow/protocol/OFPhysicalPort.java:289-296 | n ints read exactly when 4·n bytes remain |
| PhysicalPort.ReadEncodedWords | src/main/java/org/openflow/protocol/OFPhysicalPort.java:289-329 | Words written with putInt read back with getInt |
| PhysicalPort.WritePort | src/main/java/org/openflow/protocol/OFPhysicalPort.java:303-330 | writeTo throws exactly for a null address or name. It writes 58 bytes + the address length (64 for a 6-byte address), starting with the port number and a zero pad |
| PhysicalPort.ReadPort | src/main/java/org/openflow/protocol/OFPhysicalPort.java:271-297 | readFrom reads the port number, the address into the port's own array (a new 6-byte one when absent), and a name of at most 16 characters |
| PhysicalPort.ReadWritten | src/main/java/org/openflow/protocol/OFPhysicalPort.java:271-330 | Round trip: a port with a 6-byte address is read back 64 bytes on with every field equal, and the name cut as NameRoundTrip says |
| PhysicalPort.Equal | src/main/java/org/openflow/protocol/OFPhysicalPort.java:341-356 | equals holds for identical ports, and equal ports have equal hash codes |
| PhysicalPort.Hash | src/main/java/org/openflow/protocol/OFPhysicalPort.java:333-339 | The hash code is 307 + the port number, wrapped to 32 bits |
| PhysicalPort.EqualHash | src/main/java/org/openflow/protocol/OFPhysicalPort.java:333-356 | Hash codes collide exactly for ports that are equal under equals |

## Left out

- OFMessage, OFAction, OFInstruction, OFTableFeaturesProperty, OFOXMFieldType, OFGroupBucketCounter, U16/U32 and the other statistics classes are not part of this model. Their header layouts are taken from the OpenFlow Switch Specification 1.3. OXM codes and payload widths come from its section A.2.3.7, and the wildcard bits of the STANDARD match from the 1.1 specification.
- OFMatchField refers to `hasMask`, `length` and `type` fields that OFOXMField names `oxmFieldHasMask`, `oxmFieldLength` and `oxmFieldType`. OFMatch.setField calls `getOXMFieldMask` and `setOXMFieldMask` (OFMatch.java:106-107), which the OFOXMField source does not declare; the model reads them as the getter and setter of the mask. OFActionSetField calls `field.getType()` and `field.getLength()` (OFActionSetField.java:36, 44, 52, 74, 82), while OFOXMField declares only `getOXMFieldType` and `getOXMFieldLength` (OFOXMField.java:38, 45); the model reads them as those getters. It reads the differently named fields as the same fields.
- Partial state left behind by an exception is not modelled. When `readFrom` or `loadFromPacket` throws partway, the model gives no result at all, although the Java object keeps the fields set before the throw.
- The Java `assert (limit >= 14)` in `loadFromPacket` is disabled at run time, so it is not modelled; a short frame fails on the first `get`.
- ByteBuffer capacity on writes is not modelled: every `writeTo` returns its bytes, and a `BufferOverflowException` from a buffer that is too small is out of scope.
- Factory.Parse: the loop has no termination check of its own. An element whose turn leaves the cursor where it was (a base-class element declaring MINIMUM_LENGTH minus the bytes its header read, or an own class of a family whose base reads nothing, declaring 0) makes it spin for ever. With no limit the model runs on a fuel of the buffer length + 1 and returns `LoopSpins` when a turn would read an element with no fuel left. `ParseLoop.SpinsIff`, `ParseLoop.SpinsForEver` and `ParseLoop.FuelSettles` show that `LoopSpins` comes exactly when the modelled cursor revisits a position, and that every other outcome is the one the loop itself gives. Messages never spin (`Factory.MessagesNeverSpin`).
- Factory.Next: the message and element subclasses (OFHello, OFRoleMessage, OFActionOutput and the rest) are not part of this model. A class of its own is taken to read its declared length, or the base header when it declares less, and not to throw. A subclass that reads more or less than that, or throws, is not modelled. In particular a factory-made OFActionSetField has a null field, so its readFrom throws NullPointer (`ActionSetField.NewAction`, `ActionSetField.ReadAction`). The element loop treats it as a class of its own that reads its length.
- ParseLoop.SpinsForEver: the step from the model's loop to BasicFactory's rests on the same assumption as Factory.Next, that each class's readFrom moves the cursor as that line says.
- TableFeatures.ReadProperty: calls the unbounded element loop, so it returns `LoopSpins` in the same cases.
- MultipartMessage.ReadMessage: the length of a fresh non-vendor statistics instance is the parameter `fixedSize > 0`, because the statistics classes it instantiates are not part of this model. A zero-length instance would make the Java loop spin forever.
- Factory.ParseMultipart: records other than vendor records are modelled as fixed-size byte blocks of the fresh instance's length. Their own field layouts are not modelled, and their `writeTo` is taken to write back the bytes read.
- Element classes in the factory loops (actions, instructions, queue properties, hello elements, meter bands, messages) are tags: the model records which class reads each element, not the object it builds. The `instantiate()` closures of OFType and OFMultipartDataType are modelled as those tags too.
- parseMessages' `set...Factory` calls on factory-aware messages are not modelled, because they only wire up objects.
- TableFeatures.WriteProperty: each element's `writeTo` is a parameter, because the action and instruction classes are not part of this model.
- OFQueuePropertyType's map is an `LRULinkedHashMap` with 10 entries. Eviction is not modelled, since only two types are ever registered.
- OFType declares codes 18 and 19 as STATS_REQUEST and STATS_REPLY; the model calls them MultipartRequest and MultipartReply, the names OFMultipartDataType uses.
- The `toString`, `clone` and `hashCode` methods are not modelled, except `OFPhysicalPort.hashCode`. `equals` is modelled for OFPhysicalPort, OFInstructionWriteMetaData, OFVendorStatistics and OFGroupStatisticsReply only. Getters and plain setters that only store a field are not modelled separately.
- OFMatch.load (a static wrapper that makes a new match and calls `loadFromPacket`) is covered by `PacketMatch.Lookup`, which loads into a new match.
- OFMatch's `setField(type, value)` and `setField(type, value, mask)` overloads are modelled as `Match.SetField` applied to `OxmField.NewField` / `OxmField.NewMaskedField`.
- Statistics.ReadVendor: an empty vendor multipart body does not read back as an empty list. With a body length of 0, the multipart loop (factory/BasicFactory.java:226-239) still reads one vendor record. Its `readFrom` then allocates a body of length 0 - 8 and throws NegativeArraySizeException (statistics/OFVendorStatistics.java:25). The vendor round trips therefore cover exactly one vendor record.
- MatchReader.ReadWriteOxmMatch: the round trip covers plain fields only. A masked field writes 4 + 2·payload bytes, but the OXM loop counts it as 4 + payload, so it reads on into the bytes after it (`MatchReader.MaskedFieldOverruns`).
- ActionSetField.ReadAfterWrite: the round trip reads into a field object of the writer's class, or of either class when no mask was written. A masked match field read back by a plain OXM field (which leaves the mask bytes unread) is not stated.
- ActionSetField.WriteAction: the pad loop calls `get()`, not `put()`, so it reads past the written bytes. The model records how many bytes are stepped over, not a `BufferUnderflowException` when the buffer ends first.
- PhysicalPort.EncodeName: characters are mapped to ASCII the way `getBytes("ASCII")` does (non-ASCII to '?'). Decoding maps bytes of 0x80 and above to U+FFFD. Other charset details, and surrogate pairs, are not modelled.
- OxmField.Decode: the value is read at the catalog width for the code, not at the header's length byte, as the code does. A header whose length disagrees with the catalog desynchronises the OXM loop, and no lemma is stated about that.

## Findings

| source | as written | input that shows it | evidently intended | confidence | as-written member | corrected member |
|---|---|---|---|---|---|---|
| src/main/java/org/openflow/protocol/statistics/OFGroupStatisticsReply.java:14 | MINIMUM_LENGTH is 40, and getLength/updateLength report 40 + 16 per counter. But readFrom and writeTo handle only a 32-byte fixed part, with no duration fields | `new OFGroupStatisticsReply()`: getLength() is 40, writeTo writes 32 bytes | a 40-byte fixed part that carries duration_sec and duration_nsec after byte_count (ofp_group_stats in the OpenFlow Switch Specification 1.3), so the written size equals the reported length | not executed | Statistics.NewGroupStatsShort | Statistics.WrittenMatchesLength |

=== FILE: action_set_field.dfy ===
/**
 * The set-field action (OFActionSetField): the 4-byte action header of
 * section A.2.5 of the OpenFlow Switch Specification 1.3 (a 16-bit type and
 * a 16-bit length), then one OXM field.
 *
 * OFAction is not part of this model: its readFrom and writeTo are taken to
 * read and write that 4-byte header, the type as its raw code. The action's
 * length counts the 8 bytes of MINIMUM_LENGTH plus the field's recorded
 * length; the field's length after a read is the header's length byte
 * (the payload length), so the arithmetic of the pad does not agree between
 * the constructors, readFrom and writeTo. The lemmas below state by how much.
 */
module ActionSetField {
  import opened Wrappers
  import opened Bytes
  import opened OxmFieldType
  import opened OxmField

  /** MINIMUM_LENGTH: the length of an action built without a field. */
  const MinimumLength := 8

  /** The action header's size: type and length. */
  const HeaderLength := 4

  /** OFPAT_SET_FIELD, the code of OFActionType.SET_FIELD. */
  const SetFieldCode: u16 := 25

  /**
   * The field object an action holds, with its runtime class. The action
   * declares it an OFOXMField, but calls its readFrom and writeTo virtually:
   * for an OFMatchField (matchField) they also read and write the mask when
   * the hasMask bit is set.
   */
  datatype FieldObject = FieldObject(field: Field, matchField: bool)

  /** An action: its type code, its length as the Java short, and its field object (null is None). */
  datatype Action = Action(actionType: u16, length: i16, field: Option<FieldObject>)

  /**
   * field.readFrom into the object the action holds, as its class implements
   * it. Both classes overwrite the type, hasMask bit, length and value; an
   * OFMatchField assigns its mask only when the hasMask bit read is set, so
   * otherwise the object keeps the mask it had.
   */
  function ReadField(o: FieldObject, data: seq<byte>, pos: nat): (r: Result<Read<Field>, Exception>)
    ensures var d := if o.matchField then DecodeMatchField(data, pos) else Decode(data, pos);
      && (r.Success? <==> d.Success?)
      && (r.Success? ==> r.value.next == d.value.next && r.value.value == d.value.value.(mask := r.value.value.mask))
      && (r.Success? ==> r.value.value.mask == if o.matchField && !d.value.value.hasMask then o.field.mask else d.value.value.mask)
  {
    if o.matchField then
      var d :- DecodeMatchField(data, pos);
      if d.value.hasMask then Success(d) else Success(d.(value := d.value.(mask := o.field.mask)))
    else Decode(data, pos)
  }

  /** Whether the object's writeTo and readFrom carry a mask: an OFMatchField with its hasMask bit set. */
  predicate CarriesMask(o: FieldObject)
  {
    o.matchField && o.field.hasMask
  }

  /**
   * field.writeTo, as the object's class implements it: the OXM encoding,
   * followed by the mask only for an OFMatchField with its hasMask bit set.
   */
  function WriteField(o: FieldObject): (r: Result<seq<byte>, Exception>)
    ensures r.Success? <==> Encode(o.field).Success? && (CarriesMask(o) ==> EncodeMatchField(o.field).Success?)
    ensures r.Success? ==> |r.value| == 4 + PayloadLength(o.field.ftype) * (if CarriesMask(o) then 2 else 1)
    ensures r.Success? ==> r.value[..4 + PayloadLength(o.field.ftype)] == Encode(o.field).value
  {
    if o.matchField then EncodeMatchField(o.field) else Encode(o.field)
  }

  /**
   * The field a round trip from o into the preset object gives back: the
   * payload length as its length; the mask written, when one was; otherwise
   * the preset OFMatchField's own mask, or none for a plain OXM field.
   */
  function Restored(o: FieldObject, preset: FieldObject): Field
  {
    if CarriesMask(o) then o.field.(length := PayloadLength(o.field.ftype))
    else o.field.(length := PayloadLength(o.field.ftype), mask := if preset.matchField then preset.field.mask else None)
  }

  /** getLengthU: the length read as unsigned. */
  function LengthU(a: Action): u16
  {
    U16Of(a.length)
  }

  /** The pipeline fields a set-field action may not rewrite. */
  const Pipeline: set<FieldType> := {InPort, InPhyPort, Metadata, Ipv6Exthdr}

  /** The default constructor: type SET_FIELD, length 8, no field. */
  function NewAction(): (a: Action)
    ensures a.actionType == SetFieldCode && LengthU(a) == MinimumLength && a.field.None?
  {
    Action(SetFieldCode, MinimumLength, None)
  }

  /**
   * OFActionSetField(field): rejects the pipeline fields; otherwise keeps
   * the field object, whatever its class, and adds its length to 8, cut to
   * a short as `+=` does. An OFMatchField's length counts its mask.
   */
  function NewActionWith(o: FieldObject): (r: Result<Action, Exception>)
    ensures r.Failure? <==> o.field.ftype in Pipeline
    ensures r.Failure? ==> r.error == DisallowedField
    ensures r.Success? ==> r.value.actionType == SetFieldCode && r.value.field == Some(o)
    ensures r.Success? ==> LengthU(r.value) == (MinimumLength + o.field.length) % 0x1_0000
  {
    var t := o.field.ftype;
    if t == InPort || t == InPhyPort || t == Metadata || t == Ipv6Exthdr then
      Failure(DisallowedField)
    else
      Success(Action(SetFieldCode, ToI16(MinimumLength + o.field.length), Some(o)))
  }

  /**
   * OFActionSetField(type, value): the same check, then a new plain OXM
   * field of that type, so the length is 8 + 4 + the type's payload length.
   */
  function NewActionOf(t: FieldType, v: Value): (r: Result<Action, Exception>)
    ensures r.Failure? <==> t in Pipeline
    ensures r.Failure? ==> r.error == DisallowedField
    ensures r.Success? ==> r.value.actionType == SetFieldCode && r.value.field == Some(FieldObject(NewField(t, v), false))
    ensures r.Success? ==> LengthU(r.value) == MinimumLength + HeaderLength + PayloadLength(t) && r.value.length == LengthU(r.value)
  {
    var r := NewActionWith(FieldObject(NewField(t, v), false));
    ModOfSmall(MinimumLength + HeaderLength + PayloadLength(t), 0x1_0000);
    r
  }

  /** setField: replaces the field object and nothing else; the length is not recomputed. */
  function SetField(a: Action, f: Option<FieldObject>): (r: Action)
    ensures r.field == f && r.actionType == a.actionType && r.length == a.length
  {
    a.(field := f)
  }

  /**
   * readFrom into a: the header; with no field to read into, a null
   * dereference; then the field, read by the preset object's own readFrom,
   * and a move of the position by the signed length minus the field's new
   * length. The object keeps its class.
   */
  function ReadAction(a: Action, data: seq<byte>, pos: nat): (r: Result<Read<Action>, Exception>)
    ensures pos + HeaderLength > |data| ==> r == Failure(BufferUnderflow)
    ensures pos + HeaderLength <= |data| && a.field.None? ==> r == Failure(NullPointer)
    ensures r.Success? ==> r.value.value.actionType == ValueAt(data, pos, 2) && LengthU(r.value.value) == ValueAt(data, pos + 2, 2)
    ensures r.Success? ==> var f := ReadField(a.field.value, data, pos + HeaderLength);
      && f.Success? && r.value.value.field == Some(FieldObject(f.value.value, a.field.value.matchField))
      && r.value.next == f.value.next + r.value.value.length - f.value.value.length
    ensures r.Success? && a.field.value.matchField && !r.value.value.field.value.field.hasMask ==>
      r.value.value.field.value.field.mask == a.field.value.field.mask
  {
    Pow256Widths();
    var actionType :- ReadUnsigned(data, pos, 2);
    var length :- ReadUnsigned(data, pos + 2, 2);
    SignedUnsigned16(length);
    if a.field.None? then Failure(NullPointer)
    else
      var f :- ReadField(a.field.value, data, pos + HeaderLength);
      var next :- Seek(data, f.next + ToI16(length) - f.value.length);
      Success(Read(Action(actionType, ToI16(length), Some(FieldObject(f.value, a.field.value.matchField))), next))
  }

  /**
   * What writeTo does: the bytes it puts, and the number of bytes it then
   * steps over with get() instead of writing a pad.
   */
  datatype Written = Written(bytes: seq<byte>, skipped: nat)

  /**
   * writeTo: the header and the field object's own writeTo; a null field
   * throws. The pad loop runs length - field length times and reads each byte.
   */
  function WriteAction(a: Action): (r: Result<Written, Exception>)
    ensures a.field.None? ==> r == Failure(NullPointer)
    ensures r.Success? <==> a.field.Some? && WriteField(a.field.value).Success?
    ensures r.Success? ==> |r.value.bytes| == MinimumLength + PayloadLength(a.field.value.field.ftype) * (if CarriesMask(a.field.value) then 2 else 1)
    ensures r.Success? ==> r.value.bytes[..2] == Put(a.actionType, 2) && r.value.bytes[2..4] == Put(a.length, 2)
    ensures r.Success? ==> r.value.bytes[HeaderLength..] == WriteField(a.field.value).value
    ensures r.Success? ==> r.value.skipped == if a.length > a.field.value.field.length then a.length - a.field.value.field.length else 0
  {
    if a.field.None? then Failure(NullPointer)
    else
      var enc :- WriteField(a.field.value);
      var pad := a.length - a.field.value.field.length;
      var w := Put(a.actionType, 2) + Put(a.length, 2) + enc;
      assert w[..2] == Put(a.actionType, 2) && w[2..4] == Put(a.length, 2) && w[HeaderLength..] == enc;
      Success(Written(w, if pad > 0 then pad else 0))
  }

  /** How far writeTo moves the buffer's position: what it wrote and what it stepped over. */
  function Advance(w: Written): nat
  {
    |w.bytes| + w.skipped
  }

  /**
   * An action with a well-formed field writes its header and the field
   * object's bytes (4 + payload, and the mask too for an OFMatchField with
   * hasMask). readFrom over those bytes, into an action whose field object
   * reads them the same way, recovers the type, the length and the field:
   * the payload length as its length, and the mask only if it was written.
   * The position moves by the signed length minus the payload length past
   * the end of the written bytes.
   */
  lemma ReadAfterWrite(a: Action, target: Action, data: seq<byte>, pos: nat)
    requires a.field.Some? && WellFormed(a.field.value.field.value, PayloadLength(a.field.value.field.ftype))
    requires CarriesMask(a.field.value) && a.field.value.field.mask.Some? ==>
      WellFormed(a.field.value.field.mask.value, PayloadLength(a.field.value.field.ftype))
    requires target.field.Some? && (target.field.value.matchField == a.field.value.matchField || !a.field.value.field.hasMask)
    requires WriteAction(a).Success?
    requires pos + |WriteAction(a).value.bytes| <= |data|
    requires data[pos..pos + |WriteAction(a).value.bytes|] == WriteAction(a).value.bytes
    requires 0 <= pos + |WriteAction(a).value.bytes| + a.length - PayloadLength(a.field.value.field.ftype) <= |data|
    ensures ReadAction(target, data, pos) ==
      Success(Read(a.(field := Some(FieldObject(Restored(a.field.value, target.field.value), target.field.value.matchField))),
                   pos + |WriteAction(a).value.bytes| + a.length - PayloadLength(a.field.value.field.ftype)))
  {
    var o := a.field.value;
    HeaderOfWritten(a, data, pos);
    FieldOfWritten(a, target.field.value, data, pos);
    ReadOfParts(a, target, data, pos, Restored(o, target.field.value), pos + |WriteAction(a).value.bytes|);
  }

  /** The header of the written bytes reads back as the action's type and length. */
  lemma HeaderOfWritten(a: Action, data: seq<byte>, pos: nat)
    requires WriteAction(a).Success?
    requires pos + |WriteAction(a).value.bytes| <= |data|
    requires data[pos..pos + |WriteAction(a).value.bytes|] == WriteAction(a).value.bytes
    ensures ReadUnsigned(data, pos, 2) == Success(a.actionType as int)
    ensures ReadUnsigned(data, pos + 2, 2) == Success(ValueAt(data, pos + 2, 2)) && ToI16(ValueAt(data, pos + 2, 2)) == a.length
  {
    var w := WriteAction(a).value.bytes;
    SplitAt(data, pos, pos + HeaderLength, pos + |w|, w[..HeaderLength], w[HeaderLength..]);
    SplitAt(data, pos, pos + 2, pos + HeaderLength, w[..2], w[2..4]);
    Pow256Widths();
    ReadPutAt(data, pos, a.actionType, 2);
    ReadPutShort(data, pos + 2, a.length);
  }

  /**
   * The field's bytes, after the header, read back into the preset field
   * object as the restored field, up to the end of the written bytes. Its
   * class may differ from the writer's only when no mask was written.
   */
  lemma FieldOfWritten(a: Action, preset: FieldObject, data: seq<byte>, pos: nat)
    requires a.field.Some? && WellFormed(a.field.value.field.value, PayloadLength(a.field.value.field.ftype))
    requires CarriesMask(a.field.value) && a.field.value.field.mask.Some? ==>
      WellFormed(a.field.value.field.mask.value, PayloadLength(a.field.value.field.ftype))
    requires preset.matchField == a.field.value.matchField || !a.field.value.field.hasMask
    requires WriteAction(a).Success?
    requires pos + |WriteAction(a).value.bytes| <= |data|
    requires data[pos..pos + |WriteAction(a).value.bytes|] == WriteAction(a).value.bytes
    ensures ReadField(preset, data, pos + HeaderLength) ==
      Success(Read(Restored(a.field.value, preset), pos + |WriteAction(a).value.bytes|))
  {
    var o := a.field.value;
    var f := o.field;
    var n := PayloadLength(f.ftype);
    var w := WriteAction(a).value.bytes;
    var enc := WriteField(o).value;
    SplitAt(data, pos, pos + HeaderLength, pos + |w|, w[..HeaderLength], enc);
    if CarriesMask(o) {
      assert Encodable(f);
      DecodeMatchFieldAt(f, data, pos + HeaderLength);
    } else {
      var v := WriteObject(Some(f.value), n).value;
      assert enc == Put(HeaderWord(f), 4) + v;
      SplitAt(data, pos + HeaderLength, pos + 8, pos + |w|, Put(HeaderWord(f), 4), v);
      DecodeAt(f, data, pos + HeaderLength);
    }
  }

  /** readFrom, given that its header reads as a's type and length and its field object reads f up to end. */
  lemma ReadOfParts(a: Action, target: Action, data: seq<byte>, pos: nat, f: Field, end: nat)
    requires target.field.Some? && pos + HeaderLength <= |data|
    requires ReadUnsigned(data, pos, 2) == Success(a.actionType as int)
    requires ReadUnsigned(data, pos + 2, 2) == Success(ValueAt(data, pos + 2, 2)) && ToI16(ValueAt(data, pos + 2, 2)) == a.length
    requires ReadField(target.field.value, data, pos + HeaderLength) == Success(Read(f, end))
    requires 0 <= end + a.length - f.length <= |data|
    ensures ReadAction(target, data, pos) ==
      Success(Read(a.(field := Some(FieldObject(f, target.field.value.matchField))), end + a.length - f.length))
  {
  }

  /**
   * Framing of an action built by OFActionSetField(type, value): its length
   * is 12 + the payload length, writeTo puts only length - 4 bytes and then
   * steps over 8 more, so the position moves length + 4; readFrom over
   * those bytes moves it length + 8. Neither stops at the declared length.
   */
  lemma ConstructedFraming(t: FieldType, v: Value, target: Action, data: seq<byte>, pos: nat)
    requires t !in Pipeline && WellFormed(v, PayloadLength(t))
    requires target.field.Some?
    requires NewActionOf(t, v).Success? && WriteAction(NewActionOf(t, v).value).Success?
    requires pos + LengthU(NewActionOf(t, v).value) + 8 <= |data|
    requires data[pos..pos + |WriteAction(NewActionOf(t, v).value).value.bytes|] == WriteAction(NewActionOf(t, v).value).value.bytes
    ensures var a := NewActionOf(t, v).value;
      && |WriteAction(a).value.bytes| == LengthU(a) - HeaderLength
      && WriteAction(a).value.skipped == 8
      && Advance(WriteAction(a).value) == LengthU(a) + 4
      && ReadAction(target, data, pos).Success?
      && ReadAction(target, data, pos).value.next == pos + LengthU(a) + 8
  {
    var a := NewActionOf(t, v).value;
    ReadAfterWrite(a, target, data, pos);
  }

  /**
   * readFrom into a default action holding a preset OFMatchField, over the
   * bytes a constructed action writes (no mask, hasMask 0): the field read
   * keeps the preset object's mask, whatever it was.
   */
  lemma PresetMaskKept(t: FieldType, v: Value, preset: FieldObject, data: seq<byte>, pos: nat)
    requires t !in Pipeline && WellFormed(v, PayloadLength(t)) && preset.matchField
    requires NewActionOf(t, v).Success? && WriteAction(NewActionOf(t, v).value).Success?
    requires pos + LengthU(NewActionOf(t, v).value) + 8 <= |data|
    requires data[pos..pos + |WriteAction(NewActionOf(t, v).value).value.bytes|] == WriteAction(NewActionOf(t, v).value).value.bytes
    ensures var r := ReadAction(NewAction().(field := Some(preset)), data, pos);
      && r.Success? && r.value.value.field.Some?
      && r.value.value.field.value == FieldObject(NewField(t, v).(length := PayloadLength(t), mask := preset.field.mask), true)
  {
    ReadAfterWrite(NewActionOf(t, v).value, NewAction().(field := Some(preset)), data, pos);
  }

  /** Every constructed action with a well-formed value has an encoding. */
  lemma ConstructedWrites(t: FieldType, v: Value)
    requires t !in Pipeline && WellFormed(v, PayloadLength(t))
    ensures NewActionOf(t, v).Success? && WriteAction(NewActionOf(t, v).value).Success?
  {
    BoxWriteObject(v, PayloadLength(t));
  }
}

=== FILE: bytes.dfy ===
/**
 * Java integer widths, the exceptions the codec can raise, and a big-endian
 * view of a ByteBuffer: a byte sequence up to the buffer's limit plus an
 * explicit cursor.
 */
module Bytes {
  import opened Wrappers

  type byte = x: int | 0 <= x < 0x100
  type u16 = x: int | 0 <= x < 0x1_0000
  type u32 = x: int | 0 <= x < 0x1_0000_0000
  type u64 = x: int | 0 <= x < 0x1_0000_0000_0000_0000
  type i8 = x: int | -0x80 <= x < 0x80
  type i16 = x: int | -0x8000 <= x < 0x8000
  type i32 = x: int | -0x8000_0000 <= x < 0x8000_0000

  /** The exceptions the Java code raises, by kind. */
  datatype Exception =
    | BufferUnderflow     // a relative read past the buffer's limit
    | IllegalPosition     // ByteBuffer.position(p) with p outside [0, limit]
    | IndexOutOfBounds    // an array index or absolute get outside its bounds
    | NullPointer         // a method called on, or a value unboxed from, null
    | ClassCast           // a value of the wrong boxed class for its width
    | NegativeArraySize   // new byte[n] with n < 0
    | UnknownMessageType  // OFType.valueOf outside its 32-slot table
    | InvalidMessageType  // a multipart registry call with a non-multipart OFType
    | FactoryNotSet       // readFrom before a factory was supplied
    | DisallowedField     // a set-field action on a pipeline field
    | BadHardwareAddress  // a hardware address whose length is not 6
    | NoMultipartData     // getFirstMultipartData on a null or empty list
    | LoopSpins           // not thrown: a parse loop with no limit revisits a cursor and never returns

  /** A value read from the buffer and the cursor just after it. */
  datatype Read<+T> = Read(value: T, next: nat)

  function Pow256(n: nat): (r: nat)
    ensures r >= 1
  {
    if n == 0 then 1 else 0x100 * Pow256(n - 1)
  }

  /** The n-byte big-endian (network order) encoding of v. */
  function ToBigEndian(v: nat, n: nat): (s: seq<byte>)
    requires v < Pow256(n)
    ensures |s| == n
  {
    if n == 0 then [] else ToBigEndian(v / 0x100, n - 1) + [v % 0x100]
  }

  /** The unsigned value of a big-endian byte string. */
  function FromBigEndian(s: seq<byte>): (v: nat)
    ensures v < Pow256(|s|)
  {
    if |s| == 0 then 0 else FromBigEndian(s[..|s| - 1]) * 0x100 + s[|s| - 1]
  }

  lemma {:induction false} FromToBigEndian(v: nat, n: nat)
    requires v < Pow256(n)
    ensures FromBigEndian(ToBigEndian(v, n)) == v
  {
    if n > 0 {
      var s := ToBigEndian(v, n);
      assert s[..n - 1] == ToBigEndian(v / 0x100, n - 1);
      FromToBigEndian(v / 0x100, n - 1);
    }
  }

  lemma {:induction false} ToFromBigEndian(s: seq<byte>)
    ensures ToBigEndian(FromBigEndian(s), |s|) == s
  {
    if |s| > 0 {
      var n := |s|;
      var v := FromBigEndian(s);
      assert v / 0x100 == FromBigEndian(s[..n - 1]);
      assert v % 0x100 == s[n - 1];
      ToFromBigEndian(s[..n - 1]);
    }
  }

  /** The bytes ByteBuffer.put/putShort/putInt/putLong write for x: its low n bytes, big-endian. */
  function Put(x: int, n: nat): (s: seq<byte>)
    ensures |s| == n
  {
    ToBigEndian(x % Pow256(n), n)
  }

  lemma PutReads(x: int, n: nat)
    ensures FromBigEndian(Put(x, n)) == x % Pow256(n)
    ensures 0 <= x < Pow256(n) ==> FromBigEndian(Put(x, n)) == x
  {
    var y := x % Pow256(n);
    FromToBigEndian(y, n);
    if 0 <= x < Pow256(n) {
      ModOfSmall(x, Pow256(n));
    }
  }

  lemma ModOfSmall(x: int, m: int)
    requires 0 <= x < m
    ensures x % m == x
  {
    DivModAdd(0, x, m);
    assert 0 * m + x == x;
  }

  /** The widths of get, getShort, getInt and getLong. */
  lemma Pow256Widths()
    ensures Pow256(1) == 0x100 && Pow256(2) == 0x1_0000 && Pow256(4) == 0x1_0000_0000
    ensures Pow256(8) == 0x1_0000_0000_0000_0000
  {
    assert Pow256(2) == 0x100 * Pow256(1);
    assert Pow256(3) == 0x100 * Pow256(2);
    assert Pow256(4) == 0x100 * Pow256(3);
    assert Pow256(6) == 0x100 * 0x100 * Pow256(4);
    assert Pow256(8) == 0x100 * 0x100 * Pow256(6);
  }

  /** Division by d of q * d + r, for a remainder r in [0, d). */
  lemma DivModAdd(q: int, r: int, d: int)
    requires d > 0 && 0 <= r < d
    ensures (q * d + r) / d == q && (q * d + r) % d == r
  {
    var a := q * d + r;
    var k := a / d - q;
    assert d * k == r - a % d;
  }

  function Zeros(n: nat): (s: seq<byte>)
    ensures |s| == n
    ensures forall i :: 0 <= i < n ==> s[i] == 0
  {
    seq(n, i => 0)
  }

  /** Java's narrowing casts: keep the low bits, read them as two's complement. */
  function ToI8(x: int): i8 {
    var m := x % 0x100; if m < 0x80 then m else m - 0x100
  }

  function ToI16(x: int): i16 {
    var m := x % 0x1_0000; if m < 0x8000 then m else m - 0x1_0000
  }

  /** A value already in the non-negative half of the signed range is its own signed reading. */
  lemma SignedOfSmall(x: int)
    ensures 0 <= x < 0x80 ==> ToI8(x) == x
    ensures 0 <= x < 0x8000 ==> ToI16(x) == x
  {
    if 0 <= x < 0x80 {
      ModOfSmall(x, 0x100);
    }
    if 0 <= x < 0x8000 {
      ModOfSmall(x, 0x1_0000);
    }
  }

  function ToI32(x: int): i32 {
    var m := x % 0x1_0000_0000; if m < 0x8000_0000 then m else m - 0x1_0000_0000
  }

  /** U16.f: the unsigned reading of a short. */
  function U16Of(x: int): u16 {
    x % 0x1_0000
  }

  lemma SignedUnsigned16(x: u16)
    ensures U16Of(ToI16(x)) == x
    ensures ToI16(x) == x <==> x < 0x8000
  {
  }

  /** Java's int division, which truncates toward zero (Dafny's rounds down). */
  function JavaDiv(a: int, b: int): int
    requires b > 0
  {
    if a >= 0 then a / b else -((-a) / b)
  }

  /** The next multiple of 8 at or above n. */
  function RoundUp8(n: int): int {
    (n + 7) / 8 * 8
  }

  /** RoundUp8 is a multiple of 8, at least n and less than n + 8. */
  lemma RoundUp8Bounds(n: int)
    ensures RoundUp8(n) % 8 == 0 && n <= RoundUp8(n) < n + 8
  {
    DivModAdd((n + 7) / 8, 0, 8);
  }

  /** The source's pad computation `8*((length + 7)/8) - length`, in Java int arithmetic. */
  function JavaPad8(length: int): int {
    8 * JavaDiv(length + 7, 8) - length
  }

  /** For a non-negative length the pad reaches the next multiple of 8 and is below 8. */
  lemma JavaPad8Bounds(length: int)
    ensures length >= -7 ==> JavaPad8(length) == RoundUp8(length) - length
    ensures length >= -7 ==> 0 <= JavaPad8(length) < 8
    ensures length >= -7 ==> (length + JavaPad8(length)) % 8 == 0
  {
  }

  /**
   * A short length of 0x8000 or more is negative in Java. From -7 to -1 the
   * pad just cancels the length; from -8 down it lies between 7 and 14, and
   * is 8 or more unless -length - 7 is a multiple of 8.
   */
  lemma JavaPad8Negative(length: int)
    ensures -7 <= length < 0 ==> JavaPad8(length) == -length
    ensures length <= -8 ==> JavaPad8(length) == 7 + (-length - 7) % 8
    ensures length <= -8 ==> 7 <= JavaPad8(length) < 15
    ensures length <= -8 && (-length - 7) % 8 != 0 ==> JavaPad8(length) >= 8
  {
    if length <= -8 {
      var m := -length - 7;
      assert m == 8 * (m / 8) + m % 8;
      assert JavaPad8(length) == 8 * -(m / 8) - length;
    }
  }

  /** ByteBuffer.get(byte[n]) at pos. */
  function ReadBytes(data: seq<byte>, pos: nat, n: nat): (r: Result<seq<byte>, Exception>)
    ensures r.Success? <==> pos + n <= |data|
    ensures r.Success? ==> r.value == data[pos..pos + n]
    ensures r.Failure? ==> r.error == BufferUnderflow
  {
    if pos + n <= |data| then Success(data[pos..pos + n]) else Failure(BufferUnderflow)
  }

  /** get/getShort/getInt/getLong at pos, as the unsigned bits read. */
  function ReadUnsigned(data: seq<byte>, pos: nat, n: nat): (r: Result<nat, Exception>)
    ensures r.Success? <==> pos + n <= |data|
    ensures r.Success? ==> r.value == ValueAt(data, pos, n)
    ensures r.Failure? ==> r.error == BufferUnderflow
  {
    var b :- ReadBytes(data, pos, n);
    Success(FromBigEndian(b))
  }

  /** The absolute get(i)/getShort(i)/getInt(i): the n bytes at index i, which must end within the limit. */
  function GetAt(data: seq<byte>, i: nat, n: nat): (r: Result<nat, Exception>)
    ensures r.Success? <==> i + n <= |data|
    ensures r.Success? ==> r.value == ValueAt(data, i, n)
    ensures r.Failure? ==> r.error == IndexOutOfBounds
  {
    if i + n <= |data| then Success(FromBigEndian(data[i..i + n])) else Failure(IndexOutOfBounds)
  }

  /** The unsigned value of the n bytes at i. */
  function ValueAt(data: seq<byte>, i: nat, n: nat): (v: nat)
    requires i + n <= |data|
    ensures v < Pow256(n)
  {
    FromBigEndian(data[i..i + n])
  }

  /** Reading back n bytes written by Put gives the value written, when it fits. */
  lemma ReadPutAt(data: seq<byte>, p: nat, x: int, n: nat)
    requires p + n <= |data| && data[p..p + n] == Put(x, n) && 0 <= x < Pow256(n)
    ensures ReadUnsigned(data, p, n) == Success(x)
  {
    PutReads(x, n);
  }

  /** A short written with putShort and read with getShort comes back unchanged, negative or not. */
  lemma ReadPutShort(data: seq<byte>, p: nat, x: i16)
    requires p + 2 <= |data| && data[p..p + 2] == Put(x, 2)
    ensures ToI16(ValueAt(data, p, 2)) == x
  {
    Pow256Widths();
    PutReads(x, 2);
  }

  /** Writing back the value of n bytes with Put gives the same bytes. */
  lemma PutValueAt(data: seq<byte>, p: nat, n: nat)
    requires p + n <= |data|
    ensures Put(ValueAt(data, p, n), n) == data[p..p + n]
  {
    var v := ValueAt(data, p, n);
    ModOfSmall(v, Pow256(n));
    ToFromBigEndian(data[p..p + n]);
  }

  /** Two pieces found together between p and r are found on either side of q, where the first ends. */
  lemma SplitAt<T>(data: seq<T>, p: nat, q: nat, r: nat, a: seq<T>, b: seq<T>)
    requires p <= q <= r <= |data| && q - p == |a| && data[p..r] == a + b
    ensures data[p..q] == a && data[q..r] == b
  {
    assert data[p..q] == (a + b)[..|a|];
    assert data[q..r] == (a + b)[|a|..];
  }

  /** Two adjacent slices join into one. */
  lemma Joined<T>(data: seq<T>, p: nat, q: nat, r: nat)
    requires p <= q <= r <= |data|
    ensures data[p..r] == data[p..q] + data[q..r]
  {
  }

  /** putShort writes the same two bytes for a short and for its unsigned reading. */
  lemma PutShortUnsigned(x: u16)
    ensures Put(ToI16(x), 2) == Put(x, 2)
  {
    var n := 2;
    Pow256Widths();
    var y := ToI16(x);
    assert y == x || y == x - 0x1_0000;
    assert y % Pow256(n) == x % Pow256(n);
    PutSameLow(y, x, n);
  }

  /** Put depends only on the low n bytes of its argument. */
  lemma PutSameLow(x: int, y: int, n: nat)
    requires x % Pow256(n) == y % Pow256(n)
    ensures Put(x, n) == Put(y, n)
  {
  }

  /** ByteBuffer.position(p): fails unless 0 <= p <= limit. */
  function Seek(data: seq<byte>, p: int): (r: Result<nat, Exception>)
    ensures r.Success? <==> 0 <= p <= |data|
    ensures r.Success? ==> r.value == p
  {
    if 0 <= p <= |data| then Success(p) else Failure(IllegalPosition)
  }
}

=== FILE: factory.dfy ===
/**
 * The length-prefixed element loops of BasicFactory. One loop is shared by
 * messages, actions, instructions, queue properties, hello elements and
 * meter bands: it peeks each element's header without consuming it, stops
 * quietly when the header or the declared element would cross the range end
 * or the buffer limit, and otherwise reads the element and moves on.
 */
module Factory {
  import opened Wrappers
  import opened Bytes
  import MessageType
  import Statistics

  /**
   * An element family as the shared loop sees it. Messages carry the OpenFlow
   * header: an 8-bit type at offset 1, checked by OFType.valueOf while the
   * header is peeked, and a class per type from the OFType declarations.
   * The other families carry a 16-bit type at offset 0; for them the
   * MINIMUM_LENGTH of the base class, the bytes its readFrom consumes, and
   * the classes of their type codes are given (true: a class of its own,
   * false: the base class, absent: no type, so the factory throws).
   */
  datatype Family =
    | Messages
    | Elements(minimum: nat, headerRead: nat, classes: map<int, bool>)

  /** MINIMUM_LENGTH of the family's base class; the OpenFlow header is 8 bytes. */
  function Minimum(f: Family): nat
  {
    if f.Messages? then 8 else f.minimum
  }

  /** How many bytes the base class's readFrom consumes; OFMessage reads the whole 8-byte header. */
  function HeaderRead(f: Family): nat
  {
    if f.Messages? then 8 else f.headerRead
  }

  /** Every header holds its 16-bit length at offset 2, and the base class reads no more than MINIMUM_LENGTH. */
  predicate ValidFamily(f: Family)
  {
    4 <= Minimum(f) && HeaderRead(f) <= Minimum(f)
  }

  /** The demultiplexing header of one element: its type code and its declared length (getLengthU). */
  datatype Header = Header(typeCode: int, length: nat)

  /** The declared length field of the header at p. */
  function DeclaredLength(data: seq<byte>, p: nat): nat
    requires p + 4 <= |data|
  {
    ValueAt(data, p + 2, 2)
  }

  /**
   * demux.readFrom between mark and reset: the header at p, read without
   * moving the cursor. For messages an 8-bit type outside OFType's table throws.
   */
  function PeekHeader(f: Family, data: seq<byte>, p: nat): (r: Result<Header, Exception>)
    requires ValidFamily(f) && p + Minimum(f) <= |data|
    ensures r.Success? ==> r.value.length == DeclaredLength(data, p)
    ensures r.Failure? <==> f.Messages? && !(0 <= ToI8(data[p + 1]) < MessageType.Slots)
    ensures r.Failure? ==> r.error == UnknownMessageType
  {
    if f.Messages? then
      var code := ToI8(data[p + 1]);
      var _ :- MessageType.ValueOfDeclared(code);
      Success(Header(code, DeclaredLength(data, p)))
    else
      Success(Header(ValueAt(data, p, 2), DeclaredLength(data, p)))
  }

  /**
   * getMessage / getAction / ...: whether the element is read by a class of
   * its own (true) or by the base class (false). A type with no class makes
   * t.newInstance() run on null. Every declared message type instantiates a
   * subclass of the message base class, so for messages the base-class branch
   * of the loop is never taken.
   */
  function ClassFor(f: Family, h: Header): (r: Result<bool, Exception>)
    ensures r.Failure? ==> r.error == NullPointer
    ensures f.Messages? ==> (r.Success? <==> MessageType.TypeOfCode(h.typeCode).Some?)
    ensures f.Messages? && r.Success? ==> r.value
    ensures f.Elements? ==> (r.Success? <==> h.typeCode in f.classes)
    ensures f.Elements? && r.Success? ==> r.value == f.classes[h.typeCode]
  {
    if f.Messages? then
      match MessageType.TypeOfCode(h.typeCode)
      case Some(_) => Success(true)
      case None => Failure(NullPointer)
    else if h.typeCode in f.classes then Success(f.classes[h.typeCode])
    else Failure(NullPointer)
  }

  /** Each declared message type, whatever its declared length, is read by a class of its own. */
  lemma DeclaredMessagesOwnClass(t: MessageType.OFType, length: nat)
    ensures ClassFor(Messages, Header(MessageType.TypeValue(t), length)) == Success(true)
  {
    MessageType.TypeOfTypeValue(t);
  }

  /** One element read by the loop: its header, where it starts, and which class read it. */
  datatype Element = Element(header: Header, start: nat, ownClass: bool)

  /**
   * The bytes a class of its own reads: its readFrom starts with the base
   * class's, which reads HeaderRead bytes whatever the header declares, and
   * then reads the rest of the declared length. The classes themselves are
   * not part of this model.
   */
  function Span(f: Family, e: Element): (n: nat)
    ensures n >= HeaderRead(f) && n >= e.header.length
    ensures n == e.header.length || n == HeaderRead(f)
  {
    if e.header.length < HeaderRead(f) then HeaderRead(f) else e.header.length
  }

  /**
   * The cursor after the element. A class of its own moves it by its span;
   * the base class reads HeaderRead bytes, and the loop then moves the
   * cursor by the declared length minus MINIMUM_LENGTH.
   */
  function Next(f: Family, e: Element): int
  {
    if e.ownClass then e.start + Span(f, e)
    else e.start + HeaderRead(f) + e.header.length - Minimum(f)
  }

  /**
   * An element read by a class of its own ends where its declared length
   * says exactly when that length covers the base header; one read by the
   * message base class always does.
   */
  lemma NextIsDeclaredEnd(f: Family, e: Element)
    requires e.ownClass || f.Messages?
    ensures e.ownClass ==> (Next(f, e) == e.start + e.header.length <==> HeaderRead(f) <= e.header.length)
    ensures e.ownClass ==> Next(f, e) >= e.start + HeaderRead(f)
    ensures !e.ownClass ==> Next(f, e) == e.start + e.header.length
  {
  }

  /** The elements follow one another from pos, each starting where the previous one left the cursor, and the loop ends at next. */
  predicate Chained(f: Family, pos: int, es: seq<Element>, next: int)
    decreases |es|
  {
    if |es| == 0 then next == pos
    else es[0].start == pos && Chained(f, Next(f, es[0]), es[1..], next)
  }

  /** What one turn of the loop does once the limit lets it run: return, or read an element and move the cursor to next. */
  datatype Turn = Stop | Take(element: Element, next: nat)

  /**
   * One turn of the loop body at cursor pos: it returns when the header or
   * the declared element would cross the range end or the buffer limit, and
   * otherwise reads the element with the class its type selects and moves
   * the cursor past it.
   */
  function TakeTurn(f: Family, data: seq<byte>, pos: nat, end: int): (r: Result<Turn, Exception>)
    requires ValidFamily(f) && pos <= |data|
    ensures r.Success? && r.value.Take? ==>
      var e := r.value.element;
      e.start == pos && r.value.next == Next(f, e) <= |data| && pos + Minimum(f) <= |data| &&
      e.header.length == DeclaredLength(data, pos) && pos + e.header.length <= end && pos + e.header.length <= |data|
    ensures r.Success? && r.value.Stop? <==>
      |data| - pos < Minimum(f) || pos + Minimum(f) > end ||
      (PeekHeader(f, data, pos).Success? && (DeclaredLength(data, pos) > |data| - pos || pos + DeclaredLength(data, pos) > end))
    ensures r.Failure? ==> (r.error == UnknownMessageType && f.Messages?) || r.error == NullPointer || r.error == IllegalPosition
  {
    if |data| - pos < Minimum(f) || pos + Minimum(f) > end then Success(Stop)
    else
      var h :- PeekHeader(f, data, pos);
      if h.length > |data| - pos || pos + h.length > end then Success(Stop)
      else
        var own :- ClassFor(f, h);
        var e := Element(h, pos, own);
        var next :- Seek(data, Next(f, e));
        Success(Take(e, next))
  }

  /**
   * The loop, from cursor pos with count results so far and at most fuel
   * more turns that read an element. It returns the elements read and the
   * cursor where it stopped. A turn that would read an element with no fuel
   * left gives LoopSpins: with no limit that means the loop never returns
   * (ParseLoop.SpinsForEver), and with a limit enough fuel never runs out.
   */
  function Parse(f: Family, data: seq<byte>, pos: nat, end: int, limit: int, count: nat, fuel: nat): (r: Result<Read<seq<Element>>, Exception>)
    requires ValidFamily(f) && pos <= |data|
    ensures r.Success? && 0 < limit && count <= limit + 1 ==> count + |r.value.value| <= limit + 1
    ensures r.Success? && limit < 0 ==> r.value.value == []
    ensures r.Failure? ==>
      (r.error == UnknownMessageType && f.Messages?) || r.error == NullPointer || r.error == IllegalPosition || r.error == LoopSpins
    ensures limit != 0 && count + fuel > limit ==> r != Failure(LoopSpins)
    decreases fuel
  {
    if !(limit == 0 || count <= limit) then Success(Read([], pos))
    else
      var t :- TakeTurn(f, data, pos, end);
      if t.Stop? then Success(Read([], pos))
      else if fuel == 0 then Failure(LoopSpins)
      else
        var rest :- Parse(f, data, t.next, end, limit, count + 1, fuel - 1);
        Success(Read([t.element] + rest.value, rest.next))
  }

  /**
   * Every message the loop returns has a declared type and was read by a
   * class of its own: the loop never reads a message with the base class.
   */
  lemma {:induction false} MessagesOwnClass(data: seq<byte>, pos: nat, end: int, limit: int, count: nat, fuel: nat)
    requires pos <= |data|
    ensures var r := Parse(Messages, data, pos, end, limit, count, fuel);
      r.Success? ==> forall e :: e in r.value.value ==> e.ownClass && MessageType.TypeOfCode(e.header.typeCode).Some?
    decreases fuel
  {
    if limit == 0 || count <= limit {
      var t := TakeTurn(Messages, data, pos, end);
      if t.Success? && t.value.Take? && fuel > 0 {
        MessagesOwnClass(data, t.value.next, end, limit, count + 1, fuel - 1);
      }
    }
  }

  /**
   * What the loop returns tiles the buffer from the cursor: each element
   * starts where the previous one moved the cursor, the loop stops where the
   * last one left it, and every element read lies within the range end and
   * the buffer limit.
   */
  lemma {:induction false} ParseShape(f: Family, data: seq<byte>, pos: nat, end: int, limit: int, count: nat, fuel: nat)
    requires ValidFamily(f) && pos <= |data|
    ensures var r := Parse(f, data, pos, end, limit, count, fuel);
      r.Success? ==> (Chained(f, pos, r.value.value, r.value.next) && r.value.next <= |data| &&
        forall e :: e in r.value.value ==> e.start + e.header.length <= end && e.start + e.header.length <= |data|)
    decreases fuel
  {
    if limit == 0 || count <= limit {
      var t := TakeTurn(f, data, pos, end);
      if t.Success? && t.value.Take? && fuel > 0 {
        ParseShape(f, data, t.value.next, end, limit, count + 1, fuel - 1);
      }
    }
  }

  /**
   * The turns the callers give the loop. With a limit it reads at most
   * limit + 1 elements. With none, its state is the cursor alone, which
   * stays within the buffer, so a loop that takes more than |data| + 1
   * turns has come back to a cursor it left and goes round for ever.
   */
  function Turns(data: seq<byte>, limit: int): nat
  {
    if limit > 0 then limit + 1 else |data| + 1
  }

  /** parseMessages(data, limit): every message from the cursor to the buffer's limit. */
  function ParseMessages(data: seq<byte>, pos: nat, limit: int): (r: Result<Read<seq<Element>>, Exception>)
    requires pos <= |data|
    ensures r.Success? && limit > 0 ==> |r.value.value| <= limit + 1
    ensures r.Success? && limit < 0 ==> r.value.value == [] && r.value.next == pos
    ensures r.Success? ==> r.value.next <= |data|
    ensures r != Failure(LoopSpins)
  {
    ParseShape(Messages, data, pos, |data|, limit, 0, Turns(data, limit));
    MessagesNeverSpin(data, pos, limit, 0, Turns(data, limit));
    Parse(Messages, data, pos, |data|, limit, 0, Turns(data, limit))
  }

  /** parseActions(data, length, limit) and its copies: the elements within length bytes of the cursor. */
  function ParseElements(f: Family, data: seq<byte>, pos: nat, length: int, limit: int): (r: Result<Read<seq<Element>>, Exception>)
    requires f.Elements? && ValidFamily(f) && pos <= |data|
    ensures r.Success? && limit > 0 ==> |r.value.value| <= limit + 1
    ensures r.Success? ==> r.value.next <= |data|
    ensures r.Failure? ==> r.error == NullPointer || r.error == IllegalPosition || r.error == LoopSpins
    ensures limit != 0 ==> r != Failure(LoopSpins)
  {
    ParseShape(f, data, pos, pos + length, limit, 0, Turns(data, limit));
    Parse(f, data, pos, pos + length, limit, 0, Turns(data, limit))
  }

  /** The elements parseActions and its copies return tile the range from the cursor and each lies within length bytes of it. */
  lemma ParseElementsShape(f: Family, data: seq<byte>, pos: nat, length: int, limit: int)
    requires f.Elements? && ValidFamily(f) && pos <= |data|
    ensures var r := ParseElements(f, data, pos, length, limit);
      r.Success? ==> (Chained(f, pos, r.value.value, r.value.next) &&
        forall e :: e in r.value.value ==> e.start + e.header.length <= pos + length)
  {
    ParseShape(f, data, pos, pos + length, limit, 0, Turns(data, limit));
  }

  /** The shortest element family with an own class for type 0, over two 4-byte elements. */
  const TwoElements: seq<byte> := [0, 0, 0, 4, 0, 0, 0, 4]

  /** limit 1 lets a second element through: the loop tests results.size() <= limit. */
  lemma LimitAllowsOneMore()
    ensures ParseElements(Elements(4, 4, map[0 := true]), TwoElements, 0, 8, 1) ==
      Success(Read([Element(Header(0, 4), 0, true), Element(Header(0, 4), 4, true)], 8))
  {
    var f := Elements(4, 4, map[0 := true]);
    var d := TwoElements;
    assert [0, 0][..1] == [0] && [0, 4][..1] == [0];
    assert d[0..2] == [0, 0] && d[2..4] == [0, 4] && d[4..6] == [0, 0] && d[6..8] == [0, 4];
    assert Parse(f, d, 8, 8, 1, 2, 0) == Success(Read([], 8));
    assert PeekHeader(f, d, 4) == Success(Header(0, 4));
    assert ClassFor(f, Header(0, 4)) == Success(true);
    var e1 := Element(Header(0, 4), 4, true);
    assert TakeTurn(f, d, 4, 8) == Success(Take(e1, 8));
    assert [e1] + [] == [e1];
    assert Parse(f, d, 4, 8, 1, 1, 1) == Success(Read([Element(Header(0, 4), 4, true)], 8));
    assert PeekHeader(f, d, 0) == Success(Header(0, 4));
    var e0 := Element(Header(0, 4), 0, true);
    assert TakeTurn(f, d, 0, 8) == Success(Take(e0, 4));
    assert Parse(f, d, 0, 8, 1, 0, 2) == Success(Read([e0] + [e1], 8));
    assert [e0] + [e1] == [e0, e1];
  }

  /** A HELLO message with no limit: one message, the whole buffer. */
  const HelloBytes: seq<byte> := [4, 0, 0, 8, 0, 0, 0, 1]

  /** A ROLE_REQUEST carrying only its header: read by its own class, ending at its declared length. */
  lemma RoleRequestParses()
    ensures ParseMessages([4, 24, 0, 8, 0, 0, 0, 0], 0, 0) == Success(Read([Element(Header(24, 8), 0, true)], 8))
  {
    var d: seq<byte> := [4, 24, 0, 8, 0, 0, 0, 0];
    assert d[2..4] == [0, 8] && [0, 8][..1] == [0];
    assert MessageType.TypeOfCode(24) == Some(MessageType.RoleRequest);
    assert PeekHeader(Messages, d, 0) == Success(Header(24, 8));
    var e := Element(Header(24, 8), 0, true);
    assert TakeTurn(Messages, d, 0, 8) == Success(Take(e, 8));
    assert Parse(Messages, d, 8, 8, 0, 1, 8) == Success(Read([], 8));
    assert [e] + [] == [e];
  }

  /** parseMessages with no limit reads the one HELLO and stops at the end of the buffer. */
  lemma HelloParses()
    ensures ParseMessages(HelloBytes, 0, 0) == Success(Read([Element(Header(0, 8), 0, true)], 8))
  {
    var d := HelloBytes;
    assert d[2..4] == [0, 8] && [0, 8][..1] == [0];
    assert PeekHeader(Messages, d, 0) == Success(Header(0, 8));
    var e := Element(Header(0, 8), 0, true);
    assert TakeTurn(Messages, d, 0, 8) == Success(Take(e, 8));
    assert Parse(Messages, d, 8, 8, 0, 1, 8) == Success(Read([], 8));
    assert [e] + [] == [e];
  }

  /**
   * An 8-byte buffer holding one message of a declared type that declares 8
   * bytes or fewer: the loop reads it with its own class, whose readFrom
   * takes the whole 8-byte header, and stops at the end of the buffer.
   */
  lemma HeaderOnlyParses(data: seq<byte>)
    requires |data| == 8 && MessageType.TypeOfCode(ToI8(data[1])).Some? && DeclaredLength(data, 0) <= 8
    ensures ParseMessages(data, 0, 0) == Success(Read([Element(Header(ToI8(data[1]), DeclaredLength(data, 0)), 0, true)], 8))
  {
    var e := Element(Header(ToI8(data[1]), DeclaredLength(data, 0)), 0, true);
    HeaderOnlyTurn(data);
    ParseTakeStep(Messages, data, 0, 8, 0, 9, e, 8);
    ParseAtEnd(Messages, data, 0, 1, 8);
    assert [e] + [] == [e];
  }

  /** The one turn over such a buffer reads the message and moves the cursor 8 bytes on. */
  lemma HeaderOnlyTurn(data: seq<byte>)
    requires |data| == 8 && MessageType.TypeOfCode(ToI8(data[1])).Some? && DeclaredLength(data, 0) <= 8
    ensures TakeTurn(Messages, data, 0, 8) == Success(Take(Element(Header(ToI8(data[1]), DeclaredLength(data, 0)), 0, true), 8))
  {
    MessageType.TypeValueOfCode(ToI8(data[1]));
  }

  /** At the end of the buffer the loop reads nothing more. */
  lemma ParseAtEnd(f: Family, data: seq<byte>, limit: int, count: nat, fuel: nat)
    requires ValidFamily(f)
    ensures Parse(f, data, |data|, |data|, limit, count, fuel) == Success(Read([], |data|))
  {
  }

  /**
   * parseMessages over a HELLO (version 4) that declares a length of 0,
   * whatever its xid: its readFrom still reads the 8-byte header, so the
   * loop moves past it and stops with nothing left.
   */
  lemma ZeroLengthHelloParses(xid: seq<byte>)
    requires |xid| == 4
    ensures ParseMessages([4, 0, 0, 0] + xid, 0, 0) == Success(Read([Element(Header(0, 0), 0, true)], 8))
  {
    var d := [4, 0, 0, 0] + xid;
    assert d[2..4] == [0, 0] && [0, 0][..1] == [0];
    assert DeclaredLength(d, 0) == 0 && ToI8(d[1]) == 0;
    HeaderOnlyParses(d);
  }

  /**
   * Elements read by classes of their own follow one another with no gap or
   * overlap: each starts where the previous one's span ends, and the loop
   * stops at the end of the last.
   */
  lemma {:induction false} ChainedTiles(f: Family, pos: int, es: seq<Element>, next: int)
    requires Chained(f, pos, es, next)
    requires forall i :: 0 <= i < |es| ==> es[i].ownClass
    ensures |es| == 0 ==> next == pos
    ensures |es| > 0 ==> es[0].start == pos && next == es[|es| - 1].start + Span(f, es[|es| - 1])
    ensures forall i :: 0 <= i < |es| - 1 ==> es[i + 1].start == es[i].start + Span(f, es[i])
    decreases |es|
  {
    if |es| > 0 {
      var rest := es[1..];
      assert forall i :: 0 <= i < |rest| ==> rest[i] == es[i + 1];
      ChainedTiles(f, Next(f, es[0]), rest, next);
    }
  }

  /**
   * The messages parsed from pos lie back to back from pos, each taking its
   * declared length, or the 8-byte header when it declares less.
   */
  lemma ParseMessagesTiles(data: seq<byte>, pos: nat, limit: int)
    requires pos <= |data|
    ensures var r := ParseMessages(data, pos, limit);
      r.Success? ==>
        var es := r.value.value;
        (|es| == 0 ==> r.value.next == pos) &&
        (|es| > 0 ==> es[0].start == pos && r.value.next == es[|es| - 1].start + Span(Messages, es[|es| - 1])) &&
        (forall i :: 0 <= i < |es| - 1 ==> es[i + 1].start == es[i].start + Span(Messages, es[i])) &&
        (forall e :: e in es ==> Span(Messages, e) == if e.header.length < 8 then 8 else e.header.length)
  {
    var r := ParseMessages(data, pos, limit);
    ParseShape(Messages, data, pos, |data|, limit, 0, Turns(data, limit));
    MessagesOwnClass(data, pos, |data|, limit, 0, Turns(data, limit));
    if r.Success? {
      ChainedTiles(Messages, pos, r.value.value, r.value.next);
    }
  }

  /**
   * parseMessages never loops for ever: every message moves the cursor at
   * least 8 bytes on, so with at least one turn per byte left the loop
   * stops before the turns run out.
   */
  lemma {:induction false} MessagesNeverSpin(data: seq<byte>, pos: nat, limit: int, count: nat, fuel: nat)
    requires pos <= |data| && (pos + fuel > |data| || (limit != 0 && count + fuel > limit))
    ensures Parse(Messages, data, pos, |data|, limit, count, fuel) != Failure(LoopSpins)
    decreases fuel
  {
    if pos + fuel > |data| && (limit == 0 || count <= limit) {
      var t := TakeTurn(Messages, data, pos, |data|);
      if t.Success? && t.value.Take? {
        assert t.value.element.ownClass;
        MessagesNeverSpin(data, t.value.next, limit, count + 1, fuel - 1);
      }
    }
  }

  /**
   * An element header as a well-formed element writes it: a 16-bit type
   * with a class, either its own or a base class that reads the whole
   * minimum, and a 16-bit length no shorter than the family's minimum.
   */
  predicate Framed(f: Family, h: Header)
  {
    f.Elements? && 0 <= h.typeCode < 0x1_0000 && Minimum(f) <= h.length < 0x1_0000 &&
    h.typeCode in f.classes && (f.classes[h.typeCode] || HeaderRead(f) == Minimum(f))
  }

  /** The bytes an element's writeTo writes: its declared length in all, the type and length shorts first. */
  predicate WritesHeader(h: Header, w: seq<byte>)
  {
    |w| == h.length && |w| >= 4 && w[..2] == Put(h.typeCode, 2) && w[2..4] == Put(h.length, 2)
  }

  /** Every element is framed and written by write with its own header. */
  predicate AllWritten(f: Family, es: seq<Element>, write: Element -> seq<byte>)
  {
    forall i :: 0 <= i < |es| ==> Framed(f, es[i].header) && WritesHeader(es[i].header, write(es[i]))
  }

  /** Elements written one after another, each by the given writeTo. */
  function WriteElements(es: seq<Element>, write: Element -> seq<byte>): seq<byte>
  {
    if |es| == 0 then [] else write(es[0]) + WriteElements(es[1..], write)
  }

  /** The sum of the elements' declared lengths. */
  function ElementsLength(es: seq<Element>): nat
  {
    if |es| == 0 then 0 else es[0].header.length + ElementsLength(es[1..])
  }

  /**
   * The elements as the loop reads them back from q: the same headers, each
   * starting where the previous one ended, read by the class its type selects.
   */
  function Placed(f: Family, es: seq<Element>, q: nat): (r: seq<Element>)
    ensures |r| == |es|
    ensures forall i :: 0 <= i < |es| ==> r[i].header == es[i].header
    ensures |es| > 0 ==> r[0].start == q
  {
    if |es| == 0 then []
    else
      var h := es[0].header;
      [Element(h, q, f.Elements? && h.typeCode in f.classes && f.classes[h.typeCode])] + Placed(f, es[1..], q + h.length)
  }

  lemma {:induction false} WriteElementsLength(es: seq<Element>, write: Element -> seq<byte>)
    requires forall i :: 0 <= i < |es| ==> |write(es[i])| == es[i].header.length
    ensures |WriteElements(es, write)| == ElementsLength(es)
    decreases |es|
  {
    if |es| > 0 {
      assert forall i :: 0 <= i < |es[1..]| ==> es[1..][i] == es[i + 1];
      WriteElementsLength(es[1..], write);
    }
  }

  /** Framed elements are at least 4 bytes each, so there are no more of them than a quarter of their total length. */
  lemma {:induction false} FramedCount(f: Family, es: seq<Element>, write: Element -> seq<byte>)
    requires ValidFamily(f) && AllWritten(f, es, write)
    ensures 4 * |es| <= ElementsLength(es)
    decreases |es|
  {
    if |es| > 0 {
      assert Framed(f, es[0].header);
      assert forall i :: 0 <= i < |es[1..]| ==> es[1..][i] == es[i + 1];
      FramedCount(f, es[1..], write);
    }
  }

  /** The turn at q reads the element written there, with the class its type selects, and moves past it. */
  lemma TurnOfWritten(f: Family, h: Header, w: seq<byte>, data: seq<byte>, q: nat, end: int)
    requires ValidFamily(f) && Framed(f, h) && WritesHeader(h, w)
    requires q + |w| <= end && q + |w| <= |data| && data[q..q + |w|] == w
    ensures TakeTurn(f, data, q, end) == Success(Take(Element(h, q, f.classes[h.typeCode]), q + h.length))
  {
    Pow256Widths();
    var n := |w|;
    assert w[..2] + w[2..] == w;
    assert w[2..4] + w[4..] == w[2..];
    SplitAt(data, q, q + 2, q + n, w[..2], w[2..]);
    SplitAt(data, q + 2, q + 4, q + n, w[2..4], w[4..]);
    ReadPutAt(data, q, h.typeCode, 2);
    ReadPutAt(data, q + 2, h.length, 2);
    assert PeekHeader(f, data, q) == Success(h);
    assert ClassFor(f, h) == Success(f.classes[h.typeCode]);
  }

  /** The element e in front of what the rest of the loop returns; a failure passes through. */
  function Prepend(e: Element, r: Result<Read<seq<Element>>, Exception>): Result<Read<seq<Element>>, Exception>
  {
    if r.Success? then Success(Read([e] + r.value.value, r.value.next)) else r
  }

  /** With no limit, a turn that reads e and moves to next puts e in front of the rest of the loop. */
  lemma ParseTakeStep(f: Family, data: seq<byte>, pos: nat, end: int, count: nat, fuel: nat, e: Element, next: nat)
    requires ValidFamily(f) && pos <= |data| && next <= |data| && fuel > 0
    requires TakeTurn(f, data, pos, end) == Success(Take(e, next))
    ensures Parse(f, data, pos, end, 0, count, fuel) == Prepend(e, Parse(f, data, next, end, 0, count + 1, fuel - 1))
  {
  }

  /** With no limit, a turn that would read an element with no fuel left gives LoopSpins. */
  lemma ParseNoFuel(f: Family, data: seq<byte>, pos: nat, end: int, count: nat)
    requires ValidFamily(f) && pos <= |data|
    requires TakeTurn(f, data, pos, end).Success? && TakeTurn(f, data, pos, end).value.Take?
    ensures Parse(f, data, pos, end, 0, count, 0) == Failure(LoopSpins)
  {
  }

  /** With no limit, a turn that reads an element runs out of fuel exactly when the rest of the loop does. */
  lemma ParseTakeSpins(f: Family, data: seq<byte>, pos: nat, end: int, count: nat, fuel: nat, e: Element, next: nat)
    requires ValidFamily(f) && pos <= |data| && next <= |data| && fuel > 0
    requires TakeTurn(f, data, pos, end) == Success(Take(e, next))
    ensures Parse(f, data, pos, end, 0, count, fuel) == Failure(LoopSpins) <==> Parse(f, data, next, end, 0, count + 1, fuel - 1) == Failure(LoopSpins)
  {
    ParseTakeStep(f, data, pos, end, count, fuel, e, next);
    PrependFailure(e, Parse(f, data, next, end, 0, count + 1, fuel - 1), LoopSpins);
  }

  /** Putting an element in front keeps a failure as it is. */
  lemma PrependFailure(e: Element, r: Result<Read<seq<Element>>, Exception>, x: Exception)
    ensures Prepend(e, r) == Failure(x) <==> r == Failure(x)
  {
  }

  /** With no limit, a turn that does not read an element ends the loop, whatever the fuel: its exception, or nothing read. */
  lemma ParseOtherStep(f: Family, data: seq<byte>, pos: nat, end: int, count: nat, fuel: nat)
    requires ValidFamily(f) && pos <= |data|
    requires !(TakeTurn(f, data, pos, end).Success? && TakeTurn(f, data, pos, end).value.Take?)
    ensures Parse(f, data, pos, end, 0, count, fuel) ==
      if TakeTurn(f, data, pos, end).Failure? then Failure(TakeTurn(f, data, pos, end).error) else Success(Read([], pos))
  {
  }

  /** The turns from cursor q read the elements es one after another, then stop at stop. */
  predicate TurnsRead(f: Family, data: seq<byte>, q: nat, end: int, es: seq<Element>, stop: nat)
    requires ValidFamily(f) && q <= |data|
    decreases |es|
  {
    if |es| == 0 then q == stop && TakeTurn(f, data, q, end) == Success(Stop)
    else
      var next := Next(f, es[0]);
      0 <= next <= |data| && TakeTurn(f, data, q, end) == Success(Take(es[0], next)) &&
      TurnsRead(f, data, next, end, es[1..], stop)
  }

  /** With no limit and a turn for every element, the loop returns what its turns read. */
  lemma {:induction false} ParseOfTurns(f: Family, data: seq<byte>, q: nat, end: int, count: nat, fuel: nat,
                                        es: seq<Element>, stop: nat)
    requires ValidFamily(f) && q <= |data| && TurnsRead(f, data, q, end, es, stop) && fuel >= |es|
    ensures Parse(f, data, q, end, 0, count, fuel) == Success(Read(es, stop))
    decreases |es|
  {
    if |es| > 0 {
      var next := Next(f, es[0]);
      ParseOfTurns(f, data, next, end, count + 1, fuel - 1, es[1..], stop);
      ParseTakeStep(f, data, q, end, count, fuel, es[0], next);
      assert [es[0]] + es[1..] == es;
    }
  }

  /**
   * With no limit, elements written back to back from q to end read back as
   * the same headers placed one after another, and the loop stops at end,
   * given a turn for every element.
   */
  lemma ParseWritten(f: Family, es: seq<Element>, write: Element -> seq<byte>,
                     data: seq<byte>, q: nat, end: nat, count: nat, fuel: nat)
    requires ValidFamily(f) && AllWritten(f, es, write)
    requires q <= end <= |data| && data[q..end] == WriteElements(es, write)
    requires fuel >= |es|
    ensures Parse(f, data, q, end, 0, count, fuel) == Success(Read(Placed(f, es, q), end))
  {
    WrittenTurns(f, es, write, data, q, end);
    ParseOfTurns(f, data, q, end, count, fuel, Placed(f, es, q), end);
  }

  /** The turns over elements written from q to end read each one back in place and stop at end. */
  lemma {:induction false} WrittenTurns(f: Family, es: seq<Element>, write: Element -> seq<byte>,
                                        data: seq<byte>, q: nat, end: nat)
    requires ValidFamily(f) && AllWritten(f, es, write)
    requires q <= end <= |data| && data[q..end] == WriteElements(es, write)
    ensures TurnsRead(f, data, q, end, Placed(f, es, q), end)
    decreases |es|
  {
    if |es| == 0 {
      assert q == end;
      assert TakeTurn(f, data, q, end) == Success(Stop);
    } else {
      var next := q + es[0].header.length;
      WrittenSplit(es, write, data, q, end);
      AllWrittenTail(f, es, write);
      WrittenTurns(f, es[1..], write, data, next, end);
      WrittenTurnsCons(f, es, write, data, q, end);
    }
  }

  /** The turn over the first written element, followed by the turns over the rest. */
  lemma WrittenTurnsCons(f: Family, es: seq<Element>, write: Element -> seq<byte>, data: seq<byte>, q: nat, end: nat)
    requires ValidFamily(f) && AllWritten(f, es, write) && |es| > 0
    requires q + es[0].header.length <= end <= |data| && data[q..q + es[0].header.length] == write(es[0])
    requires TurnsRead(f, data, q + es[0].header.length, end, Placed(f, es[1..], q + es[0].header.length), end)
    ensures TurnsRead(f, data, q, end, Placed(f, es, q), end)
  {
    var h := es[0].header;
    var next := q + h.length;
    assert Framed(f, h) && WritesHeader(h, write(es[0]));
    TurnOfWritten(f, h, write(es[0]), data, q, end);
    PlacedCons(f, es, q);
    TurnsReadCons(f, data, q, end, Element(h, q, f.classes[h.typeCode]), next, Placed(f, es[1..], next), end);
  }

  /** A turn that reads e and moves to next, then turns that read the rest. */
  lemma TurnsReadCons(f: Family, data: seq<byte>, q: nat, end: int, e: Element, next: nat, rest: seq<Element>, stop: nat)
    requires ValidFamily(f) && q <= |data| && next <= |data| && Next(f, e) == next
    requires TakeTurn(f, data, q, end) == Success(Take(e, next)) && TurnsRead(f, data, next, end, rest, stop)
    ensures TurnsRead(f, data, q, end, [e] + rest, stop)
  {
    assert ([e] + rest)[1..] == rest;
  }

  /** The first of the elements written from q to end, and the rest written after it. */
  lemma WrittenSplit(es: seq<Element>, write: Element -> seq<byte>, data: seq<byte>, q: nat, end: nat)
    requires |es| > 0 && |write(es[0])| == es[0].header.length
    requires q <= end <= |data| && data[q..end] == WriteElements(es, write)
    ensures q + es[0].header.length <= end
    ensures data[q..q + es[0].header.length] == write(es[0])
    ensures data[q + es[0].header.length..end] == WriteElements(es[1..], write)
  {
    var w := write(es[0]);
    var rest := WriteElements(es[1..], write);
    assert data[q..end] == w + rest;
    SplitAt(data, q, q + |w|, end, w, rest);
  }

  /** Every element after the first is framed and written with its own header too. */
  lemma AllWrittenTail(f: Family, es: seq<Element>, write: Element -> seq<byte>)
    requires AllWritten(f, es, write) && |es| > 0
    ensures AllWritten(f, es[1..], write)
  {
    var tail := es[1..];
    forall i | 0 <= i < |tail|
      ensures Framed(f, tail[i].header) && WritesHeader(tail[i].header, write(tail[i]))
    {
      assert tail[i] == es[i + 1];
    }
  }

  lemma PlacedCons(f: Family, es: seq<Element>, q: nat)
    requires f.Elements? && |es| > 0 && es[0].header.typeCode in f.classes
    ensures Placed(f, es, q) ==
      [Element(es[0].header, q, f.classes[es[0].header.typeCode])] + Placed(f, es[1..], q + es[0].header.length)
  {
  }

  /** parseActions and its copies, with no limit, read elements written to fill the length back as the same headers. */
  lemma ParseElementsWritten(f: Family, es: seq<Element>, write: Element -> seq<byte>, data: seq<byte>, q: nat, length: nat)
    requires f.Elements? && ValidFamily(f) && AllWritten(f, es, write)
    requires q + length <= |data| && data[q..q + length] == WriteElements(es, write)
    ensures ParseElements(f, data, q, length, 0) == Success(Read(Placed(f, es, q), q + length))
  {
    assert forall i :: 0 <= i < |es| ==> |write(es[i])| == es[i].header.length by {
      forall i | 0 <= i < |es| ensures |write(es[i])| == es[i].header.length {
        assert WritesHeader(es[i].header, write(es[i]));
      }
    }
    WriteElementsLength(es, write);
    FramedCount(f, es, write);
    ParseWritten(f, es, write, data, q, q + length, 0, Turns(data, 0));
  }

  /**
   * With a limit, the loop reads one element more than the limit whenever
   * its turns have that many to read: it tests the count before it adds the
   * element, so the test still passes at limit.
   */
  lemma {:induction false} LimitReadsOneMore(f: Family, data: seq<byte>, q: nat, end: int, limit: int, count: nat, fuel: nat,
                                             es: seq<Element>, stop: nat)
    requires ValidFamily(f) && q <= |data| && TurnsRead(f, data, q, end, es, stop)
    requires 0 < limit && count <= limit + 1 && limit + 1 - count <= |es| && limit + 1 - count <= fuel
    ensures Parse(f, data, q, end, limit, count, fuel).Success?
    ensures Parse(f, data, q, end, limit, count, fuel).value.value == es[..limit + 1 - count]
    decreases limit + 1 - count
  {
    if count <= limit {
      var next := TurnsReadFirst(f, data, q, end, es, stop);
      var c1: nat, f1: nat := count + 1, fuel - 1;
      LimitReadsOneMore(f, data, next, end, limit, c1, f1, es[1..], stop);
      LimitTurn(f, data, q, end, limit, count, fuel, c1, f1, es, next);
    } else {
      ParseOverLimit(f, data, q, end, limit, count, fuel);
    }
  }

  /** A turn that reads the first of es, in front of a rest of the loop that returns the next ones. */
  lemma LimitTurn(f: Family, data: seq<byte>, q: nat, end: int, limit: int, count: nat, fuel: nat, count': nat, fuel': nat,
                  es: seq<Element>, next: nat)
    requires ValidFamily(f) && q <= |data| && next <= |data| && 0 < fuel && count <= limit && limit + 1 - count <= |es|
    requires count' == count + 1 && fuel' == fuel - 1
    requires TakeTurn(f, data, q, end) == Success(Take(es[0], next))
    requires Parse(f, data, next, end, limit, count', fuel').Success?
    requires Parse(f, data, next, end, limit, count', fuel').value.value == es[1..][..limit + 1 - count']
    ensures Parse(f, data, q, end, limit, count, fuel).Success?
    ensures Parse(f, data, q, end, limit, count, fuel).value.value == es[..limit + 1 - count]
  {
    var rest := Parse(f, data, next, end, limit, count', fuel');
    ParseLimitStep(f, data, q, end, limit, count, fuel, es[0], next);
    PrependSuccess(es[0], rest);
    PrefixCons(es, limit + 1 - count);
  }

  /** Once the count has passed a positive limit, the loop returns nothing more. */
  lemma ParseOverLimit(f: Family, data: seq<byte>, pos: nat, end: int, limit: int, count: nat, fuel: nat)
    requires ValidFamily(f) && pos <= |data| && 0 < limit < count
    ensures Parse(f, data, pos, end, limit, count, fuel) == Success(Read([], pos))
  {
  }

  /** Putting an element in front of a success keeps it a success, one element longer. */
  lemma PrependSuccess(e: Element, r: Result<Read<seq<Element>>, Exception>)
    requires r.Success?
    ensures Prepend(e, r).Success? && Prepend(e, r).value.value == [e] + r.value.value
  {
  }

  /** The first turn of turns that read a non-empty es reads its first element. */
  lemma TurnsReadFirst(f: Family, data: seq<byte>, q: nat, end: int, es: seq<Element>, stop: nat) returns (next: nat)
    requires ValidFamily(f) && q <= |data| && TurnsRead(f, data, q, end, es, stop) && |es| > 0
    ensures next == Next(f, es[0]) && next <= |data|
    ensures TakeTurn(f, data, q, end) == Success(Take(es[0], next)) && TurnsRead(f, data, next, end, es[1..], stop)
  {
    next := Next(f, es[0]);
  }

  /** The first n elements are the first one and the n - 1 after it. */
  lemma PrefixCons<T>(s: seq<T>, n: nat)
    requires 0 < n <= |s|
    ensures s[..n] == [s[0]] + s[1..][..n - 1]
  {
  }

  /** A turn the limit lets run that reads e and moves to next puts e in front of the rest of the loop. */
  lemma ParseLimitStep(f: Family, data: seq<byte>, pos: nat, end: int, limit: int, count: nat, fuel: nat, e: Element, next: nat)
    requires ValidFamily(f) && pos <= |data| && next <= |data| && fuel > 0 && count <= limit
    requires TakeTurn(f, data, pos, end) == Success(Take(e, next))
    ensures Parse(f, data, pos, end, limit, count, fuel) == Prepend(e, Parse(f, data, next, end, limit, count + 1, fuel - 1))
  {
  }

  /**
   * parseActions and its copies with a limit of at least 1, over more
   * elements than the limit written back to back, return limit + 1 of them.
   */
  lemma ParseElementsLimit(f: Family, es: seq<Element>, write: Element -> seq<byte>, data: seq<byte>, q: nat, length: nat, limit: int)
    requires f.Elements? && ValidFamily(f) && AllWritten(f, es, write)
    requires q + length <= |data| && data[q..q + length] == WriteElements(es, write)
    requires 0 < limit < |es|
    ensures ParseElements(f, data, q, length, limit).Success?
    ensures ParseElements(f, data, q, length, limit).value.value == Placed(f, es, q)[..limit + 1]
    ensures |ParseElements(f, data, q, length, limit).value.value| == limit + 1
  {
    var placed := Placed(f, es, q);
    var end: nat, fuel: nat := q + length, Turns(data, limit);
    WrittenTurns(f, es, write, data, q, end);
    LimitReadsOneMore(f, data, q, end, limit, 0, fuel, placed, end);
    assert |placed| == |es|;
  }

  /** A base-class element moves the cursor by its declared length exactly when the base class reads MINIMUM_LENGTH bytes. */
  lemma GenericElementAdvance(f: Family, e: Element)
    requires !e.ownClass
    ensures Next(f, e) == e.start + e.header.length <==> HeaderRead(f) == Minimum(f)
  {
  }

  /**
   * What the multipart loop sees of the statistics class it instantiates: a
   * vendor record, whose length is set to the whole body length before each
   * read, or a record class whose fresh instance reports a length of size and
   * whose readFrom consumes that many bytes.
   */
  datatype RecordClass = VendorRecord | FixedRecord(size: nat)

  /** getLength of the fresh instance the loop tests against, after setLength for a vendor record. */
  function FreshLength(c: RecordClass, length: int): int
  {
    if c.VendorRecord? then length else c.size
  }

  /**
   * One multipart record read by the loop: a vendor record, or the bytes a
   * fixed-size record consumed, which its writeTo writes back.
   */
  datatype Record =
    | VendorData(stats: Statistics.VendorStatistics)
    | FixedData(bytes: seq<byte>)

  /**
   * getLength of a record once read, which the loop adds to its count, and
   * its computeLength: a vendor record reports its stored length.
   */
  function RecordLength(r: Record): int
  {
    if r.VendorData? then r.stats.length else |r.bytes|
  }

  /** writeTo of one record: a vendor record as it writes itself, a fixed one as the bytes it read. */
  function WriteRecord(r: Record): seq<byte>
  {
    if r.VendorData? then Statistics.WriteVendor(r.stats) else r.bytes
  }

  function WriteRecords(rs: seq<Record>): seq<byte>
  {
    if |rs| == 0 then [] else WriteRecord(rs[0]) + WriteRecords(rs[1..])
  }

  function RecordsLength(rs: seq<Record>): int
  {
    if |rs| == 0 then 0 else RecordLength(rs[0]) + RecordsLength(rs[1..])
  }

  /** readFrom on a fresh instance at pos; a vendor record reads 8 + length - 8 bytes. */
  function ReadRecord(c: RecordClass, length: int, data: seq<byte>, pos: nat): (r: Result<Read<Record>, Exception>)
    ensures r.Success? ==> RecordLength(r.value.value) == FreshLength(c, length)
    ensures r.Success? ==> r.value.next == pos + RecordLength(r.value.value) <= |data|
    ensures r.Success? && c.VendorRecord? ==> r.value.value.VendorData? && length >= Statistics.VendorMinimumLength
    ensures r.Failure? ==> r.error == BufferUnderflow || (r.error == NegativeArraySize && c.VendorRecord?)
  {
    if c.VendorRecord? then
      var v :- Statistics.ReadVendor(Statistics.NewVendorStatistics.(length := length), data, pos);
      Success(Read(VendorData(v.value), v.next))
    else
      var bytes :- ReadBytes(data, pos, c.size);
      Success(Read(FixedData(bytes), pos + c.size))
  }

  /**
   * The multipart loop body, from cursor pos with count bytes of the length
   * bytes of records accounted for and size records read. A record is read
   * while the remaining length holds a fresh instance; a shorter remainder
   * is thrown away by moving the cursor to start + length.
   */
  function ParseMultipart(c: RecordClass, data: seq<byte>, start: nat, pos: nat, length: int, limit: int, count: nat, size: nat)
    : (r: Result<Read<seq<Record>>, Exception>)
    requires pos <= |data| && pos == start + count
    requires limit > 0 || c.VendorRecord? || c.size > 0
    ensures r.Success? && 0 < limit && size <= limit + 1 ==> size + |r.value.value| <= limit + 1
    ensures r.Success? ==> r.value.value == [] || count + RecordsLength(r.value.value) <= length
    ensures r.Success? && count <= length && (limit == 0 || size + |r.value.value| <= limit) ==>
      r.value.next == start + length
    ensures r.Success? && !(limit == 0 || size + |r.value.value| <= limit) ==>
      r.value.next == pos + RecordsLength(r.value.value)
    ensures r.Success? ==> r.value.next <= |data|
    ensures r.Success? && c.VendorRecord? ==> |r.value.value| <= 1
    ensures r.Success? && c.VendorRecord? ==>
      forall i :: 0 <= i < |r.value.value| ==> r.value.value[i].VendorData? && r.value.value[i].stats.length == length
    ensures r.Failure? ==> r.error in {BufferUnderflow, NegativeArraySize, IllegalPosition}
    decreases if limit > 0 then limit + 1 - size else 0,
              if c.VendorRecord? then (if count < length then 1 else 0) else length - count
  {
    if !(limit == 0 || size <= limit) then Success(Read([], pos))
    else if length - count >= FreshLength(c, length) then
      var rec :- ReadRecord(c, length, data, pos);
      var rest :- ParseMultipart(c, data, start, rec.next, length, limit, count + RecordLength(rec.value), size + 1);
      var rs := [rec.value] + rest.value;
      assert rs[0] == rec.value && rs[1..] == rest.value;
      assert RecordsLength(rs) == RecordLength(rec.value) + RecordsLength(rest.value);
      Success(Read(rs, rest.next))
    else if count < length then
      var p :- Seek(data, start + length);
      Success(Read([], p))
    else Success(Read([], pos))
  }

  /** parseMultipartData(t, st, data, length, limit), with the record class that st.newInstance(t) gives. */
  function ParseMultipartData(c: RecordClass, data: seq<byte>, pos: nat, length: int, limit: int)
    : (r: Result<Read<seq<Record>>, Exception>)
    requires pos <= |data|
    requires limit > 0 || c.VendorRecord? || c.size > 0
    ensures r.Success? && 0 < limit ==> |r.value.value| <= limit + 1
    ensures r.Success? ==> r.value.value == [] || RecordsLength(r.value.value) <= length
    ensures r.Success? && 0 <= length && (limit == 0 || |r.value.value| <= limit) ==> r.value.next == pos + length
    ensures r.Success? ==> r.value.next <= |data|
    ensures r.Success? && c.VendorRecord? ==>
      |r.value.value| <= 1 && forall i :: 0 <= i < |r.value.value| ==> r.value.value[i].VendorData? && r.value.value[i].stats.length == length
    ensures r.Failure? ==> r.error in {BufferUnderflow, NegativeArraySize, IllegalPosition}
  {
    ParseMultipart(c, data, pos, pos, length, limit, 0, 0)
  }

  /**
   * A vendor body of at least 8 bytes within the buffer is read as one
   * record that spans the whole body, whose length is the body length.
   */
  lemma VendorBodyIsOneRecord(data: seq<byte>, pos: nat, length: int, limit: int)
    requires pos + length <= |data| && Statistics.VendorMinimumLength <= length && 0 <= limit
    ensures ParseMultipartData(VendorRecord, data, pos, length, limit).Success?
    ensures var r := ParseMultipartData(VendorRecord, data, pos, length, limit).value;
      |r.value| == 1 && r.value[0].stats.length == length && r.next == pos + length
  {
    var v := Statistics.ReadVendor(Statistics.NewVendorStatistics.(length := length), data, pos);
    assert v.Success?;
    var rec := ReadRecord(VendorRecord, length, data, pos);
    assert ParseMultipart(VendorRecord, data, pos, rec.value.next, length, limit, length, 1) == Success(Read([], pos + length));
  }

  /**
   * With no limit, a fixed-size record class yields one record per whole
   * record the remaining length holds, and the partial rest is skipped.
   */
  lemma {:induction false} FixedRecordCount(size: nat, data: seq<byte>, start: nat, pos: nat, length: int, count: nat, n: nat)
    requires size > 0 && pos <= |data| && pos == start + count && count <= length
    requires ParseMultipart(FixedRecord(size), data, start, pos, length, 0, count, n).Success?
    ensures |ParseMultipart(FixedRecord(size), data, start, pos, length, 0, count, n).value.value| == (length - count) / size
    decreases length - count
  {
    var c := FixedRecord(size);
    var r := ParseMultipart(c, data, start, pos, length, 0, count, n);
    if length - count >= size {
      var rec := ReadRecord(c, length, data, pos).value;
      var rest := ParseMultipart(c, data, start, rec.next, length, 0, count + size, n + 1);
      assert r.value.value == [rec.value] + rest.value.value;
      FixedRecordCount(size, data, start, rec.next, length, count + size, n + 1);
      DivStep(length - count, size);
    } else {
      DivModAdd(0, length - count, size);
    }
  }

  lemma DivStep(a: int, d: int)
    requires 0 < d <= a
    ensures a / d == 1 + (a - d) / d
  {
    var q := (a - d) / d;
    var m := (a - d) % d;
    DivModAdd(q + 1, m, d);
    assert a == (q + 1) * d + m;
  }

  /** A vendor record that reports its own written size reads back from its bytes as the whole body. */
  lemma ReadWriteVendorBody(v: Statistics.VendorStatistics, data: seq<byte>, pos: nat)
    requires v.body.Some? && v.length == Statistics.VendorMinimumLength + |v.body.value|
    requires pos + v.length <= |data| && data[pos..pos + v.length] == Statistics.WriteVendor(v)
    ensures ParseMultipartData(VendorRecord, data, pos, v.length, 0) == Success(Read([VendorData(v)], pos + v.length))
  {
    Statistics.ReadWriteVendor(v, data, pos);
    assert ReadRecord(VendorRecord, v.length, data, pos) == Success(Read(VendorData(v), pos + v.length));
    assert ParseMultipart(VendorRecord, data, pos, pos + v.length, v.length, 0, v.length, 1) == Success(Read([], pos + v.length));
    assert [VendorData(v)] + [] == [VendorData(v)];
    assert ParseMultipart(VendorRecord, data, pos, pos, v.length, 0, 0, 0) == Success(Read([VendorData(v)], pos + v.length));
  }

  /** Every record is the fixed-size record class's bytes. */
  predicate AllFixed(rs: seq<Record>, size: nat)
  {
    forall i :: 0 <= i < |rs| ==> rs[i].FixedData? && |rs[i].bytes| == size
  }

  /**
   * One turn of the loop with no limit over a fixed-size record class:
   * the record that fits at pos goes in front of what the next turn reads.
   */
  lemma FixedStep(size: nat, data: seq<byte>, start: nat, pos: nat, next: nat, count: nat, length: int, n: nat, r: Record, rest: seq<Record>)
    requires size > 0 && length - count >= size && pos == start + count && next == pos + size <= |data|
    requires r == FixedData(data[pos..next])
    requires ParseMultipart(FixedRecord(size), data, start, next, length, 0, count + size, n + 1) == Success(Read(rest, start + length))
    ensures ParseMultipart(FixedRecord(size), data, start, pos, length, 0, count, n) == Success(Read([r] + rest, start + length))
  {
    assert ReadRecord(FixedRecord(size), length, data, pos) == Success(Read(r, next));
  }

  /** The bytes of fixed-size records split into the first record's bytes and the rest's. */
  lemma FirstFixed(rs: seq<Record>, size: nat, data: seq<byte>, pos: nat, end: nat)
    requires |rs| > 0 && AllFixed(rs, size)
    requires pos <= end <= |data| && data[pos..end] == WriteRecords(rs)
    ensures pos + size <= end && rs[0] == FixedData(data[pos..pos + size])
    ensures data[pos + size..end] == WriteRecords(rs[1..]) && AllFixed(rs[1..], size)
  {
    var r := rs[0];
    assert r.FixedData? && |r.bytes| == size;
    var tail := WriteRecords(rs[1..]);
    assert WriteRecords(rs) == r.bytes + tail;
    SplitAt(data, pos, pos + size, end, r.bytes, tail);
    forall i | 0 <= i < |rs[1..]| ensures rs[1..][i].FixedData? && |rs[1..][i].bytes| == size {
      assert rs[1..][i] == rs[i + 1];
    }
  }

  /**
   * With no limit, fixed-size records written back to back, filling the
   * remaining length exactly, read back as the same records.
   */
  lemma {:induction false} ReadWriteFixedRecords(rs: seq<Record>, size: nat, data: seq<byte>, start: nat, count: nat, length: int, n: nat)
    requires size > 0 && AllFixed(rs, size)
    requires start + count <= start + length <= |data| && data[start + count..start + length] == WriteRecords(rs)
    ensures ParseMultipart(FixedRecord(size), data, start, start + count, length, 0, count, n) == Success(Read(rs, start + length))
    decreases |rs|
  {
    var pos := start + count;
    if |rs| == 0 {
      assert ParseMultipart(FixedRecord(size), data, start, pos, length, 0, count, n) == Success(Read([], pos));
    } else {
      FirstFixed(rs, size, data, pos, start + length);
      var count' := count + size;
      ReadWriteFixedRecords(rs[1..], size, data, start, count', length, n + 1);
      FixedCons(rs, size, data, start, count, count', length, n);
    }
  }

  /** The loop over fixed-size records: the first record at start + count, then what the next turn reads. */
  lemma FixedCons(rs: seq<Record>, size: nat, data: seq<byte>, start: nat, count: nat, count': nat, length: int, n: nat)
    requires size > 0 && |rs| > 0 && count' == count + size && start + count' <= start + length <= |data|
    requires rs[0] == FixedData(data[start + count..start + count'])
    requires ParseMultipart(FixedRecord(size), data, start, start + count', length, 0, count', n + 1) == Success(Read(rs[1..], start + length))
    ensures ParseMultipart(FixedRecord(size), data, start, start + count, length, 0, count, n) == Success(Read(rs, start + length))
  {
    var pos := start + count;
    var next := start + count';
    assert size > 0 && length - count >= size && pos == start + count && next == pos + size <= |data|;
    assert rs[0] == FixedData(data[pos..next]);
    assert ParseMultipart(FixedRecord(size), data, start, next, length, 0, count + size, n + 1) == Success(Read(rs[1..], start + length));
    FixedStep(size, data, start, pos, next, count, length, n, rs[0], rs[1..]);
    assert [rs[0]] + rs[1..] == rs;
  }

  /** A record whose reported length is the number of bytes it writes: a vendor record needs a body and a consistent length. */
  predicate SelfSized(r: Record)
  {
    r.FixedData? || (r.stats.body.Some? && r.stats.length == Statistics.VendorMinimumLength + |r.stats.body.value|)
  }

  /** When every record reports its own size, the records write as many bytes as their lengths add up to. */
  lemma {:induction false} WrittenLengthIsRecordsLength(rs: seq<Record>)
    requires forall i :: 0 <= i < |rs| ==> SelfSized(rs[i])
    ensures |WriteRecords(rs)| == RecordsLength(rs)
    decreases |rs|
  {
    if |rs| > 0 {
      assert SelfSized(rs[0]);
      assert forall i :: 0 <= i < |rs[1..]| ==> rs[1..][i] == rs[i + 1];
      WrittenLengthIsRecordsLength(rs[1..]);
    }
  }
}

=== FILE: legacy_match.dfy ===
/**
 * Decoding the fixed-layout standard match of the OpenFlow Switch
 * Specification 1.1 (struct ofp_match, section A.2.3) into OXM fields.
 * The decoder reads the layout in order and calls setField as it goes;
 * here it yields the list of fields it sets, in order, and the caller
 * applies them with SetAll. Each wildcard bit that is clear makes the
 * matching field be set; a set bit skips the bytes (not always all of
 * them). The decoder stops after the ethertype unless it is IPv4 or ARP,
 * and after the IP protocol unless it is TCP or UDP.
 */
module LegacyMatch {
  import opened Wrappers
  import opened Bytes
  import opened OxmFieldType
  import opened OxmField

  /** ofp_flow_wildcards bits (OpenFlow Switch Specification 1.1). */
  const WildInPort: nat := 0x1
  const WildDlVlan: nat := 0x2
  const WildDlVlanPcp: nat := 0x4
  const WildDlType: nat := 0x8
  const WildNwTos: nat := 0x10
  const WildNwProto: nat := 0x20
  const WildTpSrc: nat := 0x40
  const WildTpDst: nat := 0x80
  const WildMplsLabel: nat := 0x100
  const WildMplsTc: nat := 0x200
  const WildAll: nat := 0x3FF

  const EthTypeIpv4: int := 0x800
  const EthTypeArp: int := 0x806
  const EthTypeVlan: int := 0x8100
  const IpProtoTcp: int := 6
  const IpProtoUdp: int := 17
  const IpProtoSctp: int := 132

  /** `(wildcards & flag) == 0` for a one-bit flag: the field is to be matched. */
  predicate Clear(w: u32, flag: nat)
    requires flag > 0
  {
    (w / flag) % 2 == 0
  }

  /** The fields one stage sets, in order, and the value it hands to the next check. */
  datatype Stage<K> = Stage(calls: seq<Field>, key: K)

  /** Where each field the decoder can set lies in the fixed layout; the three kinds of port share their places. */
  function LayoutRank(t: FieldType): nat {
    if t == InPort then 0 else if t == EthSrc then 1 else if t == EthDst then 2
    else if t == VlanVid then 3 else if t == VlanPcp then 4 else if t == EthType then 5
    else if t == IpDscp then 6 else if t == IpProto then 7 else if t == Ipv4Src then 8 else if t == Ipv4Dst then 9
    else if t == TcpSrc || t == UdpSrc || t == SctpSrc then 10
    else if t == TcpDst || t == UdpDst || t == SctpDst then 11
    else if t == MplsLabel then 12 else if t == MplsTc then 13 else if t == Metadata then 14 else 15
  }

  /** Fields in strictly increasing layout order, every one placed from lo to hi. */
  predicate Ordered(fs: seq<Field>, lo: nat, hi: nat)
    decreases |fs|
  {
    |fs| == 0 || (lo <= LayoutRank(fs[0].ftype) <= hi && Ordered(fs[1..], LayoutRank(fs[0].ftype) + 1, hi))
  }

  /** Ordered fields stay ordered under a lower bound that is lower still. */
  lemma OrderedWeaken(fs: seq<Field>, lo: nat, lo': nat, hi: nat)
    requires Ordered(fs, lo, hi) && lo' <= lo
    ensures Ordered(fs, lo', hi)
  {
  }

  /** Ordered fields followed by ordered fields placed later are ordered. */
  lemma {:induction false} OrderedConcat(a: seq<Field>, b: seq<Field>, lo: nat, mid: nat, hi: nat)
    requires lo <= mid + 1 && mid <= hi
    requires Ordered(a, lo, mid) && Ordered(b, mid + 1, hi)
    ensures Ordered(a + b, lo, hi)
    decreases |a|
  {
    if |a| == 0 {
      assert a + b == b;
      OrderedWeaken(b, mid + 1, lo, hi);
    } else {
      var r := LayoutRank(a[0].ftype);
      assert (a + b)[1..] == a[1..] + b;
      OrderedConcat(a[1..], b, r + 1, mid, hi);
    }
  }

  /** Every field of an ordered run is placed from lo to hi. */
  lemma {:induction false} OrderedWithin(fs: seq<Field>, lo: nat, hi: nat)
    requires Ordered(fs, lo, hi)
    ensures forall k :: 0 <= k < |fs| ==> lo <= LayoutRank(fs[k].ftype) <= hi
    decreases |fs|
  {
    if |fs| > 0 {
      OrderedWithin(fs[1..], LayoutRank(fs[0].ftype) + 1, hi);
      forall k | 0 < k < |fs|
        ensures lo <= LayoutRank(fs[k].ftype) <= hi
      {
        assert fs[k] == fs[1..][k - 1];
      }
    }
  }

  /** Fields in strictly increasing layout order have distinct types. */
  lemma {:induction false} OrderedDistinct(fs: seq<Field>, lo: nat, hi: nat)
    requires Ordered(fs, lo, hi)
    ensures forall i, j :: 0 <= i < j < |fs| ==> fs[i].ftype != fs[j].ftype
    decreases |fs|
  {
    if |fs| > 0 {
      var r := LayoutRank(fs[0].ftype);
      OrderedWithin(fs[1..], r + 1, hi);
      OrderedDistinct(fs[1..], r + 1, hi);
      forall i, j | 0 <= i < j < |fs|
        ensures fs[i].ftype != fs[j].ftype
      {
        assert fs[j] == fs[1..][j - 1];
        if i > 0 {
          assert fs[i] == fs[1..][i - 1];
        }
      }
    }
  }

  /**
   * The decoder goes on past the ethertype only if the signed short it read
   * equals one of the three ethertype constants (ints).
   */
  predicate ContinuesAfterEthType(dlType: i16) {
    dlType == EthTypeIpv4 || dlType == EthTypeArp || dlType == EthTypeVlan
  }

  /** A signed short never equals 0x8100, so the VLAN ethertype comparison is dead. */
  lemma VlanComparisonDead(dlType: i16)
    ensures ContinuesAfterEthType(dlType) <==> dlType == 0x800 || dlType == 0x806
  {
  }

  /** The decoder goes on past the IP protocol only if the signed byte it read equals 6, 17 or 132. */
  predicate ContinuesAfterProto(proto: i8) {
    proto == IpProtoTcp || proto == IpProtoUdp || proto == IpProtoSctp
  }

  /** A signed byte never equals 132, so SCTP matches stop before their transport ports. */
  lemma SctpComparisonDead(proto: i8)
    ensures ContinuesAfterProto(proto) <==> proto == 6 || proto == 17
  {
  }

  /** A short that the wildcards either read into a field or skip. */
  function OptionalShort(data: seq<byte>, p: nat, matched: bool, t: FieldType): (r: Result<Read<seq<Field>>, Exception>)
    ensures r.Success? <==> p + 2 <= |data|
    ensures r.Success? ==> r.value.next == p + 2
    ensures r.Success? ==> r.value.value == (if matched then [NewField(t, U16(ValueAt(data, p, 2)))] else [])
  {
    var s :- ReadUnsigned(data, p, 2);
    Success(Read(if matched then [NewField(t, U16(s))] else [], p + 2))
  }

  /** A byte that the wildcards either read into a field or skip. */
  function OptionalByte(data: seq<byte>, p: nat, matched: bool, t: FieldType): (r: Result<Read<seq<Field>>, Exception>)
    ensures r.Success? <==> p + 1 <= |data|
    ensures r.Success? ==> r.value.next == p + 1
    ensures r.Success? ==> r.value.value == (if matched then [NewField(t, U8(ValueAt(data, p, 1)))] else [])
  {
    var b :- ReadUnsigned(data, p, 1);
    Success(Read(if matched then [NewField(t, U8(b))] else [], p + 1))
  }

  /** Ethernet source then destination, each as a 6-byte address and a 6-byte mask, set through the masked constructor. */
  function EthAddresses(data: seq<byte>, p: nat): (r: Result<Read<seq<Field>>, Exception>)
    ensures r.Success? <==> p + 24 <= |data|
    ensures r.Success? ==> r.value.next == p + 24
    ensures r.Success? ==> (r.value.value ==
      [NewMaskedField(EthSrc, ByteArray(data[p..p + 6]), Some(ByteArray(data[p + 6..p + 12]))),
       NewMaskedField(EthDst, ByteArray(data[p + 12..p + 18]), Some(ByteArray(data[p + 18..p + 24])))])
  {
    var srcAddr :- ReadBytes(data, p, 6);
    var srcMask :- ReadBytes(data, p + 6, 6);
    var dstAddr :- ReadBytes(data, p + 12, 6);
    var dstMask :- ReadBytes(data, p + 18, 6);
    Success(Read([NewMaskedField(EthSrc, ByteArray(srcAddr), Some(ByteArray(srcMask))),
                  NewMaskedField(EthDst, ByteArray(dstAddr), Some(ByteArray(dstMask)))], p + 24))
  }

  /**
   * The ethertype. When it is matched the decoder reads a short as the
   * ethertype it tests and then another short as the ETH_TYPE field, so it
   * consumes 4 bytes; when wildcarded it skips 2 and tests 0.
   */
  function EthTypeAt(data: seq<byte>, p: nat, matched: bool): (r: Result<Read<Stage<i16>>, Exception>)
    ensures r.Success? <==> p + (if matched then 4 else 2) <= |data|
    ensures r.Success? ==> r.value.next == p + (if matched then 4 else 2)
    ensures r.Success? && matched ==>
      && r.value.value.key == ToI16(ValueAt(data, p, 2))
      && r.value.value.calls == [NewField(EthType, U16(ValueAt(data, p + 2, 2)))]
    ensures r.Success? && !matched ==> r.value.value == Stage([], 0)
  {
    if matched then
      var dlType :- ReadUnsigned(data, p, 2);
      var ethType :- ReadUnsigned(data, p + 2, 2);
      Success(Read(Stage([NewField(EthType, U16(ethType))], ToI16(dlType)), p + 4))
    else
      var skip :- ReadBytes(data, p, 2);
      Success(Read(Stage([], 0), p + 2))
  }

  /**
   * Ethernet addresses, VLAN id, VLAN priority, a pad byte and the
   * ethertype: 30 bytes, or 32 when the ethertype is matched (it is read
   * twice), with the tested ethertype as the stage's key. Every read in
   * the stage underflows the same way, so one bound check stands for them.
   */
  function DataLink(data: seq<byte>, p: nat, w: u32): (r: Result<Read<Stage<i16>>, Exception>)
    ensures r.Success? <==> p + (if Clear(w, WildDlType) then 32 else 30) <= |data|
    ensures r.Success? ==> r.value.next == p + (if Clear(w, WildDlType) then 32 else 30)
    ensures r.Success? ==>
      && EthAddresses(data, p).Success?
      && |r.value.value.calls| >= 2
      && r.value.value.calls[..2] == EthAddresses(data, p).value.value
      && r.value.value.key == EthTypeAt(data, p + 28, Clear(w, WildDlType)).value.value.key
      && (Clear(w, WildDlType) <==> r.value.value.calls[|r.value.value.calls| - 1].ftype == EthType)
  {
    var n := if Clear(w, WildDlType) then 32 else 30;
    if p + n > |data| then Failure(BufferUnderflow)
    else
      var addrs := EthAddresses(data, p).value;
      var vid := OptionalShort(data, p + 24, Clear(w, WildDlVlan), VlanVid).value;
      var pcp := OptionalByte(data, p + 26, Clear(w, WildDlVlanPcp), VlanPcp).value;
      var ethType := EthTypeAt(data, p + 28, Clear(w, WildDlType)).value;
      var cs := addrs.value + vid.value + pcp.value + ethType.value.calls;
      assert cs[..2] == addrs.value;
      Success(Read(Stage(cs, ethType.value.key), ethType.next))
  }

  /** An IPv4 address and mask; the field is set only for a non-zero address, through the masked constructor. */
  function Address(data: seq<byte>, p: nat, t: FieldType): (r: Result<Read<seq<Field>>, Exception>)
    ensures r.Success? <==> p + 8 <= |data|
    ensures r.Success? ==> r.value.next == p + 8
    ensures r.Success? ==> (r.value.value ==
      (if ValueAt(data, p, 4) != 0 then [NewMaskedField(t, U32(ValueAt(data, p, 4)), Some(U32(ValueAt(data, p + 4, 4))))] else []))
  {
    var addr :- ReadUnsigned(data, p, 4);
    var mask :- ReadUnsigned(data, p + 4, 4);
    Success(Read(if addr != 0 then [NewMaskedField(t, U32(addr), Some(U32(mask)))] else [], p + 8))
  }

  /** Type of service, IP protocol, and the source and destination addresses with their masks: 18 bytes. */
  function Network(data: seq<byte>, p: nat, w: u32): (r: Result<Read<Stage<i8>>, Exception>)
    ensures r.Success? <==> p + 18 <= |data|
    ensures r.Success? ==> r.value.next == p + 18
    ensures r.Success? ==> r.value.value.key == (if Clear(w, WildNwProto) then ToI8(ValueAt(data, p + 1, 1)) else 0)
    ensures r.Success? ==>
      && (Clear(w, WildNwTos) <==> |r.value.value.calls| > 0 && r.value.value.calls[0].ftype == IpDscp)
  {
    var tos :- OptionalByte(data, p, Clear(w, WildNwTos), IpDscp);
    var proto :- ReadUnsigned(data, p + 1, 1);
    var protoCalls := if Clear(w, WildNwProto) then [NewField(IpProto, U8(proto))] else [];
    var key: i8 := if Clear(w, WildNwProto) then ToI8(proto) else 0;
    var src :- Address(data, p + 2, Ipv4Src);
    var dst :- Address(data, p + 10, Ipv4Dst);
    var cs := tos.value + protoCalls + src.value + dst.value;
    Success(Read(Stage(cs, key), p + 18))
  }

  /** The field a transport port goes into for a given protocol number; other numbers set nothing. */
  function PortField(number: i16, src: bool): Option<FieldType> {
    if number == IpProtoTcp then Some(if src then TcpSrc else TcpDst)
    else if number == IpProtoUdp then Some(if src then UdpSrc else UdpDst)
    else if number == IpProtoSctp then Some(if src then SctpSrc else SctpDst)
    else None
  }

  /**
   * One transport port: a short is read and used as the protocol number to
   * switch on; when the port is matched and that number is 6, 17 or 132, a
   * further short is read as the port field.
   */
  function Port(data: seq<byte>, p: nat, matched: bool, src: bool): (r: Result<Read<seq<Field>>, Exception>)
    ensures p + 2 > |data| ==> r.Failure?
    ensures r.Success? ==>
      var number := ToI16(ValueAt(data, p, 2));
      if matched && PortField(number, src).Some? then
        && p + 4 <= |data|
        && r.value.next == p + 4
        && r.value.value == [NewField(PortField(number, src).value, U16(ValueAt(data, p + 2, 2)))]
      else r.value.next == p + 2 && r.value.value == []
  {
    var number :- ReadUnsigned(data, p, 2);
    match PortField(ToI16(number), src)
    case Some(t) =>
      if matched then
        var port :- ReadUnsigned(data, p + 2, 2);
        Success(Read([NewField(t, U16(port))], p + 4))
      else Success(Read([], p + 2))
    case None => Success(Read([], p + 2))
  }

  /** The MPLS label: four bytes into a field when matched, but only one byte skipped when wildcarded. */
  function MplsLabelAt(data: seq<byte>, p: nat, matched: bool): (r: Result<Read<seq<Field>>, Exception>)
    ensures r.Success? <==> p + (if matched then 4 else 1) <= |data|
    ensures r.Success? ==> r.value.next == p + (if matched then 4 else 1)
    ensures r.Success? ==> r.value.value == (if matched then [NewField(MplsLabel, U32(ValueAt(data, p, 4)))] else [])
  {
    if matched then
      var l :- ReadUnsigned(data, p, 4);
      Success(Read([NewField(MplsLabel, U32(l))], p + 4))
    else
      var skip :- ReadBytes(data, p, 1);
      Success(Read([], p + 1))
  }

  /** Both transport ports: 4 bytes, plus 2 for each port whose switch selected a field. */
  function Ports(data: seq<byte>, p: nat, w: u32): (r: Result<Read<seq<Field>>, Exception>)
    ensures r.Success? ==> var n := r.value.next - p; n == 4 || n == 6 || n == 8
  {
    var tpSrc :- Port(data, p, Clear(w, WildTpSrc), true);
    var tpDst :- Port(data, tpSrc.next, Clear(w, WildTpDst), false);
    Success(Read(tpSrc.value + tpDst.value, tpDst.next))
  }

  /**
   * MPLS label and traffic class, three pad bytes and the metadata with its
   * mask (set through the masked constructor): 24 bytes when the label is
   * matched, 21 when it is wildcarded (one bound check stands for the
   * stage's reads, which all underflow the same way).
   */
  function MplsAndMetadata(data: seq<byte>, p: nat, w: u32): (r: Result<Read<seq<Field>>, Exception>)
    ensures r.Success? <==> p + (if Clear(w, WildMplsLabel) then 4 else 1) + 20 <= |data|
    ensures r.Success? ==> r.value.next == p + (if Clear(w, WildMplsLabel) then 4 else 1) + 20
    ensures r.Success? ==> |r.value.value| > 0 && r.value.value[|r.value.value| - 1].ftype == Metadata
  {
    var n := (if Clear(w, WildMplsLabel) then 4 else 1) + 20;
    if p + n > |data| then Failure(BufferUnderflow)
    else
      var mpls := MplsLabelAt(data, p, Clear(w, WildMplsLabel)).value;
      var tc := OptionalByte(data, mpls.next, Clear(w, WildMplsTc), MplsTc).value;
      var metadata := ValueAt(data, tc.next + 3, 8);
      var metadataMask := ValueAt(data, tc.next + 11, 8);
      Success(Read(mpls.value + tc.value + [NewMaskedField(Metadata, U64(metadata), Some(U64(metadataMask)))], tc.next + 19))
  }

  /** The transport stage: ports, then MPLS and metadata. */
  function Transport(data: seq<byte>, p: nat, w: u32): (r: Result<Read<seq<Field>>, Exception>)
    ensures r.Success? ==>
      var portBytes := r.value.next - p - (if Clear(w, WildMplsLabel) then 4 else 1) - 20;
      portBytes == 4 || portBytes == 6 || portBytes == 8
  {
    var ports :- Ports(data, p, w);
    var tail :- MplsAndMetadata(data, ports.next, w);
    Success(Read(ports.value + tail.value, tail.next))
  }

  /**
   * The fields the standard-match decoder sets, in order, for a match body
   * (after the type and length) at p: the input port always; nothing more
   * when no wildcard bit at all is set; then the data-link stage, the
   * network stage and the transport stage, as far as the ethertype and the
   * protocol let it go.
   */
  function Calls(data: seq<byte>, p: nat): (r: Result<seq<Field>, Exception>)
    ensures r.Success? ==> p + 8 <= |data| && |r.value| >= 1
    ensures r.Success? ==> r.value[0] == NewField(InPort, U32(ValueAt(data, p, 4)))
  {
    var inPort :- ReadUnsigned(data, p, 4);
    var w :- ReadUnsigned(data, p + 4, 4);
    var c0 := [NewField(InPort, U32(inPort))];
    if w % (WildAll + 1) == 0 then Success(c0)
    else
      var dl :- DataLink(data, p + 8, w);
      if !ContinuesAfterEthType(dl.value.key) then Success(c0 + dl.value.calls)
      else
        var nw :- Network(data, dl.next, w);
        if !ContinuesAfterProto(nw.value.key) then Success(c0 + dl.value.calls + nw.value.calls)
        else
          var tp :- Transport(data, nw.next, w);
          Success(c0 + dl.value.calls + nw.value.calls + tp.value)
  }

  /** Four runs of ordered fields, each placed after the one before, are ordered together. */
  lemma OrderedConcat4(a: seq<Field>, b: seq<Field>, c: seq<Field>, d: seq<Field>, lo: nat, m1: nat, m2: nat, m3: nat, hi: nat)
    requires lo <= m1 + 1 && m1 <= m2 <= m3 <= hi
    requires Ordered(a, lo, m1) && Ordered(b, m1 + 1, m2) && Ordered(c, m2 + 1, m3) && Ordered(d, m3 + 1, hi)
    ensures Ordered(a + b + c + d, lo, hi)
  {
    OrderedConcat(a, b, lo, m1, m2);
    OrderedConcat(a + b, c, lo, m2, m3);
    OrderedConcat(a + b + c, d, lo, m3, hi);
  }

  /** No field, or one field placed at r. */
  lemma OrderedPiece(fs: seq<Field>, r: nat)
    requires |fs| <= 1 && (|fs| == 1 ==> LayoutRank(fs[0].ftype) == r)
    ensures Ordered(fs, r, r)
  {
  }

  /** The places of the fields the decoder sets. */
  lemma Ranks()
    ensures LayoutRank(InPort) == 0
    ensures LayoutRank(EthSrc) == 1 && LayoutRank(EthDst) == 2 && LayoutRank(VlanVid) == 3
    ensures LayoutRank(VlanPcp) == 4 && LayoutRank(EthType) == 5
    ensures LayoutRank(IpDscp) == 6 && LayoutRank(IpProto) == 7 && LayoutRank(Ipv4Src) == 8 && LayoutRank(Ipv4Dst) == 9
    ensures LayoutRank(MplsLabel) == 12 && LayoutRank(MplsTc) == 13 && LayoutRank(Metadata) == 14
  {
  }

  lemma OptionalShortOrdered(data: seq<byte>, p: nat, matched: bool, t: FieldType)
    requires OptionalShort(data, p, matched, t).Success?
    ensures Ordered(OptionalShort(data, p, matched, t).value.value, LayoutRank(t), LayoutRank(t))
  {
  }

  lemma OptionalByteOrdered(data: seq<byte>, p: nat, matched: bool, t: FieldType)
    requires OptionalByte(data, p, matched, t).Success?
    ensures Ordered(OptionalByte(data, p, matched, t).value.value, LayoutRank(t), LayoutRank(t))
  {
  }

  lemma AddressOrdered(data: seq<byte>, p: nat, t: FieldType)
    requires Address(data, p, t).Success?
    ensures Ordered(Address(data, p, t).value.value, LayoutRank(t), LayoutRank(t))
  {
  }

  lemma EthTypeOrdered(data: seq<byte>, p: nat, matched: bool)
    requires EthTypeAt(data, p, matched).Success?
    ensures Ordered(EthTypeAt(data, p, matched).value.value.calls, LayoutRank(EthType), LayoutRank(EthType))
  {
  }

  lemma EthAddressesOrdered(data: seq<byte>, p: nat)
    requires EthAddresses(data, p).Success?
    ensures Ordered(EthAddresses(data, p).value.value, LayoutRank(EthSrc), LayoutRank(EthDst))
  {
    Ranks();
  }

  lemma PortOrdered(data: seq<byte>, p: nat, matched: bool, src: bool)
    requires Port(data, p, matched, src).Success?
    ensures Ordered(Port(data, p, matched, src).value.value, if src then 10 else 11, if src then 10 else 11)
  {
  }

  lemma MplsLabelOrdered(data: seq<byte>, p: nat, matched: bool)
    requires MplsLabelAt(data, p, matched).Success?
    ensures Ordered(MplsLabelAt(data, p, matched).value.value, LayoutRank(MplsLabel), LayoutRank(MplsLabel))
  {
  }

  /** The data-link stage sets ETH_SRC, ETH_DST, VLAN_VID, VLAN_PCP and ETH_TYPE in that order, each at most once. */
  lemma DataLinkOrdered(data: seq<byte>, p: nat, w: u32)
    requires DataLink(data, p, w).Success?
    ensures Ordered(DataLink(data, p, w).value.value.calls, 1, 5)
  {
    Ranks();
    var addrs := EthAddresses(data, p).value.value;
    var vid := OptionalShort(data, p + 24, Clear(w, WildDlVlan), VlanVid).value.value;
    var pcp := OptionalByte(data, p + 26, Clear(w, WildDlVlanPcp), VlanPcp).value.value;
    var eth := EthTypeAt(data, p + 28, Clear(w, WildDlType)).value.value.calls;
    assert DataLink(data, p, w).value.value.calls == addrs + vid + pcp + eth;
    EthAddressesOrdered(data, p);
    OptionalShortOrdered(data, p + 24, Clear(w, WildDlVlan), VlanVid);
    OptionalByteOrdered(data, p + 26, Clear(w, WildDlVlanPcp), VlanPcp);
    EthTypeOrdered(data, p + 28, Clear(w, WildDlType));
    OrderedConcat4(addrs, vid, pcp, eth, 1, 2, 3, 4, 5);
  }

  /** The network stage sets IP_DSCP, IP_PROTO, IPV4_SRC and IPV4_DST in that order, each at most once. */
  lemma NetworkOrdered(data: seq<byte>, p: nat, w: u32)
    requires Network(data, p, w).Success?
    ensures Ordered(Network(data, p, w).value.value.calls, 6, 9)
  {
    Ranks();
    var tos := OptionalByte(data, p, Clear(w, WildNwTos), IpDscp).value.value;
    var proto := if Clear(w, WildNwProto) then [NewField(IpProto, U8(ValueAt(data, p + 1, 1)))] else [];
    var src := Address(data, p + 2, Ipv4Src).value.value;
    var dst := Address(data, p + 10, Ipv4Dst).value.value;
    assert Network(data, p, w).value.value.calls == tos + proto + src + dst;
    OptionalByteOrdered(data, p, Clear(w, WildNwTos), IpDscp);
    OrderedPiece(proto, 7);
    AddressOrdered(data, p + 2, Ipv4Src);
    AddressOrdered(data, p + 10, Ipv4Dst);
    OrderedConcat4(tos, proto, src, dst, 6, 6, 7, 8, 9);
  }

  /** The transport stage sets a source port, a destination port, MPLS_LABEL, MPLS_TC and METADATA in that order, each at most once. */
  lemma TransportOrdered(data: seq<byte>, p: nat, w: u32)
    requires Transport(data, p, w).Success?
    ensures Ordered(Transport(data, p, w).value.value, 10, 14)
  {
    var tpSrc := Port(data, p, Clear(w, WildTpSrc), true).value;
    var tpDst := Port(data, tpSrc.next, Clear(w, WildTpDst), false).value;
    var ports := Ports(data, p, w).value;
    var tail := MplsAndMetadata(data, ports.next, w).value.value;
    assert Transport(data, p, w).value.value == tpSrc.value + tpDst.value + tail + [];
    PortOrdered(data, p, Clear(w, WildTpSrc), true);
    PortOrdered(data, tpSrc.next, Clear(w, WildTpDst), false);
    MplsAndMetadataOrdered(data, ports.next, w);
    OrderedConcat4(tpSrc.value, tpDst.value, tail, [], 10, 10, 11, 14, 14);
  }

  /** MPLS_LABEL, MPLS_TC and METADATA, in that order, each at most once. */
  lemma MplsAndMetadataOrdered(data: seq<byte>, p: nat, w: u32)
    requires MplsAndMetadata(data, p, w).Success?
    ensures Ordered(MplsAndMetadata(data, p, w).value.value, 12, 14)
  {
    Ranks();
    var mpls := MplsLabelAt(data, p, Clear(w, WildMplsLabel)).value;
    var tc := OptionalByte(data, mpls.next, Clear(w, WildMplsTc), MplsTc).value;
    var md := [NewMaskedField(Metadata, U64(ValueAt(data, tc.next + 3, 8)), Some(U64(ValueAt(data, tc.next + 11, 8))))];
    assert MplsAndMetadata(data, p, w).value.value == mpls.value + tc.value + md + [];
    MplsLabelOrdered(data, p, Clear(w, WildMplsLabel));
    OptionalByteOrdered(data, mpls.next, Clear(w, WildMplsTc), MplsTc);
    OrderedPiece(md, 14);
    OrderedConcat4(mpls.value, tc.value, md, [], 12, 12, 13, 14, 14);
  }

  /**
   * Whatever the body, the STANDARD decoder sets fields in the order of the
   * fixed layout and never sets a type twice, so no later setField call
   * replaces an earlier one.
   */
  lemma CallsOrdered(data: seq<byte>, p: nat)
    requires Calls(data, p).Success?
    ensures Ordered(Calls(data, p).value, 0, 14)
    ensures forall i, j :: 0 <= i < j < |Calls(data, p).value| ==> Calls(data, p).value[i].ftype != Calls(data, p).value[j].ftype
  {
    var w := ValueAt(data, p + 4, 4);
    var c0 := [NewField(InPort, U32(ValueAt(data, p, 4)))];
    var dl, nw, tp := CallsStages(data, p);
    OrderedPiece(c0, 0);
    OrderedConcat4(c0, dl, nw, tp, 0, 0, 5, 9, 14);
    OrderedDistinct(Calls(data, p).value, 0, 14);
  }

  /** The fields each stage sets, as Calls strings them together: none from a stage the decoder does not reach. */
  lemma CallsStages(data: seq<byte>, p: nat) returns (dl: seq<Field>, nw: seq<Field>, tp: seq<Field>)
    requires Calls(data, p).Success?
    ensures Calls(data, p).value == [NewField(InPort, U32(ValueAt(data, p, 4)))] + dl + nw + tp
    ensures Ordered(dl, 1, 5) && Ordered(nw, 6, 9) && Ordered(tp, 10, 14)
  {
    var w := ValueAt(data, p + 4, 4);
    dl, nw, tp := [], [], [];
    if w % (WildAll + 1) != 0 {
      var d := DataLink(data, p + 8, w).value;
      DataLinkOrdered(data, p + 8, w);
      dl := d.value.calls;
      if ContinuesAfterEthType(d.value.key) {
        var n := Network(data, d.next, w).value;
        NetworkOrdered(data, d.next, w);
        nw := n.value.calls;
        if ContinuesAfterProto(n.value.key) {
          TransportOrdered(data, n.next, w);
          tp := Transport(data, n.next, w).value.value;
        }
      }
    }
  }

  /**
   * The fields a fully matched data-link stage at q sets: the addresses
   * and masks at q to q + 24, the VLAN id at q + 24, the priority at q + 26
   * and the second ethertype short at q + 30.
   */
  function DataLinkFields(data: seq<byte>, q: nat): seq<Field>
    requires q + 32 <= |data|
  {
    [NewMaskedField(EthSrc, ByteArray(data[q..q + 6]), Some(ByteArray(data[q + 6..q + 12]))),
     NewMaskedField(EthDst, ByteArray(data[q + 12..q + 18]), Some(ByteArray(data[q + 18..q + 24]))),
     NewField(VlanVid, U16(ValueAt(data, q + 24, 2))),
     NewField(VlanPcp, U8(ValueAt(data, q + 26, 1))),
     NewField(EthType, U16(ValueAt(data, q + 30, 2)))]
  }

  /**
   * The fields a fully matched network stage at q sets when both addresses
   * are non-zero: the service byte at q, the protocol at q + 1, and the
   * addresses with their masks at q + 2 and q + 10.
   */
  function NetworkFields(data: seq<byte>, q: nat): seq<Field>
    requires q + 18 <= |data|
  {
    [NewField(IpDscp, U8(ValueAt(data, q, 1))),
     NewField(IpProto, U8(ValueAt(data, q + 1, 1))),
     NewMaskedField(Ipv4Src, U32(ValueAt(data, q + 2, 4)), Some(U32(ValueAt(data, q + 6, 4)))),
     NewMaskedField(Ipv4Dst, U32(ValueAt(data, q + 10, 4)), Some(U32(ValueAt(data, q + 14, 4))))]
  }

  /**
   * The fields a TCP transport stage at q sets with both ports matched and
   * MPLS wildcarded: the ports at q + 2 and q + 6 (after each protocol-number
   * short), and the metadata with its mask at q + 13 and q + 21.
   */
  function TcpFields(data: seq<byte>, q: nat): seq<Field>
    requires q + 29 <= |data|
  {
    [NewField(TcpSrc, U16(ValueAt(data, q + 2, 2))),
     NewField(TcpDst, U16(ValueAt(data, q + 6, 2))),
     NewMaskedField(Metadata, U64(ValueAt(data, q + 13, 8)), Some(U64(ValueAt(data, q + 21, 8))))]
  }

  /**
   * With VLAN id, VLAN priority and ethertype all matched, the data-link
   * stage sets DataLinkFields, tests the first ethertype short at q + 28,
   * and ends at q + 32.
   */
  lemma DataLinkMatched(data: seq<byte>, q: nat, w: u32)
    requires q + 32 <= |data|
    requires Clear(w, WildDlVlan) && Clear(w, WildDlVlanPcp) && Clear(w, WildDlType)
    ensures DataLink(data, q, w) == Success(Read(Stage(DataLinkFields(data, q), ToI16(ValueAt(data, q + 28, 2))), q + 32))
  {
    var fs := DataLinkFields(data, q);
    assert EthAddresses(data, q).value.value == fs[..2];
    assert OptionalShort(data, q + 24, true, VlanVid).value.value == [fs[2]];
    assert OptionalByte(data, q + 26, true, VlanPcp).value.value == [fs[3]];
    assert EthTypeAt(data, q + 28, true).value.value == Stage([fs[4]], ToI16(ValueAt(data, q + 28, 2)));
    assert fs == fs[..2] + [fs[2]] + [fs[3]] + [fs[4]];
  }

  /**
   * With type of service and protocol matched and both addresses non-zero,
   * the network stage sets NetworkFields, hands on the protocol, and ends
   * at q + 18.
   */
  lemma NetworkMatched(data: seq<byte>, q: nat, w: u32)
    requires q + 18 <= |data|
    requires Clear(w, WildNwTos) && Clear(w, WildNwProto)
    requires ValueAt(data, q + 2, 4) != 0 && ValueAt(data, q + 10, 4) != 0
    ensures Network(data, q, w) == Success(Read(Stage(NetworkFields(data, q), ToI8(ValueAt(data, q + 1, 1))), q + 18))
  {
    var fs := NetworkFields(data, q);
    assert fs == [fs[0]] + [fs[1]] + [fs[2]] + [fs[3]];
  }

  /**
   * With both ports matched, both protocol-number shorts 6, and MPLS label
   * and class wildcarded, the transport stage sets TcpFields and ends at
   * q + 29.
   */
  lemma TransportTcpMatched(data: seq<byte>, q: nat, w: u32)
    requires q + 29 <= |data|
    requires Clear(w, WildTpSrc) && Clear(w, WildTpDst) && !Clear(w, WildMplsLabel) && !Clear(w, WildMplsTc)
    requires ValueAt(data, q, 2) == IpProtoTcp && ValueAt(data, q + 4, 2) == IpProtoTcp
    ensures Transport(data, q, w) == Success(Read(TcpFields(data, q), q + 29))
  {
    TcpPort(data, q, true);
    TcpPort(data, q + 4, false);
    var ports := [NewField(TcpSrc, U16(ValueAt(data, q + 2, 2))), NewField(TcpDst, U16(ValueAt(data, q + 6, 2)))];
    assert ports == [ports[0]] + [ports[1]];
    assert Ports(data, q, w) == Success(Read(ports, q + 8));
    MplsWildcarded(data, q + 8, w);
    assert TcpFields(data, q) == ports + MplsAndMetadata(data, q + 8, w).value.value;
  }

  /** With MPLS label and class wildcarded, the stage at q skips 2 bytes and 3 pads and sets only METADATA, from q + 5 and q + 13. */
  lemma MplsWildcarded(data: seq<byte>, q: nat, w: u32)
    requires q + 21 <= |data| && !Clear(w, WildMplsLabel) && !Clear(w, WildMplsTc)
    ensures MplsAndMetadata(data, q, w) ==
      Success(Read([NewMaskedField(Metadata, U64(ValueAt(data, q + 5, 8)), Some(U64(ValueAt(data, q + 13, 8))))], q + 21))
  {
    assert MplsLabelAt(data, q, false) == Success(Read([], q + 1));
    assert OptionalByte(data, q + 1, false, MplsTc) == Success(Read([], q + 2));
    var md := NewMaskedField(Metadata, U64(ValueAt(data, q + 5, 8)), Some(U64(ValueAt(data, q + 13, 8))));
    assert [] + [] + [md] == [md];
  }

  /** A matched port whose protocol-number short is 6 sets the TCP port from the next short. */
  lemma TcpPort(data: seq<byte>, q: nat, src: bool)
    requires q + 4 <= |data| && ValueAt(data, q, 2) == IpProtoTcp
    ensures Port(data, q, true, src) == Success(Read([NewField(if src then TcpSrc else TcpDst, U16(ValueAt(data, q + 2, 2)))], q + 4))
  {
    SignedOfSmall(IpProtoTcp);
  }

  /**
   * A body that matches every field but MPLS, with ethertype 0x800,
   * protocol 6, non-zero addresses and TCP protocol numbers in both port
   * slots: the decoder sets IN_PORT from p, then the data-link fields from
   * p + 8, the network fields from p + 40 and the TCP fields from p + 58,
   * reading 87 bytes in all (IN_PORT, ETH_SRC, ETH_DST, VLAN_VID, VLAN_PCP,
   * ETH_TYPE, IP_DSCP, IP_PROTO, IPV4_SRC, IPV4_DST, TCP_SRC, TCP_DST,
   * METADATA).
   */
  lemma Ipv4TcpCalls(data: seq<byte>, p: nat)
    requires p + 87 <= |data|
    requires ValueAt(data, p + 4, 4) == WildMplsLabel + WildMplsTc
    requires ValueAt(data, p + 36, 2) == EthTypeIpv4 && ValueAt(data, p + 41, 1) == IpProtoTcp
    requires ValueAt(data, p + 42, 4) != 0 && ValueAt(data, p + 50, 4) != 0
    requires ValueAt(data, p + 58, 2) == IpProtoTcp && ValueAt(data, p + 62, 2) == IpProtoTcp
    ensures Calls(data, p) == Success([NewField(InPort, U32(ValueAt(data, p, 4)))] +
      DataLinkFields(data, p + 8) + NetworkFields(data, p + 40) + TcpFields(data, p + 58))
  {
    var w: u32 := WildMplsLabel + WildMplsTc;
    OnlyMplsWildcarded();
    DataLinkMatched(data, p + 8, w);
    NetworkMatched(data, p + 40, w);
    TransportTcpMatched(data, p + 58, w);
    SignedOfSmall(EthTypeIpv4);
    SignedOfSmall(IpProtoTcp);
    CallsThrough(data, p, DataLink(data, p + 8, w).value, Network(data, p + 40, w).value, Transport(data, p + 58, w).value);
  }

  /** The wildcard word with only the two MPLS bits set: some bit is set, and every other field is matched. */
  lemma OnlyMplsWildcarded()
    ensures var w: u32 := WildMplsLabel + WildMplsTc;
      && w % (WildAll + 1) != 0
      && Clear(w, WildDlVlan) && Clear(w, WildDlVlanPcp) && Clear(w, WildDlType)
      && Clear(w, WildNwTos) && Clear(w, WildNwProto)
      && Clear(w, WildTpSrc) && Clear(w, WildTpDst) && !Clear(w, WildMplsLabel) && !Clear(w, WildMplsTc)
  {
  }

  /** A body the decoder reads through all three stages sets IN_PORT and then each stage's fields. */
  lemma CallsThrough(data: seq<byte>, p: nat, dl: Read<Stage<i16>>, nw: Read<Stage<i8>>, tp: Read<seq<Field>>)
    requires p + 8 <= |data| && ValueAt(data, p + 4, 4) % (WildAll + 1) != 0
    requires DataLink(data, p + 8, ValueAt(data, p + 4, 4)) == Success(dl) && ContinuesAfterEthType(dl.value.key)
    requires Network(data, dl.next, ValueAt(data, p + 4, 4)) == Success(nw) && ContinuesAfterProto(nw.value.key)
    requires Transport(data, nw.next, ValueAt(data, p + 4, 4)) == Success(tp)
    ensures Calls(data, p) == Success([NewField(InPort, U32(ValueAt(data, p, 4)))] + dl.value.calls + nw.value.calls + tp.value)
  {
  }

  /** With no wildcard bit set at all, the decoder sets the input port and nothing else. */
  lemma NoWildcardsStopsEarly(data: seq<byte>, p: nat)
    requires p + 8 <= |data| && ValueAt(data, p + 4, 4) % 0x400 == 0
    ensures Calls(data, p) == Success([NewField(InPort, U32(ValueAt(data, p, 4)))])
  {
  }

  /** A wildcarded ethertype leaves the tested ethertype at 0, so nothing past the data-link fields is set. */
  lemma WildcardedEthTypeStops(data: seq<byte>, p: nat)
    requires p + 8 <= |data|
    requires !Clear(ValueAt(data, p + 4, 4), WildDlType)
    requires Calls(data, p).Success? && ValueAt(data, p + 4, 4) % 0x400 != 0
    ensures Calls(data, p) == Success([NewField(InPort, U32(ValueAt(data, p, 4)))] + DataLink(data, p + 8, ValueAt(data, p + 4, 4)).value.value.calls)
  {
  }
}

=== FILE: match.dfy ===
/**
 * The OFMatch container: an ordered list of match fields with the match
 * type, the padded total length and the unpadded match length (both Java
 * shorts). Fields are added or replaced by type with setField.
 */
module Match {
  import opened Wrappers
  import opened Bytes
  import opened OxmFieldType
  import opened OxmField

  const MinimumLength: int := 8

  datatype MatchType = Standard | Oxm

  /** The enum ordinal, which is what goes on the wire. */
  function Ordinal(t: MatchType): (k: int)
    ensures k == 0 <==> t == Standard
    ensures k == 1 <==> t == Oxm
  {
    match t
    case Standard => 0
    case Oxm => 1
  }

  /** OFMatchType.values()[k]: an ordinal outside {0, 1} throws. */
  function MatchTypeOf(k: int): (r: Result<MatchType, Exception>)
    ensures r.Success? <==> k == 0 || k == 1
    ensures r.Success? ==> Ordinal(r.value) == k
    ensures r.Failure? ==> r.error == IndexOutOfBounds
  {
    if k == 0 then Success(Standard) else if k == 1 then Success(Oxm) else Failure(IndexOutOfBounds)
  }

  datatype Match = Match(mtype: MatchType, length: i16, matchLength: i16, fields: Option<seq<Field>>)

  /** A new match is OXM, with length 8, match length 4 (the type and length shorts) and no field list. */
  function NewMatch(): (m: Match)
    ensures m.mtype == Oxm && m.length == MinimumLength && m.matchLength == 4 && m.fields.None?
  {
    Match(Oxm, 8, 4, None)
  }

  /** The field list, with a null list read as empty (setField creates it on first use). */
  function FieldList(m: Match): seq<Field> {
    if m.fields.Some? then m.fields.value else []
  }

  /** The position of the first field of type t. */
  function FindType(fs: seq<Field>, t: FieldType): (r: Option<nat>)
    ensures r.Some? ==> r.value < |fs| && fs[r.value].ftype == t
    ensures r.Some? ==> forall j :: 0 <= j < r.value ==> fs[j].ftype != t
    ensures r.None? <==> forall j :: 0 <= j < |fs| ==> fs[j].ftype != t
  {
    if |fs| == 0 then None
    else if fs[0].ftype == t then Some(0)
    else match FindType(fs[1..], t)
      case None => None
      case Some(i) => Some(i + 1)
  }

  /**
   * setField: a field whose type is already present has its value and mask
   * overwritten in place (its hasMask bit and length stay as they were);
   * otherwise the field is appended, its length added to the match length,
   * and the total length recomputed from it with padding to 8. Both lengths
   * are shorts, so the arithmetic wraps.
   */
  function SetField(m: Match, nf: Field): (r: Match)
    ensures r.mtype == m.mtype && r.fields.Some?
    ensures FindType(FieldList(m), nf.ftype).Some? ==>
      var i := FindType(FieldList(m), nf.ftype).value;
      && |FieldList(r)| == |FieldList(m)|
      && FieldList(r)[i] == FieldList(m)[i].(value := nf.value, mask := nf.mask)
      && (forall j :: 0 <= j < |FieldList(m)| && j != i ==> FieldList(r)[j] == FieldList(m)[j])
      && r.length == m.length && r.matchLength == m.matchLength
    ensures FindType(FieldList(m), nf.ftype).None? ==>
      && FieldList(r) == FieldList(m) + [nf]
      && r.matchLength == ToI16(m.matchLength + nf.length)
      && (0 <= r.matchLength < 0x8000 - 11 ==>
            r.length % 8 == 0 && r.matchLength + 4 <= r.length < r.matchLength + 12)
  {
    var fs := FieldList(m);
    match FindType(fs, nf.ftype)
    case Some(i) =>
      m.(fields := Some(fs[i := fs[i].(value := nf.value, mask := nf.mask)]))
    case None =>
      var ml := ToI16(m.matchLength + nf.length);
      m.(fields := Some(fs + [nf]), matchLength := ml, length := ToI16(8 * JavaDiv(ml + 4 + 7, 8)))
  }

  /** getMatchFieldValue: the value of the first field of that type, None (null) if there is none; a null list throws. */
  function GetMatchFieldValue(m: Match, t: FieldType): (r: Result<Option<Value>, Exception>)
    ensures m.fields.None? <==> r.Failure?
    ensures r.Failure? ==> r.error == NullPointer
    ensures r.Success? ==> (r.value.None? <==> forall j :: 0 <= j < |m.fields.value| ==> m.fields.value[j].ftype != t)
    ensures r.Success? && r.value.Some? ==>
      exists i :: 0 <= i < |m.fields.value| && m.fields.value[i].ftype == t && m.fields.value[i].value == r.value.value
               && forall j :: 0 <= j < i ==> m.fields.value[j].ftype != t
  {
    if m.fields.None? then Failure(NullPointer)
    else match FindType(m.fields.value, t)
      case None => Success(None)
      case Some(i) => Success(Some(m.fields.value[i].value))
  }

  /** After setField, looking its type up gives the value just set. */
  lemma GetAfterSet(m: Match, nf: Field)
    ensures GetMatchFieldValue(SetField(m, nf), nf.ftype) == Success(Some(nf.value))
  {
    var fs := FieldList(m);
    var r := SetField(m, nf);
    match FindType(fs, nf.ftype)
    case Some(i) =>
      assert FindType(FieldList(r), nf.ftype) == Some(i) by {
        FindTypeUnchangedPrefix(fs, FieldList(r), nf.ftype, i);
      }
    case None =>
      FindTypeAppend(fs, nf);
  }

  /** setField leaves the lookup of every other type as it was. */
  lemma GetAfterSetOther(m: Match, nf: Field, t: FieldType)
    requires m.fields.Some? && t != nf.ftype
    ensures GetMatchFieldValue(SetField(m, nf), t) == GetMatchFieldValue(m, t)
  {
    var fs := m.fields.value;
    var rs := SetField(m, nf).fields.value;
    if FindType(fs, nf.ftype).Some? {
      var i := FindType(fs, nf.ftype).value;
      assert rs == fs[i := fs[i].(value := nf.value, mask := nf.mask)];
      FindTypeSameTypes(fs, rs, t);
    } else {
      assert rs == fs + [nf];
      FindTypeAppendOther(fs, nf, t);
    }
    SameFindSameValue(m, SetField(m, nf), t);
  }

  lemma SameFindSameValue(m: Match, r: Match, t: FieldType)
    requires m.fields.Some? && r.fields.Some?
    requires FindType(r.fields.value, t) == FindType(m.fields.value, t)
    requires FindType(m.fields.value, t).Some? ==>
      r.fields.value[FindType(m.fields.value, t).value] == m.fields.value[FindType(m.fields.value, t).value]
    ensures GetMatchFieldValue(r, t) == GetMatchFieldValue(m, t)
  {
  }

  lemma {:induction false} FindTypeAppendOther(fs: seq<Field>, nf: Field, t: FieldType)
    requires t != nf.ftype
    ensures FindType(fs + [nf], t) == FindType(fs, t)
  {
    if |fs| > 0 {
      assert (fs + [nf])[1..] == fs[1..] + [nf];
      FindTypeAppendOther(fs[1..], nf, t);
    }
  }

  lemma {:induction false} FindTypeUnchangedPrefix(fs: seq<Field>, gs: seq<Field>, t: FieldType, i: nat)
    requires |fs| == |gs| && i < |fs| && fs[i].ftype == t && gs[i].ftype == t
    requires forall j :: 0 <= j < i ==> fs[j].ftype != t && gs[j].ftype != t
    ensures FindType(gs, t) == Some(i)
  {
    if i > 0 {
      FindTypeUnchangedPrefix(fs[1..], gs[1..], t, i - 1);
    }
  }

  lemma {:induction false} FindTypeAppend(fs: seq<Field>, nf: Field)
    requires FindType(fs, nf.ftype).None?
    ensures FindType(fs + [nf], nf.ftype) == Some(|fs|)
  {
    if |fs| > 0 {
      assert (fs + [nf])[1..] == fs[1..] + [nf];
      FindTypeAppend(fs[1..], nf);
    }
  }

  /** Two lists with the same types, equal where the type is t, find t at the same place with the same value. */
  lemma {:induction false} FindTypeSameTypes(fs: seq<Field>, gs: seq<Field>, t: FieldType)
    requires |fs| == |gs|
    requires forall j :: 0 <= j < |fs| ==> gs[j].ftype == fs[j].ftype && (fs[j].ftype == t ==> gs[j] == fs[j])
    ensures FindType(gs, t) == FindType(fs, t)
  {
    if |fs| > 0 {
      FindTypeSameTypes(fs[1..], gs[1..], t);
    }
  }

  /** No two fields share a type. */
  predicate DistinctTypes(fs: seq<Field>) {
    forall i, j :: 0 <= i < j < |fs| ==> fs[i].ftype != fs[j].ftype
  }

  /** setField keeps the field types distinct. */
  lemma SetFieldDistinct(m: Match, nf: Field)
    requires DistinctTypes(FieldList(m))
    ensures DistinctTypes(FieldList(SetField(m, nf)))
  {
    var fs := FieldList(m);
    var rs := FieldList(SetField(m, nf));
    if FindType(fs, nf.ftype).Some? {
      assert forall j :: 0 <= j < |fs| ==> rs[j].ftype == fs[j].ftype;
    }
  }

  /** setField applied to each field in turn. */
  function SetAll(m: Match, nfs: seq<Field>): (r: Match)
    ensures r.mtype == m.mtype
    ensures |nfs| > 0 ==> r.fields.Some?
    ensures |nfs| == 0 ==> r == m
    decreases |nfs|
  {
    if |nfs| == 0 then m else SetAll(SetField(m, nfs[0]), nfs[1..])
  }

  /** A match built only by setField has at most one field of each type. */
  lemma {:induction false} SetAllDistinct(m: Match, nfs: seq<Field>)
    requires DistinctTypes(FieldList(m))
    ensures DistinctTypes(FieldList(SetAll(m, nfs)))
    decreases |nfs|
  {
    if |nfs| > 0 {
      SetFieldDistinct(m, nfs[0]);
      SetAllDistinct(SetField(m, nfs[0]), nfs[1..]);
    }
  }

  lemma BuiltMatchDistinct(nfs: seq<Field>)
    ensures DistinctTypes(FieldList(SetAll(NewMatch(), nfs)))
  {
    SetAllDistinct(NewMatch(), nfs);
  }

  /** Setting the same type twice keeps one field, holding the second value and mask. */
  lemma SetFieldTwice(m: Match, a: Field, b: Field)
    requires a.ftype == b.ftype
    ensures |FieldList(SetField(SetField(m, a), b))| == |FieldList(SetField(m, a))|
    ensures GetMatchFieldValue(SetField(SetField(m, a), b), a.ftype) == Success(Some(b.value))
  {
    GetAfterSet(m, a);
    GetAfterSet(SetField(m, a), b);
  }

  /** The fields' lengths added up. */
  function SumLengths(fs: seq<Field>): int {
    if |fs| == 0 then 0 else fs[0].length + SumLengths(fs[1..])
  }

  /** A field added at the end adds its length. */
  lemma {:induction false} SumLengthsAppend(fs: seq<Field>, f: Field)
    ensures SumLengths(fs + [f]) == SumLengths(fs) + f.length
  {
    if |fs| > 0 {
      assert (fs + [f])[1..] == fs[1..] + [f];
      SumLengthsAppend(fs[1..], f);
    }
  }

  /**
   * The length bookkeeping setField maintains: the match length is 4 plus
   * the lengths of the fields, and the total is that plus 4, rounded up to 8.
   */
  predicate Accounted(m: Match) {
    && m.matchLength == 4 + SumLengths(FieldList(m))
    && m.length == RoundUp8(m.matchLength + 4)
  }

  lemma NewMatchAccounted()
    ensures Accounted(NewMatch())
  {
  }

  /** setField keeps the bookkeeping exact while the match length stays clear of the short range's end. */
  lemma SetFieldAccounted(m: Match, nf: Field)
    requires Accounted(m)
    requires 0 <= m.matchLength && 0 <= nf.length && m.matchLength + nf.length + 11 < 0x8000
    ensures Accounted(SetField(m, nf))
  {
    var fs := FieldList(m);
    var r := SetField(m, nf);
    if FindType(fs, nf.ftype).Some? {
      SumLengthsSameLengths(fs, FieldList(r));
    } else {
      assert FieldList(r) == fs + [nf];
      SumLengthsAppend(fs, nf);
      var ml := m.matchLength + nf.length;
      assert r.matchLength == ml;
      assert JavaDiv(ml + 4 + 7, 8) == (ml + 11) / 8;
      assert ml + 11 == 8 * ((ml + 11) / 8) + (ml + 11) % 8;
    }
  }

  lemma {:induction false} SumLengthsSameLengths(fs: seq<Field>, gs: seq<Field>)
    requires |fs| == |gs| && forall j :: 0 <= j < |fs| ==> gs[j].length == fs[j].length
    ensures SumLengths(gs) == SumLengths(fs)
  {
    if |fs| > 0 {
      SumLengthsSameLengths(fs[1..], gs[1..]);
    }
  }

  /** writeTo for each field in order, concatenated. */
  function EncodeAll(fs: seq<Field>): (r: Result<seq<byte>, Exception>)
    ensures r.Success? <==> forall j :: 0 <= j < |fs| ==> EncodeMatchField(fs[j]).Success?
  {
    if |fs| == 0 then Success([])
    else
      var a :- EncodeMatchField(fs[0]);
      var b :- EncodeAll(fs[1..]);
      Success(a + b)
  }

  /** The number of zero bytes writeTo pads with: the loop runs while the computed pad is positive. */
  function WritePad(matchLength: i16): (n: nat)
    ensures 0 <= matchLength ==> matchLength + n == RoundUp8(matchLength)
  {
    JavaPad8Bounds(matchLength);
    var p := JavaPad8(matchLength);
    if p > 0 then p else 0
  }

  /**
   * writeTo: the type ordinal and the match length as shorts, every field,
   * then zero bytes up to the next multiple of 8 of the match length. A null
   * field list throws.
   */
  function WriteTo(m: Match): (r: Result<seq<byte>, Exception>)
    ensures m.fields.None? ==> r == Failure(NullPointer)
    ensures r.Success? ==>
      && EncodeAll(m.fields.value).Success?
      && |r.value| == 4 + |EncodeAll(m.fields.value).value| + WritePad(m.matchLength)
      && FromBigEndian(r.value[..2]) == Ordinal(m.mtype)
      && ToI16(FromBigEndian(r.value[2..4])) == m.matchLength
      && r.value[4..4 + |EncodeAll(m.fields.value).value|] == EncodeAll(m.fields.value).value
      && forall k :: 4 + |EncodeAll(m.fields.value).value| <= k < |r.value| ==> r.value[k] == 0
  {
    if m.fields.None? then Failure(NullPointer)
    else
      var body :- EncodeAll(m.fields.value);
      var hdr := Put(Ordinal(m.mtype), 2) + Put(m.matchLength, 2);
      HeaderShorts(Ordinal(m.mtype), m.matchLength, hdr);
      Success(hdr + body + Zeros(WritePad(m.matchLength)))
  }

  /** The two header shorts of writeTo read back as the ordinal and the signed match length. */
  lemma HeaderShorts(ordinal: int, matchLength: i16, hdr: seq<byte>)
    requires 0 <= ordinal <= 1 && hdr == Put(ordinal, 2) + Put(matchLength, 2)
    ensures FromBigEndian(hdr[..2]) == ordinal && ToI16(FromBigEndian(hdr[2..4])) == matchLength
  {
    Pow256Widths();
    PutReads(ordinal, 2);
    PutReads(matchLength, 2);
    assert hdr[..2] == Put(ordinal, 2) && hdr[2..4] == Put(matchLength, 2);
  }

  /** The value the last of these fields of type t carries, if any: what a lookup sees once they are all set. */
  function ValueSet(nfs: seq<Field>, t: FieldType): Option<Value>
  {
    if |nfs| == 0 then None
    else match ValueSet(nfs[1..], t)
      case Some(v) => Some(v)
      case None => if nfs[0].ftype == t then Some(nfs[0].value) else None
  }

  /**
   * Setting fields one after another: a lookup finds the value of the last
   * field set with that type, and the old answer if none had it.
   */
  lemma {:induction false} SetAllLookup(m: Match, nfs: seq<Field>, t: FieldType)
    requires m.fields.Some?
    ensures GetMatchFieldValue(SetAll(m, nfs), t) ==
      if ValueSet(nfs, t).Some? then Success(ValueSet(nfs, t)) else GetMatchFieldValue(m, t)
    decreases |nfs|
  {
    if |nfs| > 0 {
      var m' := SetField(m, nfs[0]);
      SetAllLookup(m', nfs[1..], t);
      if nfs[0].ftype == t {
        GetAfterSet(m, nfs[0]);
      } else {
        GetAfterSetOther(m, nfs[0], t);
      }
    }
  }

  /** A match built from a new one by a non-empty run of setField answers every lookup with the last value set, or null. */
  lemma BuiltLookup(nfs: seq<Field>, t: FieldType)
    requires |nfs| > 0
    ensures GetMatchFieldValue(SetAll(NewMatch(), nfs), t) == Success(ValueSet(nfs, t))
  {
    var m := SetField(NewMatch(), nfs[0]);
    assert FieldList(m) == [] + [nfs[0]] == [nfs[0]];
    assert SetAll(NewMatch(), nfs) == SetAll(m, nfs[1..]);
    SetAllLookup(m, nfs[1..], t);
    if nfs[0].ftype == t {
      GetAfterSet(NewMatch(), nfs[0]);
    } else {
      assert FindType(FieldList(m), t).None?;
    }
  }

  /**
   * Setting fields of distinct types one after another, on any match: each
   * field set is what a lookup of its type then finds.
   */
  lemma SetAllHolds(m: Match, nfs: seq<Field>, i: nat)
    requires DistinctTypes(nfs) && i < |nfs|
    ensures GetMatchFieldValue(SetAll(m, nfs), nfs[i].ftype) == Success(Some(nfs[i].value))
  {
    var t := nfs[i].ftype;
    var m' := SetField(m, nfs[0]);
    assert SetAll(m, nfs) == SetAll(m', nfs[1..]);
    SetAllLookup(m', nfs[1..], t);
    if i == 0 {
      ValueSetAbsent(nfs[1..], t);
      GetAfterSet(m, nfs[0]);
    } else {
      ValueSetUnique(nfs[1..], i - 1);
    }
  }

  /** ValueSet of a type no field has is None. */
  lemma {:induction false} ValueSetAbsent(nfs: seq<Field>, t: FieldType)
    requires forall j :: 0 <= j < |nfs| ==> nfs[j].ftype != t
    ensures ValueSet(nfs, t).None?
    decreases |nfs|
  {
    if |nfs| > 0 {
      ValueSetAbsent(nfs[1..], t);
    }
  }

  /** ValueSet of a type exactly one field has is that field's value. */
  lemma {:induction false} ValueSetUnique(nfs: seq<Field>, i: nat)
    requires i < |nfs| && forall j :: 0 <= j < |nfs| && j != i ==> nfs[j].ftype != nfs[i].ftype
    ensures ValueSet(nfs, nfs[i].ftype) == Some(nfs[i].value)
    decreases |nfs|
  {
    if i == 0 {
      ValueSetAbsent(nfs[1..], nfs[0].ftype);
    } else {
      ValueSetUnique(nfs[1..], i - 1);
    }
  }

  /** A value ValueSet finds is the value of a field of that type. */
  lemma {:induction false} ValueSetFrom(nfs: seq<Field>, t: FieldType)
    requires ValueSet(nfs, t).Some?
    ensures exists k :: 0 <= k < |nfs| && nfs[k].ftype == t && nfs[k].value == ValueSet(nfs, t).value
    decreases |nfs|
  {
    if ValueSet(nfs[1..], t).Some? {
      ValueSetFrom(nfs[1..], t);
      var k :| 0 <= k < |nfs[1..]| && nfs[1..][k].ftype == t && nfs[1..][k].value == ValueSet(nfs[1..], t).value;
      assert nfs[k + 1] == nfs[1..][k];
    } else {
      assert nfs[0].ftype == t;
    }
  }

  /** Fields set after others win: ValueSet of a + b is b's answer when b has one, else a's. */
  lemma {:induction false} ValueSetAppend(a: seq<Field>, b: seq<Field>, t: FieldType)
    ensures ValueSet(a + b, t) == if ValueSet(b, t).Some? then ValueSet(b, t) else ValueSet(a, t)
    decreases |a|
  {
    if |a| == 0 {
      assert a + b == b;
    } else {
      assert (a + b)[1..] == a[1..] + b;
      ValueSetAppend(a[1..], b, t);
    }
  }
}

=== FILE: match_reader.dfy ===
/**
 * OFMatch.readFrom: the type and length shorts, then either a list of OXM
 * fields (an OXM match) or the fixed standard layout; on every exit path
 * the cursor is moved to the declared end (plus the pad to 8 for OXM).
 */
module MatchReader {
  import opened Wrappers
  import opened Bytes
  import opened OxmFieldType
  import opened OxmField
  import opened Match
  import LegacyMatch

  /** What the decode loop subtracts from its remaining count per field: the header's length byte plus 4. */
  function Consumed(fs: seq<Field>): int {
    if |fs| == 0 then 0 else fs[0].length + 4 + Consumed(fs[1..])
  }

  /**
   * The OXM decode loop: while at least 4 bytes remain by its count, read a
   * match field and subtract its recorded length plus 4. The count, not the
   * bytes actually read, drives the loop.
   */
  function DecodeFields(data: seq<byte>, p: nat, remaining: int): (r: Result<Read<seq<Field>>, Exception>)
    ensures r.Success? ==> p <= r.value.next
    ensures r.Success? && remaining >= 4 ==> |r.value.value| >= 1 && r.value.next > p
    ensures r.Success? && |r.value.value| > 0 ==> remaining >= 4
    decreases if remaining > 0 then remaining else 0
  {
    if remaining < 4 then Success(Read([], p))
    else
      var f :- DecodeMatchField(data, p);
      var rest :- DecodeFields(data, f.next, remaining - (f.value.length + 4));
      Success(Read([f.value] + rest.value, rest.next))
  }

  /** A successful turn of the decode loop: a field read at p, and the rest decoded from where it ended. */
  lemma DecodeFieldsStep(data: seq<byte>, p: nat, remaining: int)
    requires remaining >= 4 && DecodeFields(data, p, remaining).Success?
    ensures DecodeMatchField(data, p).Success?
    ensures var g := DecodeMatchField(data, p).value;
      var rest := DecodeFields(data, g.next, remaining - (g.value.length + 4));
      && rest.Success?
      && DecodeFields(data, p, remaining).value == Read([g.value] + rest.value.value, rest.value.next)
  {
  }

  /** The loop stops only once the length bytes it has counted leave fewer than 4 of its count. */
  lemma {:induction false} DecodeFieldsStops(data: seq<byte>, p: nat, remaining: int)
    requires DecodeFields(data, p, remaining).Success?
    ensures remaining - Consumed(DecodeFields(data, p, remaining).value.value) < 4
    decreases if remaining > 0 then remaining else 0
  {
    if remaining >= 4 {
      DecodeFieldsStep(data, p, remaining);
      var g := DecodeMatchField(data, p).value;
      var left := remaining - (g.value.length + 4);
      DecodeFieldsStops(data, g.next, left);
      var fs := DecodeFields(data, p, remaining).value.value;
      assert fs[1..] == DecodeFields(data, g.next, left).value.value;
    }
  }

  /** Each field costs at least 4 of the count, and the cursor only moves forward. */
  lemma {:induction false} DecodeFieldsBounds(data: seq<byte>, p: nat, remaining: int)
    requires DecodeFields(data, p, remaining).Success?
    ensures 4 * |DecodeFields(data, p, remaining).value.value| <= (if remaining > 0 then remaining else 0)
    ensures p <= DecodeFields(data, p, remaining).value.next
    decreases if remaining > 0 then remaining else 0
  {
    if remaining >= 4 {
      DecodeFieldsStep(data, p, remaining);
      var g := DecodeMatchField(data, p).value;
      var left := remaining - (g.value.length + 4);
      DecodeFieldsBounds(data, g.next, left);
      assert |DecodeFields(data, p, remaining).value.value| == 1 + |DecodeFields(data, g.next, left).value.value|;
    }
  }

  /** The match type and declared length shorts at pos; a type short other than 0 or 1 indexes past OFMatchType.values(). */
  function ReadHeader(data: seq<byte>, pos: nat): (r: Result<(MatchType, i16), Exception>)
    ensures r.Success? <==> pos + 4 <= |data| && (ValueAt(data, pos, 2) == 0 || ValueAt(data, pos, 2) == 1)
    ensures r.Success? ==> Ordinal(r.value.0) == ValueAt(data, pos, 2)
    ensures r.Success? ==> U16Of(r.value.1) == ValueAt(data, pos + 2, 2)
  {
    var t :- ReadUnsigned(data, pos, 2);
    var mtype :- MatchTypeOf(ToI16(t));
    var l :- ReadUnsigned(data, pos + 2, 2);
    SignedUnsigned16(l);
    Success((mtype, ToI16(l)))
  }

  /** The body of an OXM match: fields decoded while the count, clamped to the bytes left, allows. */
  function ReadOxmBody(data: seq<byte>, start: nat, remaining: int): (r: Result<seq<Field>, Exception>)
    ensures r.Success? && |r.value| > 0 ==> 4 * |r.value| <= |data| - start
    ensures r.Success? && |r.value| > 0 ==> 4 * |r.value| <= remaining
  {
    var available := |data| - start;
    var count := if available < remaining then available else remaining;
    var fs :- DecodeFields(data, start, count);
    DecodeFieldsBounds(data, start, count);
    Success(fs.value)
  }

  /** The body of a standard match: the fixed layout's setField calls, applied in order. */
  function ReadStandardBody(data: seq<byte>, start: nat, m: Match): (r: Result<Match, Exception>)
    ensures r.Success? <==> LegacyMatch.Calls(data, start).Success?
    ensures r.Success? ==> r.value.mtype == m.mtype && r.value.fields.Some?
  {
    var calls :- LegacyMatch.Calls(data, start);
    Success(SetAll(m, calls))
  }

  /**
   * Every field the fixed layout decodes is what the match then holds for
   * its type, whatever the match held before: the layout never sets a type
   * twice, so no later call overrides an earlier one.
   */
  lemma StandardBodyHolds(data: seq<byte>, start: nat, m: Match, i: nat)
    requires LegacyMatch.Calls(data, start).Success? && i < |LegacyMatch.Calls(data, start).value|
    ensures var c := LegacyMatch.Calls(data, start).value[i];
      GetMatchFieldValue(ReadStandardBody(data, start, m).value, c.ftype) == Success(Some(c.value))
  {
    LegacyMatch.CallsOrdered(data, start);
    SetAllHolds(m, LegacyMatch.Calls(data, start).value, i);
  }

  /** A type the fixed layout does not set keeps the answer the match gave before. */
  lemma StandardBodyKeeps(data: seq<byte>, start: nat, m: Match, t: FieldType)
    requires m.fields.Some? && LegacyMatch.Calls(data, start).Success?
    requires forall j :: 0 <= j < |LegacyMatch.Calls(data, start).value| ==> LegacyMatch.Calls(data, start).value[j].ftype != t
    ensures GetMatchFieldValue(ReadStandardBody(data, start, m).value, t) == GetMatchFieldValue(m, t)
  {
    ValueSetAbsent(LegacyMatch.Calls(data, start).value, t);
    SetAllLookup(m, LegacyMatch.Calls(data, start).value, t);
  }

  /**
   * readFrom for a match at pos. An OXM match gets a fresh field list (its
   * match length is left as it was); a standard match has its fields set
   * with setField on whatever the match already held. Either way the cursor
   * ends at the declared end, plus the pad to 8 for OXM.
   */
  function ReadFrom(data: seq<byte>, pos: nat, m: Match): (r: Result<Read<Match>, Exception>)
    ensures r.Success? ==> ReadHeader(data, pos).Success?
    ensures r.Success? ==>
      var (mtype, length) := ReadHeader(data, pos).value;
      && r.value.value.mtype == mtype
      && (mtype == Oxm ==> r.value.value.length == length)
      && r.value.next == pos + U16Of(length) + (if mtype == Oxm then JavaPad8(length) else 0)
  {
    var (mtype, length) :- ReadHeader(data, pos);
    var remaining := U16Of(length) - 4;
    var end := pos + 4 + remaining;
    if mtype == Oxm then
      var fs :- ReadOxmBody(data, pos + 4, remaining);
      var next :- Seek(data, end + JavaPad8(length));
      Success(Read(m.(mtype := Oxm, length := length, fields := Some(fs)), next))
    else
      var r :- ReadStandardBody(data, pos + 4, m.(mtype := Standard, length := length));
      var next :- Seek(data, end);
      Success(Read(r, next))
  }

  /** The decode loop never lets its count exceed the bytes left in the buffer. */
  lemma OxmCountClamped(data: seq<byte>, pos: nat, m: Match)
    requires ReadFrom(data, pos, m).Success? && ReadFrom(data, pos, m).value.value.mtype == Oxm
    ensures 4 * |ReadFrom(data, pos, m).value.value.fields.value| <= |data| - (pos + 4)
  {
    var (mtype, length) := ReadHeader(data, pos).value;
    assert ReadFrom(data, pos, m).value.value.fields
        == Some(ReadOxmBody(data, pos + 4, U16Of(length) - 4).value);
  }

  /** The fields as a decoder rebuilds them: the length becomes the header's payload length. */
  function Decoded(fs: seq<Field>): (r: seq<Field>)
    ensures |r| == |fs|
    ensures forall k :: 0 <= k < |fs| ==> r[k] == fs[k].(length := PayloadLength(fs[k].ftype))
  {
    if |fs| == 0 then [] else [fs[0].(length := PayloadLength(fs[0].ftype))] + Decoded(fs[1..])
  }

  /** Fields as OFMatchField(type, value) builds them: unmasked, length 4 + payload, value of the right width. */
  predicate Plain(fs: seq<Field>) {
    forall k :: 0 <= k < |fs| ==>
      && WellFormed(fs[k].value, PayloadLength(fs[k].ftype))
      && !fs[k].hasMask && fs[k].mask.None?
      && fs[k].length == 4 + PayloadLength(fs[k].ftype)
  }

  /** One turn of the decode loop: a field read at p, then the rest from where it ended. */
  lemma DecodeFieldsCons(data: seq<byte>, p: nat, remaining: int, g: Read<Field>, rest: Read<seq<Field>>, all: Read<seq<Field>>)
    requires remaining >= 4
    requires DecodeMatchField(data, p) == Success(g)
    requires DecodeFields(data, g.next, remaining - (g.value.length + 4)) == Success(rest)
    requires all.value == [g.value] + rest.value && all.next == rest.next
    ensures DecodeFields(data, p, remaining) == Success(all)
  {
  }

  /** The head field of a plain list is encodable, the rest is plain, and the encoding splits accordingly. */
  lemma PlainCons(fs: seq<Field>)
    requires Plain(fs) && |fs| > 0
    ensures Encodable(fs[0]) && Plain(fs[1..])
    ensures EncodeMatchField(fs[0]).Success? && EncodeAll(fs[1..]).Success?
    ensures EncodeAll(fs) == Success(EncodeMatchField(fs[0]).value + EncodeAll(fs[1..]).value)
    ensures |EncodeMatchField(fs[0]).value| == fs[0].length
    ensures SumLengths(fs) == fs[0].length + SumLengths(fs[1..]) >= 4 + PayloadLength(fs[0].ftype)
  {
    assert Plain(fs[1..]);
    EncodableEncodes(fs[0]);
    EncodeAllLength(fs[1..]);
    SumLengthsNonNegative(fs[1..]);
  }

  /** The encoding of a plain list, found between p and e, splits into its head field's encoding and the rest's. */
  lemma EncodeAllAt(fs: seq<Field>, data: seq<byte>, p: nat, e: nat)
    requires Plain(fs) && |fs| > 0
    requires EncodeAll(fs).Success? && e == p + |EncodeAll(fs).value| <= |data|
    requires data[p..e] == EncodeAll(fs).value
    ensures Plain(fs[1..]) && EncodeAll(fs[1..]).Success?
    ensures e == p + fs[0].length + |EncodeAll(fs[1..]).value|
    ensures data[p + fs[0].length..e] == EncodeAll(fs[1..]).value
    ensures DecodeMatchField(data, p) == Success(Read(fs[0].(length := PayloadLength(fs[0].ftype)), p + fs[0].length))
    ensures SumLengths(fs) >= 4 && SumLengths(fs) - fs[0].length == SumLengths(fs[1..])
  {
    PlainCons(fs);
    var head := EncodeMatchField(fs[0]).value;
    var tail := EncodeAll(fs[1..]).value;
    SplitAt(data, p, p + fs[0].length, e, head, tail);
    DecodeMatchFieldAt(fs[0], data, p);
  }

  /** Decoding the concatenated encodings of plain fields found between p and e, with the count set to their total length, gives them back. */
  lemma {:induction false} DecodeEncodeAll(fs: seq<Field>, data: seq<byte>, p: nat, e: nat)
    requires Plain(fs)
    requires EncodeAll(fs).Success? && e == p + |EncodeAll(fs).value| <= |data|
    requires data[p..e] == EncodeAll(fs).value
    ensures DecodeFields(data, p, SumLengths(fs)) == Success(Read(Decoded(fs), e))
  {
    if |fs| == 0 {
      assert SumLengths(fs) == 0 && Decoded(fs) == [] && EncodeAll(fs) == Success([]);
    } else {
      EncodeAllAt(fs, data, p, e);
      var f := fs[0];
      var q := p + f.length;
      DecodeEncodeAll(fs[1..], data, q, e);
      var g := Read(f.(length := PayloadLength(f.ftype)), q);
      var rest := Read(Decoded(fs[1..]), e);
      assert Decoded(fs) == [g.value] + rest.value;
      DecodeFieldsCons(data, p, SumLengths(fs), g, rest, Read(Decoded(fs), e));
    }
  }

  /**
   * Writing an OXM match of plain fields whose match length accounts for
   * them and reading it back gives the same fields (with decoded lengths),
   * the written match length as the length, and a cursor at the end of
   * what was written.
   */
  lemma ReadWriteOxmMatch(m: Match, after: seq<byte>, target: Match)
    requires m.mtype == Oxm && m.fields.Some? && Plain(m.fields.value)
    requires m.matchLength == 4 + SumLengths(m.fields.value)
    ensures WriteTo(m).Success?
    ensures ReadFrom(WriteTo(m).value + after, 0, target)
         == Success(Read(target.(mtype := Oxm, length := m.matchLength, fields := Some(Decoded(m.fields.value))),
                         |WriteTo(m).value|))
  {
    WrittenOxmBody(m, after);
    WrittenHeader(m, after);
    var data := WriteTo(m).value + after;
    assert ReadHeader(data, 0) == Success((Oxm, m.matchLength));
    assert ReadOxmBody(data, 4, U16Of(m.matchLength) - 4) == Success(Decoded(m.fields.value));
    assert ReadFrom(data, 0, target)
        == Success(Read(target.(mtype := Oxm, length := m.matchLength, fields := Some(Decoded(m.fields.value))), |WriteTo(m).value|));
  }

  /**
   * Why ReadWriteOxmMatch asks for plain fields: a field the masked
   * constructor builds with an all-zero mask writes 4 + 2 * payload bytes,
   * but its header's length byte carries only the payload, so the decode
   * loop reads all of them while counting payload + 4. With a count of the
   * field's own length and a payload of 4 or more, the loop does not stop
   * after the field: it fails or reads a second field out of what follows.
   */
  lemma MaskedFieldOverruns(t: FieldType, v: Value, mask: Value, after: seq<byte>)
    requires WellFormed(v, PayloadLength(t)) && WellFormed(mask, PayloadLength(t)) && IsAllZero(mask)
    ensures NewMaskedField(t, v, Some(mask)).hasMask && EncodeMatchField(NewMaskedField(t, v, Some(mask))).Success?
    ensures var f := NewMaskedField(t, v, Some(mask));
      var data := EncodeMatchField(f).value + after;
      && |EncodeMatchField(f).value| == f.length
      && DecodeMatchField(data, 0) == Success(Read(f.(length := PayloadLength(t)), f.length))
    ensures var f := NewMaskedField(t, v, Some(mask));
      var r := DecodeFields(EncodeMatchField(f).value + after, 0, f.length);
      PayloadLength(t) >= 4 && r.Success? ==> |r.value.value| >= 2
  {
    MaskedFieldReads(t, v, mask, after);
    var f := NewMaskedField(t, v, Some(mask));
    var data := EncodeMatchField(f).value + after;
    var count: int := f.length;
    if PayloadLength(t) >= 4 && DecodeFields(data, 0, count).Success? {
      DecodeFieldsStep(data, 0, count);
    }
  }

  /** The masked field writes its own length in bytes, and reads back with its length byte at the payload. */
  lemma MaskedFieldReads(t: FieldType, v: Value, mask: Value, after: seq<byte>)
    requires WellFormed(v, PayloadLength(t)) && WellFormed(mask, PayloadLength(t)) && IsAllZero(mask)
    ensures NewMaskedField(t, v, Some(mask)).hasMask && EncodeMatchField(NewMaskedField(t, v, Some(mask))).Success?
    ensures var f := NewMaskedField(t, v, Some(mask));
      var data := EncodeMatchField(f).value + after;
      && |EncodeMatchField(f).value| == f.length
      && DecodeMatchField(data, 0) == Success(Read(f.(length := PayloadLength(t)), f.length))
  {
    var f := NewMaskedField(t, v, Some(mask));
    MaskedFieldEncodes(t, v, mask);
    var w := EncodeMatchField(f).value;
    WrittenFieldReads(f, w, after);
  }

  /** A written match field, whatever follows it, reads back from the start with its length byte at the payload. */
  lemma WrittenFieldReads(f: Field, w: seq<byte>, after: seq<byte>)
    requires Encodable(f) && EncodeMatchField(f) == Success(w)
    ensures DecodeMatchField(w + after, 0) == Success(Read(f.(length := PayloadLength(f.ftype)), |w|))
  {
    var data := w + after;
    assert data[0..|w|] == w;
    DecodeMatchFieldAt(f, data, 0);
  }

  /** A field the masked constructor builds with an all-zero mask keeps it, and writes 4 + 2 * payload bytes. */
  lemma MaskedFieldEncodes(t: FieldType, v: Value, mask: Value)
    requires WellFormed(v, PayloadLength(t)) && WellFormed(mask, PayloadLength(t)) && IsAllZero(mask)
    ensures var f := NewMaskedField(t, v, Some(mask));
      && f.hasMask && Encodable(f) && EncodeMatchField(f).Success?
      && |EncodeMatchField(f).value| == f.length
  {
    EncodableEncodes(NewMaskedField(t, v, Some(mask)));
  }

  /** The shorts writeTo puts first read back as the match's type and match length. */
  lemma WrittenHeader(m: Match, after: seq<byte>)
    requires WriteTo(m).Success?
    ensures ReadHeader(WriteTo(m).value + after, 0) == Success((m.mtype, m.matchLength))
  {
    var w := WriteTo(m).value;
    var data := w + after;
    assert data[0..2] == w[..2] && data[2..4] == w[2..4];
    SignedUnsigned16(ValueAt(data, 2, 2));
  }

  /** The written fields of a plain OXM match decode back, and the written bytes end at the padded match length. */
  lemma WrittenOxmBody(m: Match, after: seq<byte>)
    requires m.fields.Some? && Plain(m.fields.value)
    requires m.matchLength == 4 + SumLengths(m.fields.value)
    ensures WriteTo(m).Success?
    ensures ReadOxmBody(WriteTo(m).value + after, 4, U16Of(m.matchLength) - 4) == Success(Decoded(m.fields.value))
    ensures |WriteTo(m).value| == U16Of(m.matchLength) + JavaPad8(m.matchLength)
  {
    var fs := m.fields.value;
    var ml := m.matchLength;
    EncodeAllLength(fs);
    SumLengthsNonNegative(fs);
    var w := WriteTo(m).value;
    var body := EncodeAll(fs).value;
    var data := w + after;
    assert data[4..4 + |body|] == body by {
      assert data[4..4 + |body|] == w[4..4 + |body|];
    }
    DecodeEncodeAll(fs, data, 4, 4 + |body|);
    assert U16Of(ml) == ml by {
      ModOfSmall(ml, 0x1_0000);
    }
    assert WritePad(ml) == JavaPad8(ml) by {
      JavaPad8Bounds(ml);
    }
  }

  lemma {:induction false} SumLengthsNonNegative(fs: seq<Field>)
    requires Plain(fs)
    ensures SumLengths(fs) >= 0
  {
    if |fs| > 0 {
      assert Plain(fs[1..]);
      SumLengthsNonNegative(fs[1..]);
    }
  }

  /** The encoding of plain fields is exactly as long as the sum of their lengths. */
  lemma {:induction false} EncodeAllLength(fs: seq<Field>)
    requires Plain(fs)
    ensures EncodeAll(fs).Success? && |EncodeAll(fs).value| == SumLengths(fs)
  {
    if |fs| > 0 {
      assert Plain(fs[1..]);
      EncodeAllLength(fs[1..]);
      assert Encodable(fs[0]);
      EncodableEncodes(fs[0]);
    }
  }
}

=== FILE: message_type.dfy ===
/**
 * OpenFlow message types (OFType) and the 32-slot table that maps a wire type
 * code back to its message type. Each declared type registers itself under its
 * own code when the enumeration is initialised; the table is modelled as a
 * value and the registrations as a fold over the declaration order.
 */
module MessageType {
  import opened Wrappers
  import opened Bytes

  /**
   * The declared message types. Codes 18 and 19 are declared as STATS_REQUEST
   * and STATS_REPLY but the multipart registry refers to them as
   * MULTIPART_REQUEST and MULTIPART_REPLY; the later names are used here.
   */
  datatype OFType =
    | Hello | Error | EchoRequest | EchoReply | Vendor
    | FeaturesRequest | FeaturesReply | GetConfigRequest | GetConfigReply | SetConfig
    | PacketIn | FlowRemoved | PortStatus | PacketOut | FlowMod
    | GroupMod | PortMod | TableMod | MultipartRequest | MultipartReply
    | BarrierRequest | BarrierReply | QueueGetConfigRequest | QueueGetConfigReply
    | RoleRequest | RoleReply | MeterMod

  /** The wire code of a type (getTypeValue). GET_ASYNC_* and SET_ASYNC (26 to 28) are not declared. */
  function TypeValue(t: OFType): (c: i8)
    ensures 0 <= c < 26 || c == 29
  {
    match t
    case Hello => 0
    case Error => 1
    case EchoRequest => 2
    case EchoReply => 3
    case Vendor => 4
    case FeaturesRequest => 5
    case FeaturesReply => 6
    case GetConfigRequest => 7
    case GetConfigReply => 8
    case SetConfig => 9
    case PacketIn => 10
    case FlowRemoved => 11
    case PortStatus => 12
    case PacketOut => 13
    case FlowMod => 14
    case GroupMod => 15
    case PortMod => 16
    case TableMod => 17
    case MultipartRequest => 18
    case MultipartReply => 19
    case BarrierRequest => 20
    case BarrierReply => 21
    case QueueGetConfigRequest => 22
    case QueueGetConfigReply => 23
    case RoleRequest => 24
    case RoleReply => 25
    case MeterMod => 29
  }

  /** The declared type with a given code, if any: the independent inverse of TypeValue. */
  function TypeOfCode(c: int): Option<OFType>
  {
    match c
    case 0 => Some(Hello)
    case 1 => Some(Error)
    case 2 => Some(EchoRequest)
    case 3 => Some(EchoReply)
    case 4 => Some(Vendor)
    case 5 => Some(FeaturesRequest)
    case 6 => Some(FeaturesReply)
    case 7 => Some(GetConfigRequest)
    case 8 => Some(GetConfigReply)
    case 9 => Some(SetConfig)
    case 10 => Some(PacketIn)
    case 11 => Some(FlowRemoved)
    case 12 => Some(PortStatus)
    case 13 => Some(PacketOut)
    case 14 => Some(FlowMod)
    case 15 => Some(GroupMod)
    case 16 => Some(PortMod)
    case 17 => Some(TableMod)
    case 18 => Some(MultipartRequest)
    case 19 => Some(MultipartReply)
    case 20 => Some(BarrierRequest)
    case 21 => Some(BarrierReply)
    case 22 => Some(QueueGetConfigRequest)
    case 23 => Some(QueueGetConfigReply)
    case 24 => Some(RoleRequest)
    case 25 => Some(RoleReply)
    case 29 => Some(MeterMod)
    case _ => None
  }

  /** Decoding a type's own code gives the type back. */
  lemma TypeOfTypeValue(t: OFType)
    ensures TypeOfCode(TypeValue(t)) == Some(t)
  {
  }

  /** Every code that decodes to a type is that type's own code. */
  lemma TypeValueOfCode(c: int)
    ensures TypeOfCode(c).Some? ==> TypeValue(TypeOfCode(c).value) == c
  {
  }

  /** No two declared types share a code. */
  lemma TypeValueInjective(a: OFType, b: OFType)
    ensures TypeValue(a) == TypeValue(b) ==> a == b
  {
    TypeOfTypeValue(a);
    TypeOfTypeValue(b);
  }

  const Slots := 32

  /** The mapping array: slot i holds the type registered under code i, or None for null. */
  type Table = s: seq<Option<OFType>> | |s| == Slots witness Nones<OFType>(Slots)

  /** The freshly allocated array. */
  const EmptyTable: Table := Nones<OFType>(Slots)

  /** addMapping: stores t under code i when 0 <= i < 32 and ignores any other code. */
  function AddMapping(m: Table, i: i8, t: OFType): (r: Table)
    ensures 0 <= i < Slots ==> r[i] == Some(t)
    ensures forall j :: 0 <= j < Slots && j != i ==> r[j] == m[j]
  {
    if 0 <= i < Slots then m[i := Some(t)] else m
  }

  /** removeMapping: clears the slot of code i when 0 <= i < 32 and ignores any other code. */
  function RemoveMapping(m: Table, i: i8): (r: Table)
    ensures 0 <= i < Slots ==> r[i] == None
    ensures forall j :: 0 <= j < Slots && j != i ==> r[j] == m[j]
  {
    if 0 <= i < Slots then m[i := None] else m
  }

  /**
   * valueOf: the type registered under code i, None for an empty slot, and
   * "Unknown message type" for a code outside the table, negative bytes included.
   */
  function ValueOf(m: Table, i: i8): (r: Result<Option<OFType>, Exception>)
    ensures r.Failure? <==> i < 0 || Slots <= i
    ensures r.Failure? ==> r.error == UnknownMessageType
    ensures r.Success? ==> r.value == m[i]
  {
    if 0 <= i < Slots then Success(m[i]) else Failure(UnknownMessageType)
  }

  /** A lookup after addMapping sees the new type at its code and the old table elsewhere. */
  lemma ValueOfAddMapping(m: Table, i: i8, t: OFType, j: i8)
    ensures ValueOf(AddMapping(m, i, t), j) ==
            if j == i && 0 <= i < Slots then Success(Some(t)) else ValueOf(m, j)
  {
  }

  /** A lookup after removeMapping finds nothing at the removed code and the old table elsewhere. */
  lemma ValueOfRemoveMapping(m: Table, i: i8, j: i8)
    ensures ValueOf(RemoveMapping(m, i), j) ==
            if j == i && 0 <= i < Slots then Success(None) else ValueOf(m, j)
  {
  }

  /** The declaration order, in which the enumeration registers its constants. */
  const Declared: seq<OFType> := [
    Hello, Error, EchoRequest, EchoReply, Vendor,
    FeaturesRequest, FeaturesReply, GetConfigRequest, GetConfigReply, SetConfig,
    PacketIn, FlowRemoved, PortStatus, PacketOut, FlowMod,
    GroupMod, PortMod, TableMod, MultipartRequest, MultipartReply,
    BarrierRequest, BarrierReply, QueueGetConfigRequest, QueueGetConfigReply,
    RoleRequest, RoleReply, MeterMod]

  /** Each constructor in turn calls addMapping with its own code. */
  function Register(m: Table, ts: seq<OFType>): Table
    decreases |ts|
  {
    if |ts| == 0 then m else Register(AddMapping(m, TypeValue(ts[0]), ts[0]), ts[1..])
  }

  /** The table once every declared type has registered itself. */
  const Registry: Table := Register(EmptyTable, Declared)

  /** Registering types none of which has code c leaves slot c as it was. */
  lemma {:induction false} RegisterKeeps(m: Table, ts: seq<OFType>, c: int)
    requires 0 <= c < Slots
    requires forall k :: 0 <= k < |ts| ==> TypeValue(ts[k]) != c
    ensures Register(m, ts)[c] == m[c]
    decreases |ts|
  {
    if |ts| > 0 {
      var rest := ts[1..];
      assert forall k :: 0 <= k < |rest| ==> rest[k] == ts[k + 1];
      RegisterKeeps(AddMapping(m, TypeValue(ts[0]), ts[0]), rest, c);
    }
  }

  /** After registering ts, every type in ts is found under its own code, duplicates included. */
  lemma {:induction false} RegisterFinds(m: Table, ts: seq<OFType>, k: nat)
    requires k < |ts|
    ensures Register(m, ts)[TypeValue(ts[k])] == Some(ts[k])
    decreases |ts|
  {
    var m' := AddMapping(m, TypeValue(ts[0]), ts[0]);
    var rest := ts[1..];
    assert forall j :: 0 <= j < |rest| ==> rest[j] == ts[j + 1];
    if k > 0 {
      RegisterFinds(m', rest, k - 1);
    } else if j :| 0 <= j < |rest| && TypeValue(rest[j]) == TypeValue(ts[0]) {
      TypeValueInjective(rest[j], ts[0]);
      RegisterFinds(m', rest, j);
    } else {
      RegisterKeeps(m', rest, TypeValue(ts[0]));
    }
  }

  /** Where a type stands in the declaration order. */
  function Position(t: OFType): nat
  {
    if TypeValue(t) == 29 then 26 else TypeValue(t)
  }

  lemma DeclaredAt(t: OFType)
    ensures Position(t) < |Declared| && Declared[Position(t)] == t
  {
    if TypeValue(t) < 9 {
      DeclaredLow(t);
    } else if TypeValue(t) < 18 {
      DeclaredMiddle(t);
    } else {
      DeclaredHigh(t);
    }
  }

  lemma DeclaredLow(t: OFType)
    requires TypeValue(t) < 9
    ensures Declared[Position(t)] == t
  {
  }

  lemma DeclaredMiddle(t: OFType)
    requires 9 <= TypeValue(t) < 18
    ensures Declared[Position(t)] == t
  {
  }

  lemma DeclaredHigh(t: OFType)
    requires 18 <= TypeValue(t)
    ensures Declared[Position(t)] == t
  {
  }

  /** Every type registers its own code: valueOf(t.getTypeValue()) == t. */
  lemma ValueOfTypeValue(t: OFType)
    ensures ValueOf(Registry, TypeValue(t)) == Success(Some(t))
  {
    var c := TypeValue(t);
    assert 0 <= c < Slots;
    DeclaredAt(t);
    RegisterFinds(EmptyTable, Declared, Position(t));
  }

  /** The in-range codes of the undeclared types resolve to null. */
  lemma ValueOfUndeclared(c: i8)
    requires 0 <= c < Slots && TypeOfCode(c).None?
    ensures ValueOf(Registry, c) == Success(None)
  {
    forall k | 0 <= k < |Declared|
      ensures TypeValue(Declared[k]) != c
    {
      TypeOfTypeValue(Declared[k]);
    }
    RegisterKeeps(EmptyTable, Declared, c);
  }

  /** valueOf once the enumeration is initialised, read off the declarations. */
  function ValueOfDeclared(c: i8): Result<Option<OFType>, Exception>
  {
    if 0 <= c < Slots then Success(TypeOfCode(c)) else Failure(UnknownMessageType)
  }

  /** The initialised table answers every lookup as the declarations say. */
  lemma RegistryIsDeclared(c: i8)
    ensures ValueOf(Registry, c) == ValueOfDeclared(c)
  {
    if 0 <= c < Slots {
      match TypeOfCode(c)
      case Some(t) =>
        TypeValueOfCode(c);
        ValueOfTypeValue(t);
      case None =>
        ValueOfUndeclared(c);
    }
  }

  /** Every code outside 0..31 throws, whatever has been registered. */
  lemma ValueOfOutOfRange(m: Table, c: i8)
    requires c < 0 || Slots <= c
    ensures ValueOf(m, c) == Failure(UnknownMessageType)
  {
  }

  /** Every type's own code, as the byte on the wire, looks up to that type. */
  lemma ValueOfDeclaredTypeValue(t: OFType)
    ensures ToI8(TypeValue(t)) == TypeValue(t)
    ensures ValueOfDeclared(TypeValue(t)) == Success(Some(t))
  {
    TypeOfTypeValue(t);
  }
}

=== FILE: multipart_data_type.dfy ===
/**
 * Multipart body kinds (OFMultipartDataType) and their two independent
 * 16-slot tables, one for MULTIPART_REQUEST bodies and one for
 * MULTIPART_REPLY bodies. Negative codes are folded into the table as
 * 16 + code, which puts the vendor kind (0xffff, the short -1) in slot 15.
 */
module MultipartDataType {
  import opened Wrappers
  import opened Bytes
  import MessageType

  /** The declared kinds; GROUP and the other codes 6 to 12 are not declared. */
  datatype Kind = Desc | Flow | Aggregate | Table | Port | Queue | Vendor

  /** The short code a kind carries (getTypeValue): the declared code cut to 16 bits. */
  function TypeValue(k: Kind): (c: i16)
    ensures 0 <= c < 6 || c == -1
  {
    match k
    case Desc => 0
    case Flow => 1
    case Aggregate => 2
    case Table => 3
    case Port => 4
    case Queue => 5
    case Vendor => ToI16(0xffff)
  }

  /** The statistics classes that carry multipart bodies, as tags. */
  datatype BodyClass =
    | DescriptionStatistics
    | FlowStatisticsRequest | FlowStatisticsReply
    | AggregateStatisticsRequest | AggregateStatisticsReply
    | TableStatistics
    | PortStatisticsRequest | PortStatisticsReply
    | QueueStatisticsRequest | QueueStatisticsReply
    | VendorStatistics

  /** The request class and the reply class each kind declares. */
  function RequestClass(k: Kind): BodyClass
  {
    match k
    case Desc => DescriptionStatistics
    case Flow => FlowStatisticsRequest
    case Aggregate => AggregateStatisticsRequest
    case Table => TableStatistics
    case Port => PortStatisticsRequest
    case Queue => QueueStatisticsRequest
    case Vendor => VendorStatistics
  }

  function ReplyClass(k: Kind): BodyClass
  {
    match k
    case Desc => DescriptionStatistics
    case Flow => FlowStatisticsReply
    case Aggregate => AggregateStatisticsReply
    case Table => TableStatistics
    case Port => PortStatisticsReply
    case Queue => QueueStatisticsReply
    case Vendor => VendorStatistics
  }

  /** Only the two multipart message types select a table; any other type is refused. */
  predicate IsMultipart(t: MessageType.OFType)
  {
    t == MessageType.MultipartRequest || t == MessageType.MultipartReply
  }

  /**
   * toClass and newInstance: the class of the body, or of the new body
   * instance, for the direction t names. The instance closures each build
   * an instance of the class declared beside them, so the two agree.
   */
  function ToClass(k: Kind, t: MessageType.OFType): (r: Result<BodyClass, Exception>)
    ensures r.Failure? <==> !IsMultipart(t)
    ensures r.Failure? ==> r.error == InvalidMessageType
  {
    if t == MessageType.MultipartRequest then Success(RequestClass(k))
    else if t == MessageType.MultipartReply then Success(ReplyClass(k))
    else Failure(InvalidMessageType)
  }

  /** The request and reply bodies differ exactly for FLOW, AGGREGATE, PORT and QUEUE. */
  lemma DirectionsDiffer(k: Kind)
    ensures ToClass(k, MessageType.MultipartRequest) != ToClass(k, MessageType.MultipartReply)
            <==> k in {Flow, Aggregate, Port, Queue}
  {
  }

  const Slots := 16

  /** The slot a code selects: a negative short is folded to 16 + code. */
  function Slot(i: i16): (j: int)
    ensures 0 <= i ==> j == i
    ensures i < 0 ==> j == Slots + i && j < Slots
  {
    if i < 0 then Slots + i else i
  }

  /** One mapping array; slot j holds the kind registered there, or None for null. */
  type Mapping = s: seq<Option<Kind>> | |s| == Slots witness Nones<Kind>(Slots)

  /** The request table and the reply table. */
  datatype Mappings = Mappings(request: Mapping, reply: Mapping)

  const EmptyMappings := Mappings(Nones<Kind>(Slots), Nones<Kind>(Slots))

  /** The table a multipart direction selects. */
  function TableFor(m: Mappings, t: MessageType.OFType): Mapping
    requires IsMultipart(t)
  {
    if t == MessageType.MultipartRequest then m.request else m.reply
  }

  /**
   * addMapping: stores st in slot Slot(i) of the table t selects. A slot
   * outside the array throws, and so does a type that is neither request nor reply.
   */
  function AddMapping(m: Mappings, i: i16, t: MessageType.OFType, st: Kind): (r: Result<Mappings, Exception>)
    ensures !IsMultipart(t) ==> r == Failure(InvalidMessageType)
    ensures IsMultipart(t) && !(0 <= Slot(i) < Slots) ==> r == Failure(IndexOutOfBounds)
    ensures r.Success? ==> IsMultipart(t) && 0 <= Slot(i) < Slots && TableFor(r.value, t)[Slot(i)] == Some(st)
    ensures r.Success? ==> forall j :: 0 <= j < Slots && j != Slot(i) ==> TableFor(r.value, t)[j] == TableFor(m, t)[j]
    ensures r.Success? && t == MessageType.MultipartRequest ==> r.value.reply == m.reply
    ensures r.Success? && t == MessageType.MultipartReply ==> r.value.request == m.request
  {
    var j := Slot(i);
    if t == MessageType.MultipartRequest then
      if 0 <= j < Slots then Success(m.(request := m.request[j := Some(st)])) else Failure(IndexOutOfBounds)
    else if t == MessageType.MultipartReply then
      if 0 <= j < Slots then Success(m.(reply := m.reply[j := Some(st)])) else Failure(IndexOutOfBounds)
    else
      Failure(InvalidMessageType)
  }

  /** removeMapping: clears slot Slot(i) of the table t selects, with addMapping's failures. */
  function RemoveMapping(m: Mappings, i: i16, t: MessageType.OFType): (r: Result<Mappings, Exception>)
    ensures !IsMultipart(t) ==> r == Failure(InvalidMessageType)
    ensures IsMultipart(t) && !(0 <= Slot(i) < Slots) ==> r == Failure(IndexOutOfBounds)
    ensures r.Success? ==> IsMultipart(t) && 0 <= Slot(i) < Slots && TableFor(r.value, t)[Slot(i)] == None
    ensures r.Success? ==> forall j :: 0 <= j < Slots && j != Slot(i) ==> TableFor(r.value, t)[j] == TableFor(m, t)[j]
    ensures r.Success? && t == MessageType.MultipartRequest ==> r.value.reply == m.reply
    ensures r.Success? && t == MessageType.MultipartReply ==> r.value.request == m.request
  {
    var j := Slot(i);
    if t == MessageType.MultipartRequest then
      if 0 <= j < Slots then Success(m.(request := m.request[j := None])) else Failure(IndexOutOfBounds)
    else if t == MessageType.MultipartReply then
      if 0 <= j < Slots then Success(m.(reply := m.reply[j := None])) else Failure(IndexOutOfBounds)
    else
      Failure(InvalidMessageType)
  }

  /** valueOf: the kind in slot Slot(i) of the table t selects, with addMapping's failures. */
  function ValueOf(m: Mappings, i: i16, t: MessageType.OFType): (r: Result<Option<Kind>, Exception>)
    ensures !IsMultipart(t) ==> r == Failure(InvalidMessageType)
    ensures IsMultipart(t) && !(0 <= Slot(i) < Slots) ==> r == Failure(IndexOutOfBounds)
    ensures r.Success? ==> IsMultipart(t) && 0 <= Slot(i) < Slots && r.value == TableFor(m, t)[Slot(i)]
  {
    var j := Slot(i);
    if t == MessageType.MultipartRequest then
      if 0 <= j < Slots then Success(m.request[j]) else Failure(IndexOutOfBounds)
    else if t == MessageType.MultipartReply then
      if 0 <= j < Slots then Success(m.reply[j]) else Failure(IndexOutOfBounds)
    else
      Failure(InvalidMessageType)
  }

  /**
   * After a successful addMapping(i, t, st), valueOf finds st under every
   * code that folds to the same slot in direction t, and the old entry
   * everywhere else, including the same slot of the other direction.
   */
  lemma ValueOfAddMapping(m: Mappings, i: i16, t: MessageType.OFType, st: Kind, j: i16, u: MessageType.OFType)
    requires AddMapping(m, i, t, st).Success?
    ensures ValueOf(AddMapping(m, i, t, st).value, j, u) ==
            if u == t && Slot(j) == Slot(i) then Success(Some(st)) else ValueOf(m, j, u)
  {
  }

  /** After a successful removeMapping(i, t), valueOf finds null there and the old entry elsewhere. */
  lemma ValueOfRemoveMapping(m: Mappings, i: i16, t: MessageType.OFType, j: i16, u: MessageType.OFType)
    requires RemoveMapping(m, i, t).Success?
    ensures ValueOf(RemoveMapping(m, i, t).value, j, u) ==
            if u == t && Slot(j) == Slot(i) then Success(None) else ValueOf(m, j, u)
  {
  }

  /** The codes -1 and 15 select the same slot, so they alias each other. */
  lemma VendorAliasesFifteen(m: Mappings, t: MessageType.OFType)
    ensures Slot(TypeValue(Vendor)) == 15
    ensures ValueOf(m, TypeValue(Vendor), t) == ValueOf(m, 15, t)
  {
  }

  /** A kind's own code always selects a slot inside the array. */
  lemma KindSlotInRange(k: Kind)
    ensures 0 <= Slot(TypeValue(k)) < Slots
  {
  }

  /** The constructor of kind k: addMapping for the request table, then for the reply table. */
  function Enrol(m: Mappings, k: Kind): (r: Mappings)
    ensures r.request == m.request[Slot(TypeValue(k)) := Some(k)]
    ensures r.reply == m.reply[Slot(TypeValue(k)) := Some(k)]
  {
    KindSlotInRange(k);
    var withRequest := AddMapping(m, TypeValue(k), MessageType.MultipartRequest, k).value;
    AddMapping(withRequest, TypeValue(k), MessageType.MultipartReply, k).value
  }

  /** The declaration order of the kinds. */
  const Declared: seq<Kind> := [Desc, Flow, Aggregate, Table, Port, Queue, Vendor]

  function Register(m: Mappings, ks: seq<Kind>): Mappings
    decreases |ks|
  {
    if |ks| == 0 then m else Register(Enrol(m, ks[0]), ks[1..])
  }

  /** The two tables once every declared kind has registered itself. */
  const Registry: Mappings := Register(EmptyMappings, Declared)

  /** Registering kinds none of which folds to slot c leaves slot c of both tables as it was. */
  lemma {:induction false} RegisterKeeps(m: Mappings, ks: seq<Kind>, c: int)
    requires 0 <= c < Slots
    requires forall n :: 0 <= n < |ks| ==> Slot(TypeValue(ks[n])) != c
    ensures Register(m, ks).request[c] == m.request[c]
    ensures Register(m, ks).reply[c] == m.reply[c]
    decreases |ks|
  {
    if |ks| > 0 {
      var rest := ks[1..];
      assert forall n :: 0 <= n < |rest| ==> rest[n] == ks[n + 1];
      RegisterKeeps(Enrol(m, ks[0]), rest, c);
    }
  }

  /** Distinct kinds fold to distinct slots. */
  lemma SlotInjective(a: Kind, b: Kind)
    ensures Slot(TypeValue(a)) == Slot(TypeValue(b)) ==> a == b
  {
  }

  /** After registering ks, both tables hold every kind of ks in its own slot. */
  lemma {:induction false} RegisterFinds(m: Mappings, ks: seq<Kind>, n: nat)
    requires n < |ks|
    ensures Register(m, ks).request[Slot(TypeValue(ks[n]))] == Some(ks[n])
    ensures Register(m, ks).reply[Slot(TypeValue(ks[n]))] == Some(ks[n])
    decreases |ks|
  {
    KindSlotInRange(ks[n]);
    var m' := Enrol(m, ks[0]);
    var rest := ks[1..];
    assert forall j :: 0 <= j < |rest| ==> rest[j] == ks[j + 1];
    if n > 0 {
      RegisterFinds(m', rest, n - 1);
    } else if j :| 0 <= j < |rest| && Slot(TypeValue(rest[j])) == Slot(TypeValue(ks[0])) {
      SlotInjective(rest[j], ks[0]);
      RegisterFinds(m', rest, j);
    } else {
      RegisterKeeps(m', rest, Slot(TypeValue(ks[0])));
    }
  }

  /** Where a kind stands in the declaration order. */
  function Position(k: Kind): nat
  {
    if k == Vendor then 6 else TypeValue(k)
  }

  lemma DeclaredAt(k: Kind)
    ensures Position(k) < |Declared| && Declared[Position(k)] == k
  {
  }

  /** Each kind registers itself under its own code, for requests and for replies alike. */
  lemma ValueOfTypeValue(k: Kind, t: MessageType.OFType)
    requires IsMultipart(t)
    ensures ValueOf(Registry, TypeValue(k), t) == Success(Some(k))
  {
    KindSlotInRange(k);
    DeclaredAt(k);
    RegisterFinds(EmptyMappings, Declared, Position(k));
  }

  /** The undeclared codes 6 to 14 resolve to null in both directions. */
  lemma ValueOfUndeclared(c: i16, t: MessageType.OFType)
    requires 6 <= c <= 14 && IsMultipart(t)
    ensures ValueOf(Registry, c, t) == Success(None)
  {
    RegisterKeeps(EmptyMappings, Declared, c);
  }

  /** The declared kind whose code selects slot j, if any: the independent inverse of Slot(TypeValue(k)). */
  function KindOfSlot(j: int): Option<Kind>
  {
    match j
    case 0 => Some(Desc)
    case 1 => Some(Flow)
    case 2 => Some(Aggregate)
    case 3 => Some(Table)
    case 4 => Some(Port)
    case 5 => Some(Queue)
    case 15 => Some(Vendor)
    case _ => None
  }

  lemma KindOfSlotOfKind(k: Kind)
    ensures KindOfSlot(Slot(TypeValue(k))) == Some(k)
  {
  }

  /** valueOf once every kind has registered itself, read off the declarations. */
  function ValueOfDeclared(i: i16, t: MessageType.OFType): Result<Option<Kind>, Exception>
  {
    if !IsMultipart(t) then Failure(InvalidMessageType)
    else if !(0 <= Slot(i) < Slots) then Failure(IndexOutOfBounds)
    else Success(KindOfSlot(Slot(i)))
  }

  lemma SlotOfKindOfSlot(j: int, k: Kind)
    requires KindOfSlot(j) == Some(k)
    ensures Slot(TypeValue(k)) == j
  {
  }

  /** The slots no kind selects are 6 to 14. */
  lemma UndeclaredSlots(j: int)
    requires 0 <= j < Slots && KindOfSlot(j).None?
    ensures 6 <= j <= 14
  {
  }

  /** valueOf depends on a code only through its slot. */
  lemma ValueOfSameSlot(m: Mappings, i: i16, c: i16, t: MessageType.OFType)
    requires Slot(i) == Slot(c)
    ensures ValueOf(m, i, t) == ValueOf(m, c, t)
  {
  }

  /** The initialised tables answer every lookup as the declarations say. */
  lemma RegistryIsDeclared(i: i16, t: MessageType.OFType)
    ensures ValueOf(Registry, i, t) == ValueOfDeclared(i, t)
  {
    var j := Slot(i);
    if IsMultipart(t) && 0 <= j < Slots {
      match KindOfSlot(j)
      case Some(k) =>
        SlotOfKindOfSlot(j, k);
        ValueOfTypeValue(k, t);
        ValueOfSameSlot(Registry, i, TypeValue(k), t);
      case None =>
        UndeclaredSlots(j);
        ValueOfUndeclared(j, t);
        ValueOfSameSlot(Registry, i, j, t);
    }
  }

  /** Every kind's own code looks up to that kind in either direction. */
  lemma ValueOfDeclaredTypeValue(k: Kind, t: MessageType.OFType)
    requires IsMultipart(t)
    ensures ValueOfDeclared(TypeValue(k), t) == Success(Some(k))
  {
    KindSlotInRange(k);
    KindOfSlotOfKind(k);
  }
}

=== FILE: multipart_message.dfy ===
/**
 * Multipart request and reply messages (OFMultipartMessageBase and its two
 * subclasses): the OpenFlow header, the body type, the flags, and the list of
 * body records the factory's multipart loop reads.
 */
module MultipartMessage {
  import opened Wrappers
  import opened Bytes
  import MessageType
  import MultipartDataType
  import Statistics
  import Factory

  /** MINIMUM_LENGTH: the 8-byte header, the body type, the flags and 4 pad bytes. */
  const MinimumLength := 16

  /**
   * The header fields every message holds. OFMessage is not part of this
   * model; its header is taken to be the 8 bytes of section A.1 of the
   * OpenFlow Switch Specification 1.3 (version, type, length, xid), with the
   * type resolved through OFType.valueOf, which may give null.
   */
  datatype Header = Header(version: byte, msgType: Option<MessageType.OFType>, length: i16, xid: u32)

  /** A multipart message; hasFactory records whether setMultipartFactory was called. */
  datatype Message = Message(
    header: Header, dataType: Option<MultipartDataType.Kind>, flags: i16,
    body: Option<seq<Factory.Record>>, hasFactory: bool)

  /** getLengthU: the header length read as unsigned. */
  function LengthU(m: Message): u16
  {
    U16Of(m.header.length)
  }

  /** The constructors: OFMessage's own fields, then the type and a length of 16. */
  function NewMessage(t: MessageType.OFType, version: byte): Message
  {
    Message(Header(version, Some(t), ToI16(MinimumLength), 0), None, 0, None, false)
  }

  /** OFMultipartRequest(): a MULTIPART_REQUEST of length 16 with no body. */
  function NewRequest(version: byte): (m: Message)
    ensures m.header.msgType == Some(MessageType.MultipartRequest) && LengthU(m) == MinimumLength
    ensures m.body.None? && !m.hasFactory
  {
    NewMessage(MessageType.MultipartRequest, version)
  }

  /** OFMultipartReply(): a MULTIPART_REPLY of length 16 with no body. */
  function NewReply(version: byte): (m: Message)
    ensures m.header.msgType == Some(MessageType.MultipartReply) && LengthU(m) == MinimumLength
    ensures m.body.None? && !m.hasFactory
  {
    NewMessage(MessageType.MultipartReply, version)
  }

  /** The body records, none for a null list. */
  function Records(m: Message): seq<Factory.Record>
  {
    if m.body.Some? then m.body.value else []
  }

  /** getFirstMultipartData: the first record, and an exception for a null or empty list. */
  function FirstMultipartData(m: Message): (r: Result<Factory.Record, Exception>)
    ensures r.Failure? <==> m.body.None? || m.body.value == []
    ensures r.Failure? ==> r.error == NoMultipartData
    ensures r.Success? ==> r.value == m.body.value[0]
  {
    if m.body.None? || |m.body.value| == 0 then Failure(NoMultipartData) else Success(m.body.value[0])
  }

  /** OFMultipartRequest.getMultipartData: null for a null or empty list, else the first record. */
  function RequestData(m: Message): (r: Option<Factory.Record>)
    ensures r.None? <==> m.body.None? || m.body.value == []
    ensures r.Some? ==> r.value == m.body.value[0]
  {
    if m.body.None? then None else if |m.body.value| == 0 then None else Some(m.body.value[0])
  }

  /** OFMultipartRequest.setMultipartData: the one-record list [d]; nothing else changes. */
  function SetRequestData(m: Message, d: Factory.Record): (r: Message)
    ensures RequestData(r) == Some(d)
    ensures ReplyData(r) == Some([d])
    ensures Records(r) == [d]
    ensures r.header == m.header && r.dataType == m.dataType && r.flags == m.flags && r.hasFactory == m.hasFactory
  {
    m.(body := Some([d]))
  }

  /** OFMultipartReply.getMultipartData: null for a null or empty list, else the list itself. */
  function ReplyData(m: Message): (r: Option<seq<Factory.Record>>)
    ensures r.None? <==> m.body.None? || m.body.value == []
    ensures r.Some? ==> r.value == m.body.value && |r.value| > 0
  {
    if m.body.None? then None else if |m.body.value| == 0 then None else Some(m.body.value)
  }

  /** A record set by the request setter is also what getFirstMultipartData gives back. */
  lemma SetThenGet(m: Message, d: Factory.Record)
    ensures FirstMultipartData(SetRequestData(m, d)) == Success(d)
  {
  }

  /**
   * The three getters agree: the request getter and getFirstMultipartData
   * give the head of the list the reply getter gives, and all three find
   * nothing on the same messages.
   */
  lemma GettersAgree(m: Message)
    ensures RequestData(m).None? <==> ReplyData(m).None?
    ensures RequestData(m).None? <==> FirstMultipartData(m).Failure?
    ensures RequestData(m).Some? ==>
      RequestData(m).value == ReplyData(m).value[0] && FirstMultipartData(m) == Success(RequestData(m).value)
  {
  }

  /** computeLength: 16 plus every record's length, cut to a short; nothing else changes. */
  function ComputeLength(m: Message): (r: Message)
    ensures r == m.(header := m.header.(length := r.header.length))
    ensures LengthU(r) == (MinimumLength + Factory.RecordsLength(Records(m))) % 0x1_0000
  {
    m.(header := m.header.(length := ToI16(MinimumLength + Factory.RecordsLength(Records(m)))))
  }

  /** What readFrom reads before the body: the header, the body type and the flags. */
  datatype Head = Head(header: Header, dataType: Option<MultipartDataType.Kind>, flags: i16)

  /** OFMessage.readFrom: version, type (through OFType.valueOf), length and xid. */
  function ReadHeader(data: seq<byte>, pos: nat): (r: Result<Read<Header>, Exception>)
    ensures r.Success? ==> r.value.next == pos + 8 <= |data|
    ensures r.Failure? ==> r.error in {BufferUnderflow, UnknownMessageType}
  {
    Pow256Widths();
    var version :- ReadUnsigned(data, pos, 1);
    var code :- ReadUnsigned(data, pos + 1, 1);
    var t :- MessageType.ValueOfDeclared(ToI8(code));
    var length :- ReadUnsigned(data, pos + 2, 2);
    var xid :- ReadUnsigned(data, pos + 4, 4);
    Success(Read(Header(version, t, ToI16(length), xid), pos + 8))
  }

  /**
   * The first 16 bytes: the header, then valueOf(getShort(), type), which
   * throws for a type other than the two multipart types and dereferences a
   * null type in building that exception's message, then the flags and 4 pad
   * bytes.
   */
  function ReadHead(data: seq<byte>, pos: nat): (r: Result<Read<Head>, Exception>)
    ensures r.Success? ==> r.value.next == pos + MinimumLength <= |data|
    ensures r.Success? ==> r.value.value.header.msgType.Some?
    ensures r.Success? ==> MultipartDataType.IsMultipart(r.value.value.header.msgType.value)
    ensures r.Failure? ==> r.error in {BufferUnderflow, UnknownMessageType, InvalidMessageType, IndexOutOfBounds, NullPointer}
    ensures ReadHeader(data, pos).Success? && ReadHeader(data, pos).value.value.msgType.None? && pos + 10 <= |data| ==>
      r == Failure(NullPointer)
    ensures ReadHeader(data, pos).Success? && pos + 10 <= |data| ==>
      var t := ReadHeader(data, pos).value.value.msgType;
      t.Some? && !MultipartDataType.IsMultipart(t.value) ==> r == Failure(InvalidMessageType)
  {
    Pow256Widths();
    var header :- ReadHeader(data, pos);
    var t := header.value.msgType;
    var kindCode :- ReadUnsigned(data, pos + 8, 2);
    var kind :- if t.None? then Failure(NullPointer)
                else MultipartDataType.ValueOfDeclared(ToI16(kindCode), t.value);
    var flags :- ReadUnsigned(data, pos + 10, 2);
    var _ :- ReadUnsigned(data, pos + 12, 4);
    Success(Read(Head(header.value, kind, ToI16(flags)), pos + MinimumLength))
  }

  /** The record class the body type and the message type select; fixedSize stands for a fresh non-vendor instance's length. */
  function RecordClassOf(k: MultipartDataType.Kind, fixedSize: nat): Factory.RecordClass
  {
    if k == MultipartDataType.Vendor then Factory.VendorRecord else Factory.FixedRecord(fixedSize)
  }

  /**
   * readFrom into m: the head, then, when a factory is set, the multipart
   * loop over the message length minus 16 with no limit. A null body type
   * throws in the factory when it asks for a new instance.
   */
  function ReadMessage(m: Message, data: seq<byte>, pos: nat, fixedSize: nat): (r: Result<Read<Message>, Exception>)
    requires pos <= |data| && fixedSize > 0
    ensures ReadHead(data, pos).Success? && !m.hasFactory ==> r == Failure(FactoryNotSet)
    ensures ReadHead(data, pos).Failure? ==> r == Failure(ReadHead(data, pos).error)
    ensures r.Success? ==> m.hasFactory && r.value.value.hasFactory && r.value.value.body.Some?
    ensures r.Success? ==> r.value.value.header == ReadHead(data, pos).value.value.header
    ensures r.Success? && Records(r.value.value) != [] ==>
      MinimumLength + Factory.RecordsLength(Records(r.value.value)) <= LengthU(r.value.value)
    ensures r.Success? && MinimumLength <= LengthU(r.value.value) ==> r.value.next == pos + LengthU(r.value.value)
  {
    var head :- ReadHead(data, pos);
    if !m.hasFactory then Failure(FactoryNotSet)
    else if head.value.dataType.None? then Failure(NullPointer)
    else
      var c := RecordClassOf(head.value.dataType.value, fixedSize);
      var body :- Factory.ParseMultipartData(c, data, head.next, U16Of(head.value.header.length) - MinimumLength, 0);
      Success(Read(Message(head.value.header, head.value.dataType, head.value.flags, Some(body.value), true), body.next))
  }

  /** OFMessage.writeTo: version, the type's code, length and xid. */
  function WriteHeader(h: Header): (s: seq<byte>)
    requires h.msgType.Some?
    ensures |s| == 8
  {
    Put(h.version, 1) + (Put(MessageType.TypeValue(h.msgType.value), 1) + (Put(h.length, 2) + Put(h.xid, 4)))
  }

  /** The first 16 bytes writeTo writes: the header, the body type's code, the flags and 4 zero bytes. */
  function WriteHead(h: Head): (s: seq<byte>)
    requires h.header.msgType.Some? && h.dataType.Some?
    ensures |s| == MinimumLength
  {
    WriteHeader(h.header) + (Put(MultipartDataType.TypeValue(h.dataType.value), 2) + (Put(h.flags, 2) + Zeros(4)))
  }

  function HeadOf(m: Message): Head
  {
    Head(m.header, m.dataType, m.flags)
  }

  /** writeTo: the head, then every record; a null type or body type throws when its code is asked for. */
  function WriteMessage(m: Message): (r: Result<seq<byte>, Exception>)
    ensures r.Failure? <==> m.header.msgType.None? || m.dataType.None?
    ensures r.Failure? ==> r.error == NullPointer
    ensures r.Success? ==> |r.value| == MinimumLength + |Factory.WriteRecords(Records(m))|
  {
    if m.header.msgType.None? || m.dataType.None? then Failure(NullPointer)
    else Success(WriteHead(HeadOf(m)) + Factory.WriteRecords(Records(m)))
  }

  lemma ReadWriteHeader(h: Header, data: seq<byte>, pos: nat)
    requires h.msgType.Some?
    requires pos + 8 <= |data| && data[pos..pos + 8] == WriteHeader(h)
    ensures ReadHeader(data, pos) == Success(Read(h, pos + 8))
  {
    Pow256Widths();
    var t := h.msgType.value;
    var e := pos + 8;
    var t3 := Put(h.length, 2) + Put(h.xid, 4);
    var t2 := Put(MessageType.TypeValue(t), 1) + t3;
    SplitAt(data, pos, pos + 1, e, Put(h.version, 1), t2);
    SplitAt(data, pos + 1, pos + 2, e, Put(MessageType.TypeValue(t), 1), t3);
    SplitAt(data, pos + 2, pos + 4, e, Put(h.length, 2), Put(h.xid, 4));
    ReadPutAt(data, pos, h.version, 1);
    ReadPutAt(data, pos + 1, MessageType.TypeValue(t), 1);
    MessageType.ValueOfDeclaredTypeValue(t);
    ReadPutShort(data, pos + 2, h.length);
    ReadPutAt(data, pos + 4, h.xid, 4);
  }

  /** The head of a multipart message with a body type reads back as written. */
  lemma ReadWriteHead(h: Head, data: seq<byte>, pos: nat)
    requires h.header.msgType.Some? && MultipartDataType.IsMultipart(h.header.msgType.value) && h.dataType.Some?
    requires pos + MinimumLength <= |data| && data[pos..pos + MinimumLength] == WriteHead(h)
    ensures ReadHead(data, pos) == Success(Read(h, pos + MinimumLength))
  {
    Pow256Widths();
    var k := h.dataType.value;
    var e := pos + MinimumLength;
    var t6 := Put(h.flags, 2) + Zeros(4);
    var t5 := Put(MultipartDataType.TypeValue(k), 2) + t6;
    SplitAt(data, pos, pos + 8, e, WriteHeader(h.header), t5);
    SplitAt(data, pos + 8, pos + 10, e, Put(MultipartDataType.TypeValue(k), 2), t6);
    SplitAt(data, pos + 10, pos + 12, e, Put(h.flags, 2), Zeros(4));
    ReadWriteHeader(h.header, data, pos);
    ReadPutShort(data, pos + 8, MultipartDataType.TypeValue(k));
    MultipartDataType.ValueOfDeclaredTypeValue(k, h.header.msgType.value);
    ReadPutShort(data, pos + 10, h.flags);
  }

  /**
   * After computeLength, a message whose records all report their own size
   * writes as many bytes as its length field says, as long as the total
   * fits the unsigned short.
   */
  lemma ComputedLengthIsWritten(m: Message)
    requires m.header.msgType.Some? && m.dataType.Some?
    requires forall i :: 0 <= i < |Records(m)| ==> Factory.SelfSized(Records(m)[i])
    requires MinimumLength + Factory.RecordsLength(Records(m)) < 0x1_0000
    ensures WriteMessage(ComputeLength(m)).Success?
    ensures |WriteMessage(ComputeLength(m)).value| == LengthU(ComputeLength(m))
  {
    Factory.WrittenLengthIsRecordsLength(Records(m));
    ModOfSmall(MinimumLength + Factory.RecordsLength(Records(m)), 0x1_0000);
  }

  /** The body the given body type lets the loop read back: one self-sized vendor record, or records of the fixed size. */
  predicate BodyFits(k: MultipartDataType.Kind, rs: seq<Factory.Record>, fixedSize: nat)
  {
    if k == MultipartDataType.Vendor then |rs| == 1 && rs[0].VendorData? && Factory.SelfSized(rs[0])
    else Factory.AllFixed(rs, fixedSize)
  }

  /** A message readFrom can reproduce: a multipart type, a body type, a factory, and a length that covers the body exactly. */
  predicate Consistent(m: Message, fixedSize: nat)
  {
    && m.header.msgType.Some? && MultipartDataType.IsMultipart(m.header.msgType.value)
    && m.dataType.Some? && m.body.Some? && m.hasFactory
    && BodyFits(m.dataType.value, m.body.value, fixedSize)
    && LengthU(m) == MinimumLength + Factory.RecordsLength(m.body.value)
  }

  lemma BodyFitsSelfSized(k: MultipartDataType.Kind, rs: seq<Factory.Record>, fixedSize: nat)
    requires BodyFits(k, rs, fixedSize)
    ensures forall i :: 0 <= i < |rs| ==> Factory.SelfSized(rs[i])
  {
  }

  /** A vendor body of one self-sized record, found after the head, reads back as that record. */
  lemma ReadWriteVendorBody(rs: seq<Factory.Record>, length: int, data: seq<byte>)
    requires |rs| == 1 && rs[0].VendorData? && Factory.SelfSized(rs[0]) && length == Factory.RecordsLength(rs)
    requires MinimumLength <= |data| == MinimumLength + length && data[MinimumLength..] == Factory.WriteRecords(rs)
    ensures Factory.ParseMultipartData(Factory.VendorRecord, data, MinimumLength, length, 0) == Success(Read(rs, |data|))
  {
    var v := rs[0].stats;
    assert rs == [Factory.VendorData(v)];
    assert Factory.WriteRecords(rs) == Statistics.WriteVendor(v);
    Factory.ReadWriteVendorBody(v, data, MinimumLength);
  }

  /** The body of a consistent message, found after its head, reads back as the records written. */
  lemma ReadWriteBody(m: Message, fixedSize: nat, data: seq<byte>)
    requires fixedSize > 0 && Consistent(m, fixedSize)
    requires |data| == MinimumLength + |Factory.WriteRecords(m.body.value)|
    requires data[MinimumLength..] == Factory.WriteRecords(m.body.value)
    ensures Factory.ParseMultipartData(RecordClassOf(m.dataType.value, fixedSize), data, MinimumLength, LengthU(m) - MinimumLength, 0)
      == Success(Read(m.body.value, |data|))
  {
    var rs := m.body.value;
    BodyFitsSelfSized(m.dataType.value, rs, fixedSize);
    Factory.WrittenLengthIsRecordsLength(rs);
    var length := LengthU(m) - MinimumLength;
    if m.dataType.value == MultipartDataType.Vendor {
      ReadWriteVendorBody(rs, length, data);
    } else {
      assert data[MinimumLength..MinimumLength + length] == Factory.WriteRecords(rs);
      Factory.ReadWriteFixedRecords(rs, fixedSize, data, MinimumLength, 0, length, 0);
    }
  }

  /**
   * Round trip: a consistent message written by writeTo is read back whole
   * by readFrom into any message with a factory set, which consumes exactly
   * the bytes written.
   */
  lemma ReadWriteMessage(m: Message, target: Message, fixedSize: nat)
    requires fixedSize > 0 && Consistent(m, fixedSize) && target.hasFactory
    ensures WriteMessage(m).Success?
    ensures ReadMessage(target, WriteMessage(m).value, 0, fixedSize) == Success(Read(m, |WriteMessage(m).value|))
  {
    var head := WriteHead(HeadOf(m));
    var body := Factory.WriteRecords(m.body.value);
    var w := WriteMessage(m).value;
    assert w == head + body;
    SplitAt(w, 0, MinimumLength, |w|, head, body);
    ReadWriteHead(HeadOf(m), w, 0);
    ReadWriteBody(m, fixedSize, w);
  }
}

=== FILE: oxm_field.dfy ===
/**
 * One OXM TLV (OpenFlow Switch Specification 1.3, section A.2.3.2): a 4-byte
 * header `class << 16 | code << 9 | hasMask << 8 | length`, the value, and,
 * for a match field whose hasMask bit is set, a mask of the same width.
 * OFOXMField and its subclass OFMatchField are one datatype here; a plain
 * OFOXMField simply never carries a mask.
 */
module OxmField {
  import opened Wrappers
  import opened Bytes
  import opened OxmFieldType

  /** The boxed Java object held as a field's value or mask, as its unsigned bits. */
  datatype Value =
    | U8(b: byte)                 // java.lang.Byte
    | U16(s: u16)                 // java.lang.Short
    | U32(i: u32)                 // java.lang.Integer
    | U64(l: u64)                 // java.lang.Long
    | ByteArray(a: seq<byte>)     // byte[]

  /**
   * A field: its type, value, the hasMask bit, the recorded length and the
   * mask (Java null is None).
   */
  datatype Field = Field(ftype: FieldType, value: Value, hasMask: bool, length: int, mask: Option<Value>)

  /** The four header fields as unpacked from a header word. */
  datatype Header = Header(cls: int, code: int, hasMask: bool, length: int)

  function Bit(b: bool): int {
    if b then 1 else 0
  }

  /**
   * The header word getOXMFieldHeader computes, as the 32 bits putInt writes.
   * The length is OR-ed in after a cast to byte, so a length of 128 or more
   * is sign-extended and sets every bit above the low byte.
   */
  function PackHeader(cls: u16, code: int, hasMask: bool, length: byte): (w: u32)
    requires 0 <= code < 128
  {
    if length < 0x80 then cls * 0x1_0000 + code * 0x200 + Bit(hasMask) * 0x100 + length
    else 0xFFFF_FF00 + length
  }

  /** readFrom's unpacking: class (the high half), code (bits 9-15), hasMask (bit 8) and length (the low byte). */
  function UnpackHeader(w: u32): (h: Header)
    ensures 0 <= h.cls < 0x1_0000 && 0 <= h.code < 128 && 0 <= h.length < 0x100
  {
    Header(w / 0x1_0000, (w / 0x200) % 0x80, (w / 0x100) % 2 == 1, w % 0x100)
  }

  /** Unpacking a packed header recovers every part, as long as the length is below 128. */
  lemma UnpackPackHeader(cls: u16, code: int, hasMask: bool, length: byte)
    requires 0 <= code < 128
    ensures length < 0x80 ==> UnpackHeader(PackHeader(cls, code, hasMask, length)) == Header(cls, code, hasMask, length)
    ensures length >= 0x80 ==> UnpackHeader(PackHeader(cls, code, hasMask, length)) == Header(0xFFFF, 0x7F, true, length)
  {
    var w := PackHeader(cls, code, hasMask, length);
    var m := Bit(hasMask);
    if length < 0x80 {
      DivModAdd(cls, code * 0x200 + m * 0x100 + length, 0x1_0000);
      assert w == (cls * 0x80 + code) * 0x200 + (m * 0x100 + length);
      DivModAdd(cls * 0x80 + code, m * 0x100 + length, 0x200);
      DivModAdd(cls, code, 0x80);
      assert w == (cls * 0x100 + code * 2 + m) * 0x100 + length;
      DivModAdd(cls * 0x100 + code * 2 + m, length, 0x100);
      assert cls * 0x100 + code * 2 + m == (cls * 0x80 + code) * 2 + m;
      DivModAdd(cls * 0x80 + code, m, 2);
    } else {
      DivModAdd(0xFFFF, 0xFF00 + length, 0x1_0000);
      DivModAdd(0x7F_FFFF, 0x100 + length, 0x200);
      DivModAdd(0xFFFF, 0x7F, 0x80);
      DivModAdd(0xFF_FFFF, length, 0x100);
      DivModAdd(0x7F_FFFF, 1, 2);
    }
  }

  /**
   * The header at pos, taken byte by byte: the class short, the byte
   * holding the code (high seven bits) and hasMask (low bit), and the
   * length byte. HeaderAtUnpacks shows this is readFrom's unpacking of the
   * getInt word.
   */
  function HeaderAt(data: seq<byte>, pos: nat): (h: Header)
    requires pos + 4 <= |data|
    ensures 0 <= h.code < 128 && 0 <= h.length < 0x100
  {
    var b := ValueAt(data, pos + 2, 1);
    Header(ValueAt(data, pos, 2), b / 2, b % 2 == 1, ValueAt(data, pos + 3, 1))
  }

  lemma HeaderAtUnpacks(data: seq<byte>, pos: nat)
    requires pos + 4 <= |data|
    ensures HeaderAt(data, pos) == UnpackHeader(ValueAt(data, pos, 4))
  {
    var s := data[pos..pos + 4];
    var s3 := s[..3];
    assert s3 == data[pos..pos + 3];
    assert s3[..2] == data[pos..pos + 2];
    var c: int := ValueAt(data, pos, 2);
    var b: int := s[2];
    var l: int := s[3];
    assert FromBigEndian(s3) == c * 0x100 + b;
    assert FromBigEndian(s) == FromBigEndian(s3) * 0x100 + l;
    assert data[pos + 2..pos + 3] == [b] && data[pos + 3..pos + 4] == [l];
    assert FromBigEndian([b]) == b && FromBigEndian([l]) == l by {
      assert [b][..0] == [] && [l][..0] == [];
    }
    var w := ValueAt(data, pos, 4);
    assert w == c * 0x1_0000 + (b * 0x100 + l);
    DivModAdd(c, b * 0x100 + l, 0x1_0000);
    assert w == (c * 0x100 + b) * 0x100 + l;
    DivModAdd(c * 0x100 + b, l, 0x100);
    DivModAdd(b / 2, b % 2, 2);
    assert w == (c * 0x80 + b / 2) * 0x200 + ((b % 2) * 0x100 + l);
    DivModAdd(c * 0x80 + b / 2, (b % 2) * 0x100 + l, 0x200);
    DivModAdd(c, b / 2, 0x80);
    assert c * 0x100 + b == (c * 0x80 + b / 2) * 2 + b % 2;
    DivModAdd(c * 0x80 + b / 2, b % 2, 2);
  }

  /** The header of a field: the catalog's class, code and payload length, with the field's hasMask bit. */
  function HeaderWord(f: Field): (w: u32)
    ensures UnpackHeader(w) == Header(OpenFlowBasic, Code(f.ftype), f.hasMask, PayloadLength(f.ftype))
  {
    UnpackPackHeader(FieldClass(f.ftype), Code(f.ftype), f.hasMask, PayloadLength(f.ftype));
    PackHeader(FieldClass(f.ftype), Code(f.ftype), f.hasMask, PayloadLength(f.ftype))
  }

  /** isAllZero: a scalar equal to 0, or an array of zero bytes. */
  function IsAllZero(v: Value): bool {
    match v
    case U8(b) => b == 0
    case U16(s) => s == 0
    case U32(i) => i == 0
    case U64(l) => l == 0
    case ByteArray(a) => forall k :: 0 <= k < |a| ==> a[k] == 0
  }

  /** The boxed class readObject produces for a width of n bytes. */
  function KindFor(v: Value, n: nat): bool {
    match v
    case U8(_) => n == 1
    case U16(_) => n == 2
    case U32(_) => n == 4
    case U64(_) => n == 8
    case ByteArray(_) => n !in {1, 2, 4, 8}
  }

  /** A value readObject(n) can produce: the right class, and exactly n bytes for an array. */
  predicate WellFormed(v: Value, n: nat) {
    KindFor(v, n) && (v.ByteArray? ==> |v.a| == n)
  }

  /** The boxed object readObject makes of the bytes it read: a scalar for widths 1, 2, 4 and 8, else the array. */
  function Box(bytes: seq<byte>): (v: Value)
    ensures WellFormed(v, |bytes|)
  {
    var bits := FromBigEndian(bytes);
    match |bytes|
    case 1 => U8(bits)
    case 2 => U16(bits)
    case 4 => U32(bits)
    case 8 => U64(bits)
    case _ => ByteArray(bytes)
  }

  /** readObject: n bytes at pos, boxed by width. */
  function ReadObject(data: seq<byte>, pos: nat, n: nat): (r: Result<Read<Value>, Exception>)
    ensures r.Success? <==> pos + n <= |data|
    ensures r.Failure? ==> r.error == BufferUnderflow
    ensures r.Success? ==> r.value.next == pos + n && WellFormed(r.value.value, n)
  {
    if pos + n > |data| then Failure(BufferUnderflow)
    else Success(Read(Box(data[pos..pos + n]), pos + n))
  }

  /**
   * writeObject: the bytes written for v at width n. The cast to the boxed
   * class of the width fails on any other class; an array shorter than n
   * fails the bounded put. A null value (None) fails on unboxing.
   */
  function WriteObject(v: Option<Value>, n: nat): (r: Result<seq<byte>, Exception>)
    ensures r.Success? <==> v.Some? && KindFor(v.value, n) && (v.value.ByteArray? ==> n <= |v.value.a|)
    ensures r.Success? ==> |r.value| == n
    ensures v.None? ==> r == Failure(NullPointer)
  {
    match v
    case None => Failure(NullPointer)
    case Some(x) =>
      if !KindFor(x, n) then Failure(ClassCast)
      else match x
        case U8(b) => Success(Put(b, n))
        case U16(s) => Success(Put(s, n))
        case U32(i) => Success(Put(i, n))
        case U64(l) => Success(Put(l, n))
        case ByteArray(a) => if |a| < n then Failure(IndexOutOfBounds) else Success(a[..n])
  }

  /** Boxing the bytes writeObject produced for a well-formed value gives the value again. */
  lemma BoxWriteObject(v: Value, n: nat)
    requires WellFormed(v, n)
    ensures WriteObject(Some(v), n).Success?
    ensures Box(WriteObject(Some(v), n).value) == v
  {
    var w := WriteObject(Some(v), n).value;
    Pow256Widths();
    match v
    case U8(b) => PutReads(b, n);
    case U16(s) => PutReads(s, n);
    case U32(i) => PutReads(i, n);
    case U64(l) => PutReads(l, n);
    case ByteArray(a) => assert w == a[..n] == a;
  }

  /** The bytes writeObject produces for a well-formed value, found at pos, read back as the value. */
  lemma ReadObjectAt(v: Value, n: nat, data: seq<byte>, pos: nat)
    requires WellFormed(v, n)
    requires pos + n <= |data| && WriteObject(Some(v), n) == Success(data[pos..pos + n])
    ensures ReadObject(data, pos, n) == Success(Read(v, pos + n))
  {
    BoxWriteObject(v, n);
  }

  lemma {:induction false} FromBigEndianZero(s: seq<byte>)
    ensures FromBigEndian(s) == 0 <==> forall k :: 0 <= k < |s| ==> s[k] == 0
  {
    if |s| > 0 {
      FromBigEndianZero(s[..|s| - 1]);
      assert forall k :: 0 <= k < |s| - 1 ==> s[..|s| - 1][k] == s[k];
    }
  }

  /** isAllZero holds exactly when the value's wire encoding is all zero bytes. */
  lemma IsAllZeroEncoding(v: Value, n: nat)
    requires WellFormed(v, n)
    ensures IsAllZero(v) <==> WriteObject(Some(v), n).value == Zeros(n)
  {
    var w := WriteObject(Some(v), n).value;
    Pow256Widths();
    match v
    case U8(b) => PutZero(b, n);
    case U16(s) => PutZero(s, n);
    case U32(i) => PutZero(i, n);
    case U64(l) => PutZero(l, n);
    case ByteArray(a) => assert w == a;
  }

  /** A scalar in range is zero exactly when its big-endian bytes are. */
  lemma PutZero(x: nat, n: nat)
    requires x < Pow256(n)
    ensures x == 0 <==> Put(x, n) == Zeros(n)
  {
    if x == 0 {
      ToBigEndianZero(n);
    } else if Put(x, n) == Zeros(n) {
      PutReads(x, n);
      DivModAdd(0, x, Pow256(n));
      FromBigEndianZeros(n);
    }
  }

  lemma {:induction false} ToBigEndianZero(n: nat)
    ensures ToBigEndian(0, n) == Zeros(n)
  {
    if n > 0 {
      ToBigEndianZero(n - 1);
    }
  }

  lemma {:induction false} FromBigEndianZeros(n: nat)
    ensures FromBigEndian(Zeros(n)) == 0
  {
    if n > 0 {
      assert Zeros(n)[..n - 1] == Zeros(n - 1);
      FromBigEndianZeros(n - 1);
    }
  }

  /** OFOXMField(type, value) and OFMatchField(type, value): length 4 + payload, no mask. */
  function NewField(t: FieldType, v: Value): (f: Field)
    ensures f.ftype == t && f.value == v
    ensures f.length == 4 + PayloadLength(t) && !f.hasMask && f.mask.None?
  {
    Field(t, v, false, 4 + PayloadLength(t), None)
  }

  /**
   * OFMatchField(type, value, mask): the length always counts a mask, but
   * the mask is kept, and hasMask set, only when it is non-null and all zero.
   */
  function NewMaskedField(t: FieldType, v: Value, mask: Option<Value>): (f: Field)
    ensures f.ftype == t && f.value == v && f.length == 4 + 2 * PayloadLength(t)
    ensures f.hasMask <==> mask.Some? && IsAllZero(mask.value)
    ensures f.mask == (if f.hasMask then mask else None)
  {
    if mask.Some? && IsAllZero(mask.value) then Field(t, v, true, 4 + 2 * PayloadLength(t), mask)
    else Field(t, v, false, 4 + 2 * PayloadLength(t), None)
  }

  /**
   * OFOXMField.readFrom: the header, then a value sized by the catalog's
   * payload length for the code (not by the header's length byte, which is
   * what gets recorded as the length). The class is read and ignored; an
   * unassigned code leaves a null type, which throws on first use.
   */
  function Decode(data: seq<byte>, pos: nat): (r: Result<Read<Field>, Exception>)
    ensures r.Success? ==> pos + 4 < r.value.next <= |data| && 0 <= r.value.value.length < 0x100
  {
    if pos + 4 > |data| then Failure(BufferUnderflow)
    else
      var h := HeaderAt(data, pos);
      match ValueOf(h.code)
      case None => Failure(NullPointer)
      case Some(t) =>
        var v :- ReadObject(data, pos + 4, PayloadLength(t));
        Success(Read(Field(t, v.value, h.hasMask, h.length, None), v.next))
  }

  /**
   * What Decode reads: the type whose code is in the header, the hasMask
   * bit and the length byte from the header, no mask, and a value of the
   * type's payload width right after the header. It fails exactly when the
   * header or the value runs past the end, or the code is unassigned.
   */
  lemma DecodeReads(data: seq<byte>, pos: nat)
    ensures Decode(data, pos).Success? <==>
      && pos + 4 <= |data|
      && var h := UnpackHeader(ValueAt(data, pos, 4));
      && ValueOf(h.code).Some?
      && pos + 4 + PayloadLength(ValueOf(h.code).value) <= |data|
    ensures Decode(data, pos).Success? ==>
      var h := UnpackHeader(ValueAt(data, pos, 4));
      var f := Decode(data, pos).value.value;
      && ValueOf(h.code) == Some(f.ftype)
      && f.hasMask == h.hasMask
      && f.length == h.length
      && f.mask.None?
      && Decode(data, pos).value.next == pos + 4 + PayloadLength(f.ftype)
      && WellFormed(f.value, PayloadLength(f.ftype))
  {
    if pos + 4 <= |data| {
      HeaderAtUnpacks(data, pos);
    }
  }

  /** OFMatchField.readFrom: the OXM field, then a mask of the same width iff the hasMask bit is set. */
  function DecodeMatchField(data: seq<byte>, pos: nat): (r: Result<Read<Field>, Exception>)
    ensures r.Success? ==> r.value.next > pos && 0 <= r.value.value.length < 0x100
  {
    var b :- Decode(data, pos);
    if !b.value.hasMask then Success(b)
    else
      var m :- ReadObject(data, b.next, PayloadLength(b.value.ftype));
      Success(Read(b.value.(mask := Some(m.value)), m.next))
  }

  /** A match field is the OXM field Decode reads, with a mask read after it exactly when hasMask is set. */
  lemma DecodeMatchFieldReads(data: seq<byte>, pos: nat)
    ensures DecodeMatchField(data, pos).Success? ==>
      var base := Decode(data, pos);
      var f := DecodeMatchField(data, pos).value.value;
      && base.Success?
      && f == base.value.value.(mask := f.mask)
      && (f.hasMask <==> f.mask.Some?)
      && DecodeMatchField(data, pos).value.next == base.value.next + (if f.hasMask then PayloadLength(f.ftype) else 0)
  {
  }

  /** OFOXMField.writeTo: the header, then the value at the catalog width; never a mask. */
  function Encode(f: Field): (r: Result<seq<byte>, Exception>)
    ensures r.Success? <==> WriteObject(Some(f.value), PayloadLength(f.ftype)).Success?
    ensures r.Success? ==> |r.value| == 4 + PayloadLength(f.ftype)
    ensures r.Success? ==> r.value[..4] == Put(HeaderWord(f), 4)
  {
    var v :- WriteObject(Some(f.value), PayloadLength(f.ftype));
    Success(Put(HeaderWord(f), 4) + v)
  }

  /** OFMatchField.writeTo: the OXM field, then the mask iff hasMask is set (a null mask throws). */
  function EncodeMatchField(f: Field): (r: Result<seq<byte>, Exception>)
    ensures r.Success? ==> |r.value| == 4 + PayloadLength(f.ftype) * (if f.hasMask then 2 else 1)
    ensures r.Success? ==> Encode(f).Success? && r.value[..4 + PayloadLength(f.ftype)] == Encode(f).value
    ensures f.hasMask && f.mask.None? ==> r.Failure?
  {
    var b :- Encode(f);
    if !f.hasMask then Success(b)
    else
      var m :- WriteObject(f.mask, PayloadLength(f.ftype));
      Success(b + m)
  }

  /** The field a decoder rebuilds from a well-formed field's encoding. */
  predicate Encodable(f: Field) {
    && WellFormed(f.value, PayloadLength(f.ftype))
    && (f.hasMask <==> f.mask.Some?)
    && (f.mask.Some? ==> WellFormed(f.mask.value, PayloadLength(f.ftype)))
  }

  /** A field's header word, found at pos, reads as the catalog's class, code and payload length with the field's hasMask bit. */
  lemma HeaderAtWord(f: Field, data: seq<byte>, pos: nat)
    requires pos + 4 <= |data| && data[pos..pos + 4] == Put(HeaderWord(f), 4)
    ensures HeaderAt(data, pos) == Header(OpenFlowBasic, Code(f.ftype), f.hasMask, PayloadLength(f.ftype))
  {
    HeaderAtUnpacks(data, pos);
    Pow256Widths();
    PutReads(HeaderWord(f), 4);
  }

  /** Decode, given the header at pos, its code's type, and the value read after it. */
  lemma DecodeOfParts(data: seq<byte>, pos: nat, t: FieldType, v: Read<Value>)
    requires pos + 4 <= |data| && ValueOf(HeaderAt(data, pos).code) == Some(t)
    requires ReadObject(data, pos + 4, PayloadLength(t)) == Success(v)
    ensures Decode(data, pos) == Success(Read(Field(t, v.value, HeaderAt(data, pos).hasMask, HeaderAt(data, pos).length, None), v.next))
  {
  }

  /** A field's encoding, found at pos, decodes as its type, value and hasMask bit, with the payload length as its length. */
  lemma DecodeAt(f: Field, data: seq<byte>, pos: nat)
    requires WellFormed(f.value, PayloadLength(f.ftype))
    requires pos + 4 + PayloadLength(f.ftype) <= |data|
    requires data[pos..pos + 4] == Put(HeaderWord(f), 4)
    requires WriteObject(Some(f.value), PayloadLength(f.ftype)) == Success(data[pos + 4..pos + 4 + PayloadLength(f.ftype)])
    ensures Decode(data, pos)
         == Success(Read(Field(f.ftype, f.value, f.hasMask, PayloadLength(f.ftype), None), pos + 4 + PayloadLength(f.ftype)))
  {
    HeaderAtWord(f, data, pos);
    ValueOfCode(f.ftype);
    ReadObjectAt(f.value, PayloadLength(f.ftype), data, pos + 4);
    DecodeOfParts(data, pos, f.ftype, Read(f.value, pos + 4 + PayloadLength(f.ftype)));
  }


  /** DecodeMatchField reads the OXM field, then the mask when the field's hasMask bit is set. */
  lemma DecodeMatchFieldOfParts(data: seq<byte>, pos: nat, b: Read<Field>, m: Read<Value>)
    requires Decode(data, pos) == Success(b)
    requires b.value.hasMask ==> ReadObject(data, b.next, PayloadLength(b.value.ftype)) == Success(m)
    ensures DecodeMatchField(data, pos) == Success(if b.value.hasMask then Read(b.value.(mask := Some(m.value)), m.next) else b)
  {
  }

  /** A match field the decoder can rebuild has an encoding. */
  lemma EncodableEncodes(f: Field)
    requires Encodable(f)
    ensures EncodeMatchField(f).Success?
  {
    BoxWriteObject(f.value, PayloadLength(f.ftype));
    if f.hasMask {
      BoxWriteObject(f.mask.value, PayloadLength(f.ftype));
    }
  }

  /**
   * A match field's encoding, found at pos, decodes as its type, value,
   * hasMask bit and mask; the recovered length is the header's payload
   * length, not the constructed 4 + payload (or 4 + 2 * payload).
   */
  lemma DecodeMatchFieldAt(f: Field, data: seq<byte>, pos: nat)
    requires Encodable(f)
    requires EncodeMatchField(f).Success? && pos + |EncodeMatchField(f).value| <= |data|
    requires data[pos..pos + |EncodeMatchField(f).value|] == EncodeMatchField(f).value
    ensures DecodeMatchField(data, pos) == Success(Read(f.(length := PayloadLength(f.ftype)), pos + |EncodeMatchField(f).value|))
  {
    var n := PayloadLength(f.ftype);
    var base := f.(length := n, mask := None);
    var hdr := Encode(f).value;
    if f.hasMask {
      var msk := WriteObject(f.mask, n).value;
      assert EncodeMatchField(f).value == hdr + msk;
      SplitAt(data, pos, pos + 4 + n, pos + 4 + n + n, hdr, msk);
      DecodeAt(f, data, pos);
      ReadObjectAt(f.mask.value, n, data, pos + 4 + n);
      DecodeMatchFieldOfParts(data, pos, Read(base, pos + 4 + n), Read(f.mask.value, pos + 4 + n + n));
    } else {
      DecodeAt(f, data, pos);
      DecodeMatchFieldOfParts(data, pos, Read(base, pos + 4 + n), Read(f.value, 0));
    }
  }

  /** An all-zero mask is stored by the masked constructor; any other mask is silently dropped. */
  lemma MaskKeptOnlyWhenAllZero(t: FieldType, v: Value, mask: Value)
    ensures NewMaskedField(t, v, Some(mask)).mask == Some(mask) <==> IsAllZero(mask)
    ensures !IsAllZero(mask) ==> NewMaskedField(t, v, Some(mask)) == NewField(t, v).(length := 4 + 2 * PayloadLength(t))
  {
  }
}

=== FILE: oxm_field_type.dfy ===
/**
 * The catalog of OpenFlow-basic OXM match fields: each field type's code
 * and payload length, as in the OpenFlow Switch Specification 1.3,
 * section A.2.3.7 (the field class is OFPXMC_OPENFLOW_BASIC, 0x8000).
 * A field type is its code.
 */
module OxmFieldType {
  import opened Wrappers

  /** The number of field types: codes run from 0 to FieldCount - 1. */
  const FieldCount: nat := 40

  newtype FieldType = c: int | 0 <= c < 40

  const InPort: FieldType := 0
  const InPhyPort: FieldType := 1
  const Metadata: FieldType := 2
  const EthDst: FieldType := 3
  const EthSrc: FieldType := 4
  const EthType: FieldType := 5
  const VlanVid: FieldType := 6
  const VlanPcp: FieldType := 7
  const IpDscp: FieldType := 8
  const IpEcn: FieldType := 9
  const IpProto: FieldType := 10
  const Ipv4Src: FieldType := 11
  const Ipv4Dst: FieldType := 12
  const TcpSrc: FieldType := 13
  const TcpDst: FieldType := 14
  const UdpSrc: FieldType := 15
  const UdpDst: FieldType := 16
  const SctpSrc: FieldType := 17
  const SctpDst: FieldType := 18
  const Icmpv4Type: FieldType := 19
  const Icmpv4Code: FieldType := 20
  const ArpOp: FieldType := 21
  const ArpSpa: FieldType := 22
  const ArpTpa: FieldType := 23
  const ArpSha: FieldType := 24
  const ArpTha: FieldType := 25
  const Ipv6Src: FieldType := 26
  const Ipv6Dst: FieldType := 27
  const Ipv6Flabel: FieldType := 28
  const Icmpv6Type: FieldType := 29
  const Icmpv6Code: FieldType := 30
  const Ipv6NdTarget: FieldType := 31
  const Ipv6NdSll: FieldType := 32
  const Ipv6NdTll: FieldType := 33
  const MplsLabel: FieldType := 34
  const MplsTc: FieldType := 35
  const MplsBos: FieldType := 36
  const PbbIsid: FieldType := 37
  const TunnelId: FieldType := 38
  const Ipv6Exthdr: FieldType := 39

  /** OFPXMC_OPENFLOW_BASIC: the class of every field in the catalog. */
  const OpenFlowBasic: int := 0x8000

  function FieldClass(t: FieldType): int {
    OpenFlowBasic
  }

  /** The oxm_field code (7 bits on the wire). */
  function Code(t: FieldType): (c: nat)
    ensures c < FieldCount && c < 128
  {
    t as nat
  }

  /** The number of value bytes a field of this type carries (its mask, if any, has as many). */
  function PayloadLength(t: FieldType): (n: nat)
    ensures 1 <= n <= 16
  {
    match t
    // IN_PORT, IN_PHY_PORT, IPV4_SRC, IPV4_DST, ARP_SPA, ARP_TPA, IPV6_FLABEL, MPLS_LABEL
    case 0 | 1 | 11 | 12 | 22 | 23 | 28 | 34 => 4
    // METADATA, TUNNEL_ID
    case 2 | 38 => 8
    // ETH_DST, ETH_SRC, ARP_SHA, ARP_THA, IPV6_ND_SLL, IPV6_ND_TLL
    case 3 | 4 | 24 | 25 | 32 | 33 => 6
    // ETH_TYPE, VLAN_VID, TCP, UDP and SCTP ports, ARP_OP, IPV6_EXTHDR
    case 5 | 6 | 13 | 14 | 15 | 16 | 17 | 18 | 21 | 39 => 2
    // VLAN_PCP, IP_DSCP, IP_ECN, IP_PROTO, ICMPV4 and ICMPV6 type and code, MPLS_TC, MPLS_BOS
    case 7 | 8 | 9 | 10 | 19 | 20 | 29 | 30 | 35 | 36 => 1
    // PBB_ISID
    case 37 => 3
    // IPV6_SRC, IPV6_DST, IPV6_ND_TARGET
    case _ => 16
  }

  /** OFOXMFieldType.valueOf: the type with a given code, or null (None) for an unassigned code. */
  function ValueOf(code: int): (r: Option<FieldType>)
    ensures r.Some? <==> 0 <= code < FieldCount
    ensures r.Some? ==> Code(r.value) == code
  {
    if 0 <= code < FieldCount then Some(code as FieldType) else None
  }

  /** Every type's code looks the type up again, so codes are distinct. */
  lemma ValueOfCode(t: FieldType)
    ensures ValueOf(Code(t)) == Some(t)
  {
  }
}

=== FILE: packet_match.dfy ===
/**
 * OFMatch.loadFromPacket: the match fields of a raw Ethernet frame. The
 * frame is read in order (IEEE 802.3 addresses and ethertype, an optional
 * IEEE 802.1Q tag, then an IPv4 header as in section 3.1 of RFC 791 or an
 * ARP packet as in RFC 826, then the first bytes of the transport header),
 * and setField is called for each field found. As with the standard match
 * decoder, the reader yields the list of fields it sets, in order, and
 * the match is that list applied with SetAll.
 */
module PacketMatch {
  import opened Wrappers
  import opened Bytes
  import opened OxmFieldType
  import opened OxmField
  import opened Match
  import LegacyMatch

  /** The IP protocol number of ICMP; TCP, UDP and SCTP are the match's own constants. */
  const IpProtoIcmp := 1

  /** The fields set from the IPv4 header. */
  predicate NetworkField(t: FieldType) {
    t == IpDscp || t == IpProto || t == Ipv4Src || t == Ipv4Dst
  }

  /** The fields set from the transport header. */
  predicate TransportField(t: FieldType) {
    t == Icmpv4Type || t == Icmpv4Code || t == TcpSrc || t == TcpDst || t == UdpSrc || t == UdpDst || t == SctpSrc || t == SctpDst
  }

  /** The fields set from an ARP packet. */
  predicate ArpField(t: FieldType) {
    t == ArpOp || t == ArpSpa || t == ArpTpa
  }

  /** Every value is of the class and width readObject gives its field's type, so each field can be written back. */
  predicate Writable(fs: seq<Field>) {
    forall k :: 0 <= k < |fs| ==> WellFormed(fs[k].value, PayloadLength(fs[k].ftype))
  }

  /** The frame holds the Ethernet header, and the 802.1Q tag and inner ethertype when the ethertype is 0x8100. */
  predicate Framed(packet: seq<byte>) {
    14 <= |packet| && (ValueAt(packet, 12, 2) == LegacyMatch.EthTypeVlan ==> 18 <= |packet|)
  }

  /** The frame carries an 802.1Q tag. */
  predicate Tagged(packet: seq<byte>)
    requires 14 <= |packet|
  {
    ValueAt(packet, 12, 2) == LegacyMatch.EthTypeVlan
  }

  /** The ethertype the reader goes on: the inner one of a tagged frame. */
  function EtherType(packet: seq<byte>): nat
    requires Framed(packet)
  {
    if Tagged(packet) then ValueAt(packet, 16, 2) else ValueAt(packet, 12, 2)
  }

  /** Where the frame's payload starts. */
  function Payload(packet: seq<byte>): nat
    requires Framed(packet)
  {
    if Tagged(packet) then 18 else 14
  }

  /** The transport header at t holds what is read for this protocol. */
  predicate TransportFits(packet: seq<byte>, t: nat, proto: byte) {
    if proto == IpProtoIcmp then t + 2 <= |packet|
    else if proto in {LegacyMatch.IpProtoTcp, LegacyMatch.IpProtoUdp, LegacyMatch.IpProtoSctp} then t + 4 <= |packet|
    else true
  }

  /** The IPv4 header at p, its transport offset, and the transport fields read there, lie within the frame. */
  predicate Ipv4Fits(packet: seq<byte>, p: nat) {
    && p + 20 <= |packet|
    && p + 4 * (packet[p] % 16) <= |packet|
    && TransportFits(packet, p + 4 * (packet[p] % 16), packet[p + 9])
  }

  /** The ARP packet at p has protocol type 0x800 and protocol address length 4. */
  predicate ArpIpv4(packet: seq<byte>, p: nat)
    requires p + 8 <= |packet|
  {
    ValueAt(packet, p + 2, 2) == LegacyMatch.EthTypeIpv4 && packet[p + 5] == 4
  }

  /** The ARP opcode lies within the frame, and so do the addresses when they are read. */
  predicate ArpFits(packet: seq<byte>, p: nat) {
    p + 8 <= |packet| && (ArpIpv4(packet, p) ==> p + 28 <= |packet|)
  }

  /** Every byte loadFromPacket reads of this frame is within it. */
  predicate Loads(packet: seq<byte>) {
    && Framed(packet)
    && (EtherType(packet) == LegacyMatch.EthTypeIpv4 ==> Ipv4Fits(packet, Payload(packet)))
    && (EtherType(packet) == LegacyMatch.EthTypeArp ==> ArpFits(packet, Payload(packet)))
  }

  /** What the link layer gives: the fields set, the ethertype the switch goes on, and where the payload starts. */
  datatype Link = Link(calls: seq<Field>, dlType: u16, next: nat)

  /**
   * The Ethernet header: input port, destination, source and ethertype;
   * when the ethertype is 0x8100, the tag's 12-bit VLAN id and 3-bit
   * priority, and the inner ethertype, which is not set as a field.
   */
  function ReadLink(packet: seq<byte>, inPort: u32): (r: Result<Link, Exception>)
    ensures r.Success? <==> 14 <= |packet| && (ValueAt(packet, 12, 2) == LegacyMatch.EthTypeVlan ==> 18 <= |packet|)
    ensures r.Failure? ==> r.error == BufferUnderflow
    ensures r.Success? ==> forall k :: 0 <= k < |r.value.calls| ==> r.value.calls[k].ftype < IpDscp
    ensures r.Success? ==>
      var tagged := ValueAt(packet, 12, 2) == LegacyMatch.EthTypeVlan;
      var base := [NewField(InPort, U32(inPort)), NewField(EthDst, ByteArray(packet[..6])),
                   NewField(EthSrc, ByteArray(packet[6..12])), NewField(EthType, U16(ValueAt(packet, 12, 2)))];
      && r.value.next == (if tagged then 18 else 14)
      && r.value.dlType == (if tagged then ValueAt(packet, 16, 2) else ValueAt(packet, 12, 2))
      && r.value.calls == base + (if tagged then [NewField(VlanVid, U16(ValueAt(packet, 14, 2) % 0x1000)),
                                                  NewField(VlanPcp, U8(ValueAt(packet, 14, 2) / 0x2000))] else [])
  {
    Pow256Widths();
    var dst :- ReadBytes(packet, 0, 6);
    var src :- ReadBytes(packet, 6, 6);
    var dlType :- ReadUnsigned(packet, 12, 2);
    var base := [NewField(InPort, U32(inPort)), NewField(EthDst, ByteArray(dst)),
                 NewField(EthSrc, ByteArray(src)), NewField(EthType, U16(dlType))];
    if dlType != LegacyMatch.EthTypeVlan then Success(Link(base, dlType, 14))
    else
      var tag :- ReadUnsigned(packet, 14, 2);
      var inner :- ReadUnsigned(packet, 16, 2);
      Success(Link(base + [NewField(VlanVid, U16(tag % 0x1000)), NewField(VlanPcp, U8(tag / 0x2000))], inner, 18))
  }

  /** What the IPv4 header gives: the fields set, the protocol, and where the transport header starts. */
  datatype Network = Network(calls: seq<Field>, proto: byte, transport: nat)

  /**
   * The IPv4 header at p: the transport offset is p plus 4 times the IHL
   * nibble, DSCP the top 6 bits of the TOS byte, then the protocol and the
   * two addresses. The position moves with position(), which fails past the
   * limit, so the offset is checked against the packet too.
   */
  function ReadIpv4(packet: seq<byte>, p: nat): (r: Result<Network, Exception>)
    ensures r.Success? <==> p + 20 <= |packet| && p + 4 * (packet[p] % 16) <= |packet|
    ensures r.Failure? ==> r.error in {BufferUnderflow, IllegalPosition}
    ensures r.Success? ==> forall k :: 0 <= k < |r.value.calls| ==> NetworkField(r.value.calls[k].ftype)
    ensures r.Success? ==>
      && r.value.proto == packet[p + 9]
      && r.value.transport == p + 4 * (packet[p] % 16)
      && r.value.calls == [NewField(IpDscp, U8(packet[p + 1] / 4)), NewField(IpProto, U8(packet[p + 9])),
                           NewField(Ipv4Src, U32(ValueAt(packet, p + 12, 4))), NewField(Ipv4Dst, U32(ValueAt(packet, p + 16, 4)))]
  {
    Pow256Widths();
    var ihl :- ReadUnsigned(packet, p, 1);
    var transport := p + 4 * (ihl % 16);
    var tos :- ReadUnsigned(packet, p + 1, 1);
    var q :- Seek(packet, p + 9);
    var proto :- ReadUnsigned(packet, q, 1);
    var a :- Seek(packet, q + 3);
    var src :- ReadUnsigned(packet, a, 4);
    var dst :- ReadUnsigned(packet, a + 4, 4);
    var t :- Seek(packet, transport);
    Success(Network([NewField(IpDscp, U8(tos / 4)), NewField(IpProto, U8(proto)),
                     NewField(Ipv4Src, U32(src)), NewField(Ipv4Dst, U32(dst))], proto, t))
  }

  /**
   * The ARP packet at p, read at absolute indexes: the low byte of the
   * opcode; and, when the protocol type is 0x800 and the protocol address
   * length 4, the sender and target protocol addresses.
   */
  function ReadArp(packet: seq<byte>, p: nat): (r: Result<seq<Field>, Exception>)
    ensures r.Failure? ==> r.error == IndexOutOfBounds
    ensures r.Success? <==> ArpFits(packet, p)
    ensures r.Success? ==> forall k :: 0 <= k < |r.value| ==> ArpField(r.value[k].ftype)
    ensures r.Success? ==> p + 8 <= |packet| && |r.value| > 0 && r.value[0] == NewField(ArpOp, U16(ValueAt(packet, p + 6, 2) % 0x100))
    ensures r.Success? ==>
      var ipv4 := ValueAt(packet, p + 2, 2) == LegacyMatch.EthTypeIpv4 && packet[p + 5] == 4;
      && (ipv4 ==> (p + 28 <= |packet| &&
                    r.value[1..] == [NewField(ArpSpa, U32(ValueAt(packet, p + 14, 4))), NewField(ArpTpa, U32(ValueAt(packet, p + 24, 4)))]))
      && (!ipv4 ==> r.value[1..] == [])
  {
    Pow256Widths();
    var op :- GetAt(packet, p + 6, 2);
    var first := [NewField(ArpOp, U16(op % 0x100))];
    var ptype := ValueAt(packet, p + 2, 2);
    if ptype != LegacyMatch.EthTypeIpv4 || packet[p + 5] != 4 then Success(first)
    else
      var spa :- GetAt(packet, p + 14, 4);
      var tpa :- GetAt(packet, p + 24, 4);
      Success(first + [NewField(ArpSpa, U32(spa)), NewField(ArpTpa, U32(tpa))])
  }

  /** The first two words of an ICMP, TCP, UDP or SCTP header at t; nothing for any other protocol. */
  function ReadTransport(packet: seq<byte>, t: nat, proto: byte): (r: Result<seq<Field>, Exception>)
    ensures r.Failure? ==> r.error == BufferUnderflow
    ensures r.Success? <==> TransportFits(packet, t, proto)
    ensures r.Success? ==> forall k :: 0 <= k < |r.value| ==> TransportField(r.value[k].ftype)
    ensures proto !in {IpProtoIcmp, LegacyMatch.IpProtoTcp, LegacyMatch.IpProtoUdp, LegacyMatch.IpProtoSctp} ==> r == Success([])
    ensures proto == IpProtoIcmp ==> (r.Success? <==> t + 2 <= |packet|)
    ensures proto == IpProtoIcmp && r.Success? ==>
      r.value == [NewField(Icmpv4Type, U8(packet[t])), NewField(Icmpv4Code, U8(packet[t + 1]))]
    ensures proto in {LegacyMatch.IpProtoTcp, LegacyMatch.IpProtoUdp, LegacyMatch.IpProtoSctp} ==> (r.Success? <==> t + 4 <= |packet|)
    ensures proto in {LegacyMatch.IpProtoTcp, LegacyMatch.IpProtoUdp, LegacyMatch.IpProtoSctp} && r.Success? ==>
      var ports := Ports(proto);
      r.value == [NewField(ports.0, U16(ValueAt(packet, t, 2))), NewField(ports.1, U16(ValueAt(packet, t + 2, 2)))]
  {
    Pow256Widths();
    if proto == IpProtoIcmp then
      var icmpType :- ReadUnsigned(packet, t, 1);
      var icmpCode :- ReadUnsigned(packet, t + 1, 1);
      Success([NewField(Icmpv4Type, U8(icmpType)), NewField(Icmpv4Code, U8(icmpCode))])
    else if proto in {LegacyMatch.IpProtoTcp, LegacyMatch.IpProtoUdp, LegacyMatch.IpProtoSctp} then
      var src :- ReadUnsigned(packet, t, 2);
      var dst :- ReadUnsigned(packet, t + 2, 2);
      Success([NewField(Ports(proto).0, U16(src)), NewField(Ports(proto).1, U16(dst))])
    else Success([])
  }

  /** The source and destination port fields of TCP, UDP and SCTP. */
  function Ports(proto: byte): (FieldType, FieldType)
  {
    if proto == LegacyMatch.IpProtoTcp then (TcpSrc, TcpDst)
    else if proto == LegacyMatch.IpProtoUdp then (UdpSrc, UdpDst)
    else (SctpSrc, SctpDst)
  }

  /**
   * The fields loadFromPacket sets, in order: the link layer; then for
   * IPv4 the network and transport fields, for ARP the ARP fields, and
   * nothing more for any other ethertype. An exception leaves no result.
   */
  function LoadCalls(packet: seq<byte>, inPort: u32): (r: Result<seq<Field>, Exception>)
    ensures r.Failure? ==> r.error in {BufferUnderflow, IllegalPosition, IndexOutOfBounds}
    ensures r.Success? ==> |r.value| >= 4
  {
    var link :- ReadLink(packet, inPort);
    if link.dlType == LegacyMatch.EthTypeIpv4 then
      var net :- ReadIpv4(packet, link.next);
      var transport :- ReadTransport(packet, net.transport, net.proto);
      Success(link.calls + net.calls + transport)
    else if link.dlType == LegacyMatch.EthTypeArp then
      var arp :- ReadArp(packet, link.next);
      Success(link.calls + arp)
    else
      Success(link.calls)
  }

  /** loadFromPacket on m: the fields set one after another. */
  function LoadFromPacket(m: Match, packet: seq<byte>, inPort: u32): (r: Result<Match, Exception>)
    ensures r.Success? <==> LoadCalls(packet, inPort).Success?
    ensures r.Failure? ==> r.error in {BufferUnderflow, IllegalPosition, IndexOutOfBounds}
  {
    var calls :- LoadCalls(packet, inPort);
    Success(SetAll(m, calls))
  }

  /** loadFromPacket returns exactly when every byte it reads is within the frame; otherwise a buffer exception escapes. */
  lemma LoadSucceeds(m: Match, packet: seq<byte>, inPort: u32)
    ensures LoadFromPacket(m, packet, inPort).Success? <==> Loads(packet)
  {
    var link := ReadLink(packet, inPort);
    if link.Success? && link.value.dlType == LegacyMatch.EthTypeIpv4 {
      var net := ReadIpv4(packet, link.value.next);
      if net.Success? {
        assert ReadTransport(packet, net.value.transport, net.value.proto).Success? <==> Ipv4Fits(packet, Payload(packet));
      }
    }
  }

  /** What getMatchFieldValue(t) answers on a new match loaded from the frame: never an exception, since the list is set. */
  function Lookup(packet: seq<byte>, inPort: u32, t: FieldType): (r: Result<Option<Value>, Exception>)
    requires Loads(packet)
    ensures r.Success?
  {
    LoadSucceeds(NewMatch(), packet, inPort);
    GetMatchFieldValue(LoadFromPacket(NewMatch(), packet, inPort).value, t)
  }

  /** A lookup on the loaded match sees the last value set for its type. */
  lemma LookupCalls(packet: seq<byte>, inPort: u32, t: FieldType)
    requires Loads(packet)
    ensures LoadCalls(packet, inPort).Success?
    ensures Lookup(packet, inPort, t) == Success(ValueSet(LoadCalls(packet, inPort).value, t))
  {
    LoadSucceeds(NewMatch(), packet, inPort);
    BuiltLookup(LoadCalls(packet, inPort).value, t);
  }

  /** The calls start with the link layer's; every later one sets a network, transport or ARP field. */
  lemma CallsShape(packet: seq<byte>, inPort: u32)
    requires LoadCalls(packet, inPort).Success?
    ensures ReadLink(packet, inPort).Success?
    ensures var calls := LoadCalls(packet, inPort).value;
            var link := ReadLink(packet, inPort).value.calls;
      && |link| <= |calls| && calls[..|link|] == link
      && forall k :: |link| <= k < |calls| ==> IpDscp <= calls[k].ftype
  {
    var link := ReadLink(packet, inPort).value;
    var rest;
    if link.dlType == LegacyMatch.EthTypeIpv4 {
      rest := Ipv4Rest(packet, inPort, link);
    } else if link.dlType == LegacyMatch.EthTypeArp {
      rest := ReadArp(packet, link.next).value;
      ArpCallsOfParts(packet, inPort, link, rest);
    } else {
      rest := [];
      OtherCallsOfParts(packet, inPort, link);
    }
    TypedTail(link.calls, rest, IpDscp);
  }

  /** What an IPv4 frame's calls hold past the link layer's: network and transport fields only. */
  lemma Ipv4Rest(packet: seq<byte>, inPort: u32, link: Link) returns (rest: seq<Field>)
    requires LoadCalls(packet, inPort).Success?
    requires ReadLink(packet, inPort) == Success(link) && link.dlType == LegacyMatch.EthTypeIpv4
    ensures LoadCalls(packet, inPort) == Success(link.calls + rest)
    ensures forall k :: 0 <= k < |rest| ==> IpDscp <= rest[k].ftype
  {
    var net := ReadIpv4(packet, link.next).value;
    var transport := ReadTransport(packet, net.transport, net.proto).value;
    Ipv4CallsOfParts(packet, inPort, link, net, transport);
    rest := net.calls + transport;
    LaterRuns(net.calls, transport);
  }

  /** Network calls then transport calls: every type is IpDscp or later. */
  lemma LaterRuns(net: seq<Field>, transport: seq<Field>)
    requires forall k :: 0 <= k < |net| ==> NetworkField(net[k].ftype)
    requires forall k :: 0 <= k < |transport| ==> TransportField(transport[k].ftype)
    ensures forall k :: 0 <= k < |net + transport| ==> IpDscp <= (net + transport)[k].ftype
  {
    forall k | 0 <= k < |net + transport|
      ensures IpDscp <= (net + transport)[k].ftype
    {
      if k < |net| {
        assert (net + transport)[k] == net[k];
      } else {
        assert (net + transport)[k] == transport[k - |net|];
      }
    }
  }

  lemma Ipv4CallsOfParts(packet: seq<byte>, inPort: u32, link: Link, net: Network, transport: seq<Field>)
    requires ReadLink(packet, inPort) == Success(link) && link.dlType == LegacyMatch.EthTypeIpv4
    requires ReadIpv4(packet, link.next) == Success(net)
    requires ReadTransport(packet, net.transport, net.proto) == Success(transport)
    ensures LoadCalls(packet, inPort) == Success(link.calls + (net.calls + transport))
  {
    assert link.calls + net.calls + transport == link.calls + (net.calls + transport);
  }

  lemma ArpCallsOfParts(packet: seq<byte>, inPort: u32, link: Link, arp: seq<Field>)
    requires ReadLink(packet, inPort) == Success(link) && link.dlType == LegacyMatch.EthTypeArp
    requires ReadArp(packet, link.next) == Success(arp)
    ensures LoadCalls(packet, inPort) == Success(link.calls + arp)
  {
  }

  lemma OtherCallsOfParts(packet: seq<byte>, inPort: u32, link: Link)
    requires ReadLink(packet, inPort) == Success(link)
    requires link.dlType != LegacyMatch.EthTypeIpv4 && link.dlType != LegacyMatch.EthTypeArp
    ensures LoadCalls(packet, inPort) == Success(link.calls + [])
  {
    assert link.calls + [] == link.calls;
  }

  lemma TypedTail(a: seq<Field>, b: seq<Field>, lo: FieldType)
    requires forall k :: 0 <= k < |b| ==> lo <= b[k].ftype
    ensures (a + b)[..|a|] == a && forall k :: |a| <= k < |a + b| ==> lo <= (a + b)[k].ftype
  {
    assert forall k :: |a| <= k < |a + b| ==> (a + b)[k] == b[k - |a|];
  }

  /** Fields of distinct types, all set before any field of type lo or above, are each what ValueSet finds for their type. */
  lemma PrefixFound(calls: seq<Field>, link: seq<Field>, lo: FieldType)
    requires |link| <= |calls| && calls[..|link|] == link && DistinctTypes(link)
    requires forall k :: |link| <= k < |calls| ==> lo <= calls[k].ftype
    requires forall i :: 0 <= i < |link| ==> link[i].ftype < lo
    ensures forall i :: 0 <= i < |link| ==> ValueSet(calls, link[i].ftype) == Some(link[i].value)
  {
    assert forall j :: 0 <= j < |link| ==> calls[j] == link[j];
    forall i | 0 <= i < |link|
      ensures ValueSet(calls, link[i].ftype) == Some(link[i].value)
    {
      ValueSetUnique(calls, i);
    }
  }

  /** A type no call sets is not found. */
  lemma NotSet(packet: seq<byte>, inPort: u32, t: FieldType)
    requires Loads(packet)
    requires forall k :: 0 <= k < |LoadCalls(packet, inPort).value| ==> LoadCalls(packet, inPort).value[k].ftype != t
    ensures Lookup(packet, inPort, t) == Success(None)
  {
    LookupCalls(packet, inPort, t);
    ValueSetAbsent(LoadCalls(packet, inPort).value, t);
  }

  /** The four calls every frame starts with. */
  function BaseCalls(inPort: u32, dst: seq<byte>, src: seq<byte>, ethType: u16): seq<Field>
  {
    [NewField(InPort, U32(inPort)), NewField(EthDst, ByteArray(dst)), NewField(EthSrc, ByteArray(src)), NewField(EthType, U16(ethType))]
  }

  /** An untagged frame: ValueSet finds the four link values, and no VLAN field. */
  lemma UntaggedValueSet(calls: seq<Field>, inPort: u32, dst: seq<byte>, src: seq<byte>, ethType: u16)
    requires var link := BaseCalls(inPort, dst, src, ethType);
      && |link| <= |calls| && calls[..|link|] == link
      && forall k :: |link| <= k < |calls| ==> IpDscp <= calls[k].ftype
    ensures ValueSet(calls, InPort) == Some(U32(inPort))
    ensures ValueSet(calls, EthDst) == Some(ByteArray(dst))
    ensures ValueSet(calls, EthSrc) == Some(ByteArray(src))
    ensures ValueSet(calls, EthType) == Some(U16(ethType))
    ensures ValueSet(calls, VlanVid).None? && ValueSet(calls, VlanPcp).None?
  {
    var link := UntaggedLink(inPort, dst, src, ethType);
    PrefixFound(calls, link, IpDscp);
    NoVlan(calls, link);
  }

  /** The four link calls of an untagged frame, one per type, all before VlanVid. */
  lemma UntaggedLink(inPort: u32, dst: seq<byte>, src: seq<byte>, ethType: u16) returns (link: seq<Field>)
    ensures link == BaseCalls(inPort, dst, src, ethType)
    ensures DistinctTypes(link) && forall i :: 0 <= i < |link| ==> link[i].ftype < VlanVid
    ensures |link| == 4
    ensures link[0].ftype == InPort && link[1].ftype == EthDst && link[2].ftype == EthSrc && link[3].ftype == EthType
    ensures link[0].value == U32(inPort) && link[1].value == ByteArray(dst) && link[2].value == ByteArray(src) && link[3].value == U16(ethType)
  {
    link := BaseCalls(inPort, dst, src, ethType);
  }

  /** A tagged frame: ValueSet finds the four link values and the VLAN id and priority. */
  lemma TaggedValueSet(calls: seq<Field>, inPort: u32, dst: seq<byte>, src: seq<byte>, ethType: u16, vid: u16, pcp: byte)
    requires var link := BaseCalls(inPort, dst, src, ethType) + [NewField(VlanVid, U16(vid)), NewField(VlanPcp, U8(pcp))];
      && |link| <= |calls| && calls[..|link|] == link
      && forall k :: |link| <= k < |calls| ==> IpDscp <= calls[k].ftype
    ensures ValueSet(calls, InPort) == Some(U32(inPort))
    ensures ValueSet(calls, EthDst) == Some(ByteArray(dst))
    ensures ValueSet(calls, EthSrc) == Some(ByteArray(src))
    ensures ValueSet(calls, EthType) == Some(U16(ethType))
    ensures ValueSet(calls, VlanVid) == Some(U16(vid)) && ValueSet(calls, VlanPcp) == Some(U8(pcp))
  {
    var link := TaggedLink(inPort, dst, src, ethType, vid, pcp);
    PrefixFound(calls, link, IpDscp);
  }

  /** The six link calls of a tagged frame, one per type, all before IpDscp. */
  lemma TaggedLink(inPort: u32, dst: seq<byte>, src: seq<byte>, ethType: u16, vid: u16, pcp: byte) returns (link: seq<Field>)
    ensures link == BaseCalls(inPort, dst, src, ethType) + [NewField(VlanVid, U16(vid)), NewField(VlanPcp, U8(pcp))]
    ensures DistinctTypes(link) && forall i :: 0 <= i < |link| ==> link[i].ftype < IpDscp
    ensures |link| == 6
    ensures link[0].ftype == InPort && link[1].ftype == EthDst && link[2].ftype == EthSrc && link[3].ftype == EthType
    ensures link[4].ftype == VlanVid && link[5].ftype == VlanPcp
    ensures link[0].value == U32(inPort) && link[1].value == ByteArray(dst) && link[2].value == ByteArray(src)
    ensures link[3].value == U16(ethType) && link[4].value == U16(vid) && link[5].value == U8(pcp)
  {
    link := BaseCalls(inPort, dst, src, ethType) + [NewField(VlanVid, U16(vid)), NewField(VlanPcp, U8(pcp))];
  }

  /** Before an untagged frame's payload fields, nothing sets a VLAN field. */
  lemma NoVlan(calls: seq<Field>, link: seq<Field>)
    requires |link| <= |calls| && calls[..|link|] == link
    requires forall i :: 0 <= i < |link| ==> link[i].ftype < VlanVid
    requires forall k :: |link| <= k < |calls| ==> IpDscp <= calls[k].ftype
    ensures ValueSet(calls, VlanVid).None? && ValueSet(calls, VlanPcp).None?
  {
    assert forall j :: 0 <= j < |link| ==> calls[j] == link[j];
    ValueSetAbsent(calls, VlanVid);
    ValueSetAbsent(calls, VlanPcp);
  }

  /**
   * The link layer of a loaded match: the input port, the two addresses and
   * the outer ethertype (0x8100 itself for a tagged frame); the VLAN id and
   * priority from the tag when there is one, and neither field otherwise.
   */
  lemma LinkFields(packet: seq<byte>, inPort: u32)
    requires Loads(packet)
    ensures Lookup(packet, inPort, InPort) == Success(Some(U32(inPort)))
    ensures Lookup(packet, inPort, EthDst) == Success(Some(ByteArray(packet[..6])))
    ensures Lookup(packet, inPort, EthSrc) == Success(Some(ByteArray(packet[6..12])))
    ensures Lookup(packet, inPort, EthType) == Success(Some(U16(ValueAt(packet, 12, 2))))
    ensures Tagged(packet) ==>
      && Lookup(packet, inPort, VlanVid) == Success(Some(U16(ValueAt(packet, 14, 2) % 0x1000)))
      && Lookup(packet, inPort, VlanPcp) == Success(Some(U8(ValueAt(packet, 14, 2) / 0x2000)))
    ensures !Tagged(packet) ==> Lookup(packet, inPort, VlanVid) == Success(None) && Lookup(packet, inPort, VlanPcp) == Success(None)
  {
    LookupCalls(packet, inPort, InPort);
    LookupCalls(packet, inPort, EthDst);
    LookupCalls(packet, inPort, EthSrc);
    LookupCalls(packet, inPort, EthType);
    LookupCalls(packet, inPort, VlanVid);
    LookupCalls(packet, inPort, VlanPcp);
    CallsShape(packet, inPort);
    Pow256Widths();
    var ethType: u16 := ValueAt(packet, 12, 2);
    if Tagged(packet) {
      var tag: u16 := ValueAt(packet, 14, 2);
      TaggedValueSet(LoadCalls(packet, inPort).value, inPort, packet[..6], packet[6..12], ethType, tag % 0x1000, tag / 0x2000);
    } else {
      UntaggedValueSet(LoadCalls(packet, inPort).value, inPort, packet[..6], packet[6..12], ethType);
    }
  }

  /** The link calls' types all come before IpDscp, so a lookup of a later type sees only what follows them. */
  lemma PastLink(link: seq<Field>, rest: seq<Field>, t: FieldType)
    requires forall i :: 0 <= i < |link| ==> link[i].ftype < IpDscp
    requires IpDscp <= t
    ensures ValueSet(link + rest, t) == ValueSet(rest, t)
  {
    ValueSetAppend(link, rest, t);
    ValueSetAbsent(link, t);
  }

  /** The IPv4 calls followed by transport calls: each network type finds its value, a transport type what the transport calls set. */
  lemma NetValueSet(net: seq<Field>, transport: seq<Field>, dscp: byte, proto: byte, src: u32, dst: u32)
    requires net == [NewField(IpDscp, U8(dscp)), NewField(IpProto, U8(proto)), NewField(Ipv4Src, U32(src)), NewField(Ipv4Dst, U32(dst))]
    requires forall k :: 0 <= k < |transport| ==> TransportField(transport[k].ftype)
    ensures ValueSet(net + transport, IpDscp) == Some(U8(dscp))
    ensures ValueSet(net + transport, IpProto) == Some(U8(proto))
    ensures ValueSet(net + transport, Ipv4Src) == Some(U32(src))
    ensures ValueSet(net + transport, Ipv4Dst) == Some(U32(dst))
    ensures forall t :: !NetworkField(t) ==> ValueSet(net + transport, t) == ValueSet(transport, t)
  {
    forall i | 0 <= i < 4
      ensures ValueSet(net + transport, net[i].ftype) == Some(net[i].value)
    {
      ValueSetAppend(net, transport, net[i].ftype);
      ValueSetAbsent(transport, net[i].ftype);
      ValueSetUnique(net, i);
    }
    assert net[0].ftype == IpDscp && net[1].ftype == IpProto && net[2].ftype == Ipv4Src && net[3].ftype == Ipv4Dst;
    forall t | !NetworkField(t)
      ensures ValueSet(net + transport, t) == ValueSet(transport, t)
    {
      ValueSetAppend(net, transport, t);
      ValueSetAbsent(net, t);
    }
  }

  /**
   * The transport field a frame sets, field by field: the ICMP type and code
   * at t and t + 1; the TCP, UDP or SCTP ports as the shorts at t and t + 2;
   * nothing for any other protocol or any other field.
   */
  function TransportValue(packet: seq<byte>, t: nat, proto: byte, ft: FieldType): Option<Value>
    requires TransportFits(packet, t, proto)
  {
    if proto == IpProtoIcmp then
      if ft == Icmpv4Type then Some(U8(packet[t]))
      else if ft == Icmpv4Code then Some(U8(packet[t + 1]))
      else None
    else if proto in {LegacyMatch.IpProtoTcp, LegacyMatch.IpProtoUdp, LegacyMatch.IpProtoSctp} then
      if ft == Ports(proto).0 then Some(U16(ValueAt(packet, t, 2)))
      else if ft == Ports(proto).1 then Some(U16(ValueAt(packet, t + 2, 2)))
      else None
    else None
  }

  /** ValueSet over the transport calls agrees with TransportValue for every field. */
  lemma TransportValueSet(packet: seq<byte>, t: nat, proto: byte, ft: FieldType)
    requires TransportFits(packet, t, proto)
    ensures ReadTransport(packet, t, proto).Success?
    ensures ValueSet(ReadTransport(packet, t, proto).value, ft) == TransportValue(packet, t, proto, ft)
  {
    var tr := ReadTransport(packet, t, proto).value;
    if |tr| == 0 {
    } else {
      assert |tr| == 2 && tr[0].ftype != tr[1].ftype;
      if ft == tr[0].ftype {
        ValueSetUnique(tr, 0);
      } else if ft == tr[1].ftype {
        ValueSetUnique(tr, 1);
      } else {
        ValueSetAbsent(tr, ft);
      }
    }
  }

  /** A loaded IPv4 frame's calls: the link calls, the four network calls, then the transport calls. */
  lemma Ipv4Parts(packet: seq<byte>, inPort: u32) returns (link: seq<Field>, net: seq<Field>, transport: seq<Field>)
    requires Loads(packet) && EtherType(packet) == LegacyMatch.EthTypeIpv4
    ensures LoadCalls(packet, inPort) == Success(link + (net + transport))
    ensures forall i :: 0 <= i < |link| ==> link[i].ftype < IpDscp
    ensures Payload(packet) + 20 <= |packet| && net == NetCalls(packet, Payload(packet))
    ensures forall k :: 0 <= k < |transport| ==> TransportField(transport[k].ftype)
  {
    var l := ReadLink(packet, inPort).value;
    var p := Payload(packet);
    assert Ipv4Fits(packet, p) && l.next == p;
    var n := ReadIpv4(packet, p).value;
    transport := ReadTransport(packet, n.transport, n.proto).value;
    Ipv4CallsOfParts(packet, inPort, l, n, transport);
    link, net := l.calls, n.calls;
  }

  /** The four calls the IPv4 header at p gives: DSCP, protocol, source and destination address. */
  function NetCalls(packet: seq<byte>, p: nat): seq<Field>
    requires p + 20 <= |packet|
  {
    Pow256Widths();
    [NewField(IpDscp, U8(packet[p + 1] / 4)), NewField(IpProto, U8(packet[p + 9])),
     NewField(Ipv4Src, U32(ValueAt(packet, p + 12, 4))), NewField(Ipv4Dst, U32(ValueAt(packet, p + 16, 4)))]
  }

  /**
   * The network layer of a loaded IPv4 frame: DSCP the top six bits of the
   * TOS byte, then the protocol and the two addresses of the header at the
   * payload.
   */
  lemma Ipv4Fields(packet: seq<byte>, inPort: u32)
    requires Loads(packet) && EtherType(packet) == LegacyMatch.EthTypeIpv4
    ensures var p := Payload(packet);
      && Lookup(packet, inPort, IpDscp) == Success(Some(U8(packet[p + 1] / 4)))
      && Lookup(packet, inPort, IpProto) == Success(Some(U8(packet[p + 9])))
      && Lookup(packet, inPort, Ipv4Src) == Success(Some(U32(ValueAt(packet, p + 12, 4))))
      && Lookup(packet, inPort, Ipv4Dst) == Success(Some(U32(ValueAt(packet, p + 16, 4))))
  {
    var link, net, tr := Ipv4Parts(packet, inPort);
    var p := Payload(packet);
    NetValueSet(net, tr, packet[p + 1] / 4, packet[p + 9], ValueAt(packet, p + 12, 4), ValueAt(packet, p + 16, 4));
    forall t | NetworkField(t)
      ensures Lookup(packet, inPort, t) == Success(ValueSet(net + tr, t))
    {
      LookupCalls(packet, inPort, t);
      PastLink(link, net + tr, t);
    }
  }

  /** What a loaded IPv4 frame's transport header, at the payload plus four times the IHL nibble, gives for ft. */
  function Ipv4Transport(packet: seq<byte>, ft: FieldType): Option<Value>
    requires Loads(packet) && EtherType(packet) == LegacyMatch.EthTypeIpv4
  {
    var p := Payload(packet);
    TransportValue(packet, p + 4 * (packet[p] % 16), packet[p + 9], ft)
  }

  /**
   * The transport layer of a loaded IPv4 frame: every transport field is
   * what the header at the payload plus four times the IHL nibble gives for
   * the frame's protocol.
   */
  lemma TransportFields(packet: seq<byte>, inPort: u32)
    requires Loads(packet) && EtherType(packet) == LegacyMatch.EthTypeIpv4
    ensures forall ft :: TransportField(ft) ==> Lookup(packet, inPort, ft) == Success(Ipv4Transport(packet, ft))
  {
    forall ft | TransportField(ft)
      ensures Lookup(packet, inPort, ft) == Success(Ipv4Transport(packet, ft))
    {
      TransportFieldOf(packet, inPort, ft);
    }
  }

  /** TransportFields for one field type. */
  lemma TransportFieldOf(packet: seq<byte>, inPort: u32, ft: FieldType)
    requires Loads(packet) && EtherType(packet) == LegacyMatch.EthTypeIpv4 && TransportField(ft)
    ensures Lookup(packet, inPort, ft) == Success(Ipv4Transport(packet, ft))
  {
    var link, net, transport, t, proto := Ipv4Split(packet, inPort);
    LookupCalls(packet, inPort, ft);
    PastLink(link, net + transport, ft);
    NetThenTransport(packet, net, transport, t, proto, ft);
  }

  /** The calls of a loaded IPv4 frame in three runs, with where its transport header starts and the protocol it names. */
  lemma Ipv4Split(packet: seq<byte>, inPort: u32) returns (link: seq<Field>, net: seq<Field>, transport: seq<Field>, t: nat, proto: byte)
    requires Loads(packet) && EtherType(packet) == LegacyMatch.EthTypeIpv4
    ensures LoadCalls(packet, inPort) == Success(link + (net + transport))
    ensures forall i :: 0 <= i < |link| ==> link[i].ftype < IpDscp
    ensures forall k :: 0 <= k < |net| ==> NetworkField(net[k].ftype)
    ensures ReadTransport(packet, t, proto) == Success(transport)
    ensures var p := Payload(packet); p + 20 <= |packet| && t == p + 4 * (packet[p] % 16) && proto == packet[p + 9]
  {
    var l := ReadLink(packet, inPort).value;
    var p := Payload(packet);
    assert Ipv4Fits(packet, p) && l.next == p;
    var n := ReadIpv4(packet, p).value;
    t, proto := n.transport, n.proto;
    transport := ReadTransport(packet, t, proto).value;
    Ipv4CallsOfParts(packet, inPort, l, n, transport);
    link, net := l.calls, n.calls;
  }

  /** Past calls that set only network fields, a transport type finds what the transport header at t gives. */
  lemma NetThenTransport(packet: seq<byte>, net: seq<Field>, transport: seq<Field>, t: nat, proto: byte, ft: FieldType)
    requires forall k :: 0 <= k < |net| ==> NetworkField(net[k].ftype)
    requires TransportField(ft) && ReadTransport(packet, t, proto) == Success(transport)
    ensures ValueSet(net + transport, ft) == TransportValue(packet, t, proto, ft)
  {
    ValueSetAppend(net, transport, ft);
    ValueSetAbsent(net, ft);
    TransportValueSet(packet, t, proto, ft);
  }

  /** Past the IPv4 and transport fields, a loaded IPv4 frame sets nothing: no ECN, no ARP field, nothing of a later type. */
  lemma Ipv4NothingElse(packet: seq<byte>, inPort: u32)
    requires Loads(packet) && EtherType(packet) == LegacyMatch.EthTypeIpv4
    ensures forall t :: IpDscp <= t && !NetworkField(t) && !TransportField(t) ==> Lookup(packet, inPort, t) == Success(None)
  {
    var link, net, tr := Ipv4Parts(packet, inPort);
    var p := Payload(packet);
    NetValueSet(net, tr, packet[p + 1] / 4, packet[p + 9], ValueAt(packet, p + 12, 4), ValueAt(packet, p + 16, 4));
    forall t | IpDscp <= t && !NetworkField(t) && !TransportField(t)
      ensures Lookup(packet, inPort, t) == Success(None)
    {
      LookupCalls(packet, inPort, t);
      PastLink(link, net + tr, t);
      ValueSetAbsent(tr, t);
    }
  }

  /** A loaded ARP frame's calls: the link calls, then the ARP calls. */
  lemma ArpParts(packet: seq<byte>, inPort: u32) returns (link: seq<Field>, arp: seq<Field>)
    requires Loads(packet) && EtherType(packet) == LegacyMatch.EthTypeArp
    ensures LoadCalls(packet, inPort) == Success(link + arp)
    ensures forall i :: 0 <= i < |link| ==> link[i].ftype < IpDscp
    ensures var p := Payload(packet);
      && ArpFits(packet, p)
      && (ArpIpv4(packet, p) ==>
            arp == [NewField(ArpOp, U16(ValueAt(packet, p + 6, 2) % 0x100)),
                    NewField(ArpSpa, U32(ValueAt(packet, p + 14, 4))), NewField(ArpTpa, U32(ValueAt(packet, p + 24, 4)))])
      && (!ArpIpv4(packet, p) ==> arp == [NewField(ArpOp, U16(ValueAt(packet, p + 6, 2) % 0x100))])
  {
    var l := ReadLink(packet, inPort).value;
    arp := ReadArp(packet, l.next).value;
    ArpCallsOfParts(packet, inPort, l, arp);
    link := l.calls;
    assert arp == [arp[0]] + arp[1..];
  }

  /** The ARP calls with addresses: each of the three fields finds its value, and nothing else is set. */
  lemma ArpFullValueSet(arp: seq<Field>, op: u16, spa: u32, tpa: u32)
    requires arp == [NewField(ArpOp, U16(op)), NewField(ArpSpa, U32(spa)), NewField(ArpTpa, U32(tpa))]
    ensures ValueSet(arp, ArpOp) == Some(U16(op))
    ensures ValueSet(arp, ArpSpa) == Some(U32(spa)) && ValueSet(arp, ArpTpa) == Some(U32(tpa))
    ensures forall t :: !ArpField(t) ==> ValueSet(arp, t).None?
  {
    ValueSetUnique(arp, 0);
    ValueSetUnique(arp, 1);
    ValueSetUnique(arp, 2);
    forall t | !ArpField(t)
      ensures ValueSet(arp, t).None?
    {
      ValueSetAbsent(arp, t);
    }
  }

  /** The ARP call without addresses: the opcode finds its value, and nothing else is set. */
  lemma ArpShortValueSet(arp: seq<Field>, op: u16)
    requires arp == [NewField(ArpOp, U16(op))]
    ensures ValueSet(arp, ArpOp) == Some(U16(op))
    ensures forall t :: t != ArpOp ==> ValueSet(arp, t).None?
  {
    ValueSetUnique(arp, 0);
    forall t | t != ArpOp
      ensures ValueSet(arp, t).None?
    {
      ValueSetAbsent(arp, t);
    }
  }

  /**
   * A loaded ARP frame: the low byte of the opcode; the sender and target
   * protocol addresses when the protocol type is 0x800 and its address
   * length 4, and neither otherwise; no other field past the link layer.
   */
  lemma ArpFields(packet: seq<byte>, inPort: u32)
    requires Loads(packet) && EtherType(packet) == LegacyMatch.EthTypeArp
    ensures var p := Payload(packet);
      && Lookup(packet, inPort, ArpOp) == Success(Some(U16(ValueAt(packet, p + 6, 2) % 0x100)))
      && (ArpIpv4(packet, p) ==>
            && Lookup(packet, inPort, ArpSpa) == Success(Some(U32(ValueAt(packet, p + 14, 4))))
            && Lookup(packet, inPort, ArpTpa) == Success(Some(U32(ValueAt(packet, p + 24, 4)))))
      && (!ArpIpv4(packet, p) ==> Lookup(packet, inPort, ArpSpa) == Success(None) && Lookup(packet, inPort, ArpTpa) == Success(None))
    ensures forall t :: IpDscp <= t && !ArpField(t) ==> Lookup(packet, inPort, t) == Success(None)
  {
    var link, arp := ArpParts(packet, inPort);
    var p := Payload(packet);
    forall t | IpDscp <= t
      ensures Lookup(packet, inPort, t) == Success(ValueSet(arp, t))
    {
      LookupCalls(packet, inPort, t);
      PastLink(link, arp, t);
    }
    Pow256Widths();
    var op: u16 := ValueAt(packet, p + 6, 2) % 0x100;
    if ArpIpv4(packet, p) {
      ArpFullValueSet(arp, op, ValueAt(packet, p + 14, 4), ValueAt(packet, p + 24, 4));
    } else {
      ArpShortValueSet(arp, op);
    }
  }

  /** A loaded frame of any other ethertype sets nothing past the link layer. */
  lemma OtherFields(packet: seq<byte>, inPort: u32)
    requires Loads(packet) && EtherType(packet) != LegacyMatch.EthTypeIpv4 && EtherType(packet) != LegacyMatch.EthTypeArp
    ensures forall t :: IpDscp <= t ==> Lookup(packet, inPort, t) == Success(None)
  {
    var link := ReadLink(packet, inPort).value;
    OtherCallsOfParts(packet, inPort, link);
    forall t | IpDscp <= t
      ensures Lookup(packet, inPort, t) == Success(None)
    {
      LookupCalls(packet, inPort, t);
      assert LoadCalls(packet, inPort).value == link.calls;
      ValueSetAbsent(link.calls, t);
    }
  }

  lemma WritableAppend(a: seq<Field>, b: seq<Field>)
    requires Writable(a) && Writable(b)
    ensures Writable(a + b)
  {
    assert forall k :: |a| <= k < |a + b| ==> (a + b)[k] == b[k - |a|];
  }

  lemma LinkWritable(packet: seq<byte>, inPort: u32)
    requires ReadLink(packet, inPort).Success?
    ensures Writable(ReadLink(packet, inPort).value.calls)
  {
    var calls := ReadLink(packet, inPort).value.calls;
    assert PayloadLength(InPort) == 4 && PayloadLength(EthDst) == 6 && PayloadLength(EthSrc) == 6 && PayloadLength(EthType) == 2;
    assert PayloadLength(VlanVid) == 2 && PayloadLength(VlanPcp) == 1;
    assert forall k :: 0 <= k < |calls| ==> calls[k].ftype in {InPort, EthDst, EthSrc, EthType, VlanVid, VlanPcp};
  }

  lemma NetWritable(packet: seq<byte>, p: nat)
    requires ReadIpv4(packet, p).Success?
    ensures Writable(ReadIpv4(packet, p).value.calls)
  {
    assert PayloadLength(IpDscp) == 1 && PayloadLength(IpProto) == 1 && PayloadLength(Ipv4Src) == 4 && PayloadLength(Ipv4Dst) == 4;
  }

  lemma TransportWritable(packet: seq<byte>, t: nat, proto: byte)
    requires ReadTransport(packet, t, proto).Success?
    ensures Writable(ReadTransport(packet, t, proto).value)
  {
    var fs := ReadTransport(packet, t, proto).value;
    if proto == IpProtoIcmp {
      assert PayloadLength(Icmpv4Type) == 1 && PayloadLength(Icmpv4Code) == 1;
      assert fs == [NewField(Icmpv4Type, U8(packet[t])), NewField(Icmpv4Code, U8(packet[t + 1]))];
    } else if proto in {LegacyMatch.IpProtoTcp, LegacyMatch.IpProtoUdp, LegacyMatch.IpProtoSctp} {
      var ports := Ports(proto);
      assert PayloadLength(ports.0) == 2 && PayloadLength(ports.1) == 2;
      assert fs == [NewField(ports.0, U16(ValueAt(packet, t, 2))), NewField(ports.1, U16(ValueAt(packet, t + 2, 2)))];
    }
  }

  lemma ArpWritable(packet: seq<byte>, p: nat)
    requires ReadArp(packet, p).Success?
    ensures Writable(ReadArp(packet, p).value)
  {
    var arp := ReadArp(packet, p).value;
    assert PayloadLength(ArpOp) == 2 && PayloadLength(ArpSpa) == 4 && PayloadLength(ArpTpa) == 4;
    assert arp == [arp[0]] + arp[1..];
  }

  /**
   * Every value a loaded match holds is of the class and width readObject
   * gives its field's type: the match can be written and read back.
   */
  lemma LoadedWritable(packet: seq<byte>, inPort: u32, t: FieldType)
    requires Loads(packet) && Lookup(packet, inPort, t).value.Some?
    ensures WellFormed(Lookup(packet, inPort, t).value.value, PayloadLength(t))
  {
    LookupCalls(packet, inPort, t);
    var link := ReadLink(packet, inPort).value;
    LinkWritable(packet, inPort);
    if link.dlType == LegacyMatch.EthTypeIpv4 {
      var net := ReadIpv4(packet, link.next).value;
      var tr := ReadTransport(packet, net.transport, net.proto).value;
      Ipv4CallsOfParts(packet, inPort, link, net, tr);
      NetWritable(packet, link.next);
      TransportWritable(packet, net.transport, net.proto);
      WritableAppend(net.calls, tr);
      WritableAppend(link.calls, net.calls + tr);
    } else if link.dlType == LegacyMatch.EthTypeArp {
      var arp := ReadArp(packet, link.next).value;
      ArpCallsOfParts(packet, inPort, link, arp);
      ArpWritable(packet, link.next);
      WritableAppend(link.calls, arp);
    } else {
      OtherCallsOfParts(packet, inPort, link);
      assert link.calls + [] == link.calls;
    }
    ValueSetFrom(LoadCalls(packet, inPort).value, t);
  }
}

=== FILE: parse_loop.dfy ===
/**
 * What the fuel of Factory.Parse stands for when there is no limit. The
 * loop of BasicFactory keeps reading while the header and the declared
 * element fit; each turn depends on nothing but the cursor, so a cursor that
 * comes back makes the loop turn for ever. Parse bounds the turns that read
 * an element by its fuel and reports LoopSpins when the fuel runs out. Here:
 * with fuel at least the buffer length, LoopSpins means that every amount of
 * fuel runs out (the loop never returns), and any other outcome is the one
 * every larger amount of fuel gives.
 */
module ParseLoop {
  import opened Wrappers
  import opened Bytes
  import opened Factory

  /** Where the cursor goes from c in one turn that reads an element, for any loop whose turns depend on the cursor alone. */
  type Step = nat -> Option<nat>

  /** The cursor after k turns from c that each read an element; None when some turn does not. */
  function Run(step: Step, c: nat, k: nat): Option<nat>
    decreases k
  {
    if k == 0 then Some(c)
    else if step(c).Some? then Run(step, step(c).value, k - 1)
    else None
  }

  /** Every cursor a turn moves to is at most bound. */
  ghost predicate Bounded(step: Step, bound: nat)
  {
    forall c: nat :: step(c).Some? ==> step(c).value <= bound
  }

  /** The turns of the shared loop with no limit, over the range ending at end. */
  function LoopStep(f: Family, data: seq<byte>, end: int): Step
    requires ValidFamily(f)
  {
    (c: nat) => if c <= |data| && TakeTurn(f, data, c, end).Success? && TakeTurn(f, data, c, end).value.Take?
         then Some(TakeTurn(f, data, c, end).value.next) else None
  }

  /** The loop's turns never move the cursor past the buffer's limit. */
  lemma LoopStepBounded(f: Family, data: seq<byte>, end: int)
    requires ValidFamily(f)
    ensures Bounded(LoopStep(f, data, end), |data|)
  {
    var step := LoopStep(f, data, end);
    forall c: nat | step(c).Some?
      ensures step(c).value <= |data|
    {
      assert c <= |data|;
    }
  }

  /**
   * With no limit, the loop runs out of fuel exactly when fuel + 1 turns in a
   * row read an element; the count of results so far plays no part.
   */
  lemma {:induction false} SpinsIff(f: Family, data: seq<byte>, pos: nat, end: int, count: nat, fuel: nat)
    requires ValidFamily(f) && pos <= |data|
    ensures Parse(f, data, pos, end, 0, count, fuel) == Failure(LoopSpins) <==> Run(LoopStep(f, data, end), pos, fuel + 1).Some?
    decreases fuel, 1
  {
    var t := TakeTurn(f, data, pos, end);
    if t.Success? && t.value.Take? && fuel == 0 {
      ParseNoFuel(f, data, pos, end, count);
      RunStep(LoopStep(f, data, end), pos, t.value.next, 0);
    } else if t.Success? && t.value.Take? {
      SpinsIffTake(f, data, pos, end, count, fuel, t.value.element, t.value.next);
    } else {
      ParseOtherStep(f, data, pos, end, count, fuel);
      assert LoopStep(f, data, end)(pos).None?;
    }
  }

  /** SpinsIff at a turn that reads e and moves to next. */
  lemma SpinsIffTake(f: Family, data: seq<byte>, pos: nat, end: int, count: nat, fuel: nat, e: Element, next: nat)
    requires ValidFamily(f) && pos <= |data| && next <= |data| && fuel > 0
    requires TakeTurn(f, data, pos, end) == Success(Take(e, next))
    ensures Parse(f, data, pos, end, 0, count, fuel) == Failure(LoopSpins) <==> Run(LoopStep(f, data, end), pos, fuel + 1).Some?
    decreases fuel, 0
  {
    RunStep(LoopStep(f, data, end), pos, next, fuel);
    ParseTakeSpins(f, data, pos, end, count, fuel, e, next);
    SpinsIff(f, data, next, end, count + 1, fuel - 1);
  }

  /** k + 1 turns from c are k turns from where the first one leaves the cursor. */
  lemma RunStep(step: Step, c: nat, d: nat, k: nat)
    requires step(c) == Some(d)
    ensures Run(step, c, k + 1) == Run(step, d, k)
  {
  }

  /** a + b turns are a turns, then b more from where they left the cursor. */
  lemma {:induction false} RunAdd(step: Step, c: nat, a: nat, b: nat)
    ensures Run(step, c, a + b) == if Run(step, c, a).Some? then Run(step, Run(step, c, a).value, b) else None
    decreases a
  {
    if a > 0 && step(c).Some? {
      RunAdd(step, step(c).value, a - 1, b);
    }
  }

  /** A run of turns that reads an element every time includes every shorter run. */
  lemma RunPrefix(step: Step, c: nat, a: nat, b: nat)
    requires a <= b && Run(step, c, b).Some?
    ensures Run(step, c, a).Some?
  {
    RunAdd(step, c, a, b - a);
  }

  /** From bounded cursors, the turns keep the cursor bounded. */
  lemma {:induction false} RunBounded(step: Step, bound: nat, c: nat, k: nat)
    requires Bounded(step, bound) && c <= bound
    ensures Run(step, c, k).Some? ==> Run(step, c, k).value <= bound
    decreases k
  {
    if k > 0 && step(c).Some? {
      RunBounded(step, bound, step(c).value, k - 1);
    }
  }

  /** From a cursor that comes back after d > 0 turns, every number of turns reads an element each time. */
  lemma {:induction false} CycleFrom(step: Step, c: nat, d: nat, n: nat)
    requires d > 0 && Run(step, c, d) == Some(c)
    ensures Run(step, c, n).Some?
    decreases n
  {
    if n <= d {
      RunPrefix(step, c, n, d);
    } else {
      RunAdd(step, c, d, n - d);
      CycleFrom(step, c, d, n - d);
    }
  }

  /** Once a cursor reached from c comes back, every number of turns from c reads an element each time. */
  lemma Cycle(step: Step, c: nat, i: nat, d: nat, k: nat)
    requires d > 0 && Run(step, c, i).Some?
    requires Run(step, Run(step, c, i).value, d) == Run(step, c, i)
    ensures Run(step, c, k).Some?
  {
    if k <= i {
      RunPrefix(step, c, k, i);
    } else {
      CycleFrom(step, Run(step, c, i).value, d, k - i);
      RunAdd(step, c, i, k - i);
    }
  }

  /** The cursors after 0, 1, …, n turns from c. */
  function Cursors(step: Step, c: nat, n: nat): (cs: seq<nat>)
    requires Run(step, c, n).Some?
    ensures |cs| == n + 1
    ensures forall i :: 0 <= i <= n ==> Run(step, c, i) == Some(cs[i])
    decreases n
  {
    if n == 0 then [c]
    else
      RunPrefix(step, c, n - 1, n);
      Cursors(step, c, n - 1) + [Run(step, c, n).value]
  }

  /** More turns in a row that read an element than there are cursors: every number of turns does. */
  lemma TurnsForEver(step: Step, bound: nat, c: nat, n: nat, k: nat)
    requires Bounded(step, bound) && c <= bound && n > bound
    requires Run(step, c, n).Some?
    ensures Run(step, c, k).Some?
  {
    var cs := Cursors(step, c, n);
    forall i | 0 <= i < |cs|
      ensures cs[i] <= bound
    {
      RunBounded(step, bound, c, i);
    }
    var i, j := Repeat(cs, bound);
    RunAdd(step, c, i, j - i);
    assert Run(step, c, i) == Some(cs[i]) && Run(step, c, i + (j - i)) == Some(cs[j]);
    Cycle(step, c, i, j - i, k);
  }

  /** The distinct values of s, one per position. */
  predicate Distinct(s: seq<nat>)
  {
    forall i, j :: 0 <= i < j < |s| ==> s[i] != s[j]
  }

  /** Distinct values all at most bound: there are at most bound + 1 of them. */
  lemma Pigeonhole(s: seq<nat>, bound: nat)
    requires forall i :: 0 <= i < |s| ==> s[i] <= bound
    requires Distinct(s)
    ensures |s| <= bound + 1
  {
    DistinctCard(s);
    BoundedCard(Values(s), bound);
  }

  /** The values s holds. */
  function Values(s: seq<nat>): set<nat>
  {
    set x | x in s
  }

  /** A sequence of distinct values has as many values as positions. */
  lemma {:induction false} DistinctCard(s: seq<nat>)
    requires Distinct(s)
    ensures |Values(s)| == |s|
    decreases |s|
  {
    if |s| > 0 {
      var tail := s[1..];
      assert Distinct(tail) by {
        forall i, j | 0 <= i < j < |tail|
          ensures tail[i] != tail[j]
        {
          assert tail[i] == s[i + 1] && tail[j] == s[j + 1];
        }
      }
      DistinctCard(tail);
      assert s[0] !in Values(tail) by {
        forall i | 0 <= i < |tail|
          ensures tail[i] != s[0]
        {
          assert tail[i] == s[i + 1];
        }
      }
      assert Values(s) == {s[0]} + Values(tail) by {
        assert s == [s[0]] + tail;
      }
    }
  }

  /** Naturals all at most bound: there are at most bound + 1 of them. */
  lemma {:induction false} BoundedCard(xs: set<nat>, bound: int)
    requires bound >= -1
    requires forall x :: x in xs ==> x <= bound
    ensures |xs| <= bound + 1
    decreases bound + 1
  {
    if bound == -1 {
      assert xs == {};
    } else {
      var smaller := xs - {bound};
      BoundedCard(smaller, bound - 1);
      assert xs <= smaller + {bound};
      assert |smaller + {bound}| <= |smaller| + 1;
      SubsetCard(xs, smaller + {bound});
    }
  }

  /** A subset has no more elements. */
  lemma SubsetCard(a: set<nat>, b: set<nat>)
    requires a <= b
    ensures |a| <= |b|
  {
    assert b == a + (b - a);
  }

  /**
   * With no limit and fuel at least the buffer length, LoopSpins means the
   * loop never returns: the cursor came back within the turns counted, so
   * every amount of fuel runs out, whatever the count so far.
   */
  lemma SpinsForEver(f: Family, data: seq<byte>, pos: nat, end: int, count: nat, fuel: nat, count': nat, fuel': nat)
    requires ValidFamily(f) && pos <= |data| && fuel >= |data|
    requires Parse(f, data, pos, end, 0, count, fuel) == Failure(LoopSpins)
    ensures Parse(f, data, pos, end, 0, count', fuel') == Failure(LoopSpins)
  {
    SpinsIff(f, data, pos, end, count, fuel);
    LoopStepBounded(f, data, end);
    TurnsForEver(LoopStep(f, data, end), |data|, pos, fuel + 1, fuel' + 1);
    SpinsIff(f, data, pos, end, count', fuel');
  }

  /** More values than the bound allows: two positions hold the same one. */
  lemma Repeat(s: seq<nat>, bound: nat) returns (i: nat, j: nat)
    requires forall k :: 0 <= k < |s| ==> s[k] <= bound
    requires |s| > bound + 1
    ensures i < j < |s| && s[i] == s[j]
  {
    if !Distinct(s) {
      i, j :| 0 <= i < j < |s| && s[i] == s[j];
    } else {
      Pigeonhole(s, bound);
      assert false;
    }
  }

  /**
   * With no limit, an outcome other than LoopSpins is final: every larger
   * amount of fuel gives the same elements and cursor, or the same exception.
   */
  lemma {:induction false} FuelSettles(f: Family, data: seq<byte>, pos: nat, end: int, count: nat, fuel: nat, fuel': nat)
    requires ValidFamily(f) && pos <= |data| && fuel <= fuel'
    requires Parse(f, data, pos, end, 0, count, fuel) != Failure(LoopSpins)
    ensures Parse(f, data, pos, end, 0, count, fuel') == Parse(f, data, pos, end, 0, count, fuel)
    decreases fuel, 1
  {
    var t := TakeTurn(f, data, pos, end);
    if t.Success? && t.value.Take? && fuel == 0 {
      ParseNoFuel(f, data, pos, end, count);
      assert false;
    } else if t.Success? && t.value.Take? {
      FuelSettlesTake(f, data, pos, end, count, fuel, fuel', t.value.element, t.value.next);
    } else {
      ParseOtherStep(f, data, pos, end, count, fuel);
      ParseOtherStep(f, data, pos, end, count, fuel');
    }
  }

  /** FuelSettles at a turn that reads e and moves to next. */
  lemma FuelSettlesTake(f: Family, data: seq<byte>, pos: nat, end: int, count: nat, fuel: nat, fuel': nat, e: Element, next: nat)
    requires ValidFamily(f) && pos <= |data| && next <= |data| && 0 < fuel <= fuel'
    requires TakeTurn(f, data, pos, end) == Success(Take(e, next))
    requires Parse(f, data, pos, end, 0, count, fuel) != Failure(LoopSpins)
    ensures Parse(f, data, pos, end, 0, count, fuel') == Parse(f, data, pos, end, 0, count, fuel)
    decreases fuel, 0
  {
    ParseTakeStep(f, data, pos, end, count, fuel, e, next);
    ParseTakeStep(f, data, pos, end, count, fuel', e, next);
    PrependFailure(e, Parse(f, data, next, end, 0, count + 1, fuel - 1), LoopSpins);
    FuelSettles(f, data, next, end, count + 1, fuel - 1, fuel' - 1);
  }
}

=== FILE: physical_port.dfy ===
/**
 * A physical port description (OFPhysicalPort, ofp_phy_port): the port
 * number, 4 pad bytes, the 6-byte hardware address, 2 pad bytes, a 16-byte
 * NUL-terminated name, then eight 32-bit words (config, state, the four
 * feature sets, current and maximum speed) — 64 bytes in all.
 *
 * The name is a Java String: writeTo encodes it as ASCII, where every
 * character outside ASCII becomes '?', and readFrom decodes ASCII, where
 * every byte of 0x80 or more becomes U+FFFD.
 */
module PhysicalPort {
  import opened Wrappers
  import opened Bytes

  /** MINIMUM_LENGTH: the size of the record. */
  const MinimumLength := 64

  /** OFP_ETH_ALEN: the length of a hardware address. */
  const EthAlen := 6

  /** The size of the name slot. */
  const NameLength := 16

  /** The number of 32-bit words after the name. */
  const WordCount := 8

  /**
   * A port: the ints as their 32 bits, the address and the name possibly
   * null (None).
   */
  datatype Port = Port(portNumber: u32, hardwareAddress: Option<seq<byte>>, name: Option<string>,
                       config: u32, state: u32, currentFeatures: u32, advertisedFeatures: u32,
                       supportedFeatures: u32, peerFeatures: u32, currSpeed: u32, maxSpeed: u32)

  /** A port as new leaves it: every int 0, no address and no name. */
  const Empty := Port(0, None, None, 0, 0, 0, 0, 0, 0, 0, 0)

  /** The eight words after the name, in wire order. */
  function Words(p: Port): (ws: seq<u32>)
    ensures |ws| == WordCount
  {
    [p.config, p.state, p.currentFeatures, p.advertisedFeatures, p.supportedFeatures, p.peerFeatures, p.currSpeed, p.maxSpeed]
  }

  /** The port with its eight words replaced, in wire order. */
  function WithWords(p: Port, ws: seq<u32>): (r: Port)
    requires |ws| == WordCount
    ensures Words(r) == ws
  {
    p.(config := ws[0], state := ws[1], currentFeatures := ws[2], advertisedFeatures := ws[3],
       supportedFeatures := ws[4], peerFeatures := ws[5], currSpeed := ws[6], maxSpeed := ws[7])
  }

  /** setHardwareAddress: anything but 6 bytes is rejected and the port is left as it was. */
  function SetHardwareAddress(p: Port, a: seq<byte>): (r: Result<Port, Exception>)
    ensures r.Failure? <==> |a| != EthAlen
    ensures r.Failure? ==> r.error == BadHardwareAddress
    ensures r.Success? ==> r.value.hardwareAddress == Some(a) && r.value == p.(hardwareAddress := r.value.hardwareAddress)
  {
    if |a| != EthAlen then Failure(BadHardwareAddress) else Success(p.(hardwareAddress := Some(a)))
  }

  /** equals: two ports are equal exactly when their port numbers are. */
  function Equal(a: Port, b: Port): (r: bool)
    ensures r ==> Hash(a) == Hash(b)
    ensures a == b ==> r
  {
    a.portNumber == b.portNumber
  }

  /** hashCode: 307 * 1 + portNumber, in int arithmetic, so congruent to 307 + portNumber modulo 2^32. */
  function Hash(p: Port): (h: i32)
    ensures (h - 307 - p.portNumber) % 0x1_0000_0000 == 0
  {
    ToI32(307 + ToI32(p.portNumber))
  }

  /** The byte String.getBytes("ASCII") writes for a character: itself if ASCII, else '?'. */
  function AsciiByte(c: char): (b: byte)
    ensures b < 0x80
  {
    if c as int < 0x80 then c as int else '?' as int
  }

  /** The character new String(bytes, ascii) makes of a byte: itself if ASCII, else U+FFFD. */
  function AsciiChar(b: byte): char
  {
    if b < 0x80 then b as char else '\U{FFFD}'
  }

  function AsciiBytes(s: string): (bs: seq<byte>)
    ensures |bs| == |s| && forall i :: 0 <= i < |s| ==> bs[i] == AsciiByte(s[i])
  {
    seq(|s|, i requires 0 <= i < |s| => AsciiByte(s[i]))
  }

  function AsciiString(bs: seq<byte>): (s: string)
    ensures |s| == |bs| && forall i :: 0 <= i < |bs| ==> s[i] == AsciiChar(bs[i])
  {
    seq(|bs|, i requires 0 <= i < |bs| => AsciiChar(bs[i]))
  }

  /**
   * writeTo's name slot: a name under 16 bytes followed by zeros up to 16;
   * a longer one cut to 15 bytes and a zero.
   */
  function EncodeName(name: string): (s: seq<byte>)
    ensures |s| == NameLength
    ensures |name| < NameLength ==> s[..|name|] == AsciiBytes(name) && forall i :: |name| <= i < NameLength ==> s[i] == 0
    ensures |name| >= NameLength ==> s[..NameLength - 1] == AsciiBytes(name[..NameLength - 1]) && s[NameLength - 1] == 0
  {
    var bs := AsciiBytes(name);
    if |bs| < NameLength then bs + Zeros(NameLength - |bs|)
    else bs[..NameLength - 1] + [0]
  }

  /** readFrom's scan: the index of the first zero byte, or the length if there is none. */
  function FirstZero(bs: seq<byte>): (n: nat)
    ensures n <= |bs| && (n < |bs| ==> bs[n] == 0)
    ensures forall i :: 0 <= i < n ==> bs[i] != 0
  {
    if |bs| == 0 then 0
    else if bs[0] == 0 then 0
    else 1 + FirstZero(bs[1..])
  }

  /** readFrom's name: the ASCII decoding of the bytes before the first zero. */
  function DecodeName(bs: seq<byte>): (s: string)
    ensures |s| <= |bs|
  {
    AsciiString(bs[..FirstZero(bs)])
  }

  /** A name of ASCII characters other than NUL. */
  predicate PlainName(name: string)
  {
    forall i :: 0 <= i < |name| ==> 0 < name[i] as int < 0x80
  }

  /**
   * The name round trip: a plain name under 16 characters comes back
   * whole, a longer one as its first 15 characters.
   */
  lemma NameRoundTrip(name: string)
    requires PlainName(name)
    ensures DecodeName(EncodeName(name)) == if |name| < NameLength then name else name[..NameLength - 1]
  {
    var s := EncodeName(name);
    var k := if |name| < NameLength then |name| else NameLength - 1;
    assert forall i :: 0 <= i < k ==> s[i] == AsciiByte(name[i]) != 0;
    FirstZeroAt(s, k);
    assert AsciiString(s[..k]) == name[..k];
  }

  /** A name with a NUL at k, plain before it, comes back as its first k characters. */
  lemma NameStopsAtNul(name: string, k: nat)
    requires k < |name| && k < NameLength - 1 && name[k] == '\0' && PlainName(name[..k])
    ensures DecodeName(EncodeName(name)) == name[..k]
  {
    var s := EncodeName(name);
    assert s[k] == AsciiByte(name[k]) == 0;
    assert forall i :: 0 <= i < k ==> s[i] == AsciiByte(name[..k][i]) != 0;
    FirstZeroAt(s, k);
    assert AsciiString(s[..k]) == name[..k];
  }

  /** The first zero is at k when the bytes before k are non-zero and byte k is zero or the end. */
  lemma {:induction false} FirstZeroAt(bs: seq<byte>, k: nat)
    requires k <= |bs| && (k < |bs| ==> bs[k] == 0)
    requires forall i :: 0 <= i < k ==> bs[i] != 0
    ensures FirstZero(bs) == k
  {
    if k > 0 {
      FirstZeroAt(bs[1..], k - 1);
    }
  }

  /** putInt of each word in turn. */
  function EncodeWords(ws: seq<u32>): (s: seq<byte>)
    ensures |s| == 4 * |ws|
  {
    if |ws| == 0 then [] else Put(ws[0], 4) + EncodeWords(ws[1..])
  }

  /** getInt n times, from a position within the buffer. */
  function ReadWords(data: seq<byte>, pos: nat, n: nat): (r: Result<Read<seq<u32>>, Exception>)
    requires pos <= |data|
    decreases n
    ensures r.Success? <==> pos + 4 * n <= |data|
    ensures r.Failure? ==> r.error == BufferUnderflow
    ensures r.Success? ==> |r.value.value| == n && r.value.next == pos + 4 * n
  {
    Pow256Widths();
    if n == 0 then Success(Read([], pos))
    else
      var w :- ReadUnsigned(data, pos, 4);
      var rest :- ReadWords(data, pos + 4, n - 1);
      Success(Read([w] + rest.value, rest.next))
  }

  /** Words written with putInt are read back by getInt. */
  lemma {:induction false} ReadEncodedWords(ws: seq<u32>, data: seq<byte>, pos: nat)
    requires pos + 4 * |ws| <= |data| && data[pos..pos + 4 * |ws|] == EncodeWords(ws)
    ensures ReadWords(data, pos, |ws|) == Success(Read(ws, pos + 4 * |ws|))
    decreases |ws|
  {
    if |ws| > 0 {
      var e := pos + 4 * |ws|;
      SplitAt(data, pos, pos + 4, e, Put(ws[0], 4), EncodeWords(ws[1..]));
      Pow256Widths();
      ReadPutAt(data, pos, ws[0], 4);
      ReadEncodedWords(ws[1..], data, pos + 4);
      assert [ws[0]] + ws[1..] == ws;
    }
  }

  /** The bytes before the name: port number, 4 zeros, the address, 2 zeros. */
  function EncodeHead(p: Port): (s: seq<byte>)
    requires p.hardwareAddress.Some?
    ensures |s| == 10 + |p.hardwareAddress.value|
  {
    Put(p.portNumber, 4) + (Zeros(4) + (p.hardwareAddress.value + Zeros(2)))
  }

  /**
   * writeTo: a null address or name throws; the address is put whatever its
   * length, so the record is 64 bytes only for a 6-byte address.
   */
  function WritePort(p: Port): (r: Result<seq<byte>, Exception>)
    ensures r.Failure? <==> p.hardwareAddress.None? || p.name.None?
    ensures r.Failure? ==> r.error == NullPointer
    ensures r.Success? ==> |r.value| == MinimumLength - EthAlen + |p.hardwareAddress.value|
    ensures r.Success? && |p.hardwareAddress.value| == EthAlen ==> |r.value| == MinimumLength
    ensures r.Success? ==> r.value[..4] == Put(p.portNumber, 4) && r.value[4..8] == Zeros(4)
  {
    if p.hardwareAddress.None? || p.name.None? then Failure(NullPointer)
    else
      var s := EncodeHead(p) + (EncodeName(p.name.value) + EncodeWords(Words(p)));
      assert s[..4] == Put(p.portNumber, 4) && s[4..8] == Zeros(4);
      Success(s)
  }

  /**
   * readFrom into p: the port number, a move past the pad, the address into
   * p's own array (a new 6-byte one when p has none), a move past the pad,
   * the 16-byte name, and the eight words.
   */
  function ReadPort(p: Port, data: seq<byte>, pos: nat): (r: Result<Read<Port>, Exception>)
    ensures var k := if p.hardwareAddress.None? then EthAlen else |p.hardwareAddress.value|;
      r.Success? <==> pos + MinimumLength - EthAlen + k <= |data|
    ensures var k := if p.hardwareAddress.None? then EthAlen else |p.hardwareAddress.value|;
      r.Success? ==> r.value.next == pos + MinimumLength - EthAlen + k && r.value.value.hardwareAddress == Some(data[pos + 8..pos + 8 + k])
    ensures r.Success? ==> r.value.value.portNumber == ValueAt(data, pos, 4)
    ensures r.Success? ==> r.value.value.name.Some? && |r.value.value.name.value| < NameLength + 1
  {
    Pow256Widths();
    var portNumber :- ReadUnsigned(data, pos, 4);
    var a :- Seek(data, pos + 8);
    var k := if p.hardwareAddress.None? then EthAlen else |p.hardwareAddress.value|;
    var address :- ReadBytes(data, a, k);
    var b :- Seek(data, a + k + 2);
    var name :- ReadBytes(data, b, NameLength);
    var words :- ReadWords(data, b + NameLength, WordCount);
    Success(Read(WithWords(p.(portNumber := portNumber, hardwareAddress := Some(address), name := Some(DecodeName(name))), words.value),
                 words.next))
  }

  /**
   * The record round trip: a port with a 6-byte address and a name, written
   * with writeTo and read back into a port with no address or a 6-byte one,
   * comes back 64 bytes on with every field as it was, except the name,
   * which comes back as the name slot decodes (see NameRoundTrip).
   */
  lemma ReadWritten(p: Port, target: Port, data: seq<byte>, pos: nat)
    requires p.hardwareAddress.Some? && |p.hardwareAddress.value| == EthAlen && p.name.Some?
    requires target.hardwareAddress.None? || |target.hardwareAddress.value| == EthAlen
    requires pos + MinimumLength <= |data| && data[pos..pos + MinimumLength] == WritePort(p).value
    ensures ReadPort(target, data, pos) ==
      Success(Read(p.(name := Some(DecodeName(EncodeName(p.name.value)))), pos + MinimumLength))
  {
    var e := pos + MinimumLength;
    var name := EncodeName(p.name.value);
    var words := EncodeWords(Words(p));
    var hw := p.hardwareAddress.value;
    SplitAt(data, pos, pos + 16, e, EncodeHead(p), name + words);
    SplitAt(data, pos + 16, pos + 32, e, name, words);
    SplitAt(data, pos, pos + 4, pos + 16, Put(p.portNumber, 4), Zeros(4) + (hw + Zeros(2)));
    SplitAt(data, pos + 4, pos + 8, pos + 16, Zeros(4), hw + Zeros(2));
    SplitAt(data, pos + 8, pos + 14, pos + 16, hw, Zeros(2));
    Pow256Widths();
    ReadPutAt(data, pos, p.portNumber, 4);
    ReadEncodedWords(Words(p), data, pos + 32);
    ReadOfParts(target, data, pos, p.portNumber, hw, name, Words(p));
    assert WithWords(target.(portNumber := p.portNumber, hardwareAddress := Some(hw), name := Some(DecodeName(name))), Words(p))
        == p.(name := Some(DecodeName(name)));
  }

  /** readFrom of a record whose parts read as given, with a 6-byte address. */
  lemma ReadOfParts(target: Port, data: seq<byte>, pos: nat, portNumber: u32, hw: seq<byte>, name: seq<byte>, ws: seq<u32>)
    requires target.hardwareAddress.None? || |target.hardwareAddress.value| == EthAlen
    requires pos + MinimumLength <= |data| && |hw| == EthAlen && |name| == NameLength && |ws| == WordCount
    requires ReadUnsigned(data, pos, 4) == Success(portNumber as int)
    requires data[pos + 8..pos + 14] == hw && data[pos + 16..pos + 32] == name
    requires ReadWords(data, pos + 32, WordCount) == Success(Read(ws, pos + MinimumLength))
    ensures ReadPort(target, data, pos) ==
      Success(Read(WithWords(target.(portNumber := portNumber, hardwareAddress := Some(hw), name := Some(DecodeName(name))), ws),
                   pos + MinimumLength))
  {
    var a: nat, b: nat := pos + 8, pos + 16;
    assert Seek(data, a) == Success(a) && ReadBytes(data, a, EthAlen) == Success(hw);
    assert Seek(data, a + EthAlen + 2) == Success(b) && ReadBytes(data, b, NameLength) == Success(name);
  }

  /**
   * Hash codes collide exactly for equal ports, whatever their other
   * fields: adding 307 modulo 2^32 loses no port number.
   */
  lemma EqualHash(a: Port, b: Port)
    ensures Equal(a, b) <==> Hash(a) == Hash(b)
  {
    if Hash(a) == Hash(b) {
      var d := a.portNumber - b.portNumber;
      assert d % 0x1_0000_0000 == 0 by {
        assert (Hash(a) - 307 - a.portNumber) - (Hash(b) - 307 - b.portNumber) == -d;
      }
    }
  }
}

=== FILE: queue_property_type.dfy ===
/**
 * Queue property types (OFQueuePropertyType) and the map from a wire code to
 * the type registered under it. Every construction registers the new type
 * under its own code, replacing whatever was registered there.
 */
module QueuePropertyType {
  import opened Wrappers
  import opened Bytes

  /** A queue property type: its short wire code and its name. */
  datatype PropertyType = PropertyType(typeValue: i16, name: string)

  /** The code to type map; the two declared types never reach its capacity of ten. */
  type Mapping = map<i16, PropertyType>

  /** addMapping: puts t under code i, replacing any earlier entry. */
  function AddMapping(m: Mapping, i: i16, t: PropertyType): (r: Mapping)
    ensures r.Keys == m.Keys + {i}
    ensures r[i] == t
    ensures forall j :: j in m && j != i ==> r[j] == m[j]
  {
    m[i := t]
  }

  /** valueOf: the type registered under code i, or None for null. */
  function ValueOf(m: Mapping, i: i16): (r: Option<PropertyType>)
    ensures r.Some? <==> i in m
    ensures r.Some? ==> r.value == m[i]
  {
    if i in m then Some(m[i]) else None
  }

  /** A lookup after addMapping finds the new type at its code and the old map elsewhere. */
  lemma ValueOfAddMapping(m: Mapping, i: i16, t: PropertyType, j: i16)
    ensures ValueOf(AddMapping(m, i, t), j) == if j == i then Some(t) else ValueOf(m, j)
  {
  }

  /**
   * The constructor: the code, a Java int, is cut to a short, and the new
   * type registers itself under that short.
   */
  function Construct(m: Mapping, code: i32, name: string): (r: (PropertyType, Mapping))
    ensures r.0.name == name && r.0.typeValue == ToI16(code)
    ensures ValueOf(r.1, ToI16(code)) == Some(r.0)
    ensures forall j :: j != ToI16(code) ==> ValueOf(r.1, j) == ValueOf(m, j)
  {
    var t := PropertyType(ToI16(code), name);
    (t, AddMapping(m, t.typeValue, t))
  }

  const MinRate: PropertyType := Construct(map[], 1, "MIN_RATE").0

  const MaxRate: PropertyType := Construct(Construct(map[], 1, "MIN_RATE").1, 2, "MAX_RATE").0

  /** The map once both declared types have been constructed, MIN_RATE first. */
  const Registry: Mapping := Construct(Construct(map[], 1, "MIN_RATE").1, 2, "MAX_RATE").1

  /** MIN_RATE has code 1 and MAX_RATE code 2. */
  lemma DeclaredCodes()
    ensures MinRate.typeValue == 1 && MaxRate.typeValue == 2
  {
  }

  /** Each declared type is found under its code, and every other code resolves to null. */
  lemma ValueOfRegistry(c: i16)
    ensures ValueOf(Registry, c) ==
            if c == 1 then Some(MinRate) else if c == 2 then Some(MaxRate) else None
  {
  }
}

=== FILE: statistics.dfy ===
/**
 * Two multipart statistics records: the vendor (experimenter) body, whose
 * length is imposed from outside, and the group statistics reply, whose
 * length field sizes its list of bucket counters.
 */
module Statistics {
  import opened Wrappers
  import opened Bytes

  /** MINIMUM_LENGTH of a vendor body: the vendor id and the experimenter type. */
  const VendorMinimumLength := 8

  /**
   * OFVendorStatistics: vendor id, experimenter type, an optional body, and
   * a length that is not on the wire but set by whoever reads the record.
   */
  datatype VendorStatistics = VendorStatistics(vendor: u32, expType: u32, body: Option<seq<byte>>, length: int)

  const NewVendorStatistics := VendorStatistics(0, 0, None, 0)

  function BodyLength(v: VendorStatistics): nat
  {
    if v.body.Some? then |v.body.value| else 0
  }

  /** writeTo: vendor id, experimenter type, then the body if there is one. */
  function WriteVendor(v: VendorStatistics): (s: seq<byte>)
    ensures |s| == VendorMinimumLength + BodyLength(v)
  {
    Put(v.vendor, 4) + (Put(v.expType, 4) + (if v.body.Some? then v.body.value else []))
  }

  /**
   * readFrom into v: vendor id and experimenter type, then a body of the
   * present body's size, or, when there is none, of length - 8 bytes, which
   * throws when the length is below 8. The bytes read are exactly the bytes
   * the record writes back.
   */
  function ReadVendor(v: VendorStatistics, data: seq<byte>, pos: nat): (r: Result<Read<VendorStatistics>, Exception>)
    ensures r.Success? ==> r.value.value.body.Some? && r.value.value.length == v.length
    ensures r.Success? ==> r.value.next == pos + VendorMinimumLength + BodyLength(r.value.value) <= |data|
    ensures r.Success? ==> data[pos..r.value.next] == WriteVendor(r.value.value)
    ensures pos + VendorMinimumLength <= |data| && v.body.None? && v.length < VendorMinimumLength ==>
      r == Failure(NegativeArraySize)
    ensures r.Success? ==>
      |r.value.value.body.value| == if v.body.Some? then |v.body.value| else v.length - VendorMinimumLength
    ensures v.body.Some? && pos + VendorMinimumLength + |v.body.value| <= |data| ==> r.Success?
    ensures v.body.None? && VendorMinimumLength <= v.length && pos + v.length <= |data| ==> r.Success?
  {
    var vendor :- ReadUnsigned(data, pos, 4);
    var expType :- ReadUnsigned(data, pos + 4, 4);
    var n :- if v.body.Some? then Success(|v.body.value|)
             else if v.length < VendorMinimumLength then Failure(NegativeArraySize)
             else Success(v.length - VendorMinimumLength);
    var body :- ReadBytes(data, pos + 8, n);
    ReadVendorWrites(data, pos, n);
    Success(Read(VendorStatistics(vendor, expType, Some(body), v.length), pos + 8 + n))
  }

  lemma ReadVendorWrites(data: seq<byte>, pos: nat, n: nat)
    requires pos + 8 + n <= |data|
    ensures data[pos..pos + 8 + n] ==
            WriteVendor(VendorStatistics(ValueAt(data, pos, 4), ValueAt(data, pos + 4, 4), Some(data[pos + 8..pos + 8 + n]), 0))
  {
    Pow256Widths();
    PutValueAt(data, pos, 4);
    PutValueAt(data, pos + 4, 4);
    var a := data[pos..pos + 4];
    var b := data[pos + 4..pos + 8];
    var c := data[pos + 8..pos + 8 + n];
    assert data[pos..pos + 8 + n] == a + (b + c);
  }

  /** A body written and read back into a record whose length covers it gives the same record. */
  lemma ReadWriteVendor(v: VendorStatistics, data: seq<byte>, pos: nat)
    requires v.body.Some? && v.length == VendorMinimumLength + |v.body.value|
    requires pos + |WriteVendor(v)| <= |data| && data[pos..pos + |WriteVendor(v)|] == WriteVendor(v)
    ensures ReadVendor(NewVendorStatistics.(length := v.length), data, pos) == Success(Read(v, pos + |WriteVendor(v)|))
  {
    Pow256Widths();
    var e := pos + |WriteVendor(v)|;
    var rest := Put(v.expType, 4) + v.body.value;
    SplitAt(data, pos, pos + 4, e, Put(v.vendor, 4), rest);
    SplitAt(data, pos + 4, pos + 8, e, Put(v.expType, 4), v.body.value);
    ReadPutAt(data, pos, v.vendor, 4);
    ReadPutAt(data, pos + 4, v.expType, 4);
  }

  /** Two vendor records are equal when vendor id and experimenter type agree; body and length are ignored. */
  function SameVendor(a: VendorStatistics, b: VendorStatistics): (r: bool)
    ensures a.(body := b.body, length := b.length) == b ==> r
  {
    a.vendor == b.vendor && a.expType == b.expType
  }

  /** Two vendor records are equal exactly when the first 8 bytes their writeTo puts out agree. */
  lemma SameVendorWritten(a: VendorStatistics, b: VendorStatistics)
    ensures SameVendor(a, b) <==> WriteVendor(a)[..8] == WriteVendor(b)[..8]
  {
    Pow256Widths();
    var wa, wb := WriteVendor(a), WriteVendor(b);
    assert wa[..8] == Put(a.vendor, 4) + Put(a.expType, 4);
    assert wb[..8] == Put(b.vendor, 4) + Put(b.expType, 4);
    if wa[..8] == wb[..8] {
      assert Put(a.vendor, 4) == wa[..8][..4] == wb[..8][..4] == Put(b.vendor, 4);
      assert Put(a.expType, 4) == wa[..8][4..] == wb[..8][4..] == Put(b.expType, 4);
      PutReads(a.vendor, 4);
      PutReads(b.vendor, 4);
      PutReads(a.expType, 4);
      PutReads(b.expType, 4);
    }
  }

  /** The size of one bucket counter: a packet count and a byte count of eight bytes each. */
  const CounterLength := 16

  /** MINIMUM_LENGTH of a group statistics reply, which includes two 4-byte duration fields. */
  const GroupMinimumLength := 40

  datatype BucketCounter = BucketCounter(packetCount: u64, byteCount: u64)

  function WriteCounter(c: BucketCounter): (s: seq<byte>)
    ensures |s| == CounterLength
  {
    Put(c.packetCount, 8) + Put(c.byteCount, 8)
  }

  /** counter.readFrom: two longs, as unsigned bits. */
  function ReadCounter(data: seq<byte>, pos: nat): (r: Result<Read<BucketCounter>, Exception>)
    ensures r.Success? <==> pos + CounterLength <= |data|
    ensures r.Failure? ==> r.error == BufferUnderflow
    ensures r.Success? ==> r.value.next == pos + CounterLength && data[pos..r.value.next] == WriteCounter(r.value.value)
  {
    Pow256Widths();
    var p :- ReadUnsigned(data, pos, 8);
    var b :- ReadUnsigned(data, pos + 8, 8);
    PutValueAt(data, pos, 8);
    PutValueAt(data, pos + 8, 8);
    assert data[pos..pos + 16] == data[pos..pos + 8] + data[pos + 8..pos + 16];
    Success(Read(BucketCounter(p, b), pos + 16))
  }

  lemma ReadWriteCounter(c: BucketCounter, data: seq<byte>, pos: nat)
    requires pos + CounterLength <= |data| && data[pos..pos + CounterLength] == WriteCounter(c)
    ensures ReadCounter(data, pos) == Success(Read(c, pos + CounterLength))
  {
    Pow256Widths();
    SplitAt(data, pos, pos + 8, pos + 16, Put(c.packetCount, 8), Put(c.byteCount, 8));
    ReadPutAt(data, pos, c.packetCount, 8);
    ReadPutAt(data, pos + 8, c.byteCount, 8);
  }

  /** Every counter in order. */
  function WriteCounters(cs: seq<BucketCounter>): (s: seq<byte>)
    ensures |s| == CounterLength * |cs|
  {
    if |cs| == 0 then [] else WriteCounter(cs[0]) + WriteCounters(cs[1..])
  }

  /** n counters read one after another from pos. */
  function ReadCounters(data: seq<byte>, pos: nat, n: nat): (r: Result<Read<seq<BucketCounter>>, Exception>)
    requires pos <= |data|
    ensures r.Success? <==> pos + CounterLength * n <= |data|
    ensures r.Failure? ==> r.error == BufferUnderflow
    ensures r.Success? ==> |r.value.value| == n && r.value.next == pos + CounterLength * n
    ensures r.Success? ==> data[pos..r.value.next] == WriteCounters(r.value.value)
    decreases n
  {
    if n == 0 then Success(Read([], pos))
    else if pos + CounterLength * n > |data| then
      Failure(BufferUnderflow)
    else
      var c := ReadCounter(data, pos).value;
      assert c.next + CounterLength * (n - 1) == pos + CounterLength * n;
      var rest := ReadCounters(data, c.next, n - 1).value;
      ReadCountersJoin(data, pos, c, rest);
      Success(Read([c.value] + rest.value, rest.next))
  }

  lemma ReadCountersJoin(data: seq<byte>, pos: nat, c: Read<BucketCounter>, rest: Read<seq<BucketCounter>>)
    requires pos <= c.next <= rest.next <= |data|
    requires data[pos..c.next] == WriteCounter(c.value) && data[c.next..rest.next] == WriteCounters(rest.value)
    ensures data[pos..rest.next] == WriteCounters([c.value] + rest.value)
  {
    var cs := [c.value] + rest.value;
    assert cs[1..] == rest.value;
    assert data[pos..rest.next] == data[pos..c.next] + data[c.next..rest.next];
  }

  lemma {:induction false} ReadWriteCounters(cs: seq<BucketCounter>, data: seq<byte>, pos: nat, e: nat)
    requires e == pos + CounterLength * |cs| && e <= |data| && data[pos..e] == WriteCounters(cs)
    ensures ReadCounters(data, pos, |cs|) == Success(Read(cs, e))
    decreases |cs|
  {
    if |cs| > 0 {
      var q := pos + CounterLength;
      assert e == q + CounterLength * |cs[1..]|;
      SplitAt(data, pos, q, e, WriteCounter(cs[0]), WriteCounters(cs[1..]));
      ReadWriteCounter(cs[0], data, pos);
      ReadWriteCounters(cs[1..], data, q, e);
      assert [cs[0]] + cs[1..] == cs;
    }
  }

  /**
   * OFGroupStatisticsReply: the length is the Java short as stored, and the
   * counter list may be null (None).
   */
  datatype GroupStats = GroupStats(
    length: i16, groupId: u32, refCount: u32, packetCount: u64, byteCount: u64,
    durationSeconds: u32, durationNanoseconds: u32, buckets: Option<seq<BucketCounter>>)

  /** The constructor: length 40 and an empty counter list. */
  const NewGroupStats := GroupStats(GroupMinimumLength, 0, 0, 0, 0, 0, 0, Some([]))

  /** getLength: the stored short read as unsigned. */
  function GroupLength(g: GroupStats): u16
  {
    U16Of(g.length)
  }

  function CountersOf(g: GroupStats): seq<BucketCounter>
  {
    if g.buckets.Some? then g.buckets.value else []
  }

  /** updateLength: 40 plus 16 per counter (none for a null list), cut to a short; nothing else changes. */
  function UpdateLength(g: GroupStats): (r: GroupStats)
    ensures r == g.(length := r.length)
    ensures GroupLength(r) == (GroupMinimumLength + CounterLength * |CountersOf(g)|) % 0x1_0000
  {
    g.(length := ToI16(GroupMinimumLength + CounterLength * |CountersOf(g)|))
  }

  /** setBandStatistics: replaces the list and always recomputes the length. */
  function SetBucketStatistics(g: GroupStats, bs: Option<seq<BucketCounter>>): (r: GroupStats)
    ensures r == g.(buckets := bs, length := r.length)
    ensures GroupLength(r) == (GroupMinimumLength + CounterLength * (if bs.Some? then |bs.value| else 0)) % 0x1_0000
  {
    UpdateLength(g.(buckets := bs))
  }

  /**
   * Two replies are equal when everything but the durations agrees, so
   * equal replies write the same bytes in the layout as written.
   */
  function SameGroupStats(a: GroupStats, b: GroupStats): (r: bool)
    ensures a.(durationSeconds := b.durationSeconds, durationNanoseconds := b.durationNanoseconds) == b ==> r
    ensures r ==> WriteGroupStats(AsWritten, a) == WriteGroupStats(AsWritten, b)
  {
    a.(durationSeconds := 0, durationNanoseconds := 0) == b.(durationSeconds := 0, durationNanoseconds := 0)
  }

  /**
   * How many times readFrom's counter loop runs: i starts at 0 and steps by
   * 16 while i < length - 40, on the signed length.
   */
  function BucketCount(length: int): (n: nat)
    ensures length - GroupMinimumLength <= 0 ==> n == 0
    ensures length - GroupMinimumLength > 0 ==>
      CounterLength * (n - 1) < length - GroupMinimumLength <= CounterLength * n
  {
    if length - GroupMinimumLength <= 0 then 0
    else (length - GroupMinimumLength + CounterLength - 1) / CounterLength
  }

  /**
   * The fixed part of the record on the wire. The code as written has no
   * duration fields; the layout with durations puts them after the byte
   * count, which is what the 40-byte MINIMUM_LENGTH counts.
   */
  datatype Layout = AsWritten | WithDurations

  function FixedLength(l: Layout): nat
  {
    if l.AsWritten? then 32 else 40
  }

  function WriteDurations(l: Layout, g: GroupStats): (s: seq<byte>)
    ensures |s| == FixedLength(l) - 32
  {
    if l.AsWritten? then [] else Put(g.durationSeconds, 4) + Put(g.durationNanoseconds, 4)
  }

  /** The fixed part: group id, length, six zero bytes, ref count, packet and byte counts, then any durations. */
  function WriteFixed(l: Layout, g: GroupStats): (s: seq<byte>)
    ensures |s| == FixedLength(l)
  {
    Put(g.groupId, 4) + (Put(g.length, 2) + (Zeros(6) + (Put(g.refCount, 4) + (Put(g.packetCount, 8) +
      (Put(g.byteCount, 8) + WriteDurations(l, g))))))
  }

  /** writeTo: the fixed part, then every counter; a null list writes none. */
  function WriteGroupStats(l: Layout, g: GroupStats): (s: seq<byte>)
    ensures |s| == FixedLength(l) + CounterLength * |CountersOf(g)|
  {
    WriteFixed(l, g) + WriteCounters(CountersOf(g))
  }

  /**
   * The fixed part of readFrom into g: the fields in write order, the pad
   * skipped unread; the counter list, and in the code as written the
   * durations, keep whatever g holds.
   */
  function ReadFixed(l: Layout, g: GroupStats, data: seq<byte>, pos: nat): (r: Result<Read<GroupStats>, Exception>)
    ensures r.Success? <==> pos + FixedLength(l) <= |data|
    ensures r.Failure? ==> r.error == BufferUnderflow
    ensures r.Success? ==> r.value.next == pos + FixedLength(l) && r.value.value.buckets == g.buckets
    ensures r.Success? && l.AsWritten? ==>
      r.value.value.durationSeconds == g.durationSeconds && r.value.value.durationNanoseconds == g.durationNanoseconds
  {
    Pow256Widths();
    var groupId :- ReadUnsigned(data, pos, 4);
    var length :- ReadUnsigned(data, pos + 4, 2);
    var _ :- ReadBytes(data, pos + 6, 6);
    var refCount :- ReadUnsigned(data, pos + 12, 4);
    var packets :- ReadUnsigned(data, pos + 16, 8);
    var bytes :- ReadUnsigned(data, pos + 24, 8);
    var seconds :- if l.AsWritten? then Success(g.durationSeconds) else ReadUnsigned(data, pos + 32, 4);
    var nanos :- if l.AsWritten? then Success(g.durationNanoseconds) else ReadUnsigned(data, pos + 36, 4);
    Success(Read(GroupStats(ToI16(length), groupId, refCount, packets, bytes, seconds, nanos, g.buckets), pos + FixedLength(l)))
  }

  /**
   * readFrom into g: the fixed part, then BucketCount(length) counters
   * appended to the list already there. A null list throws when the first
   * counter read is added to it.
   */
  function ReadGroupStats(l: Layout, g: GroupStats, data: seq<byte>, pos: nat): (r: Result<Read<GroupStats>, Exception>)
    requires pos <= |data|
    ensures r.Success? ==> r.value.next == pos + FixedLength(l) + CounterLength * BucketCount(r.value.value.length) <= |data|
    ensures r.Success? ==> r.value.value.buckets.Some?
    ensures r.Success? ==> |r.value.value.buckets.value| == |CountersOf(g)| + BucketCount(r.value.value.length)
    ensures r.Success? ==> CountersOf(g) <= r.value.value.buckets.value
    ensures r.Success? && l.AsWritten? ==>
      r.value.value.durationSeconds == g.durationSeconds && r.value.value.durationNanoseconds == g.durationNanoseconds
    ensures r.Failure? ==> r.error == BufferUnderflow || (r.error == NullPointer && g.buckets.None?)
  {
    var f :- ReadFixed(l, g, data, pos);
    var n := BucketCount(f.value.length);
    if n > 0 && g.buckets.None? then
      var _ :- ReadCounter(data, f.next);
      Failure(NullPointer)
    else
      var cs :- ReadCounters(data, f.next, n);
      Success(Read(f.value.(buckets := Some(CountersOf(g) + cs.value)), cs.next))
  }

  /** The fields a read of g's written form recovers into h: all but the list, and the durations only when they are on the wire. */
  function Restored(l: Layout, g: GroupStats, h: GroupStats): GroupStats
  {
    if l.AsWritten? then g.(durationSeconds := h.durationSeconds, durationNanoseconds := h.durationNanoseconds, buckets := h.buckets)
    else g.(buckets := h.buckets)
  }

  lemma ReadWriteFixed(l: Layout, g: GroupStats, h: GroupStats, data: seq<byte>, pos: nat)
    requires pos + FixedLength(l) <= |data| && data[pos..pos + FixedLength(l)] == WriteFixed(l, g)
    ensures ReadFixed(l, h, data, pos) == Success(Read(Restored(l, g, h), pos + FixedLength(l)))
  {
    Pow256Widths();
    var e := pos + FixedLength(l);
    var t6 := WriteDurations(l, g);
    var t5 := Put(g.byteCount, 8) + t6;
    var t4 := Put(g.packetCount, 8) + t5;
    var t3 := Put(g.refCount, 4) + t4;
    var t2 := Zeros(6) + t3;
    var t1 := Put(g.length, 2) + t2;
    SplitAt(data, pos, pos + 4, e, Put(g.groupId, 4), t1);
    SplitAt(data, pos + 4, pos + 6, e, Put(g.length, 2), t2);
    SplitAt(data, pos + 6, pos + 12, e, Zeros(6), t3);
    SplitAt(data, pos + 12, pos + 16, e, Put(g.refCount, 4), t4);
    SplitAt(data, pos + 16, pos + 24, e, Put(g.packetCount, 8), t5);
    SplitAt(data, pos + 24, pos + 32, e, Put(g.byteCount, 8), t6);
    ReadPutAt(data, pos, g.groupId, 4);
    ReadPutShort(data, pos + 4, g.length);
    ReadPutAt(data, pos + 12, g.refCount, 4);
    ReadPutAt(data, pos + 16, g.packetCount, 8);
    ReadPutAt(data, pos + 24, g.byteCount, 8);
    if l.WithDurations? {
      SplitAt(data, pos + 32, pos + 36, e, Put(g.durationSeconds, 4), Put(g.durationNanoseconds, 4));
      ReadPutAt(data, pos + 32, g.durationSeconds, 4);
      ReadPutAt(data, pos + 36, g.durationNanoseconds, 4);
    }
  }

  /** After updateLength, and when it does not wrap, the loop in readFrom reads back exactly the counters there are. */
  lemma UpdatedCountsItsCounters(g: GroupStats)
    requires GroupMinimumLength + CounterLength * |CountersOf(g)| < 0x8000
    ensures UpdateLength(g).length == GroupMinimumLength + CounterLength * |CountersOf(g)|
    ensures BucketCount(UpdateLength(g).length) == |CountersOf(g)|
  {
    var n := |CountersOf(g)|;
    DivModAdd(n, CounterLength - 1, CounterLength);
  }

  /** What a new reply holds after reading g's written form: g itself, less the durations where they are not on the wire. */
  function Reread(l: Layout, g: GroupStats): GroupStats
  {
    if l.AsWritten? then g.(durationSeconds := 0, durationNanoseconds := 0) else g
  }

  /**
   * Written and read back into a new reply, a reply whose length counts its
   * counters comes back with the same fields and counters; the code as
   * written loses the durations, which the new reply holds as 0.
   */
  lemma ReadWriteGroupStats(l: Layout, g: GroupStats, data: seq<byte>, pos: nat, e: nat)
    requires g.buckets.Some? && BucketCount(g.length) == |g.buckets.value|
    requires e == pos + |WriteGroupStats(l, g)| <= |data| && data[pos..e] == WriteGroupStats(l, g)
    ensures ReadGroupStats(l, NewGroupStats, data, pos) == Success(Read(Reread(l, g), e))
    ensures SameGroupStats(ReadGroupStats(l, NewGroupStats, data, pos).value.value, g)
  {
    WrittenParts(l, g, data, pos, e);
    ReadWrittenParts(l, g, data, pos, pos + FixedLength(l), e);
  }

  /** The round trip on the two parts of the written form, found between pos, q and e. */
  lemma ReadWrittenParts(l: Layout, g: GroupStats, data: seq<byte>, pos: nat, q: nat, e: nat)
    requires g.buckets.Some? && BucketCount(g.length) == |g.buckets.value|
    requires q == pos + FixedLength(l) && e == q + CounterLength * |g.buckets.value| <= |data|
    requires data[pos..q] == WriteFixed(l, g) && data[q..e] == WriteCounters(g.buckets.value)
    ensures ReadGroupStats(l, NewGroupStats, data, pos) == Success(Read(Reread(l, g), e))
    ensures SameGroupStats(ReadGroupStats(l, NewGroupStats, data, pos).value.value, g)
  {
    ReadWriteParts(l, g, data, pos, q, e);
    ReadOfParts(l, g, data, pos, e);
  }

  /** readFrom into a new reply, given that its two parts read back g's fields and counters. */
  lemma ReadOfParts(l: Layout, g: GroupStats, data: seq<byte>, pos: nat, e: nat)
    requires g.buckets.Some? && pos + FixedLength(l) <= |data|
    requires ReadFixed(l, NewGroupStats, data, pos) == Success(Read(Restored(l, g, NewGroupStats), pos + FixedLength(l)))
    requires ReadCounters(data, pos + FixedLength(l), BucketCount(g.length)) == Success(Read(g.buckets.value, e))
    ensures ReadGroupStats(l, NewGroupStats, data, pos) == Success(Read(Reread(l, g), e))
    ensures SameGroupStats(Reread(l, g), g)
  {
    var f := Restored(l, g, NewGroupStats);
    assert f.length == g.length;
    ReadGroupStatsOfParts(l, data, pos, f, Read(g.buckets.value, e));
    RereadOfRestored(l, g, f);
  }

  /** The restored fields with the list put back are what Reread says, and equal to g but for the durations. */
  lemma RereadOfRestored(l: Layout, g: GroupStats, f: GroupStats)
    requires g.buckets.Some? && f == Restored(l, g, NewGroupStats)
    ensures f.(buckets := Some([] + g.buckets.value)) == Reread(l, g)
    ensures SameGroupStats(Reread(l, g), g)
  {
    assert [] + g.buckets.value == g.buckets.value;
  }

  /** The written form splits into the fixed part and the counters. */
  lemma WrittenParts(l: Layout, g: GroupStats, data: seq<byte>, pos: nat, e: nat)
    requires g.buckets.Some?
    requires e == pos + |WriteGroupStats(l, g)| <= |data| && data[pos..e] == WriteGroupStats(l, g)
    ensures e == pos + FixedLength(l) + CounterLength * |g.buckets.value|
    ensures data[pos..pos + FixedLength(l)] == WriteFixed(l, g) && data[pos + FixedLength(l)..e] == WriteCounters(g.buckets.value)
  {
    SplitAt(data, pos, pos + FixedLength(l), e, WriteFixed(l, g), WriteCounters(g.buckets.value));
  }

  /** Each part read back from where it was written. */
  lemma ReadWriteParts(l: Layout, g: GroupStats, data: seq<byte>, pos: nat, q: nat, e: nat)
    requires g.buckets.Some? && BucketCount(g.length) == |g.buckets.value|
    requires q == pos + FixedLength(l) && e == q + CounterLength * |g.buckets.value| <= |data|
    requires data[pos..q] == WriteFixed(l, g) && data[q..e] == WriteCounters(g.buckets.value)
    ensures ReadFixed(l, NewGroupStats, data, pos) == Success(Read(Restored(l, g, NewGroupStats), q))
    ensures ReadCounters(data, q, BucketCount(g.length)) == Success(Read(g.buckets.value, e))
  {
    ReadWriteFixed(l, g, NewGroupStats, data, pos);
    ReadWriteCounters(g.buckets.value, data, q, e);
  }

  /** readFrom into a new reply, given what its two parts read. */
  lemma ReadGroupStatsOfParts(l: Layout, data: seq<byte>, pos: nat, f: GroupStats, cs: Read<seq<BucketCounter>>)
    requires pos + FixedLength(l) <= |data|
    requires ReadFixed(l, NewGroupStats, data, pos) == Success(Read(f, pos + FixedLength(l)))
    requires ReadCounters(data, pos + FixedLength(l), BucketCount(f.length)) == Success(cs)
    ensures ReadGroupStats(l, NewGroupStats, data, pos) == Success(Read(f.(buckets := Some([] + cs.value)), cs.next))
  {
  }

  /**
   * As written, a reply whose length counts its counters writes 8 bytes
   * fewer than getLength reports: MINIMUM_LENGTH counts the durations, which
   * readFrom and writeTo leave out.
   */
  lemma WrittenShortOfLength(g: GroupStats)
    requires g.length == GroupMinimumLength + CounterLength * |CountersOf(g)|
    ensures |WriteGroupStats(AsWritten, g)| == GroupLength(g) - 8
  {
    ModOfSmall(g.length, 0x1_0000);
  }

  /** A new reply reports length 40 but writes 32 bytes. */
  lemma NewGroupStatsShort()
    ensures GroupLength(NewGroupStats) == 40 && |WriteGroupStats(AsWritten, NewGroupStats)| == 32
  {
  }

  /** With the durations on the wire, the written size is the length the reply reports. */
  lemma WrittenMatchesLength(g: GroupStats)
    requires g.length == GroupMinimumLength + CounterLength * |CountersOf(g)|
    ensures |WriteGroupStats(WithDurations, g)| == GroupLength(g)
  {
    ModOfSmall(g.length, 0x1_0000);
  }
}

=== FILE: table_features.dfy ===
/**
 * The two table-features properties that carry a list of elements: the
 * instructions property (OFTableFeaturesPropertyInstructions) and the
 * actions property (OFTableFeaturesPropertyActions). Both classes are the
 * same code over a different element family, so one model serves both; the
 * family is the parameter the shared factory loop is given.
 *
 * OFTableFeaturesProperty is not part of this model: its header is taken to
 * be the 4 bytes of section A.3.5.5 of the OpenFlow Switch Specification 1.3
 * (a 16-bit type and a 16-bit length), which its readFrom and writeTo read
 * and write and which is its MINIMUM_LENGTH.
 */
module TableFeatures {
  import opened Wrappers
  import opened Bytes
  import Factory

  /** MINIMUM_LENGTH of a table-features property: its type and length. */
  const MinimumLength := 4

  /**
   * A property: its type, its length as the Java short, the element list
   * (null when never set or read) and whether the element factory was set.
   */
  datatype Property = Property(propType: u16, length: i16, items: Option<seq<Factory.Element>>, hasFactory: bool)

  /** getLengthU: the length read as unsigned. */
  function LengthU(p: Property): u16
  {
    U16Of(p.length)
  }

  /**
   * setInstructions / setActions: a list is stored and the length becomes 4
   * plus its elements' lengths, cut to a short; a null list is stored and
   * leaves the length alone.
   */
  function SetItems(p: Property, items: Option<seq<Factory.Element>>): (r: Property)
    ensures r.items == items && r.propType == p.propType && r.hasFactory == p.hasFactory
    ensures items.None? ==> r.length == p.length
    ensures items.Some? ==> LengthU(r) == (MinimumLength + Factory.ElementsLength(items.value)) % 0x1_0000
  {
    if items.None? then p.(items := items)
    else p.(items := items, length := ToI16(MinimumLength + Factory.ElementsLength(items.value)))
  }

  /** The pad both methods compute from the signed short length; it is never negative. */
  function Pad(p: Property): (n: nat)
    ensures p.length >= 0 ==> n == RoundUp8(p.length) - p.length && n < 8
  {
    JavaPad8Bounds(p.length);
    var n := JavaPad8(p.length);
    assert n >= 0 by {
      if p.length < -7 {
        assert JavaDiv(p.length + 7, 8) == -((-(p.length + 7)) / 8);
      }
    }
    n
  }

  /**
   * writeTo: the header, every element as its own writeTo writes it, then
   * the pad in zero bytes. Each element's writeTo is given, since the action
   * and instruction classes it dispatches to are not part of this model.
   */
  function WriteProperty(p: Property, write: Factory.Element -> seq<byte>): (s: seq<byte>)
    ensures |s| == MinimumLength + |Factory.WriteElements(if p.items.Some? then p.items.value else [], write)| + Pad(p)
    ensures s[..2] == Put(p.propType, 2) && s[2..4] == Put(p.length, 2)
    ensures forall i :: |s| - Pad(p) <= i < |s| ==> s[i] == 0
  {
    var body := Factory.WriteElements(if p.items.Some? then p.items.value else [], write);
    Put(p.propType, 2) + Put(p.length, 2) + body + Zeros(Pad(p))
  }

  /**
   * readFrom into p: the header; with no factory set, an exception; then the
   * elements over the length minus 4 bytes with no limit, and a skip of the
   * pad. When an element's declared length does not move the cursor the
   * loop never returns, which the model reports as LoopSpins.
   */
  function ReadProperty(p: Property, f: Factory.Family, data: seq<byte>, pos: nat): (r: Result<Read<Property>, Exception>)
    requires f.Elements? && Factory.ValidFamily(f)
    ensures pos + MinimumLength <= |data| && !p.hasFactory ==> r == Failure(FactoryNotSet)
    ensures pos + MinimumLength > |data| ==> r == Failure(BufferUnderflow)
    ensures r.Success? ==> p.hasFactory && r.value.value.hasFactory && r.value.value.items.Some?
    ensures r.Success? ==> r.value.value.propType == ValueAt(data, pos, 2) && LengthU(r.value.value) == ValueAt(data, pos + 2, 2)
    ensures r.Success? ==> r.value.next <= |data|
    ensures r.Failure? ==>
      r.error == BufferUnderflow || r.error == FactoryNotSet || r.error == NullPointer || r.error == IllegalPosition || r.error == LoopSpins
  {
    Pow256Widths();
    var propType :- ReadUnsigned(data, pos, 2);
    var length :- ReadUnsigned(data, pos + 2, 2);
    if !p.hasFactory then Failure(FactoryNotSet)
    else
      var items :- Factory.ParseElements(f, data, pos + MinimumLength, length - MinimumLength, 0);
      var q := Property(propType, ToI16(length), Some(items.value), true);
      SignedUnsigned16(length);
      var next :- Seek(data, items.next + Pad(q));
      Success(Read(q, next))
  }

  /** Every element readFrom keeps ends within the property's own length. */
  lemma ReadPropertyWithin(p: Property, f: Factory.Family, data: seq<byte>, pos: nat)
    requires f.Elements? && Factory.ValidFamily(f)
    ensures var r := ReadProperty(p, f, data, pos);
      r.Success? ==> forall e :: e in r.value.value.items.value ==> e.start + e.header.length <= pos + LengthU(r.value.value)
  {
    var r := ReadProperty(p, f, data, pos);
    if r.Success? {
      var length := ValueAt(data, pos + 2, 2);
      Factory.ParseElementsShape(f, data, pos + MinimumLength, length - MinimumLength, 0);
    }
  }

  /**
   * After setInstructions / setActions with elements that each write their
   * declared length, writeTo writes the length rounded up to a multiple of
   * 8, as long as the length fits a non-negative short.
   */
  lemma WrittenIsPadded(p: Property, es: seq<Factory.Element>, write: Factory.Element -> seq<byte>)
    requires forall i :: 0 <= i < |es| ==> |write(es[i])| == es[i].header.length
    requires MinimumLength + Factory.ElementsLength(es) < 0x8000
    ensures var q := SetItems(p, Some(es));
      |WriteProperty(q, write)| == RoundUp8(LengthU(q)) && |WriteProperty(q, write)| % 8 == 0
  {
    var q := SetItems(p, Some(es));
    Factory.WriteElementsLength(es, write);
    ModOfSmall(MinimumLength + Factory.ElementsLength(es), 0x1_0000);
    RoundUp8Bounds(q.length);
  }

  /**
   * readFrom keeps the elements the loop read and then skips
   * roundup8(length) - length bytes past where the loop stopped; when the
   * elements fill the length exactly, it ends on the next multiple of 8.
   */
  lemma ReadSkipsPad(p: Property, f: Factory.Family, data: seq<byte>, pos: nat)
    requires f.Elements? && Factory.ValidFamily(f)
    requires ReadProperty(p, f, data, pos).Success?
    ensures var r := ReadProperty(p, f, data, pos).value;
      var length := LengthU(r.value);
      var items := Factory.ParseElements(f, data, pos + MinimumLength, length - MinimumLength, 0);
      length < 0x8000 ==>
        items.Success? && r.value.items == Some(items.value.value) &&
        r.next == items.value.next + (RoundUp8(length) - length) &&
        (items.value.next == pos + length ==> r.next == pos + RoundUp8(length))
  {
    var r := ReadProperty(p, f, data, pos).value;
    SignedUnsigned16(LengthU(r.value));
  }

  /** A property whose length is 4 plus its elements' lengths, as setInstructions / setActions leave it when that fits a short. */
  predicate Sized(p: Property)
  {
    p.items.Some? && p.length == MinimumLength + Factory.ElementsLength(p.items.value)
  }

  /** setInstructions / setActions leave a property sized when the total fits a non-negative short. */
  lemma SetItemsSized(p: Property, es: seq<Factory.Element>)
    requires MinimumLength + Factory.ElementsLength(es) < 0x8000
    ensures Sized(SetItems(p, Some(es)))
  {
    ModOfSmall(MinimumLength + Factory.ElementsLength(es), 0x1_0000);
  }

  /**
   * Round trip: a sized property whose elements are framed and written with
   * their own headers, written with writeTo and read by readFrom with a
   * factory set, comes back with the same type and length and the same
   * element headers placed back to back after its header, and the read ends
   * exactly where the written bytes end, pad included.
   */
  lemma ReadConsumesWritten(p: Property, write: Factory.Element -> seq<byte>,
                            target: Property, f: Factory.Family, data: seq<byte>, pos: nat, end: nat)
    requires Sized(p) && f.Elements? && Factory.ValidFamily(f) && Factory.AllWritten(f, p.items.value, write)
    requires end == pos + |WriteProperty(p, write)| <= |data| && data[pos..end] == WriteProperty(p, write)
    requires target.hasFactory
    ensures ReadProperty(target, f, data, pos) ==
      Success(Read(p.(items := Some(Factory.Placed(f, p.items.value, pos + MinimumLength)), hasFactory := true), end))
  {
    WrittenParts(p, write, f, data, pos, end);
    ReadBack(target, f, data, pos, p, end);
  }

  /** What readFrom reads of a written sized property: its header, and its elements placed back over its length. */
  lemma WrittenParts(p: Property, write: Factory.Element -> seq<byte>, f: Factory.Family, data: seq<byte>, pos: nat, end: nat)
    requires Sized(p) && f.Elements? && Factory.ValidFamily(f) && Factory.AllWritten(f, p.items.value, write)
    requires end == pos + |WriteProperty(p, write)| <= |data| && data[pos..end] == WriteProperty(p, write)
    ensures p.length == MinimumLength + Factory.ElementsLength(p.items.value)
    ensures end == pos + MinimumLength + Factory.ElementsLength(p.items.value) + Pad(p)
    ensures ReadUnsigned(data, pos, 2) == Success(p.propType as int)
    ensures ReadUnsigned(data, pos + 2, 2) == Success(LengthU(p) as int)
    ensures Factory.ParseElements(f, data, pos + MinimumLength, Factory.ElementsLength(p.items.value), 0) ==
      Success(Read(Factory.Placed(f, p.items.value, pos + MinimumLength), pos + MinimumLength + Factory.ElementsLength(p.items.value)))
  {
    var es := p.items.value;
    var il := Factory.ElementsLength(es);
    var q := pos + MinimumLength;
    WrittenBody(p, write, f, data, pos, end);
    HeaderOfWritten(p, write, data, pos);
    Factory.ParseElementsWritten(f, es, write, data, q, il);
  }

  /** readFrom over a header read as p's, and elements that fill p's length: p with those elements, past the pad. */
  lemma ReadBack(target: Property, f: Factory.Family, data: seq<byte>, pos: nat, p: Property, end: nat)
    requires f.Elements? && Factory.ValidFamily(f) && target.hasFactory && p.items.Some? && end <= |data|
    requires p.length == MinimumLength + Factory.ElementsLength(p.items.value)
    requires end == pos + MinimumLength + Factory.ElementsLength(p.items.value) + Pad(p)
    requires ReadUnsigned(data, pos, 2) == Success(p.propType as int)
    requires ReadUnsigned(data, pos + 2, 2) == Success(LengthU(p) as int)
    requires Factory.ParseElements(f, data, pos + MinimumLength, Factory.ElementsLength(p.items.value), 0) ==
      Success(Read(Factory.Placed(f, p.items.value, pos + MinimumLength), pos + MinimumLength + Factory.ElementsLength(p.items.value)))
    ensures ReadProperty(target, f, data, pos) ==
      Success(Read(p.(items := Some(Factory.Placed(f, p.items.value, pos + MinimumLength)), hasFactory := true), end))
  {
    var got := Factory.Placed(f, p.items.value, pos + MinimumLength);
    var il := Factory.ElementsLength(p.items.value);
    var bodyEnd := pos + MinimumLength + il;
    ModOfSmall(p.length, 0x1_0000);
    assert LengthU(p) == p.length;
    assert ToI16(LengthU(p)) == p.length;
    var back := p.(items := Some(got), hasFactory := true);
    assert back == Property(p.propType, ToI16(LengthU(p)), Some(got), true);
    assert Pad(back) == Pad(p);
    ReadOfParts(target, f, data, pos, p.propType, LengthU(p), il, got, bodyEnd, back, end);
  }

  /** The written bytes of a sized property: its header, its elements back to back, then the pad. */
  lemma WrittenBody(p: Property, write: Factory.Element -> seq<byte>, f: Factory.Family, data: seq<byte>, pos: nat, end: nat)
    requires Sized(p) && Factory.AllWritten(f, p.items.value, write)
    requires end == pos + |WriteProperty(p, write)| <= |data| && data[pos..end] == WriteProperty(p, write)
    ensures end == pos + MinimumLength + Factory.ElementsLength(p.items.value) + Pad(p)
    ensures data[pos + MinimumLength..pos + MinimumLength + Factory.ElementsLength(p.items.value)] ==
      Factory.WriteElements(p.items.value, write)
  {
    var es := p.items.value;
    var il := Factory.ElementsLength(es);
    var q := pos + MinimumLength;
    var w := WriteProperty(p, write);
    var body := Factory.WriteElements(es, write);
    assert forall i :: 0 <= i < |es| ==> |write(es[i])| == es[i].header.length by {
      forall i | 0 <= i < |es| ensures |write(es[i])| == es[i].header.length {
        assert Factory.WritesHeader(es[i].header, write(es[i]));
      }
    }
    Factory.WriteElementsLength(es, write);
    assert w == (Put(p.propType, 2) + Put(p.length, 2)) + body + Zeros(Pad(p));
    SplitAt(data, pos, q, end, Put(p.propType, 2) + Put(p.length, 2), body + Zeros(Pad(p)));
    SplitAt(data, q, q + il, end, body, Zeros(Pad(p)));
  }

  /** The header of the written bytes reads back as the property's type and unsigned length. */
  lemma HeaderOfWritten(p: Property, write: Factory.Element -> seq<byte>, data: seq<byte>, pos: nat)
    requires pos + |WriteProperty(p, write)| <= |data| && data[pos..pos + |WriteProperty(p, write)|] == WriteProperty(p, write)
    ensures ReadUnsigned(data, pos, 2) == Success(p.propType as int)
    ensures ReadUnsigned(data, pos + 2, 2) == Success(LengthU(p) as int)
  {
    Pow256Widths();
    var w := WriteProperty(p, write);
    SplitAt(data, pos, pos + 2, pos + |w|, w[..2], w[2..]);
    SplitAt(data, pos + 2, pos + 4, pos + |w|, w[2..4], w[4..]);
    ReadPutAt(data, pos, p.propType, 2);
    PutReads(p.length, 2);
  }

  /** readFrom, given what its header reads and what the loop returns. */
  lemma ReadOfParts(p: Property, f: Factory.Family, data: seq<byte>, pos: nat, propType: u16, length: u16, bodyLength: int,
                    got: seq<Factory.Element>, bodyEnd: nat, back: Property, end: nat)
    requires f.Elements? && Factory.ValidFamily(f)
    requires p.hasFactory
    requires ReadUnsigned(data, pos, 2) == Success(propType as int) && ReadUnsigned(data, pos + 2, 2) == Success(length as int)
    requires bodyLength == length - MinimumLength
    requires Factory.ParseElements(f, data, pos + MinimumLength, bodyLength, 0) == Success(Read(got, bodyEnd))
    requires back == Property(propType, ToI16(length), Some(got), true)
    requires end == bodyEnd + Pad(back) <= |data|
    ensures ReadProperty(p, f, data, pos) == Success(Read(back, end))
  {
  }
}

=== FILE: wrappers.dfy ===
/** Failure-compatible Option and Result types used throughout the model. */
module Wrappers {

  /** Stands in for a Java reference that may be null. */
  datatype Option<+T> = None | Some(value: T)

  /** A freshly allocated array of n references: every slot null. */
  function Nones<T>(n: nat): (s: seq<Option<T>>)
    ensures |s| == n && forall i :: 0 <= i < n ==> s[i] == None
  {
    if n == 0 then [] else Nones(n - 1) + [None]
  }

  /** The outcome of an operation that may throw: a value, or the exception raised. */
  datatype Result<+T, +E> = Success(value: T) | Failure(error: E) {

    predicate IsFailure() {
      Failure?
    }

    function PropagateFailure<U>(): Result<U, E>
      requires Failure?
    {
      Failure(error)
    }

    function Extract(): T
      requires Success?
    {
      value
    }
  }
}

=== FILE: write_metadata.dfy ===
/**
 * The write-metadata instruction (OFInstructionWriteMetaData): the 4-byte
 * instruction header of section A.2.4 of the OpenFlow Switch Specification
 * 1.3 (a 16-bit type and a 16-bit length), 4 pad bytes, the 64-bit
 * metadata and the 64-bit metadata mask, 24 bytes in all.
 *
 * OFInstruction is not part of this model: its readFrom and writeTo are
 * taken to read and write that 4-byte header, the type as its raw code, and
 * its equals to compare type and length.
 */
module WriteMetadata {
  import opened Wrappers
  import opened Bytes

  /** MINIMUM_LENGTH: the instruction's fixed size. */
  const MinimumLength := 24

  /** OFPIT_WRITE_METADATA, the code of OFInstructionType.WRITE_METADATA. */
  const WriteMetadataCode: u16 := 2

  /** An instruction: type code, length as the Java short, and the two longs as their 64 bits. */
  datatype Instruction = Instruction(instrType: u16, length: i16, metadata: u64, mask: u64)

  /** Both constructors: type WRITE_METADATA and length 24; the default one leaves both longs 0. */
  function NewInstruction(metadata: u64, mask: u64): (i: Instruction)
    ensures i.instrType == WriteMetadataCode && i.length == MinimumLength
    ensures i.metadata == metadata && i.mask == mask
  {
    Instruction(WriteMetadataCode, MinimumLength, metadata, mask)
  }

  /** setMetadata. */
  function SetMetadata(i: Instruction, metadata: u64): (r: Instruction)
    ensures r.metadata == metadata
    ensures r.instrType == i.instrType && r.length == i.length && r.mask == i.mask
  {
    i.(metadata := metadata)
  }

  /** setMetadataMask. */
  function SetMask(i: Instruction, mask: u64): (r: Instruction)
    ensures r.mask == mask
    ensures r.instrType == i.instrType && r.length == i.length && r.metadata == i.metadata
  {
    i.(mask := mask)
  }

  /** equals: the header as the superclass compares it, then metadata and mask; so exactly equal values. */
  function Equal(a: Instruction, b: Instruction): (r: bool)
    ensures r <==> a == b
  {
    a.instrType == b.instrType && a.length == b.length && a.metadata == b.metadata && a.mask == b.mask
  }

  /** writeTo: header, a zero int, metadata, mask. */
  function Encode(i: Instruction): (s: seq<byte>)
    ensures |s| == MinimumLength
    ensures forall k :: 4 <= k < 8 ==> s[k] == 0
  {
    Put(i.instrType, 2) + (Put(i.length, 2) + (Zeros(4) + (Put(i.metadata, 8) + Put(i.mask, 8))))
  }

  /**
   * readFrom: the header, a move of the position past the pad (which fails
   * if the buffer ends first), then the two longs.
   */
  function Decode(data: seq<byte>, pos: nat): (r: Result<Read<Instruction>, Exception>)
    ensures r.Success? <==> pos + MinimumLength <= |data|
    ensures r.Success? ==> r.value.next == pos + MinimumLength
    ensures r.Failure? ==> r.error == if pos + 4 <= |data| < pos + 8 then IllegalPosition else BufferUnderflow
  {
    Pow256Widths();
    var instrType :- ReadUnsigned(data, pos, 2);
    var length :- ReadUnsigned(data, pos + 2, 2);
    var skip :- Seek(data, pos + 8);
    var metadata :- ReadUnsigned(data, skip, 8);
    var mask :- ReadUnsigned(data, skip + 8, 8);
    Success(Read(Instruction(instrType, ToI16(length), metadata, mask), skip + 16))
  }

  /** An instruction's encoding, found at pos, decodes as the instruction, 24 bytes on. */
  lemma DecodeEncode(i: Instruction, data: seq<byte>, pos: nat)
    requires pos + MinimumLength <= |data| && data[pos..pos + MinimumLength] == Encode(i)
    ensures Decode(data, pos) == Success(Read(i, pos + MinimumLength))
  {
    var e := pos + MinimumLength;
    var t3 := Put(i.metadata, 8) + Put(i.mask, 8);
    var t2 := Zeros(4) + t3;
    var t1 := Put(i.length, 2) + t2;
    SplitAt(data, pos, pos + 2, e, Put(i.instrType, 2), t1);
    SplitAt(data, pos + 2, pos + 4, e, Put(i.length, 2), t2);
    SplitAt(data, pos + 4, pos + 8, e, Zeros(4), t3);
    SplitAt(data, pos + 8, pos + 16, e, Put(i.metadata, 8), Put(i.mask, 8));
    Pow256Widths();
    ReadPutAt(data, pos, i.instrType, 2);
    ReadPutShort(data, pos + 2, i.length);
    ReadPutAt(data, pos + 8, i.metadata, 8);
    ReadPutAt(data, pos + 16, i.mask, 8);
  }

  /**
   * The other direction: re-encoding what was decoded gives back the 24
   * bytes read, except the pad, which comes back as zeros.
   */
  lemma EncodeDecode(data: seq<byte>, pos: nat)
    requires pos + MinimumLength <= |data|
    ensures Decode(data, pos).Success?
    ensures var s := Encode(Decode(data, pos).value.value);
      s[..4] == data[pos..pos + 4] && s[8..] == data[pos + 8..pos + MinimumLength]
  {
    DecodeValues(data, pos);
    var i := Decode(data, pos).value.value;
    var s := Encode(i);
    PutValueAt(data, pos, 2);
    PutValueAt(data, pos + 2, 2);
    PutShortUnsigned(ValueAt(data, pos + 2, 2));
    PutValueAt(data, pos + 8, 8);
    PutValueAt(data, pos + 16, 8);
    assert s[..4] == Put(i.instrType, 2) + Put(i.length, 2);
    assert s[8..] == Put(i.metadata, 8) + Put(i.mask, 8);
    Joined(data, pos, pos + 2, pos + 4);
    Joined(data, pos + 8, pos + 16, pos + MinimumLength);
  }

  /** What Decode reads from 24 bytes: the values at offsets 0, 2, 8 and 16. */
  lemma DecodeValues(data: seq<byte>, pos: nat)
    requires pos + MinimumLength <= |data|
    ensures Decode(data, pos) == Success(Read(Instruction(ValueAt(data, pos, 2), ToI16(ValueAt(data, pos + 2, 2)),
                                                          ValueAt(data, pos + 8, 8), ValueAt(data, pos + 16, 8)), pos + MinimumLength))
  {
    Pow256Widths();
  }

  /** setMetadata changes bytes 8 to 16 of the encoding and no other. */
  lemma SetMetadataEncodes(i: Instruction, metadata: u64)
    ensures var s := Encode(SetMetadata(i, metadata));
      s[..8] == Encode(i)[..8] && s[8..16] == Put(metadata, 8) && s[16..] == Encode(i)[16..]
  {
    var s := Encode(SetMetadata(i, metadata));
    assert s == (Put(i.instrType, 2) + Put(i.length, 2) + Zeros(4)) + Put(metadata, 8) + Put(i.mask, 8);
    assert Encode(i) == (Put(i.instrType, 2) + Put(i.length, 2) + Zeros(4)) + Put(i.metadata, 8) + Put(i.mask, 8);
  }

  /** setMetadataMask changes the last 8 bytes of the encoding and no other. */
  lemma SetMaskEncodes(i: Instruction, mask: u64)
    ensures var s := Encode(SetMask(i, mask));
      s[..16] == Encode(i)[..16] && s[16..] == Put(mask, 8)
  {
    var s := Encode(SetMask(i, mask));
    assert s == (Put(i.instrType, 2) + Put(i.length, 2) + Zeros(4) + Put(i.metadata, 8)) + Put(mask, 8);
    assert Encode(i) == (Put(i.instrType, 2) + Put(i.length, 2) + Zeros(4) + Put(i.metadata, 8)) + Put(i.mask, 8);
  }
}
